=== FILE: README.md ===
# Forms prototype: verified model of its core logic

This project models, in Dafny, the parts of the forms prototype that hold logic worth stating
precisely:

- **Design-history statistics** (`analyze-design-history.py`). The regular expressions that pull
  feature names, research rounds, statuses, phases and user needs out of a design-history page;
  the per-feature record; the statistics over all features; and the report's ranking.
  Modules: `DesignPatterns`, `DesignHistory`, `Breakdown`, `DesignStats`.
- **Ordnance Survey grid references** (`coordinate-validation.js`). The `GT_OSGB` formatter and
  parser (`getGridRef`, `parseGridRef`), JavaScript's `parseInt` as the validators use it, and
  the `CoordinateValidator` checks for grid references, easting/northing pairs and national grid
  field numbers. Modules: `GridRef`, `JsParseInt`, `CoordValidator`.
- **The one-time-passcode input** (`govuk-otp-input.js`). The boxes, the hidden field that
  mirrors them, and the handlers for input, keys and paste. Module: `OtpInput`.
- **The form editor's session handlers** (`app/routes/titan-mvp-1.2/routes.js`,
  `app/routes/sections.js`, `routes.js`). These cover:
  - removing, applying and joining conditions;
  - the name taken from an email address, the URL-friendly form name and the status tag colour;
  - saving the page-overview screen;
  - the sections API.

  Modules: `FormSession`, `ConditionEdits`, `ConditionApply`, `JoinConditions`, `Display`,
  `PageOverview`, `Sections`.
- **The compliance checker** (`app/services/ai-compliance-checker.js`). Extraction of the form's
  questions and pages, field-type inference, sample values, the six categories of checks with
  their deductions, the overall score and pass, and the recommendations. Modules:
  `ComplianceContent`, `ComplianceChecks`.

`Common` holds what several modules share: `Option`, substring search, ASCII case mapping,
whitespace classes, stripping, decimal printing, joining, splitting and filtering.

Everything is modelled as immutable values and pure functions. The session is a value that a
handler maps to a new value. The file system, the clock that makes section ids, and the
geodetic test for "in Great Britain" are parameters.

## Model

| member | source | states |
|---|---|---|
| DesignPatterns.QuotedAt | analyze-design-history.py:30 | `"([^"]+)"` at a position: the group is the text between two quotes. It holds no quote and is non-empty unless the pattern allows an empty value. |
| DesignPatterns.FirstCloser | analyze-design-history.py:15-17 | The lazy `(.*?)` of a declaration stops at the first closing delimiter at or after the value start. No closer starts before it, and when there is none, no closer starts anywhere after. |
| DesignPatterns.AssignAt | analyze-design-history.py:77-87 | `KEY\s*=\s*"..."`: the group holds no quote, and is non-empty for `status` and `phase`. |
| DesignPatterns.FindAllEmptyIff | analyze-design-history.py:20-22 | `re.findall` returns an empty list exactly when the pattern matches at no position. |
| DesignPatterns.FindAllSound | analyze-design-history.py:20 | Every group `re.findall` returns is the group of a match at some position at or after the start. |
| DesignPatterns.FindAllIsRepeatedSearch | analyze-design-history.py:20 | `findall` is repeated `search`. It is empty exactly when `search` finds nothing. Otherwise it is the leftmost match's group followed by the groups found from that match's end, so matches never overlap. |
| DesignPatterns.SearchLeftmost | analyze-design-history.py:75-88 | `re.search` finds nothing only when nothing matches. Otherwise it returns the match at the leftmost matching position. |
| DesignPatterns.ArrayFormNeedsTightClose | analyze-design-history.py:15 | The array declaration form never matches a text that lacks `]%}`. |
| DesignPatterns.DeclCaptureIsShortest | analyze-design-history.py:15-17 | A declaration's group runs from just after the value start to the first closing delimiter, and contains no closer. |
| DesignPatterns.SkipSpace | analyze-design-history.py:15-17 | `\s*` consumes the whole run of Python white space and stops at the first other character. |
| DesignPatterns.NextQuote | analyze-design-history.py:30 | The first double quote at or after a position, or nothing exactly when there is none. |
| DesignPatterns.DeclAt | analyze-design-history.py:15-17 | A declaration match at a position ends inside the text, after that position. |
| DesignPatterns.SummaryTitleAt | analyze-design-history.py:42 | A summary-title match at a position ends inside the text, after that position. |
| DesignPatterns.SummaryTitleIsRound | analyze-design-history.py:42 | Every summary-title capture starts with "Round " and a digit and holds no double quote, as `Round \d+[^"]*` demands. |
| DesignPatterns.TypeQuotesAt | analyze-design-history.py:57 | A `type: "quotes"` match at a position ends inside the text, after that position. |
| DesignPatterns.AttributionAt | analyze-design-history.py:59 | A quoted-attribution match at a position ends inside the text, after that position. |
| DesignPatterns.MatchAt | analyze-design-history.py:20 | Every pattern's match at a position consumes at least one character and ends inside the text. |
| DesignPatterns.FindAll | analyze-design-history.py:20 | `re.findall` finds at most as many matches as there are characters left. |
| DesignHistory.CountResearchRounds | analyze-design-history.py:25-32 | With no `researchRounds` declaration the count is 0. With one, the count is 0 exactly when the first capture holds no non-empty quoted item. |
| DesignHistory.CountHistoryEntries | analyze-design-history.py:34-38 | The count is 0 exactly when no `roundNumber: "..."` occurs in the page. |
| DesignHistory.ResearchSummaries | analyze-design-history.py:40-43 | The list is empty exactly when no summary title matches. Every element starts with "Round " and a digit and holds no double quote. |
| DesignHistory.SummariesAreRoundTitles | analyze-design-history.py:42 | Every capture the summary search collects, from any starting position, is a round title. |
| DesignHistory.ExtractVariable | analyze-design-history.py:12-23 | `extract_variable` returns nothing exactly when none of the three declaration forms matches. Otherwise it returns every capture of the first form that matches, tried in the order array, quoted-tight, quoted-loose. |
| DesignHistory.ArrayDeclNeedsTightClose | analyze-design-history.py:15 | A page without `]%}` yields no array declaration for any variable name. So `{% set x = [...] %}` written with a space is never read as a list. |
| DesignHistory.QuotedItemsOfList | analyze-design-history.py:30 | Counting the quoted items of a list literal of plain items finds exactly those items, in order. |
| DesignHistory.RoundsDeclarationCapture | analyze-design-history.py:15 | The array form applied to `{% set researchRounds = [...]%}` captures exactly the list literal. |
| DesignHistory.RoundsOfDeclaredList | analyze-design-history.py:25-32 | `count_research_rounds` of a page that declares its rounds as a list of plain items is the number of items. |
| DesignHistory.Iterations | analyze-design-history.py:117 | The iterations count is at least 1 and at least each of the three counts. It equals one of them, or is 1 when all three are 0. |
| DesignHistory.HasAccessibility | analyze-design-history.py:45-52 | `has_accessibility_mentions` holds exactly when some keyword occurs in the lower-cased page. |
| DesignHistory.CapitalKeywordsNeverMatch | analyze-design-history.py:47-52 | Searching the lower-cased page for the full keyword list is the same as searching it for the lower-case keywords only. "WCAG" and "ARIA" can never match. |
| DesignHistory.AriaAloneNotDetected | analyze-design-history.py:49-52 | A page that mentions only "ARIA" is not counted as considering accessibility. |
| DesignHistory.HasQuotes | analyze-design-history.py:54-61 | `has_user_quotes` holds exactly when one of the three patterns matches. The two patterns with letters are searched case-insensitively. |
| DesignHistory.TightFindingsNotDetected | analyze-design-history.py:63-65 | `has_findings` searches literally for the text of a regular expression, so `type:"findings"` is not detected. |
| DesignHistory.SpacedFindingsDetected | analyze-design-history.py:63-65 | `type: "findings"`, with exactly one space, is detected. |
| DesignHistory.ExtractAssigned | analyze-design-history.py:75-83 | `extract_status` and `extract_phase`: nothing exactly when no assignment matches. Otherwise the result is the non-empty, quote-free group of the leftmost match. |
| DesignHistory.ExtractUserNeed | analyze-design-history.py:85-88 | `extract_user_need`: nothing exactly when no assignment matches. Otherwise the result is the stripped group of the leftmost match. |
| DesignHistory.EmptyUserNeedCounts | analyze-design-history.py:85-88 | An empty `userNeed = ""` still counts as a documented user need. |
| DesignHistory.DashesToSpaces | analyze-design-history.py:110 | `replace('-', ' ')` keeps the length and turns exactly the dashes into spaces. |
| DesignHistory.Title | analyze-design-history.py:110 | `str.title` on ASCII text keeps the length and each character up to case. Non-letters are unchanged. A letter at the start or after a non-letter is upper case, and a letter after a letter is lower case. |
| DesignHistory.TitleKeepsLetters | analyze-design-history.py:110 | Title-casing changes only case, and keeps letters as letters. |
| DesignHistory.TitleIdempotent | analyze-design-history.py:110 | Title-casing a title-cased name changes nothing. |
| DesignHistory.FeatureName | analyze-design-history.py:102-110 | When a `featureName` is declared, the name is its first capture with the quote characters (`"` and `'`) stripped from both ends: a slice with only quotes outside it and none at its own ends. Otherwise it is the folder name, dashes read as spaces, title-cased: same length, the same characters up to case, spaces exactly at the dashes and spaces, and a letter upper case exactly when it opens a word. |
| DesignHistory.StripQuotesStrips | analyze-design-history.py:106 | `strip('"\'')` removes exactly the leading and trailing quote characters. |
| DesignHistory.FolderTitleTitles | analyze-design-history.py:110 | `replace('-', ' ').title()` on a folder name gives the title-cased name described above. |
| DesignHistory.DeclaredNameKept | analyze-design-history.py:102-106 | A declared name with no quote at either end comes back unchanged as the feature name. |
| DesignHistory.FolderNameTitled | analyze-design-history.py:110 | A name taken from the folder is already title-cased, and lower-cases to the folder name with dashes as spaces. |
| DesignHistory.AnalyzePage | analyze-design-history.py:112-133 | The feature record obeys the record invariant, including iterations ≥ 1 and ≥ every count. Its path is the page's path. A user need, status or phase is recorded exactly when its assignment matches. |
| DesignHistory.ScanSplitsFeatures | analyze-design-history.py:96-136 | Scanning two batches of pages gives the features of each batch, in order. |
| DesignHistory.ScanSplitsFailures | analyze-design-history.py:134-135 | The reported read failures of two batches are those of each batch, in order. |
| DesignHistory.ScanFeaturesValid | analyze-design-history.py:119-133 | Every feature record the scan produces satisfies the record invariant. |
| DesignHistory.ScanAccountsForEveryPage | analyze-design-history.py:96-98 | Every page below the root yields exactly one feature or one failure. The root page yields neither. |
| Breakdown.Bump | analyze-design-history.py:158-162 | `d[k] += 1` on a `defaultdict(int)`: the count of `k` rises by 1 and no other count changes. The keys become those before plus `k`, the total rises by 1, and the table stays sorted by key. |
| Breakdown.Tally | analyze-design-history.py:157-162 | Counting keys one by one leaves the table sorted by key, as `sorted(d.items())` lists it. |
| Breakdown.TallyCounts | analyze-design-history.py:157-162 | The tally counts each key exactly as often as it occurs, and holds exactly the keys that occur. Its counts add up to the number of keys counted. |
| Breakdown.HasKeyIffCounted | analyze-design-history.py:157-162 | A key is in the breakdown exactly when its count is non-zero. |
| Breakdown.StrLessTotal | analyze-design-history.py:197-200 | Python's string order is total: two different strings are ordered one way or the other. |
| Breakdown.KeyLessStrict | analyze-design-history.py:220 | The order of breakdown keys is irreflexive, total and asymmetric. |
| DesignStats.Statistics | analyze-design-history.py:140-164 | `total_features` is the number of features, and the three breakdowns are sorted by key. |
| DesignStats.IterationTotalBound | analyze-design-history.py:144-145 | The total of iterations is at least the number of features plus the number with multiple iterations. |
| DesignStats.IterationCountsNested | analyze-design-history.py:216-218 | The counts of features with 4+, 3+ and 2+ iterations are nested. |
| DesignStats.IterationDistributionTotal | analyze-design-history.py:162 | The iteration distribution's counts add up to the number of features. The entry for n is the number of features with exactly n iterations. |
| DesignStats.StatusBreakdownTotal | analyze-design-history.py:157-161 | The status and phase breakdowns add up to the number of features that have a status, or a phase, respectively. |
| DesignStats.InsertByIterations | analyze-design-history.py:228 | One insertion step of the sort adds exactly `f` to the list, as a multiset. |
| DesignStats.SortByIterations | analyze-design-history.py:228 | The ranking is a permutation of the features. |
| DesignStats.SortByIterationsSpec | analyze-design-history.py:228 | `sorted(..., key=iterations, reverse=True)` orders by iterations, highest first. It is stable: the features with each iteration count keep the scan's order. |
| DesignStats.MakeReport | analyze-design-history.py:173-229 | The report is the "no features" notice exactly when there are none. Otherwise it carries the statistics and the counts of features with 3+ and 4+ iterations, with 4+ at most 3+. The ranking is the first min(20, n) features of the stable sort by iterations, in descending order. |
| DesignStats.Ranking | analyze-design-history.py:228-229 | The ranking holds min(20, n) features of the input, in descending order of iterations, taken from the front of the stable sort. |
| DesignStats.RankingIsTop | analyze-design-history.py:228-229 | Every feature left out of the top 20 has no more iterations than any feature in it. |
| DesignStats.CountWhere | analyze-design-history.py:145-151 | A count of features meeting a criterion is at most the number of features. |
| DesignStats.TruthyKeys | analyze-design-history.py:158-161 | Only present values become breakdown keys, so there are at most as many keys as features. |
| DesignStats.StatusKeysCount | analyze-design-history.py:158-159 | The status breakdown counts exactly the features that have a status. |
| DesignStats.PhaseKeysCount | analyze-design-history.py:160-161 | The phase breakdown counts exactly the features that have a phase. |
| GridRef.TableShape | app/assets/javascripts/coordinate-validation.js:177-191 | The square table has 13 rows of 7 squares. |
| GridRef.TableFollowsLettering | app/assets/javascripts/coordinate-validation.js:177-191 | Each entry of the table is the national-grid lettering of its own row and column, so each of the 91 entries names exactly one square. |
| GridRef.TableEntriesDistinct | app/assets/javascripts/coordinate-validation.js:177-191 | No two squares of the table share their letters. |
| GridRef.FindSquare | app/assets/javascripts/coordinate-validation.js:89-99 | The labelled `search:` loop finds the first cell, row by row, whose letters equal the sheet. When it finds none, no cell at or after the starting cell holds those letters. |
| GridRef.FindSquareOfEntry | app/assets/javascripts/coordinate-validation.js:89-99 | The search finds a square for every entry's letters, and it is that entry's square. |
| GridRef.ZeroPad | app/assets/javascripts/coordinate-validation.js:31-37 | `_zeropad(num, len)` puts zeros in front until the text is `len` long. The original text ends the result, and a text already long enough is unchanged. |
| GridRef.ZeroPadKeepsValue | app/assets/javascripts/coordinate-validation.js:31-37 | Padding a digit string with zeros keeps its value. |
| GridRef.JsRoundDiv | app/assets/javascripts/coordinate-validation.js:51-53 | `Math.round(num / 10 ** div)` for a positive divisor: the result is the nearest integer, and halves round up. |
| GridRef.JsRem | app/assets/javascripts/coordinate-validation.js:48-49 | JavaScript `%`: the remainder lies in [0, b) for a non-negative dividend and in (-b, 0] for a negative one, and differs from the dividend by a multiple of b. |
| GridRef.GetGridRef | app/assets/javascripts/coordinate-validation.js:39-62 | `getGridRef` produces text exactly when the precision is positive after clamping and the northing row is inside the table. Otherwise the code raises a TypeError. |
| GridRef.GetGridRefAtFive | app/assets/javascripts/coordinate-validation.js:39-62 | At precision 5 the reference is the table square of the coordinates followed by their offsets inside the square, padded to five digits. |
| GridRef.RoundTripFullPrecision | app/assets/javascripts/coordinate-validation.js:39-101 | Parsing the full-precision reference of any point on the grid gives back that point. |
| GridRef.MatchRef | app/assets/javascripts/coordinate-validation.js:72-76 | `^([A-Z]{2})\s*(\d{p})\s*(\d{p})$`, case-insensitive: a match has two letters and two groups of exactly p digits. |
| GridRef.MatchRefUnique | app/assets/javascripts/coordinate-validation.js:70-76 | Two digit-group lengths cannot both match the same text. |
| GridRef.Candidate | app/assets/javascripts/coordinate-validation.js:77-99 | One turn of the precision loop finds a position exactly when the text matches at that precision and its letters, case-sensitively, are in the table. |
| GridRef.RunLoopOne | app/assets/javascripts/coordinate-validation.js:70-101 | With at most one turn of the loop finding something, the loop ends in that turn's state, or in its reset state. |
| GridRef.ParseGridRefNone | app/assets/javascripts/coordinate-validation.js:65-101 | When no precision matches, `parseGridRef` fails and leaves both coordinates at 0. |
| GridRef.ParseGridRefAt | app/assets/javascripts/coordinate-validation.js:65-101 | The one precision that matches decides the result. |
| GridRef.ParseGridRefResets | app/assets/javascripts/coordinate-validation.js:65-69 | On failure both coordinates stay at the 0 they were reset to. |
| GridRef.ParseGridRefOk | app/assets/javascripts/coordinate-validation.js:65-101 | `parseGridRef` succeeds exactly when, for some p in 1..5, the text is two letters and two p-digit groups and the letters name a square. |
| GridRef.ParseGridRefValue | app/assets/javascripts/coordinate-validation.js:80-96 | A successful parse is the square's corner plus each digit group times 10^(5 - p). |
| GridRef.ParseSquareRefText | app/assets/javascripts/coordinate-validation.js:39-101 | The reference text of any table square and two numbers below 10^p parses to the square's corner plus the numbers scaled to metres. |
| GridRef.GetGridRefTruncating | app/assets/javascripts/coordinate-validation.js:39-62 | The corrected formatter drops digits beyond the precision instead of rounding. It produces text exactly when the precision is positive. |
| GridRef.RoundTripTruncating | app/assets/javascripts/coordinate-validation.js:39-101 | Parsing the corrected formatter's reference gives each coordinate rounded down to the precision. |
| GridRef.RoundingOverflowsGroup | app/assets/javascripts/coordinate-validation.js:51-53 | As written, 99995 m into square SV at precision 4 rounds to the five-digit group "10000". The printed "SV 10000 0000" then does not parse. |
| GridRef.TableLetters | app/assets/javascripts/coordinate-validation.js:177-191 | Every entry of the prefix table is two capital letters. |
| GridRef.Candidates | app/assets/javascripts/coordinate-validation.js:89-99 | The search loop tries five precisions, from 5 down to 1. |
| GridRef.OtherPrecisionFails | app/assets/javascripts/coordinate-validation.js:72-76 | A text matches at no more than one precision. |
| GridRef.ParseFullPrecision | app/assets/javascripts/coordinate-validation.js:65-101 | A full-precision reference parses back to the grid point it was made from. |
| GridRef.OverflowingText | app/assets/javascripts/coordinate-validation.js:39-62 | As written, formatting (99995, 0) at precision 4 prints "SV 10000 0000". |
| GridRef.EastingGroupOverflows | app/assets/javascripts/coordinate-validation.js:51-55 | As written, that easting rounds to the five-digit group "10000". |
| GridRef.OverflowingTextDoesNotParse | app/assets/javascripts/coordinate-validation.js:65-101 | "SV 10000 0000" has groups of unequal length, so it does not parse. |
| JsParseInt.DigitOf | app/assets/javascripts/coordinate-validation.js:793-794 | The digit value of a character in bases up to 36. A character is a decimal digit exactly when its value is below 10. |
| JsParseInt.DigitRun | app/assets/javascripts/coordinate-validation.js:793-794 | The run of base digits that `parseInt` reads: every character in it is a digit, and the character after it is not. |
| JsParseInt.ParseInt | app/assets/javascripts/coordinate-validation.js:793-794 | `parseInt` of a text with no decimal digit at all is NaN. |
| JsParseInt.ParseIntDigits | app/assets/javascripts/coordinate-validation.js:873-874 | A non-empty string of decimal digits parses to its value, with or without a radix. |
| JsParseInt.ParseIntOfString | app/assets/javascripts/coordinate-validation.js:873-874 | `parseInt(String(n))` gives back n for every integer. |
| JsParseInt.ParseIntIgnoresTail | app/assets/javascripts/coordinate-validation.js:873-874 | Text from the first non-digit on is ignored: "123abc" reads as 123. |
| JsParseInt.ParseIntSkipsSpace | app/assets/javascripts/coordinate-validation.js:793-794 | Leading white space does not change what `parseInt` reads. |
| JsParseInt.ParseIntReadsHex | app/assets/javascripts/coordinate-validation.js:793-794 | Without a radix, a leading "0x" switches to base 16: "0x1A" reads as 26. |
| JsParseInt.ParseIntRadix10StopsAtX | app/assets/javascripts/coordinate-validation.js:873-874 | With radix 10, "0x1A" stops at the x and reads as 0. |
| JsParseInt.RadixTenIsDecimal | app/assets/javascripts/coordinate-validation.js:873-874 | Read in radix 10, a run of decimal digits has its decimal value. |
| JsParseInt.LeadingNumber | app/assets/javascripts/coordinate-validation.js:793-794 | The leading run of digits is a non-negative number, and is NaN when the text does not start with a digit. |
| JsParseInt.ParseUnsigned | app/assets/javascripts/coordinate-validation.js:793-794 | After the sign, a number needs a leading decimal digit. |
| JsParseInt.ParseSigned | app/assets/javascripts/coordinate-validation.js:793-794 | After the white space, a number needs some decimal digit. |
| JsParseInt.LeadingDigits | app/assets/javascripts/coordinate-validation.js:873-874 | Digits followed by a non-digit read as the digits' value. |
| CoordValidator.CollapseSpaces | app/assets/javascripts/coordinate-validation.js:845 | `replace(/\s+/g, " ")` leaves no two white-space characters together and no white space other than a space. It keeps every other character in order. |
| CoordValidator.CollapseSpacesIdempotent | app/assets/javascripts/coordinate-validation.js:845 | Collapsing twice is collapsing once. |
| CoordValidator.FirstFailure | app/assets/javascripts/coordinate-validation.js:785-833 | An early-return chain leaves at most one error, and none exactly when every check passes. |
| CoordValidator.FirstFailureAt | app/assets/javascripts/coordinate-validation.js:785-833 | When check k is the first to fail, its message is the only error. |
| CoordValidator.ValidateOSGridRef | app/assets/javascripts/coordinate-validation.js:785-833 | `validateOSGridRef` succeeds exactly when it records no error, and it records at most one. |
| CoordValidator.ValidateOSGridRefInOrder | app/assets/javascripts/coordinate-validation.js:785-833 | The validator reports the first of its seven checks that fails, in source order. The checks are: fields present, numbers parse, easting in range, northing in range, two letters, reference parses, in Great Britain. |
| CoordValidator.CheckGridRef | app/assets/javascripts/coordinate-validation.js:788-833 | The if-chain succeeds exactly when it records no error, and records at most one. |
| CoordValidator.GridRefChecksInOrder | app/assets/javascripts/coordinate-validation.js:788-833 | The if-chain reports the first failing check of the list. |
| CoordValidator.ValidateOSGridRefAccepts | app/assets/javascripts/coordinate-validation.js:785-833 | A table square in either case and two groups of p digits, p in 1..5, pass every check but the last. The outcome is whether the parsed position lies in Great Britain. |
| CoordValidator.ValidateOSGridRefUnequalGroups | app/assets/javascripts/coordinate-validation.js:800-823 | Two in-range digit groups of different lengths, or longer than five digits, pass the range checks. They then fail with "Invalid grid reference format". |
| CoordValidator.CheckParsed | app/assets/javascripts/coordinate-validation.js:847-858 | The last two checks: success exactly when the reference parses and its position is in Great Britain. Otherwise the matching message. |
| CoordValidator.ValidateOSGridReferenceNumber | app/assets/javascripts/coordinate-validation.js:837-861 | `validateOSGridReferenceNumber` records at most one error. It records "Enter an OS grid reference" exactly when the text is missing or only white space. |
| CoordValidator.ReferenceNumberOfClean | app/assets/javascripts/coordinate-validation.js:844-852 | Text that is already trimmed and collapsed goes to the parser unchanged. |
| CoordValidator.ReferenceNumberOfGridRef | app/assets/javascripts/coordinate-validation.js:837-861 | The reference `getGridRef` prints at full precision for a point on the grid is accepted exactly when the point is in Great Britain. |
| CoordValidator.ValidateEastingNorthing | app/assets/javascripts/coordinate-validation.js:865-893 | `validateEastingNorthing` succeeds exactly when it records no error, and records at most one. |
| CoordValidator.ValidateEastingNorthingInOrder | app/assets/javascripts/coordinate-validation.js:865-893 | It reports the first failing check: both present, both numbers, easting in range, northing in range. |
| CoordValidator.ValidateEastingNorthingOfNumbers | app/assets/javascripts/coordinate-validation.js:865-893 | For the decimal text of two integers, the pair is accepted exactly when both lie in 0..99999. Otherwise the easting's range error comes before the northing's. |
| CoordValidator.ValidateEastingNorthingIgnoresTail | app/assets/javascripts/coordinate-validation.js:873-874 | Text after the leading digits of either field does not change the outcome. |
| CoordValidator.ValidateNationalGridFieldNumber | app/assets/javascripts/coordinate-validation.js:896-905 | `validateNationalGridFieldNumber` accepts exactly a value with a character other than white space. Otherwise it records its one error. |
| CoordValidator.ValidatorsResetErrors | app/assets/javascripts/coordinate-validation.js:786 | Each validator starts with `this.errors = []`, so nothing from an earlier call survives. |
| CoordValidator.CheckEastingNorthing | app/assets/javascripts/coordinate-validation.js:865-893 | The easting/northing check succeeds exactly when it records no error, and records at most one. |
| CoordValidator.EastingNorthingChecksInOrder | app/assets/javascripts/coordinate-validation.js:868-890 | The error recorded is the first failing check, in the order of the code. |
| CoordValidator.CheckGridRefAccepts | app/assets/javascripts/coordinate-validation.js:788-833 | Present, in-range numbers, two letters and a parsed reference leave only the Great Britain test. |
| CoordValidator.ValidateIsCheck | app/assets/javascripts/coordinate-validation.js:785-833 | The validator's outcome is the outcome of the if-chain on its parsed fields. |
| CoordValidator.GroupInRange | app/assets/javascripts/coordinate-validation.js:801-809 | A group of at most five digits is in the range the form accepts. |
| CoordValidator.ParsedTableFields | app/assets/javascripts/coordinate-validation.js:817-824 | A table square and two groups of p digits parse to the square's corner plus the scaled digits. |
| OtpInput.MaxLength | app/assets/javascripts/govuk-otp-input.js:14 | `parseInt(data-max-length) || 6` is never 0, and it is 6 when the attribute is missing. |
| OtpInput.MaxLengthOfAttribute | app/assets/javascripts/govuk-otp-input.js:14 | An attribute holding the decimal text of a non-zero integer gives that integer; "0" gives 6. |
| OtpInput.ValidSingleCharacter | app/assets/javascripts/govuk-otp-input.js:253-256 | A single character passes `isValidCharacter` exactly when it is in the pattern's class. |
| OtpInput.SliceTo | app/assets/javascripts/govuk-otp-input.js:268 | `slice(0, end)` gives a prefix: min(end, length) characters for end >= 0, and that many fewer than the length for a negative end. |
| OtpInput.CleanPastedData | app/assets/javascripts/govuk-otp-input.js:258-269 | The cleaned paste is a prefix of the kept characters, no longer than `maxLength`, and every character is in the class and is no separator. All of the kept characters survive when they fit. |
| OtpInput.KeptAppend | app/assets/javascripts/govuk-otp-input.js:262-268 | Cleaning before the length cut distributes over concatenation. |
| OtpInput.KeptOne | app/assets/javascripts/govuk-otp-input.js:262-268 | One character survives cleaning exactly when it is no separator and is in the class. |
| OtpInput.Init | app/assets/javascripts/govuk-otp-input.js:29-33 | `init()` over any boxes keeps their values, focuses nothing and leaves a valid state: the hidden field is the boxes' values joined. |
| OtpInput.Initial | app/assets/javascripts/govuk-otp-input.js:29-33 | `init()` over n empty boxes gives a valid state with n empty boxes and hidden value "". |
| OtpInput.FocusInput | app/assets/javascripts/govuk-otp-input.js:271-276 | Focus moves to an index only when it names a box; boxes and hidden value are untouched. |
| OtpInput.UpdateHiddenValue | app/assets/javascripts/govuk-otp-input.js:287-290 | After the update, the hidden value is the boxes' values joined with "". |
| OtpInput.FindNextEmptyInput | app/assets/javascripts/govuk-otp-input.js:278-285 | The result is the first empty box, or -1 exactly when every box holds something. |
| OtpInput.HandleInputAsWritten | app/assets/javascripts/govuk-otp-input.js:88-105 | The input box takes the new value, or "" when the value has no character of the class, and no other box changes. A rejected value leaves the hidden field and focus as they were. An accepted or empty value keeps a valid state valid. |
| OtpInput.HandleInput | app/assets/javascripts/govuk-otp-input.js:88-105 | The same edit of the boxes, and a valid state stays valid: the hidden field always matches the boxes. |
| OtpInput.RejectedInputLeavesStaleHiddenValue | app/assets/javascripts/govuk-otp-input.js:93-96 | A concrete state where the as-written handler empties a box but the hidden field still submits the old digit. |
| OtpInput.HandleKeydown | app/assets/javascripts/govuk-otp-input.js:107-171 | A key changes at most the box it reached, and a valid state stays valid. |
| OtpInput.BackspaceOnEmptyBox | app/assets/javascripts/govuk-otp-input.js:111-120 | Backspace on an empty box changes no box and moves focus one left, unless the box is the first. |
| OtpInput.BackspaceOnFilledBox | app/assets/javascripts/govuk-otp-input.js:111-120 | Backspace on a filled box empties that box only and leaves focus alone. |
| OtpInput.CharacterKeyFillsBox | app/assets/javascripts/govuk-otp-input.js:157-168 | A key in the class replaces the box's value with that character and moves focus to the next box, if there is one. |
| OtpInput.HandleContainerKeydown | app/assets/javascripts/govuk-otp-input.js:235-251 | Arrow keys on the container only move focus; the boxes and the hidden value are unchanged. |
| OtpInput.HandlePaste | app/assets/javascripts/govuk-otp-input.js:173-223 | A paste keeps the number of boxes and keeps a valid state valid. |
| OtpInput.Spread | app/assets/javascripts/govuk-otp-input.js:195-209 | After clearing and filling, box i holds the i-th cleaned character, or "" past the end of the cleaned text. |
| OtpInput.PasteOfNothing | app/assets/javascripts/govuk-otp-input.js:189-192 | A paste that cleans to nothing changes nothing. |
| OtpInput.PasteSpreadsCharacters | app/assets/javascripts/govuk-otp-input.js:194-221 | Any other paste puts the i-th cleaned character in box i from the first box on, whichever box received it. Focus lands after the pasted text, or on the last box when the text fills them all. |
| OtpInput.PasteTwiceIsPasteOnce | app/assets/javascripts/govuk-otp-input.js:44-47 | A bubbled paste runs `handlePaste` up to three times, from the box, the container and the document listeners; every run after the first changes nothing. |
| OtpInput.ConcatSpread | app/assets/javascripts/govuk-otp-input.js:195-209 | The spread boxes, joined, give the cleaned text back when it fits in the boxes. |
| OtpInput.SetValue | app/assets/javascripts/govuk-otp-input.js:336-343 | `setValue` puts the cleaned value's i-th character in box i and empties the rest, without moving focus. |
| OtpInput.SetValueRoundTrip | app/assets/javascripts/govuk-otp-input.js:332-343 | `getValue()` after `setValue(v)` is the cleaned v whenever it fits in the boxes. |
| OtpInput.SetValueKeepsDigits | app/assets/javascripts/govuk-otp-input.js:258-269 | When the kept characters fit both `maxLength` and the boxes, `setValue` followed by `getValue` returns exactly those characters. |
| OtpInput.Clear | app/assets/javascripts/govuk-otp-input.js:345-352 | `clear()` empties every box and the hidden value, and focuses the first box. |
| OtpInput.FilledCount | app/assets/javascripts/govuk-otp-input.js:307 | The number of filled boxes is at most the number of boxes. |
| OtpInput.ConcatLengthCountsFilled | app/assets/javascripts/govuk-otp-input.js:307 | With at most one character per box, the hidden value is as long as the number of filled boxes. |
| OtpInput.AnnouncementCountsFilledBoxes | app/assets/javascripts/govuk-otp-input.js:306-330 | The screen-reader text reports no boxes filled, all `maxLength` filled, or k of `maxLength`, where k counts the filled boxes. |
| OtpInput.Step | app/assets/javascripts/govuk-otp-input.js:38-105 | Each event handler as written keeps the number of boxes. Every event but a rejected input keeps a valid state valid. |
| OtpInput.RunCanLeaveStaleValue | app/assets/javascripts/govuk-otp-input.js:93-96 | A single rejected keystroke leaves `getValue()` at "5" while both boxes are empty. |
| OtpInput.FixedStep | app/assets/javascripts/govuk-otp-input.js:38-105 | With the corrected input handler, every event keeps a valid state valid. Events other than input act as in the component as written. |
| OtpInput.FixedRunKeepsValid | app/assets/javascripts/govuk-otp-input.js:38-105 | In the corrected component, after any sequence of events `getValue()` is the boxes' values joined in order, and focus is on a box or nowhere. |
| OtpInput.FixedRunAgrees | app/assets/javascripts/govuk-otp-input.js:88-105 | Without rejected inputs, the corrected component and the one as written reach the same state. |
| OtpInput.RunKeepsValid | app/assets/javascripts/govuk-otp-input.js:38-105 | As long as no input is rejected, after any sequence of events `getValue()` is the boxes' values joined in order, and focus is on a box or nowhere. |
| FormSession.CountId | app/routes/titan-mvp-1.2/routes.js:2448 | The number of conditions carrying an id is at most the list's length, and 0 exactly when no condition carries it. |
| FormSession.CountIdAppend | app/routes/titan-mvp-1.2/routes.js:346-354 | Counts of an id add up over concatenated lists. |
| FormSession.CountIdOne | app/routes/titan-mvp-1.2/routes.js:346-354 | A single condition counts 1 for its own id and 0 for every other. |
| FormSession.WithoutId | app/routes/titan-mvp-1.2/routes.js:2447-2449 | Filtering out an id leaves no condition with it, and the count of every other id is unchanged. |
| FormSession.WithoutIdCounts | app/routes/titan-mvp-1.2/routes.js:2447-2449 | The filter's counts: 0 for the removed id, and the old count for every other. |
| FormSession.HasIdConcat | app/routes/titan-mvp-1.2/routes.js:2451-2452 | An id is in a concatenation exactly when it is in one of the parts. |
| FormSession.PushCounts | app/routes/titan-mvp-1.2/routes.js:346 | `push(c)` adds one to the count of `c`'s id and nothing to any other. |
| FormSession.WithoutIds | app/routes/titan-mvp-1.2/routes.js:2699-2702 | Filtering out a list of ids zeroes their counts and keeps the counts of every other id. |
| FormSession.WithoutIdsCounts | app/routes/titan-mvp-1.2/routes.js:2699-2702 | The counts of the list filter, by induction over the list. |
| FormSession.WithoutIdIdempotent | app/routes/titan-mvp-1.2/routes.js:2447-2449 | Filtering out an id twice is filtering it out once. |
| FormSession.FindPage | app/routes/titan-mvp-1.2/routes.js:2421-2423 | `findIndex` on page ids gives the first page with the id, or nothing exactly when no page has it. |
| FormSession.FindPageOfDistinct | app/routes/titan-mvp-1.2/routes.js:2421-2423 | With distinct page ids, a page's own id finds that page. |
| FormSession.FindPageSameIds | app/routes/titan-mvp-1.2/routes.js:2421-2423 | Two page lists with the same ids in the same places find the same page for every id. |
| ConditionEdits.StripPage | app/routes/titan-mvp-1.2/routes.js:613-625 | A page loses every condition and every conditional route with the id. Whether each list exists is unchanged, every other id's count is unchanged, every other route is kept, and no other field changes. |
| ConditionEdits.RoutesKept | app/routes/titan-mvp-1.2/routes.js:620-624 | Every route to another condition survives the routing filter. |
| ConditionEdits.RemoveCondition | app/routes/titan-mvp-1.2/routes.js:598-632 | After a delete the id is gone from the form-level list, every page's conditions and every page's routes. Every other id keeps its count, the page count is unchanged, and the rest of the session is untouched. |
| ConditionEdits.RemoveAbsent | app/routes/titan-mvp-1.2/routes.js:598-632 | Deleting an id the session does not hold changes nothing. |
| ConditionEdits.WithoutIdNoOp | app/routes/titan-mvp-1.2/routes.js:607-609 | Filtering an absent id out of a list returns the list. |
| ConditionEdits.StripPageNoOp | app/routes/titan-mvp-1.2/routes.js:613-625 | A page free of the id is left as it is. |
| ConditionEdits.RemoveIdempotent | app/routes/titan-mvp-1.2/routes.js:598-632 | Deleting twice is deleting once. |
| ConditionEdits.RemoveHandler | app/routes/titan-mvp-1.2/routes.js:2210-2261 | The conditions-manager remove action makes the single id, and every id of the list, gone. Nothing outside the conditions and pages changes. |
| ConditionEdits.RemoveEach | app/routes/titan-mvp-1.2/routes.js:2251-2253 | `conditionIds.forEach(removeConditionById)` removes every listed id and brings no removed id back. |
| ConditionEdits.RemoveKeepsGoneAll | app/routes/titan-mvp-1.2/routes.js:2221-2243 | One removal keeps every id that was already gone, gone. |
| ConditionEdits.RemoveKeepsGone | app/routes/titan-mvp-1.2/routes.js:2221-2243 | The same for one named id. |
| ConditionApply.FindConditionIndex | app/routes/titan-mvp-1.2/routes.js:2962-2964 | `findIndex` on condition ids gives the first match, or nothing exactly when no condition has the id. |
| ConditionApply.FindOnPages | app/routes/titan-mvp-1.2/routes.js:2618-2630 | The page search returns a condition with the id from some page, or nothing exactly when no page holds the id. |
| ConditionApply.LookupCondition | app/routes/titan-mvp-1.2/routes.js:2614-2632 | The lookup finds a condition with the id exactly when the id exists at form level or on a page, preferring the form-level copy. |
| ConditionApply.FoundConditions | app/routes/titan-mvp-1.2/routes.js:2613-2633 | `map(lookup).filter(Boolean)` holds an id exactly when it was requested and exists in the session. |
| ConditionApply.AddIfAbsent | app/routes/titan-mvp-1.2/routes.js:2642-2659 | One step changes only the page the id finds, and gives it a conditions list. A missing page changes nothing. |
| ConditionApply.AddIfAbsentCount | app/routes/titan-mvp-1.2/routes.js:2650-2657 | One step adds one copy of the condition's id to the page found, if that page lacked it, and nothing else. |
| ConditionApply.AddAll | app/routes/titan-mvp-1.2/routes.js:2641-2660 | Adding to every chosen page keeps the page count and every page's other fields. |
| ConditionApply.TargetedSameIds | app/routes/titan-mvp-1.2/routes.js:2642 | Pages with the same ids in the same places are targeted alike. |
| ConditionApply.TargetedStep | app/routes/titan-mvp-1.2/routes.js:2641-2642 | The targeted pages are the one the first id finds and those the rest target. |
| ConditionApply.AddAllCount | app/routes/titan-mvp-1.2/routes.js:2641-2660 | After adding one condition, a targeted page that lacked its id holds it once; every other count is unchanged. |
| ConditionApply.AddIfAbsentNoOp | app/routes/titan-mvp-1.2/routes.js:2650-2657 | A step whose page already holds the id changes nothing. |
| ConditionApply.AddAllNoOp | app/routes/titan-mvp-1.2/routes.js:2641-2660 | Adding changes nothing when every targeted page already holds the id. |
| ConditionApply.PageChoices | app/routes/titan-mvp-1.2/routes.js:2594-2606 | A page id is chosen exactly when it was sent and is neither `_unchecked` nor a text starting with '['. |
| ConditionApply.ApplyToAll | app/routes/titan-mvp-1.2/routes.js:2640-2661 | Applying every condition keeps the page count and every page's other fields. |
| ConditionApply.ApplyToAllCount | app/routes/titan-mvp-1.2/routes.js:2640-2661 | A targeted page that lacked one of the conditions' ids holds it once afterwards; every other count is unchanged. |
| ConditionApply.HasIdStep | app/routes/titan-mvp-1.2/routes.js:2650-2652 | An id is in a non-empty list exactly when the head or the tail carries it. |
| ConditionApply.ApplyToAllNoOp | app/routes/titan-mvp-1.2/routes.js:2640-2661 | Applying changes nothing when every targeted page holds every applied id. |
| ConditionApply.Apply | app/routes/titan-mvp-1.2/routes.js:2580-2666 | The apply handler changes only the pages' condition lists. |
| ConditionApply.ApplyCount | app/routes/titan-mvp-1.2/routes.js:2580-2666 | A targeted page that lacked a requested, existing id holds it exactly once afterwards. Every other count, on every page and for every id, is unchanged. |
| ConditionApply.ApplyCovers | app/routes/titan-mvp-1.2/routes.js:2640-2661 | After apply, every targeted page holds every requested id that exists. |
| ConditionApply.ApplyKeepsAtMostOnce | app/routes/titan-mvp-1.2/routes.js:2650-2657 | Apply never puts a second copy of an id on a page. |
| ConditionApply.ApplyAddsOnlyPresent | app/routes/titan-mvp-1.2/routes.js:2613-2633 | An id present after apply was present before. |
| ConditionApply.ApplyIdempotent | app/routes/titan-mvp-1.2/routes.js:2580-2666 | Applying the same request twice is applying it once. |
| ConditionApply.RemoveSelected | app/routes/titan-mvp-1.2/routes.js:2691-2704 | One selection changes only the page it finds, which loses exactly the listed ids and keeps every other count. |
| ConditionApply.RemoveSelections | app/routes/titan-mvp-1.2/routes.js:2691-2704 | Processing every selection keeps the page count and every page's other fields. |
| ConditionApply.DeselectedStep | app/routes/titan-mvp-1.2/routes.js:2691-2692 | An id is deselected on a page by the first selection or by one of the rest. |
| ConditionApply.DeselectedSameIds | app/routes/titan-mvp-1.2/routes.js:2692 | Pages with the same ids in the same places are deselected alike. |
| ConditionApply.RemoveSelectionsCount | app/routes/titan-mvp-1.2/routes.js:2691-2704 | After all the selections, a page's count of an id is 0 when some selection removed it there, and unchanged otherwise. |
| ConditionApply.RemoveFromPages | app/routes/titan-mvp-1.2/routes.js:2668-2709 | The remove handler changes only the pages' condition lists. |
| ConditionApply.RemoveFromPagesCount | app/routes/titan-mvp-1.2/routes.js:2668-2709 | The handler's per-page, per-id counts: 0 when deselected, unchanged otherwise. |
| ConditionApply.ReplaceFirst | app/routes/titan-mvp-1.2/routes.js:2961-2969 | The edited condition replaces the first form-level condition with the id, in place; without one, the list is unchanged. |
| ConditionApply.StripConditions | app/routes/titan-mvp-1.2/routes.js:2972-2978 | Every page loses the id from its conditions and keeps every other count and every other field. |
| ConditionApply.SaveChanges | app/routes/titan-mvp-1.2/routes.js:2944-3001 | Without both pending values nothing changes. Otherwise the pending edit is cleared, the sections are kept and the form-level list is kept or absent as before. |
| ConditionApply.SaveChangesPageCount | app/routes/titan-mvp-1.2/routes.js:2972-2990 | When the edit keeps its id, save-changes puts the condition on each chosen page exactly once and on no other page. Every other condition's count is unchanged. |
| ConditionApply.SaveChangesPlacesCondition | app/routes/titan-mvp-1.2/routes.js:2972-2990 | When the edit keeps its id, the condition ends up on exactly the chosen pages. |
| ConditionApply.SaveChangesReplacesFormLevel | app/routes/titan-mvp-1.2/routes.js:2961-2969 | A form-level copy is replaced by the edited condition, and the list keeps its length. |
| JoinConditions.PagesConditions | routes.js:32-43 | Every condition on every page is among the page-level candidates. |
| JoinConditions.FirstIndexWithId | routes.js:24 | The first candidate with exactly this id, or nothing exactly when no candidate has it. |
| JoinConditions.Collect | routes.js:16-43 | Every collected condition was requested and is a candidate, and no two collected conditions share an id. |
| JoinConditions.CollectComplete | routes.js:16-43 | Every requested id that some candidate carries is collected. |
| JoinConditions.CollectFirst | routes.js:19-43 | What is collected for an id is the first candidate with that id, so form-level copies win over page copies. |
| JoinConditions.CollectFirstAt | routes.js:19-43 | The same for a condition collected before the last candidate was seen. |
| JoinConditions.FirstKept | routes.js:24 | One more candidate at the end keeps every earlier first position. |
| JoinConditions.HasSameIdPush | routes.js:26 | After a push, an id is held exactly when it was held before or is the pushed condition's. |
| JoinConditions.CollectStep | routes.js:21-28 | One more candidate keeps the earlier first positions and is itself first for a new id. |
| JoinConditions.IndexOf | routes.js:48-49 | `indexOf` gives the first position of the text, or -1 exactly when it is absent. |
| JoinConditions.KeyClassAppend | routes.js:46-51 | The elements with one key, in order, distribute over concatenation. |
| JoinConditions.InsertByKey | routes.js:46-51 | Insertion adds exactly the new element. |
| JoinConditions.InsertByKeySorted | routes.js:46-51 | Insertion into a sorted list keeps it sorted. |
| JoinConditions.KeyClassBelow | routes.js:46-51 | No element has a key below every key present. |
| JoinConditions.KeyClassOne | routes.js:46-51 | A one-element list's class of a key is the element or nothing. |
| JoinConditions.InsertByKeyClasses | routes.js:46-51 | Insertion puts the new element last among those with its key. |
| JoinConditions.SortByKey | routes.js:46-51 | The sort by `indexOf` is ordered by key and is a permutation of its input. |
| JoinConditions.SortByKeyStable | routes.js:46-51 | The sort is stable: elements with equal keys keep their order. |
| JoinConditions.Joined | routes.js:45-51 | The joined conditions are the collected ones, ordered by their position in the requested ids. |
| JoinConditions.AllRules | routes.js:61-74 | No conditions give no rules. |
| JoinConditions.TitanMarkAt | app/routes/titan-mvp-1.2/routes.js:2327-2337 | Marking keeps each rule and sets its operator: nothing at the very first rule, the join's operator after it. |
| JoinConditions.TitanRulesAt | app/routes/titan-mvp-1.2/routes.js:2327-2337 | The editor's joined rules are all the conditions' rules in order; the first has no operator and every later one has the join's. |
| JoinConditions.RootMarkAt | routes.js:61-74 | Marking keeps each rule, and fills in a missing operator except on the first rule of the first condition. |
| JoinConditions.RootRulesAt | routes.js:61-74 | The original handler's rules are all the conditions' rules in order. A rule keeps its own operator; one without gets the join's, except on the very first rule. |
| JoinConditions.TitanParts | app/routes/titan-mvp-1.2/routes.js:2339-2349 | One text per rule, by position. |
| JoinConditions.RootParts | routes.js:77-89 | One text per rule, by position. |
| JoinConditions.TitanTextOfTwo | app/routes/titan-mvp-1.2/routes.js:2339-2350 | Two one-rule conditions joined by an operator read as the first clause, the operator and the second clause, whatever operators they carried. |
| JoinConditions.JoinPageChoices | app/routes/titan-mvp-1.2/routes.js:2356-2374 | A page id is chosen exactly when it was sent and is not `_unchecked`, "none" or a text starting with '['. |
| JoinConditions.TitanCondition | app/routes/titan-mvp-1.2/routes.js:2287-2350 | The new condition carries the given id, name and operator, and its text is the text of its rules. |
| JoinConditions.TitanJoinAsWritten | app/routes/titan-mvp-1.2/routes.js:2263-2397 | A request with fewer than two ids is refused. Otherwise the handler fails exactly when the session has no form-level list, because of the `push` at line 2353. |
| JoinConditions.TitanJoin | app/routes/titan-mvp-1.2/routes.js:2263-2397 | The corrected handler never fails. A request with two or more ids appends the new condition, with the new id, after the existing form-level conditions. It changes nothing outside the conditions and pages. |
| JoinConditions.TitanJoinAgrees | app/routes/titan-mvp-1.2/routes.js:2297-2353 | Where the session has a form-level list, the corrected handler does what the written one does. |
| JoinConditions.TitanJoinCrashesWithoutFormList | app/routes/titan-mvp-1.2/routes.js:2353 | A concrete session with conditions only on a page: the handler as written fails, while the corrected one joins. |
| JoinConditions.TitanJoinedRules | app/routes/titan-mvp-1.2/routes.js:2327-2337 | The new condition's rules are the joined rules in order, the first without an operator and every later one with the join's. |
| JoinConditions.TitanJoinPlaces | app/routes/titan-mvp-1.2/routes.js:2375-2388 | Every chosen page that lacked the new id holds it once afterwards; every other count is unchanged. |
| JoinConditions.ReplaceByName | routes.js:93-104 | The new condition replaces the first form-level condition with the same name, in place, or is appended when there is none. |
| JoinConditions.FindName | routes.js:94-96 | `findIndex` by name gives the first match, or nothing exactly when no condition has the name. |
| JoinConditions.ReplaceByNameAgain | routes.js:93-104 | Once a condition of the name is in the list, replacing by that name keeps the length. |
| JoinConditions.DropJoined | routes.js:106-114 | Every page loses the joined ids and keeps every other id's count and its other fields. |
| JoinConditions.RootCondition | routes.js:53-91 | The new condition carries the given id and name, no operator of its own, and the text of its rules. |
| JoinConditions.RootJoin | routes.js:4-120 | The new condition is on the form-level list, which grows by at most one. No page keeps a joined id, every other count stays, and nothing else changes. |
| JoinConditions.RootJoinedRules | routes.js:61-74 | The rules are the joined rules in order, each missing operator filled in except on the very first rule. |
| JoinConditions.RootJoinAgainReplaces | routes.js:93-104 | Joining again under the same name replaces the earlier joined condition instead of adding another. |
| JoinConditions.RootTextOfTwo | routes.js:77-91 | Two one-rule conditions, the second without an operator, read as the first clause, the operator and the second clause, trimmed. |
| JoinConditions.RootJoinOfTwo | routes.js:77-90 | The same text before trimming. |
| Display.LocalPart | app/routes/titan-mvp-1.2/routes.js:3065 | `split("@")[0]` is the longest prefix without '@': it has no '@' and is followed by '@' or the end. |
| Display.Capitalise | app/routes/titan-mvp-1.2/routes.js:3068 | The first character is upper-cased and every other lower-cased, at the same length. |
| Display.CapitaliseAll | app/routes/titan-mvp-1.2/routes.js:3067-3068 | Each part is capitalised, in place. |
| Display.EmailToName | app/routes/titan-mvp-1.2/routes.js:3063-3064 | A missing or empty email gives "". |
| Display.EmailToNameChars | app/routes/titan-mvp-1.2/routes.js:3063-3070 | The name has one character per character of the local part. A '.' or '_' becomes a space, the first character and each one after a separator is upper-cased, and every other character is lower-cased. |
| Display.NameOfParts | app/routes/titan-mvp-1.2/routes.js:3066-3069 | The same, for any local part, by induction over its separators. |
| Display.NameSplice | app/routes/titan-mvp-1.2/routes.js:3066-3069 | A first part, its separator and the name of the rest make the name of the whole. |
| Display.CollapseRuns | app/routes/titan-mvp-1.2/routes.js:1350 | Every run of characters outside [a-z0-9] becomes one '-'. The letters and digits are kept in order, and no two '-' are adjacent. |
| Display.SlugOf | app/routes/titan-mvp-1.2/routes.js:1348-1351 | A slug holds only [a-z0-9-], never starts or ends with '-', never has two '-' together, and keeps every letter and digit of the lower-cased text in order. |
| Display.TrimDashesSlug | app/routes/titan-mvp-1.2/routes.js:1351 | Trimming the edge dashes of a collapsed text leaves a slug. |
| Display.TrimDashesFilter | app/routes/titan-mvp-1.2/routes.js:1351 | Trimming dashes keeps every letter and digit, in order. |
| Display.UrlFriendlyName | app/routes/titan-mvp-1.2/routes.js:1348-1351 | The form's URL name is a slug of the form name, or of "untitled-form" when the form has no name. |
| Display.SlugIdempotent | app/routes/titan-mvp-1.2/routes.js:1348-1351 | The slug of a slug is itself. |
| Display.SlugOfSlug | app/routes/titan-mvp-1.2/routes.js:1348-1351 | A text that already is a slug is its own slug. |
| Display.CollapseClean | app/routes/titan-mvp-1.2/routes.js:1350 | Collapsing changes nothing in a text of slug characters with single dashes. |
| Display.Status | app/routes/titan-mvp-1.2/routes.js:1344 | The status is never empty; it is the form's status when set, and "Draft" otherwise. |
| Display.StatusColour | app/routes/titan-mvp-1.2/routes.js:1338-1345 | Draft, Live and Closed map to orange, green and red, and every other status is grey. A form without a status is orange. |
| Display.StatusOfColour | app/routes/titan-mvp-1.2/routes.js:1338-1342 | Orange, green and red stand for Draft, Live and Closed; any other colour stands for no known status. |
| Display.StatusColourRoundTrip | app/routes/titan-mvp-1.2/routes.js:1338-1345 | The colour of a known status gives back that status, and the colour of any other status (grey) gives back none. |
| Display.StatusColoursDistinct | app/routes/titan-mvp-1.2/routes.js:1338-1342 | The three known statuses have three different colours. |
| PageOverview.EditPage | app/routes/titan-mvp-1.2/routes.js:1115-1160 | The save sets heading, guidance and the multiple-response flag from the form. The set name and counts are kept only with multiple responses. A known section is recorded by id and name, an unknown one leaves the page's section alone, and none removes it. A missing page type becomes "question". No other field changes. |
| PageOverview.FindSectionById | app/routes/titan-mvp-1.2/routes.js:1134 | `sections.find` by id gives a section with the id, or nothing exactly when none has it. |
| PageOverview.EditPageIdempotent | app/routes/titan-mvp-1.2/routes.js:1100-1166 | Saving the same form twice is saving it once. |
| PageOverview.SaveOverview | app/routes/titan-mvp-1.2/routes.js:1101-1163 | A negative index leaves the list unchanged. An existing index keeps the length, the next free index adds one page, and an index further on leaves i - n empty slots before the page. No other page changes. An edited page keeps its id, conditions and routes. A new page is a question page with no id and no conditions. |
| Sections.FindSection | app/routes/sections.js:38 | `findIndex` by id gives the first section with the id, or nothing exactly when none has it. |
| Sections.Create | app/routes/sections.js:12-31 | A new section goes last with the given name, the given description or "", and no pages. The existing sections are unchanged. |
| Sections.Update | app/routes/sections.js:34-52 | An unknown id is a 404. Otherwise the first section with the id takes the new name, and takes the new description only when it is given and not empty. Its id and pages and every other section are kept. |
| Sections.UpdateIdempotent | app/routes/sections.js:34-52 | Sending the same update twice is sending it once. |
| Sections.ClearSection | app/routes/sections.js:68-70 | A page in the section leaves it; any other page is unchanged. |
| Sections.Delete | app/routes/sections.js:55-77 | An unknown id is a 404. Otherwise exactly the first section with the id is removed and the others keep their order. Every page that was in it is in no section, and no other page changes. |
| Sections.CreateThenDelete | app/routes/sections.js:12-77 | Creating a section under a fresh id and deleting it again gives back the sections. |
| Sections.Assign | app/routes/sections.js:80-104 | An unknown page is a 404, and so is an unknown named section. A section id puts the page into that section, and no section id takes it out. Only that page's section changes. |
| Sections.AssignThenDelete | app/routes/sections.js:80-104 | A page put into a section that is then deleted is in no section. |
| Sections.CreateAndAssign | app/routes/sections.js:107-138 | A missing nested form or section body fails with nothing changed. A nested form without pages fails after the section has been added. Otherwise the new section goes last and every page whose id is strictly equal to the given one points at it by id. |
| Sections.CreateAndAssignThenDelete | app/routes/sections.js:107-138 | Deleting a section just created and assigned under a fresh id gives back the sections. Pages whose id matched are taken out of it, and every other page is unchanged. |
| ComplianceContent.KindName | app/services/ai-compliance-checker.js:377-398 | `inferFieldType` returns one of seven type names. |
| ComplianceContent.InferFieldTypeOrder | app/services/ai-compliance-checker.js:377-398 | The inference is a priority list: email, phone, date, address, name as text, yes/no as radio, digits as number, else text. Each kind is chosen exactly when its cue holds and no earlier cue does. |
| ComplianceContent.NumberGuardRedundant | app/services/ai-compliance-checker.js:396 | The number branch's "no phone in the label" test never decides anything, because such a label was already classed as a phone. |
| ComplianceContent.KindNameNotComponent | app/services/ai-compliance-checker.js:377-398 | An inferred type is never the name of a component type. |
| ComplianceContent.SampleValue | app/services/ai-compliance-checker.js:252-265 | A sample answer is never empty, and is "Sample value" exactly for the types outside the table. |
| ComplianceContent.SampleValuesInferBack | app/services/ai-compliance-checker.js:252-265 | The sample answers of the email and date components are inferred back as email and date. |
| ComplianceContent.CharAbsent | app/services/ai-compliance-checker.js:381 | A text without a character does not contain it. |
| ComplianceContent.PageExamples | app/services/ai-compliance-checker.js:361-363 | One example per question of a page. |
| ComplianceContent.CollectQuestions | app/services/ai-compliance-checker.js:346-355 | The questions are exactly the question items, in order, with their inferred types. |
| ComplianceContent.CollectPages | app/services/ai-compliance-checker.js:356-364 | The pages are exactly the page items that list questions, in order, with their question counts. |
| ComplianceContent.ExtractFormContent | app/services/ai-compliance-checker.js:335-372 | The corrected extraction, which keeps each question's component type and hint. The form name defaults to "Untitled Form". Without check-answers items there are no questions and no pages. Otherwise the questions and pages are exactly those items, in order. |
| ComplianceContent.ExtractFormContentAsWritten | app/services/ai-compliance-checker.js:348-353 | Extraction as written keeps everything but each question's component type and hint. |
| ComplianceChecks.Deducted | app/services/ai-compliance-checker.js:405-525 | A category never loses more than the sum of its checks' deductions. |
| ComplianceChecks.Fired | app/services/ai-compliance-checker.js:405-527 | A category reports at most one issue per check. |
| ComplianceChecks.TotalFrom | app/services/ai-compliance-checker.js:405-525 | The deductions of a suffix are its first check's plus the rest's. |
| ComplianceChecks.NoneFire | app/services/ai-compliance-checker.js:405-525 | Checks that do not fire deduct nothing and report nothing. |
| ComplianceChecks.Settle | app/services/ai-compliance-checker.js:524-526 | A category's score is `Math.max(0, 100 - deductions)`, so between 0 and 100 and at least 100 less the category's possible deductions. It passes exactly when the unfloored score is at least 70, and its issues are those of the checks that fired. |
| ComplianceChecks.SettleUnfloored | app/services/ai-compliance-checker.js:524-526 | When the checks cannot take more than 100, the score is 100 less the deductions, and the pass is decided by the score alone. |
| ComplianceChecks.FullMarksNoIssues | app/services/ai-compliance-checker.js:405-527 | When every check deducts something, a category has full marks exactly when it reports nothing. |
| ComplianceChecks.FirstEligible | app/services/ai-compliance-checker.js:715-717 | `findIndex` gives the first eligibility question, or nothing exactly when there is none. |
| ComplianceChecks.ContentChecks | app/services/ai-compliance-checker.js:403-528 | Content has three checks, 50 in all: a form name over 50 characters (15, medium), technical language (20, high) and unclear labels (15, medium), each filed under content clarity. |
| ComplianceChecks.DesignChecks | app/services/ai-compliance-checker.js:533-666 | Form design has two checks, 20 in all: better field types (15, medium, field types) and validation rules (5, low, field validation). |
| ComplianceChecks.StructureChecks | app/services/ai-compliance-checker.js:671-798 | Form structure has four checks, 70 in all: too many questions per page (20, medium), eligibility asked after the third question (15, medium), unjustified questions (25, high, question justification) and branching logic (10, medium). |
| ComplianceChecks.AccessibilityChecks | app/services/ai-compliance-checker.js:802-863 | Accessibility has two checks, 25 in all: screen-reader labels (15, medium) and missing hints (10, low). |
| ComplianceChecks.ExperienceChecks | app/services/ai-compliance-checker.js:868-941 | User experience has three checks, 30 in all, filed under form length: more than 15 questions (15, medium), too many questions per page (10, medium) and contact questions to group (5, low). |
| ComplianceChecks.StyleChecks | app/services/ai-compliance-checker.js:946-1221 | The style guide has seven checks, 65 in all: contractions (5, low), needless capitals (5, low), odd punctuation (5, low), jargon (20, high), passive voice (10, medium), formal phrases (10, medium) and mixed terminology (10, medium). |
| ComplianceChecks.RoundedMean | app/services/ai-compliance-checker.js:295-297 | `Math.round(sum / 6)` is the whole number within half of the mean. |
| ComplianceChecks.Analyze | app/services/ai-compliance-checker.js:273-329 | The analysis holds the six categories. Its issues are theirs, concatenated in call order. The overall score is the rounded mean of the six scores, and the form passes exactly when that score is at least 70 with at most 3 issues. |
| ComplianceChecks.AnalyzeForm | app/services/ai-compliance-checker.js:273-299 | `analyzeForm` with the corrected extraction: the overall score lies in 57..100, there are at most 21 issues, and the form passes exactly when it scores 70 or more with at most three issues. |
| ComplianceChecks.AnalyzeFormAsWritten | app/services/ai-compliance-checker.js:273-299 | `analyzeForm` as written keeps the same bounds and pass rule, on content stripped of component types and hints. |
| ComplianceChecks.AnalyzeFormAgrees | app/services/ai-compliance-checker.js:335-372 | When no item names a component type or carries a hint, the analysis as written equals the corrected one. |
| ComplianceChecks.ScoresUnfloored | app/services/ai-compliance-checker.js:524-526 | No category can lose more than 70, so every score is 100 less its deductions and passes exactly when it is at least 70. |
| ComplianceChecks.OverallAtLeast | app/services/ai-compliance-checker.js:292-297 | The overall score is never below 57. |
| ComplianceChecks.OverallAtMost | app/services/ai-compliance-checker.js:292-297 | The overall score is never above 100. |
| ComplianceChecks.IssuesAtMostOnePerCheck | app/services/ai-compliance-checker.js:313-329 | An analysis reports at most 21 issues, one per check. |
| ComplianceChecks.Quiet | app/services/ai-compliance-checker.js:524-527 | A category whose checks all stay quiet scores 100, passes and reports nothing. |
| ComplianceChecks.EmptyFormQuiet | app/services/ai-compliance-checker.js:403-1221 | A form without questions or pages trips no check outside content, and in content at most the long-name one. |
| ComplianceChecks.EmptyDesign | app/services/ai-compliance-checker.js:533-666 | For such a form, form design scores 100, passes and reports nothing. |
| ComplianceChecks.EmptyStructure | app/services/ai-compliance-checker.js:671-798 | For such a form, form structure scores 100, passes and reports nothing. |
| ComplianceChecks.EmptyAccessibility | app/services/ai-compliance-checker.js:802-863 | For such a form, accessibility scores 100, passes and reports nothing. |
| ComplianceChecks.EmptyExperience | app/services/ai-compliance-checker.js:868-941 | For such a form, user experience scores 100, passes and reports nothing. |
| ComplianceChecks.EmptyStyle | app/services/ai-compliance-checker.js:946-1221 | For such a form, the style guide scores 100, passes and reports nothing. |
| ComplianceChecks.EmptyFormPasses | app/services/ai-compliance-checker.js:297-299 | A form without questions passes, whatever its name. |
| ComplianceChecks.Recommendations | app/services/ai-compliance-checker.js:1226-1266 | At most four recommendations, and none exactly when the overall, content, design and structure scores are all at least 70. Critical issues come first when the overall score is below 70, and the structure advice comes last when that score is below 70. |
| ComplianceChecks.NoDesignRecommendation | app/services/ai-compliance-checker.js:1247-1254 | The design recommendation can never appear. |
| ComplianceChecks.DesignFloor | app/services/ai-compliance-checker.js:533-666 | Form design never scores below 80. |
| ComplianceChecks.PassingFormNotCritical | app/services/ai-compliance-checker.js:1229-1236 | A passing form gets no advice to address critical issues. |
| ComplianceChecks.TooLong | app/services/ai-compliance-checker.js:381 | A word longer than the text does not occur in it. |
| ComplianceChecks.DroppedFieldTypeCostsDesign | app/services/ai-compliance-checker.js:348-353 | A concrete form with an email component. Keeping its component type, design scores 100; as written, design sees only the guessed "email" and scores 85. |
| ComplianceChecks.EmailItemExtracted | app/services/ai-compliance-checker.js:346-355 | That form's one question is extracted from its one item. |
| ComplianceChecks.EmailQuestionTyped | app/services/ai-compliance-checker.js:542-605 | The email question passes the type check on its component type and fails it on its guessed type. |
| ComplianceChecks.EmptyDesignDeducted | app/services/ai-compliance-checker.js:533-666 | The design score of one-question content is 85 when the question is mistyped, and 100 otherwise. |

## Left out

- File-tree walking, file reading, error printing to stderr and report printing in `analyze-design-history.py`. The scanner is a fold over given (directory name, text) pairs, and a document that cannot be read is an explicit failure value. The report's percentages are floating point and are not modelled; its zero guard and ranking are.
- Geodesy in `coordinate-validation.js`: `GT_Math`, `getWGS84`, `getOSGB`, `isGreatBritain`, `isIreland`, `GT_WGS84.parseString` and the `parseFloat` decimal, DDM and DMS validators. They are floating point; the "within Great Britain" step is the parameter `inGreatBritain`.
- GridRef.GetGridRef: precision 0 or below throws a TypeError in the code (the row index stays unset); the model returns `None` for it.
- The DOM of the passcode input: focus and selection calls, CSS classes (`updateVisualState`), the change event, `handleFocus`, `handleBlur`, `setupAccessibility` and the listener wiring. The state machine keeps the box values, the focused index and the hidden value.
- OtpInput.IsValidCharacter: the `data-pattern` regular expression is modelled as the character class it names; other patterns are not modelled.
- OtpInput.HandleKeydown: `event.key.length === 1` counts UTF-16 code units; the model counts characters.
- Express plumbing, template rendering, redirects, `JSON.parse` failures and deep copies in the route files. A `JSON.parse` copy of a condition is the same value here.
- `Date.now()` ids and `new Date()` timestamps are parameters. The form-library file write (`app/routes/titan-mvp-1.2/routes.js:1297-1324`) is not modelled.
- FormSession.IdText: ids are compared by their text, as `String(id)` does. Where the code compares ids with `===`, the model compares the `JsId` values, so a number id and its text differ there as in JavaScript.
- ConditionEdits.RemoveCondition: the page-level delete handler (`app/routes/titan-mvp-1.2/routes.js:2437-2455`) is `FormSession.WithoutId` on the page it finds; it has no member of its own.
- ConditionApply.SaveChanges: the edit handler that fills the pending values (`app/routes/titan-mvp-1.2/routes.js:2796-2908`) is not modelled, and neither is the deletion of `_pagesWithConditionBeforeEdit`.
- PageOverview.SaveOverview: the blank page's `questions: []` and a `currentPageIndex` held as text are not modelled. The second page-overview handler (`app/routes/titan-mvp-1.2/routes.js:1640-1682`) is left out: it is a spread copy with timestamps.
- Display.StatusColour: a status such as "toString" finds an inherited property of the colour map in JavaScript; the model treats every status outside the three keys as grey.
- ComplianceContent.SampleValue: a type such as "constructor" finds an inherited property of the sample-value map in JavaScript; the model gives "Sample value" for every type outside the table.
- Display.EmailToName, DesignHistory.Title and Common.Lower: case mapping is ASCII only; JavaScript and Python also map other letters, and Python's `str.title` can lengthen a word (`'ß'.title()` is "Ss").
- DesignPatterns.SummaryTitleAt and DesignPatterns.MatchAt: `\d` is the ASCII digits '0' to '9'; Python's `\d` on text also matches every other Unicode decimal digit.
- ComplianceChecks.ContentChecks, ComplianceChecks.StructureChecks, ComplianceChecks.AccessibilityChecks and ComplianceChecks.UnclearLabel: lengths count characters; JavaScript's `.length` counts UTF-16 code units, so text with characters outside the Basic Multilingual Plane (26 emoji are 52 units, over the 50 limit) is measured shorter in the model than in the code.
- ComplianceChecks.Capitalised and ComplianceChecks.StyleChecks: the capitals test (a word longer than 3 whose first character upper-casing leaves alone, at app/services/ai-compliance-checker.js:991-992) counts characters and upper-cases ASCII only. So "école école école école" is over-capitalised in the model but not in JavaScript, where 'é' upper-cases to 'É'. And four words "😀😀" are over-capitalised in JavaScript, where each is 4 UTF-16 units, but not in the model, where each is 2 characters.
- ComplianceContent.ExtractFormContent: `textContent` (`JSON.stringify` of the whole form) is not modelled; no check reads it. A question item without a `key` makes `toLowerCase` throw in the code; the model's keys are always text.
- ComplianceChecks.Analyze: the issues carry their severity, category and title; the prose fields (description, recommendation, example) are not modelled.
- The 2-second timer in `simulateAIAnalysis` and `loadDemoForm`'s file read (`app/services/ai-compliance-checker.js:169-249`) are not modelled. `generateRecommendations` is modelled as a function of an analysis; `analyzeForm` itself never calls it.
- Sections.CreateAndAssign: the 500 reply of the `catch` branches is the `Failed` outcome; the JSON bodies of the replies are not modelled.

## Behaviour kept as written

The model follows the code in these places, where the tool's own descriptions promise more.

- The array form of a declaration is recognised only when `]` is followed at once by `%}`. A page written `] %}` counts 0 research rounds.
- The accessibility test lower-cases the page but looks for "WCAG" and "ARIA" in capitals, so those two keywords never match.
- The findings, objectives and recommendations tests are plain substring tests, so only `type: "X"` with one space counts.
- The style check on punctuation flags every label that ends in "?", and the terminology check compares lower-cased labels with capitalised variants, which never match.

## Findings

| source | as written | input that shows it | evidently intended | confidence | as-written member | corrected member |
|---|---|---|---|---|---|---|
| app/assets/javascripts/coordinate-validation.js:51-53 | `getGridRef` rounds each offset to the precision with `Math.round`, so an offset near the top of a square fills a group with one digit too many. | `getGridRef` of (99995, 0) at precision 4 prints "SV 10000 0000", which `parseGridRef` rejects. | The offset is truncated, so the reference names the square that contains the point and parses back. | medium, not executed | GridRef.RoundingOverflowsGroup | GridRef.RoundTripTruncating |
| app/assets/javascripts/govuk-otp-input.js:93-96 | `handleInput` clears a box whose value has no character of the class and returns before `updateHiddenValue`. | Box 0 holds "5" and is selected; typing "a" empties it, but the hidden field still submits "5". | The hidden field is updated on that path too, so it always mirrors the boxes. | medium, not executed | OtpInput.RejectedInputLeavesStaleHiddenValue | OtpInput.HandleInput |
| app/routes/titan-mvp-1.2/routes.js:2353 | The editor's join handler pushes onto `formData.conditions` without creating it, unlike the original handler at `routes.js:12-14`. | A session whose conditions live only on pages; joining two of them throws a TypeError. | The form-level list is created when missing, and the joined condition is added to it. | high, not executed | JoinConditions.TitanJoinCrashesWithoutFormList | JoinConditions.TitanJoin |
| app/services/ai-compliance-checker.js:346-353 | `extractFormContent` keeps only the label, value and guessed type of a question. The design check reads `question.fieldType` and the hint check reads `q.hint`, and neither ever sees a value. | A form with one `EmailAddressField` question labelled "Email" scores 85 for design instead of 100. | Extraction keeps the item's component type and hint for the checks that read them. | medium, not executed | ComplianceChecks.DroppedFieldTypeCostsDesign | ComplianceContent.ExtractFormContent |

=== FILE: breakdown.dfy ===
/**
 The breakdown tables of the statistics report: a `defaultdict(int)` that
 counts occurrences of keys, read back with `sorted(d.items())`.

 A table is kept as its sorted item list, so the one structure is both the
 counter and the order in which the report prints it. Keys are either text
 (status, phase), compared code point by code point like Python strings, or
 integers (iteration counts), compared numerically.
 */
module Breakdown {

  datatype Key = TextKey(text: string) | NumKey(n: int)

  /** Python's `<` on two strings: lexicographic by code point, a proper prefix first. */
  predicate StrLess(a: string, b: string)
    decreases |a|
  {
    if |a| == 0 then |b| > 0
    else if |b| == 0 then false
    else if a[0] == b[0] then StrLess(a[1..], b[1..])
    else a[0] < b[0]
  }

  /** The order of `sorted` on the keys; the two kinds of key never share a table. */
  predicate KeyLess(a: Key, b: Key)
  {
    match (a, b)
    case (TextKey(x), TextKey(y)) => StrLess(x, y)
    case (NumKey(x), NumKey(y)) => x < y
    case (TextKey(_), NumKey(_)) => true
    case (NumKey(_), TextKey(_)) => false
  }

  lemma {:induction false} StrLessIrreflexive(a: string)
    ensures !StrLess(a, a)
    decreases |a|
  {
    if |a| > 0 {
      StrLessIrreflexive(a[1..]);
    }
  }

  lemma {:induction false} StrLessTransitive(a: string, b: string, c: string)
    requires StrLess(a, b) && StrLess(b, c)
    ensures StrLess(a, c)
    decreases |a|
  {
    if |a| > 0 && |b| > 0 && |c| > 0 && a[0] == b[0] && b[0] == c[0] {
      StrLessTransitive(a[1..], b[1..], c[1..]);
    }
  }

  lemma {:induction false} StrLessTotal(a: string, b: string)
    requires a != b
    ensures StrLess(a, b) || StrLess(b, a)
    decreases |a|
  {
    if |a| > 0 && |b| > 0 && a[0] == b[0] {
      assert a == [a[0]] + a[1..] && b == [b[0]] + b[1..];
      StrLessTotal(a[1..], b[1..]);
    }
  }

  lemma KeyLessTransitive(a: Key, b: Key, c: Key)
    requires KeyLess(a, b) && KeyLess(b, c)
    ensures KeyLess(a, c)
  {
    if a.TextKey? && b.TextKey? && c.TextKey? {
      StrLessTransitive(a.text, b.text, c.text);
    }
  }

  lemma KeyLessStrict(a: Key, b: Key)
    ensures !KeyLess(a, a)
    ensures a != b ==> KeyLess(a, b) || KeyLess(b, a)
    ensures KeyLess(a, b) ==> !KeyLess(b, a)
  {
    if a.TextKey? {
      StrLessIrreflexive(a.text);
      if b.TextKey? {
        if a != b { StrLessTotal(a.text, b.text); }
        if StrLess(a.text, b.text) && StrLess(b.text, a.text) {
          StrLessTransitive(a.text, b.text, a.text);
        }
      }
    }
  }

  type Table = seq<(Key, nat)>

  /** The items come in strictly increasing key order (so each key appears once) and every count is positive. */
  predicate Sorted(t: Table)
  {
    (forall i, j :: 0 <= i < j < |t| ==> KeyLess(t[i].0, t[j].0))
    && forall i :: 0 <= i < |t| ==> t[i].1 > 0
  }

  /** `d[k]` of a `defaultdict(int)`: the count of `k`, or 0 when it was never counted. */
  function Lookup(t: Table, k: Key): nat
  {
    if |t| == 0 then 0 else if t[0].0 == k then t[0].1 else Lookup(t[1..], k)
  }

  predicate HasKey(t: Table, k: Key)
  {
    exists i :: 0 <= i < |t| && t[i].0 == k
  }

  lemma HasKeyCons(x: (Key, nat), t: Table, k: Key)
    ensures HasKey([x] + t, k) <==> x.0 == k || HasKey(t, k)
  {
    var r := [x] + t;
    if HasKey(r, k) && x.0 != k {
      var i :| 0 <= i < |r| && r[i].0 == k;
      assert t[i - 1].0 == k;
    }
    if HasKey(t, k) {
      var i :| 0 <= i < |t| && t[i].0 == k;
      assert r[i + 1].0 == k;
    }
    if x.0 == k {
      assert r[0].0 == k;
    }
  }

  function Total(t: Table): nat
  {
    if |t| == 0 then 0 else t[0].1 + Total(t[1..])
  }

  /** `d[k] += 1` */
  function Bump(t: Table, k: Key): (r: Table)
    requires Sorted(t)
    ensures Sorted(r)
    ensures Lookup(r, k) == Lookup(t, k) + 1
    ensures forall k' :: k' != k ==> Lookup(r, k') == Lookup(t, k')
    ensures forall k' :: HasKey(r, k') <==> HasKey(t, k') || k' == k
    ensures Total(r) == Total(t) + 1
    decreases |t|
  {
    if |t| == 0 then [(k, 1)]
    else if t[0].0 == k then
      BumpHere(t, k);
      [(k, t[0].1 + 1)] + t[1..]
    else if KeyLess(k, t[0].0) then
      SortedFront(t, k);
      [(k, 1)] + t
    else
      KeyLessStrict(k, t[0].0);
      var rest := Bump(t[1..], k);
      BumpLater(t, k, rest);
      [t[0]] + rest
  }

  /** Raising the count of the first key keeps the table sorted and its keys. */
  lemma BumpHere(t: Table, k: Key)
    requires Sorted(t) && |t| > 0 && t[0].0 == k
    ensures Sorted([(k, t[0].1 + 1)] + t[1..])
    ensures forall k' :: HasKey([(k, t[0].1 + 1)] + t[1..], k') <==> HasKey(t, k')
  {
    var r := [(k, t[0].1 + 1)] + t[1..];
    assert r[1..] == t[1..];
    assert t == [t[0]] + t[1..];
    forall k' ensures HasKey(r, k') <==> HasKey(t, k') {
      HasKeyCons(r[0], t[1..], k');
      HasKeyCons(t[0], t[1..], k');
    }
  }

  /** Putting the first item back in front of the bumped rest keeps the table sorted. */
  lemma BumpLater(t: Table, k: Key, rest: Table)
    requires Sorted(t) && |t| > 0 && KeyLess(t[0].0, k) && Sorted(rest)
    requires forall k' :: HasKey(rest, k') <==> HasKey(t[1..], k') || k' == k
    ensures Sorted([t[0]] + rest)
    ensures forall k' :: HasKey([t[0]] + rest, k') <==> HasKey(t, k') || k' == k
  {
    var r := [t[0]] + rest;
    forall j | 0 < j < |r| ensures KeyLess(r[0].0, r[j].0) {
      assert r[j] == rest[j - 1];
      assert HasKey(rest, r[j].0);
      if r[j].0 != k {
        var m :| 0 <= m < |t[1..]| && t[1..][m].0 == r[j].0;
        assert t[1 + m].0 == r[j].0;
      }
    }
    assert t == [t[0]] + t[1..];
    forall k' ensures HasKey(r, k') <==> HasKey(t, k') || k' == k {
      HasKeyCons(t[0], rest, k');
      HasKeyCons(t[0], t[1..], k');
    }
  }

  lemma SortedFront(t: Table, k: Key)
    requires Sorted(t) && |t| > 0 && KeyLess(k, t[0].0)
    ensures Sorted([(k, 1)] + t)
    ensures Lookup(t, k) == 0
  {
    forall j | 0 < j < |t| ensures KeyLess(k, t[j].0) {
      KeyLessTransitive(k, t[0].0, t[j].0);
    }
    LookupAbsent(t, k);
  }

  lemma {:induction false} LookupAbsent(t: Table, k: Key)
    requires Sorted(t)
    requires forall i :: 0 <= i < |t| ==> KeyLess(k, t[i].0)
    ensures Lookup(t, k) == 0
  {
    if |t| > 0 {
      KeyLessStrict(k, t[0].0);
      LookupAbsent(t[1..], k);
    }
  }

  /** Occurrences of `k` in `keys`. */
  function Occurrences(keys: seq<Key>, k: Key): nat
  {
    if |keys| == 0 then 0 else (if keys[|keys| - 1] == k then 1 else 0) + Occurrences(keys[..|keys| - 1], k)
  }

  /** The table after counting every key of `keys` in turn. */
  function Tally(keys: seq<Key>): (r: Table)
    ensures Sorted(r)
  {
    if |keys| == 0 then [] else Bump(Tally(keys[..|keys| - 1]), keys[|keys| - 1])
  }

  /**
   The table counts each key exactly as often as it occurs, holds exactly
   the keys that occur, and its counts add up to the number of keys counted.
   */
  lemma {:induction false} TallyCounts(keys: seq<Key>)
    ensures forall k :: Lookup(Tally(keys), k) == Occurrences(keys, k)
    ensures forall k :: HasKey(Tally(keys), k) <==> k in keys
    ensures Total(Tally(keys)) == |keys|
  {
    if |keys| > 0 {
      var init := keys[..|keys| - 1];
      TallyCounts(init);
      assert keys == init + [keys[|keys| - 1]];
      forall k ensures k in keys <==> k in init || k == keys[|keys| - 1] { }
    }
  }

  /** A key is in a sorted table exactly when it has a non-zero count. */
  lemma {:induction false} HasKeyIffCounted(t: Table, k: Key)
    requires Sorted(t)
    ensures HasKey(t, k) <==> Lookup(t, k) > 0
  {
    if |t| > 0 {
      HasKeyIffCounted(t[1..], k);
      if t[0].0 != k {
        assert HasKey(t, k) <==> HasKey(t[1..], k) by {
          if HasKey(t, k) {
            var i :| 0 <= i < |t| && t[i].0 == k;
            assert t[1..][i - 1].0 == k;
          }
          if HasKey(t[1..], k) {
            var i :| 0 <= i < |t[1..]| && t[1..][i].0 == k;
            assert t[i + 1].0 == k;
          }
        }
      }
    }
  }
}

=== FILE: common.dfy ===
/**
 Shared vocabulary for the whole model: an optional value, substring search,
 ASCII case mapping, the whitespace classes of JavaScript and Python, trimming,
 and decimal printing and parsing of integers.
 */
module Common {

  datatype Option<+T> = None | Some(value: T)

  /** `w` occurs in `s` starting at index `i`. */
  predicate OccursAt(s: string, w: string, i: nat)
  {
    i + |w| <= |s| && s[i..i + |w|] == w
  }

  /** Substring test (`w in s` in Python, `s.includes(w)` in JavaScript). */
  function Contains(s: string, w: string): (r: bool)
    ensures r <==> exists i: nat :: OccursAt(s, w, i)
  {
    ContainsFrom(s, w, 0)
  }

  function ContainsFrom(s: string, w: string, k: nat): (r: bool)
    ensures r <==> exists i: nat :: k <= i && OccursAt(s, w, i)
    decreases |s| - k
  {
    if k + |w| > |s| then
      assert forall i: nat :: k <= i ==> !OccursAt(s, w, i);
      false
    else if s[k..k + |w|] == w then
      assert OccursAt(s, w, k);
      true
    else
      var r := ContainsFrom(s, w, k + 1);
      assert forall i: nat :: k <= i && OccursAt(s, w, i) ==> i == k || k + 1 <= i;
      r
  }

  predicate StartsWith(s: string, w: string)
  {
    |w| <= |s| && s[..|w|] == w
  }

  predicate EndsWith(s: string, w: string)
  {
    |w| <= |s| && s[|s| - |w|..] == w
  }

  predicate IsAsciiUpper(c: char) { 'A' <= c <= 'Z' }
  predicate IsAsciiLower(c: char) { 'a' <= c <= 'z' }
  predicate IsAsciiLetter(c: char) { IsAsciiUpper(c) || IsAsciiLower(c) }
  predicate IsDigit(c: char) { '0' <= c <= '9' }

  /** `\w` of both regex dialects restricted to ASCII: letters, digits and '_'. */
  predicate IsWordChar(c: char) { IsAsciiLetter(c) || IsDigit(c) || c == '_' }

  function LowerChar(c: char): (r: char)
    ensures !IsAsciiUpper(r)
    ensures IsAsciiUpper(c) ==> IsAsciiLower(r)
    ensures !IsAsciiUpper(c) ==> r == c
  {
    if IsAsciiUpper(c) then (c as int + 32) as char else c
  }

  function UpperChar(c: char): (r: char)
    ensures !IsAsciiLower(r)
    ensures IsAsciiLower(c) ==> IsAsciiUpper(r)
    ensures !IsAsciiLower(c) ==> r == c
  {
    if IsAsciiLower(c) then (c as int - 32) as char else c
  }

  /** The two case maps only ever change a letter into the same letter of the other case. */
  lemma CaseMapsAgree(c: char)
    ensures LowerChar(UpperChar(c)) == LowerChar(c)
    ensures UpperChar(LowerChar(c)) == UpperChar(c)
    ensures LowerChar(LowerChar(c)) == LowerChar(c) && UpperChar(UpperChar(c)) == UpperChar(c)
    ensures IsAsciiLetter(UpperChar(c)) <==> IsAsciiLetter(c)
    ensures IsAsciiLetter(LowerChar(c)) <==> IsAsciiLetter(c)
  {
  }

  /** Lower-casing of a whole string (ASCII letters only). */
  function Lower(s: string): (r: string)
    ensures |r| == |s|
    ensures forall i :: 0 <= i < |s| ==> r[i] == LowerChar(s[i])
  {
    seq(|s|, i requires 0 <= i < |s| => LowerChar(s[i]))
  }

  /** Upper-casing of a whole string (ASCII letters only). */
  function Upper(s: string): (r: string)
    ensures |r| == |s|
    ensures forall i :: 0 <= i < |s| ==> r[i] == UpperChar(s[i])
  {
    seq(|s|, i requires 0 <= i < |s| => UpperChar(s[i]))
  }

  /** A lower-cased string holds no ASCII capital, so no word containing one can occur in it. */
  lemma LowerHasNoCapital(s: string, w: string)
    requires exists j :: 0 <= j < |w| && IsAsciiUpper(w[j])
    ensures !Contains(Lower(s), w)
  {
    var j :| 0 <= j < |w| && IsAsciiUpper(w[j]);
    var l := Lower(s);
    forall i: nat | i + |w| <= |l|
      ensures !OccursAt(l, w, i)
    {
      assert l[i..i + |w|][j] == l[i + j];
      assert !IsAsciiUpper(l[i + j]);
    }
  }

  /** The `\s` class (and `trim`) of JavaScript: WhiteSpace and LineTerminator. */
  predicate IsJsSpace(c: char)
  {
    c == '\t' || c == '\n' || c == '\U{000B}' || c == '\U{000C}' || c == '\r' || c == ' '
    || c == '\U{00A0}' || c == '\U{1680}' || ('\U{2000}' <= c <= '\U{200A}')
    || c == '\U{2028}' || c == '\U{2029}' || c == '\U{202F}' || c == '\U{205F}'
    || c == '\U{3000}' || c == '\U{FEFF}'
  }

  /** The `\s` class of Python's `re` on str patterns (the characters `str.isspace` accepts). */
  predicate IsPySpace(c: char)
  {
    c == '\t' || c == '\n' || c == '\U{000B}' || c == '\U{000C}' || c == '\r' || c == ' '
    || ('\U{001C}' <= c <= '\U{001F}') || c == '\U{0085}'
    || c == '\U{00A0}' || c == '\U{1680}' || ('\U{2000}' <= c <= '\U{200A}')
    || c == '\U{2028}' || c == '\U{2029}' || c == '\U{202F}' || c == '\U{205F}'
    || c == '\U{3000}'
  }

  /** End of the run of characters satisfying `drop` that starts at `k`. */
  function SkipWhile(s: string, k: nat, drop: char -> bool): (r: nat)
    requires k <= |s|
    ensures k <= r <= |s|
    ensures forall i :: k <= i < r ==> drop(s[i])
    ensures r < |s| ==> !drop(s[r])
    decreases |s| - k
  {
    if k < |s| && drop(s[k]) then SkipWhile(s, k + 1, drop) else k
  }

  function StripStart(s: string, drop: char -> bool): (r: string)
    ensures |r| <= |s| && r == s[|s| - |r|..]
    ensures r == [] || !drop(r[0])
    ensures forall i :: 0 <= i < |s| - |r| ==> drop(s[i])
  {
    s[SkipWhile(s, 0, drop)..]
  }

  function StripEnd(s: string, drop: char -> bool): (r: string)
    ensures |r| <= |s| && r == s[..|r|]
    ensures r == [] || !drop(r[|r| - 1])
    ensures forall i :: |r| <= i < |s| ==> drop(s[i])
  {
    if |s| > 0 && drop(s[|s| - 1]) then StripEnd(s[..|s| - 1], drop) else s
  }

  /**
   Removal of the characters satisfying `drop` from both ends: Python `str.strip`
   and JavaScript `String.prototype.trim`. The result is the middle of `s`.
   */
  function Strip(s: string, drop: char -> bool): (r: string)
    ensures r == [] || (!drop(r[0]) && !drop(r[|r| - 1]))
    ensures var a := SkipWhile(s, 0, drop);
      a + |r| <= |s| && r == s[a..a + |r|] && forall i :: a + |r| <= i < |s| ==> drop(s[i])
    ensures (forall i :: 0 <= i < |s| ==> drop(s[i])) <==> r == []
  {
    StripAll(s, drop);
    StripEnd(StripStart(s, drop), drop)
  }

  lemma StripAll(s: string, drop: char -> bool)
    ensures (forall i :: 0 <= i < |s| ==> drop(s[i])) <==> StripEnd(StripStart(s, drop), drop) == []
    ensures var r := StripEnd(StripStart(s, drop), drop); var a := SkipWhile(s, 0, drop);
      a + |r| <= |s| && r == s[a..a + |r|] && forall i :: a + |r| <= i < |s| ==> drop(s[i])
  {
    var t := StripStart(s, drop);
    var r := StripEnd(t, drop);
    var a := |s| - |t|;
    assert r == s[a..a + |r|];
    forall i | a + |r| <= i < |s| ensures drop(s[i]) {
      assert s[i] == t[i - a];
    }
    if r == [] {
      assert t == [];
    } else {
      assert r[0] == t[0];
      assert !drop(s[|s| - |t|]);
    }
  }

  /** JavaScript `String.prototype.trim`. */
  function Trim(s: string): string
  {
    Strip(s, IsJsSpace)
  }

  /** JavaScript truthiness of an optional string: present and non-empty. */
  predicate Truthy(v: Option<string>)
  {
    v.Some? && v.value != ""
  }

  /** JavaScript `v || fallback` on an optional string. */
  function OrElse(v: Option<string>, fallback: string): (r: string)
    ensures Truthy(v) ==> r == v.value
    ensures !Truthy(v) ==> r == fallback
  {
    if Truthy(v) then v.value else fallback
  }

  // ---- decimal digits --------------------------------------------------------

  function DigitChar(d: nat): (c: char)
    requires d < 10
    ensures IsDigit(c)
  {
    ('0' as int + d) as char
  }

  function DigitVal(c: char): (d: nat)
    requires IsDigit(c)
    ensures d < 10 && DigitChar(d) == c
  {
    c as int - '0' as int
  }

  predicate AllDigits(s: string)
  {
    forall i :: 0 <= i < |s| ==> IsDigit(s[i])
  }

  /** Value of a string of decimal digits (JavaScript `parseInt(s, 10)` on such a string). */
  function DigitsValue(s: string): nat
    requires AllDigits(s)
  {
    if |s| == 0 then 0 else DigitsValue(s[..|s| - 1]) * 10 + DigitVal(s[|s| - 1])
  }

  function Pow10(n: nat): (r: nat)
    ensures r >= 1
  {
    if n == 0 then 1 else 10 * Pow10(n - 1)
  }

  lemma {:induction false} DigitsValueBound(s: string)
    requires AllDigits(s)
    ensures DigitsValue(s) < Pow10(|s|)
  {
    if |s| > 0 {
      DigitsValueBound(s[..|s| - 1]);
    }
  }

  /** Decimal representation of a natural number, without leading zeros ("0" for zero). */
  function NatToString(n: nat): (r: string)
    ensures |r| >= 1 && AllDigits(r)
    ensures DigitsValue(r) == n
    ensures |r| > 1 ==> r[0] != '0'
    decreases n
  {
    if n < 10 then [DigitChar(n)]
    else
      var p := NatToString(n / 10);
      var r := p + [DigitChar(n % 10)];
      assert r[..|r| - 1] == p;
      r
  }

  lemma {:induction false} NatToStringLength(n: nat, k: nat)
    requires n < Pow10(k)
    ensures |NatToString(n)| <= k || (n == 0 && k == 0)
  {
    if n >= 10 {
      NatToStringLength(n / 10, k - 1);
    }
  }

  /** JavaScript `String(n)` for an integer. */
  function IntToString(n: int): (r: string)
    ensures n >= 0 ==> r == NatToString(n)
    ensures n < 0 ==> r == "-" + NatToString(-n)
  {
    if n >= 0 then NatToString(n) else "-" + NatToString(-n)
  }

  /** Concatenation of a sequence of strings (`Array.prototype.join("")`). */
  function Concat(xs: seq<string>): (r: string)
  {
    if |xs| == 0 then [] else xs[0] + Concat(xs[1..])
  }

  /** `Array.prototype.join(sep)`. */
  function Join(xs: seq<string>, sep: string): string
  {
    if |xs| == 0 then []
    else if |xs| == 1 then xs[0]
    else xs[0] + sep + Join(xs[1..], sep)
  }

  /** The index of the first character `isSep` accepts, or nothing. */
  function FirstWhere(s: string, isSep: char -> bool): (r: Option<nat>)
    ensures r.Some? ==> r.value < |s| && isSep(s[r.value]) && forall i :: 0 <= i < r.value ==> !isSep(s[i])
    ensures r.None? ==> forall i :: 0 <= i < |s| ==> !isSep(s[i])
  {
    if |s| == 0 then None
    else if isSep(s[0]) then Some(0)
    else match FirstWhere(s[1..], isSep)
      case None => None
      case Some(k) => Some(k + 1)
  }

  /**
   `s.split(sep)` where the separator is one character of a class: the
   pieces between separators, empty ones included, so there is always one
   more piece than there are separators.
   */
  function SplitOn(s: string, isSep: char -> bool): (r: seq<string>)
    ensures |r| >= 1
    ensures forall k, i :: 0 <= k < |r| && 0 <= i < |r[k]| ==> !isSep(r[k][i])
    decreases |s|
  {
    match FirstWhere(s, isSep)
    case None => [s]
    case Some(k) => [s[..k]] + SplitOn(s[k + 1..], isSep)
  }

  /** A non-empty sequence is its first element followed by the rest. */
  lemma SplitFirst<T>(s: seq<T>)
    requires |s| > 0
    ensures s == [s[0]] + s[1..]
  {
  }

  lemma AppendAssoc<T>(a: seq<T>, b: seq<T>, c: seq<T>)
    ensures a + (b + c) == (a + b) + c
  {
  }

  // ---- filtering -------------------------------------------------------------

  /** `Array.prototype.filter` on a sequence: the elements `keep` accepts, in order. */
  function Filter<T>(s: seq<T>, keep: T -> bool): (r: seq<T>)
    ensures |r| <= |s|
    ensures forall i :: 0 <= i < |r| ==> keep(r[i])
  {
    if |s| == 0 then []
    else (if keep(s[0]) then [s[0]] else []) + Filter(s[1..], keep)
  }

  /** Filtering keeps order: the kept part of a concatenation is the concatenation of the kept parts. */
  lemma {:induction false} FilterAppend<T>(a: seq<T>, b: seq<T>, keep: T -> bool)
    ensures Filter(a + b, keep) == Filter(a, keep) + Filter(b, keep)
  {
    if |a| == 0 {
      assert a + b == b;
    } else {
      assert (a + b)[1..] == a[1..] + b;
      FilterAppend(a[1..], b, keep);
    }
  }

  /** A single element is kept exactly when it passes. */
  lemma FilterOne<T>(c: T, keep: T -> bool)
    ensures Filter([c], keep) == if keep(c) then [c] else []
  {
    assert [c][1..] == [];
  }

  /** Every element a filter keeps comes from its input. */
  lemma FilterFrom<T>(s: seq<T>, keep: T -> bool, i: nat)
    requires i < |Filter(s, keep)|
    ensures Filter(s, keep)[i] in s
  {
    FilterIn(s, keep);
  }

  lemma {:induction false} FilterIn<T>(s: seq<T>, keep: T -> bool)
    ensures forall c :: c in Filter(s, keep) ==> c in s
  {
    if |s| > 0 {
      FilterIn(s[1..], keep);
      forall c | c in Filter(s, keep) ensures c in s {
        if c != s[0] {
          assert c in Filter(s[1..], keep);
          assert c in s[1..];
        }
      }
    }
  }

  /** An element the filter accepts survives it. */
  lemma {:induction false} FilterKeepsMembers<T>(s: seq<T>, keep: T -> bool)
    ensures forall x :: x in s && keep(x) ==> x in Filter(s, keep)
  {
    if |s| > 0 {
      FilterKeepsMembers(s[1..], keep);
      assert forall x :: x in s ==> x == s[0] || x in s[1..];
    }
  }
}

=== FILE: compliance_checks.dfy ===
/**
 The compliance checker's scoring. Each of the six categories runs a fixed
 list of checks over the extracted content; a check that finds anything
 adds one issue and takes its fixed deduction once, however many questions
 it finds. A category's score is 100 less its deductions, floored at 0, and
 the category passes at 70. The form's score is the rounded mean of the six.
 */
module ComplianceChecks {
  import opened Common
  import opened ComplianceContent

  datatype Severity = Low | Medium | High

  /** The category an issue is filed under. */
  datatype Area =
      ContentClarity
    | FieldTypes
    | FieldValidation
    | FormStructure
    | QuestionJustification
    | AccessibilityArea
    | FormLength
    | StyleGuide

  /** The category's name as the report shows it. */
  function AreaName(x: Area): string
  {
    match x
    case ContentClarity => "Content clarity"
    case FieldTypes => "Field types"
    case FieldValidation => "Field validation"
    case FormStructure => "Form structure"
    case QuestionJustification => "Question justification"
    case AccessibilityArea => "Accessibility"
    case FormLength => "Form length"
    case StyleGuide => "Style guide"
  }

  /** What a check found. */
  datatype Problem =
      FormNameTooLong
    | TechnicalLanguage
    | UnclearLabels
    | BetterFieldTypes
    | ValidationRules
    | TooManyPerPage
    | EligibilityLate
    | UnjustifiedQuestions
    | BranchingLogic
    | ScreenReaderLabels
    | MissingHints
    | LongForm
    | GroupQuestions
    | ContractionsFound
    | NeedlessCapitals
    | OddPunctuationFound
    | JargonFound
    | PassiveVoice
    | FormalPhrasesFound
    | MixedTerms

  /** The issue's title as the report shows it. */
  function Title(x: Problem): string
  {
    match x
    case FormNameTooLong => "Form name is too long"
    case TechnicalLanguage => "Technical language detected in questions"
    case UnclearLabels => "Unclear or overly long question labels"
    case BetterFieldTypes => "Some fields could use better field types"
    case ValidationRules => "Some fields might need specific validation rules"
    case TooManyPerPage => "Pages with too many questions"
    case EligibilityLate => "Eligibility questions not prioritized"
    case UnjustifiedQuestions => "Complex questions without clear justification"
    case BranchingLogic => "Opportunities for branching logic"
    case ScreenReaderLabels => "Unclear field labels for screen readers"
    case MissingHints => "Complex fields missing hint text"
    case LongForm => "Long form detected"
    case GroupQuestions => "Consider grouping related questions"
    case ContractionsFound => "Some contractions may need review"
    case NeedlessCapitals => "Unnecessary capitalisation detected"
    case OddPunctuationFound => "Inconsistent punctuation detected"
    case JargonFound => "Jargon and technical terms detected"
    case PassiveVoice => "Passive voice detected"
    case FormalPhrasesFound => "Unnecessary formal phrases detected"
    case MixedTerms => "Inconsistent terminology detected"
  }

  /** An issue as the report lists it; the prose fields that only echo the form are not modelled. */
  datatype Issue = Issue(severity: Severity, category: Area, problem: Problem)

  /** One check: whether it found anything, what it deducts, and the issue it reports. */
  datatype Check = Check(fires: bool, deduction: nat, issue: Issue)

  datatype CategoryResult = CategoryResult(score: int, passed: bool, issues: seq<Issue>)

  /** The sum of the deductions of the checks that fire. */
  function Deducted(checks: seq<Check>): (r: nat)
    ensures r <= Total(checks)
  {
    if |checks| == 0 then 0
    else (if checks[0].fires then checks[0].deduction else 0) + Deducted(checks[1..])
  }

  /** The sum of every deduction a category can take. */
  function Total(checks: seq<Check>): nat
  {
    if |checks| == 0 then 0 else checks[0].deduction + Total(checks[1..])
  }

  /** The issues of the checks that fire, in the order of the checks. */
  function Fired(checks: seq<Check>): (r: seq<Issue>)
    ensures |r| <= |checks|
  {
    if |checks| == 0 then []
    else (if checks[0].fires then [checks[0].issue] else []) + Fired(checks[1..])
  }

  /** Peeling one check off the front of a suffix. */
  lemma TotalFrom(checks: seq<Check>, k: nat)
    requires k < |checks|
    ensures Total(checks[k..]) == checks[k].deduction + Total(checks[k + 1..])
  {
    assert checks[k..][1..] == checks[k + 1..];
  }

  /** A list of checks none of which fires deducts nothing and reports nothing. */
  lemma {:induction false} NoneFire(checks: seq<Check>)
    requires forall k :: 0 <= k < |checks| ==> !checks[k].fires
    ensures Deducted(checks) == 0 && Fired(checks) == []
  {
    if |checks| > 0 {
      NoneFire(checks[1..]);
    }
  }

  /** A category's result: `Math.max(0, score)`, passing when the unfloored score is at least 70. */
  function Settle(checks: seq<Check>): (r: CategoryResult)
    ensures 0 <= r.score <= 100
    ensures r.score >= 100 - Total(checks)
    ensures r.score == if 100 - Deducted(checks) < 0 then 0 else 100 - Deducted(checks)
    ensures r.passed <==> 100 - Deducted(checks) >= 70
    ensures r.issues == Fired(checks)
  {
    var raw := 100 - Deducted(checks);
    CategoryResult(if raw < 0 then 0 else raw, raw >= 70, Fired(checks))
  }

  /** When a category cannot lose more than 100 the floor never applies and the score alone decides the pass. */
  lemma SettleUnfloored(checks: seq<Check>)
    requires Total(checks) <= 100
    ensures Settle(checks).score == 100 - Deducted(checks)
    ensures Settle(checks).passed <==> Settle(checks).score >= 70
  {
  }

  /** No issue without a deduction: a category with full marks reports nothing, when every check deducts something. */
  lemma {:induction false} FullMarksNoIssues(checks: seq<Check>)
    requires forall k :: 0 <= k < |checks| ==> checks[k].deduction > 0
    ensures Deducted(checks) == 0 <==> Fired(checks) == []
  {
    if |checks| > 0 {
      FullMarksNoIssues(checks[1..]);
    }
  }

  // ---- question predicates -----------------------------------------------------------------

  /** Some question satisfies `p`. */
  predicate Any(qs: seq<Question>, p: Question -> bool)
  {
    exists k | 0 <= k < |qs| :: p(qs[k])
  }

  function LowLabel(q: Question): string { Lower(q.labelText) }

  const TechnicalTerms := [
    "mitigation", "accreditation", "registration", "compliance", "documentation", "methodology",
    "regulatory", "stakeholder", "infrastructure", "utilization", "earned recognition", "annexes",
    "licence", "legal status", "governance structure", "named contact", "joint licensee", "utilize",
    "facilitate", "implement", "leverage", "optimize", "protocol"]

  const VagueWords := ["please specify", "other", "additional", "relevant"]
  const OptionalPhrases := ["if applicable", "if any", "if required"]

  /** A label the content check finds unclear: a vague word or phrase, or more than 100 characters. */
  predicate UnclearLabel(q: Question)
  {
    HasWholeWord(LowLabel(q), VagueWords) || HasWholeWord(LowLabel(q), OptionalPhrases) || |q.labelText| > 100
  }

  /** The type the design check compares: the component type, else the guessed one. */
  function ShownType(q: Question): string
  {
    if Truthy(q.fieldType) then q.fieldType.value else KindName(q.inferred)
  }

  /** A question whose label suggests a field type its type is not. */
  predicate MisTyped(q: Question)
  {
    var l := LowLabel(q);
    var t := ShownType(q);
    || ((Contains(l, "email") || Contains(l, "e-mail")) && t != "EmailAddressField")
    || ((Contains(l, "phone") || Contains(l, "telephone") || Contains(l, "number")) && t != "TelephoneNumberField")
    || (Contains(l, "date") && t != "DatePartsField")
    || ((Contains(l, "number") || Contains(l, "amount") || Contains(l, "quantity")) && t != "NumberField" && !Contains(l, "phone"))
    || (Contains(l, "address") && t != "AddressField")
  }

  const FormatTerms := ["registration", "accreditation", "licence", "certificate", "reference"]
  const EligibilityTerms := ["registered", "eligible", "qualify", "permit", "license", "accreditation", "recognition"]
  const WeightyTerms := ["statement", "document", "evidence", "accreditation", "recognition", "legal status", "governance"]
  const BranchTerms := ["if", "other", "specify", "additional"]
  const HintTerms := ["registration", "accreditation", "licence", "certificate"]
  const ContactTerms := ["name", "email", "phone", "address"]
  const Contractions := ["can't", "won't", "don't"]
  const JargonTerms := [
    "utilize", "utilise", "facilitate", "implement", "leverage", "optimize", "optimise", "methodology",
    "protocol", "stakeholder", "infrastructure", "utilization", "utilisation", "facilitation",
    "implementation", "optimization", "optimisation"]
  const FormalPhrases := [
    "please note that", "it should be noted that", "kindly", "please be advised", "as per",
    "in accordance with", "with reference to", "pursuant to"]
  const CapitalisedAllowed := [
    "Name", "Email", "Phone", "Address", "Date", "Number", "Registration", "Accreditation", "England",
    "Wales", "Scotland", "Northern", "Ireland", "United", "Kingdom", "Government", "Department",
    "Service", "Office"]

  predicate Eligible(q: Question) { HasAny(LowLabel(q), EligibilityTerms) }

  /** `questions.findIndex(...)` for the first eligibility question. */
  function FirstEligible(qs: seq<Question>): (r: Option<nat>)
    ensures r.Some? ==> r.value < |qs| && Eligible(qs[r.value]) && forall k :: 0 <= k < r.value ==> !Eligible(qs[k])
    ensures r.None? <==> forall k :: 0 <= k < |qs| ==> !Eligible(qs[k])
  {
    if |qs| == 0 then None
    else if Eligible(qs[0]) then Some(0)
    else match FirstEligible(qs[1..])
      case None =>
        assert forall k :: 1 <= k < |qs| ==> qs[k] == qs[1..][k - 1];
        None
      case Some(k) => Some(k + 1)
  }

  /** A word the style check counts as capitalised: longer than 3, a first character that upper-casing leaves alone, and not on the allowed list. */
  predicate Capitalised(w: string)
  {
    |w| > 3 && UpperChar(w[0]) == w[0] && w !in CapitalisedAllowed
  }

  predicate IsSpaceChar(c: char) { c == ' ' }

  /** More than 3 capitalised words among the label's space-separated words. */
  predicate OverCapitalised(q: Question)
  {
    |Filter(SplitOn(q.labelText, IsSpaceChar), Capitalised)| > 3
  }

  /** The punctuation test as written: a '?' or '!' beside a '.', or a label ending in '?' or '!'. */
  predicate OddPunctuation(q: Question)
  {
    var s := q.labelText;
    || ('?' in s && '.' in s)
    || ('!' in s && '.' in s)
    || (EndsWith(s, "?") && '?' in s)
    || (EndsWith(s, "!") && '!' in s)
  }

  /** The spellings the terminology check groups under one term, as written. */
  const Variations := [
    ["email", "e-mail", "Email", "E-mail"],
    ["phone", "telephone", "Phone", "Telephone"],
    ["name", "full name", "Name", "Full name"],
    ["address", "Address", "postal address", "Postal address"]]

  /** More than one question uses some spelling of one of the grouped terms. */
  predicate MixedTerminology(qs: seq<Question>)
  {
    exists g | 0 <= g < |Variations| :: |Filter(qs, (q: Question) => HasAny(LowLabel(q), Variations[g]))| > 1
  }

  // ---- the six categories ------------------------------------------------------------------

  function ContentChecks(c: FormContent): (r: seq<Check>)
    ensures |r| == 3 && Total(r) == 50
    ensures r[0].deduction == 15 && r[0].issue == Issue(Medium, ContentClarity, FormNameTooLong)
    ensures r[1].deduction == 20 && r[1].issue == Issue(High, ContentClarity, TechnicalLanguage)
    ensures r[2].deduction == 15 && r[2].issue == Issue(Medium, ContentClarity, UnclearLabels)
    ensures r[0].fires <==> |c.formName| > 50
  {
    var r := [ Check(|c.formName| > 50, 15, Issue(Medium, ContentClarity, FormNameTooLong)),
      Check(Any(c.questions, (q: Question) => HasAny(LowLabel(q), TechnicalTerms)), 20,
            Issue(High, ContentClarity, TechnicalLanguage)),
      Check(Any(c.questions, UnclearLabel), 15,
            Issue(Medium, ContentClarity, UnclearLabels)) ];
    assert r[3..] == [] && r[0..] == r;
    TotalFrom(r, 2);
    TotalFrom(r, 1);
    TotalFrom(r, 0);
    r
  }

  function DesignChecks(c: FormContent): (r: seq<Check>)
    ensures |r| == 2 && Total(r) == 20
    ensures r[0].deduction == 15 && r[0].issue == Issue(Medium, FieldTypes, BetterFieldTypes)
    ensures r[1].deduction == 5 && r[1].issue == Issue(Low, FieldValidation, ValidationRules)
  {
    var r := [ Check(Any(c.questions, MisTyped), 15, Issue(Medium, FieldTypes, BetterFieldTypes)),
      Check(Any(c.questions, (q: Question) => HasAny(LowLabel(q), FormatTerms)), 5,
            Issue(Low, FieldValidation, ValidationRules)) ];
    assert r[2..] == [] && r[0..] == r;
    TotalFrom(r, 1);
    TotalFrom(r, 0);
    r
  }

  predicate Crowded(p: PageSummary) { p.questionCount > 3 }

  function StructureChecks(c: FormContent): (r: seq<Check>)
    ensures |r| == 4 && Total(r) == 70
    ensures r[0].deduction == 20 && r[0].issue == Issue(Medium, FormStructure, TooManyPerPage)
    ensures r[1].deduction == 15 && r[1].issue == Issue(Medium, FormStructure, EligibilityLate)
    ensures r[2].deduction == 25 && r[2].issue == Issue(High, QuestionJustification, UnjustifiedQuestions)
    ensures r[3].deduction == 10 && r[3].issue == Issue(Medium, FormStructure, BranchingLogic)
    ensures r[1].fires <==> FirstEligible(c.questions).Some? && FirstEligible(c.questions).value > 2
  {
    var first := FirstEligible(c.questions);
    var r := [ Check(exists k | 0 <= k < |c.pages| :: Crowded(c.pages[k]), 20,
            Issue(Medium, FormStructure, TooManyPerPage)),
      Check(first.Some? && first.value > 2, 15, Issue(Medium, FormStructure, EligibilityLate)),
      Check(Any(c.questions, (q: Question) => |q.labelText| > 80 || HasAny(LowLabel(q), WeightyTerms)), 25,
            Issue(High, QuestionJustification, UnjustifiedQuestions)),
      Check(Any(c.questions, (q: Question) => HasAny(LowLabel(q), BranchTerms)), 10,
            Issue(Medium, FormStructure, BranchingLogic)) ];
    assert r[4..] == [] && r[0..] == r;
    TotalFrom(r, 3);
    TotalFrom(r, 2);
    TotalFrom(r, 1);
    TotalFrom(r, 0);
    r
  }

  function AccessibilityChecks(c: FormContent): (r: seq<Check>)
    ensures |r| == 2 && Total(r) == 25
    ensures r[0].deduction == 15 && r[0].issue == Issue(Medium, AccessibilityArea, ScreenReaderLabels)
    ensures r[1].deduction == 10 && r[1].issue == Issue(Low, AccessibilityArea, MissingHints)
  {
    var r := [ Check(Any(c.questions, (q: Question) => |q.labelText| < 3 || Contains(LowLabel(q), "field") || Contains(LowLabel(q), "input") || |LowLabel(q)| > 100), 15,
            Issue(Medium, AccessibilityArea, ScreenReaderLabels)),
      Check(Any(c.questions, (q: Question) => HasAny(LowLabel(q), HintTerms) && !Truthy(q.hint)), 10,
            Issue(Low, AccessibilityArea, MissingHints)) ];
    assert r[2..] == [] && r[0..] == r;
    TotalFrom(r, 1);
    TotalFrom(r, 0);
    r
  }

  function ExperienceChecks(c: FormContent): (r: seq<Check>)
    ensures |r| == 3 && Total(r) == 30
    ensures r[0].deduction == 15 && r[0].issue == Issue(Medium, FormLength, LongForm)
    ensures r[1].deduction == 10 && r[1].issue == Issue(Medium, FormLength, TooManyPerPage)
    ensures r[2].deduction == 5 && r[2].issue == Issue(Low, FormLength, GroupQuestions)
    ensures r[0].fires <==> |c.questions| > 15
  {
    var r := [ Check(|c.questions| > 15, 15, Issue(Medium, FormLength, LongForm)),
      Check(exists k | 0 <= k < |c.pages| :: Crowded(c.pages[k]), 10,
            Issue(Medium, FormLength, TooManyPerPage)),
      Check(|Filter(c.questions, (q: Question) => HasAny(LowLabel(q), ContactTerms))| > 3, 5,
            Issue(Low, FormLength, GroupQuestions)) ];
    assert r[3..] == [] && r[0..] == r;
    TotalFrom(r, 2);
    TotalFrom(r, 1);
    TotalFrom(r, 0);
    r
  }

  function StyleChecks(c: FormContent): (r: seq<Check>)
    ensures |r| == 7 && Total(r) == 65
    ensures r[0].deduction == 5 && r[0].issue == Issue(Low, StyleGuide, ContractionsFound)
    ensures r[1].deduction == 5 && r[1].issue == Issue(Low, StyleGuide, NeedlessCapitals)
    ensures r[2].deduction == 5 && r[2].issue == Issue(Low, StyleGuide, OddPunctuationFound)
    ensures r[3].deduction == 20 && r[3].issue == Issue(High, StyleGuide, JargonFound)
    ensures r[4].deduction == 10 && r[4].issue == Issue(Medium, StyleGuide, PassiveVoice)
    ensures r[5].deduction == 10 && r[5].issue == Issue(Medium, StyleGuide, FormalPhrasesFound)
    ensures r[6].deduction == 10 && r[6].issue == Issue(Medium, StyleGuide, MixedTerms)
    ensures r[6].fires <==> MixedTerminology(c.questions)
  {
    var r := [ Check(Any(c.questions, (q: Question) => HasAny(LowLabel(q), Contractions)), 5,
            Issue(Low, StyleGuide, ContractionsFound)),
      Check(Any(c.questions, OverCapitalised), 5, Issue(Low, StyleGuide, NeedlessCapitals)),
      Check(Any(c.questions, OddPunctuation), 5, Issue(Low, StyleGuide, OddPunctuationFound)),
      Check(Any(c.questions, (q: Question) => HasAny(LowLabel(q), JargonTerms)), 20,
            Issue(High, StyleGuide, JargonFound)),
      Check(Any(c.questions, (q: Question) => IsPassive(q.labelText)), 10,
            Issue(Medium, StyleGuide, PassiveVoice)),
      Check(Any(c.questions, (q: Question) => HasAny(LowLabel(q), FormalPhrases)), 10,
            Issue(Medium, StyleGuide, FormalPhrasesFound)),
      Check(MixedTerminology(c.questions), 10, Issue(Medium, StyleGuide, MixedTerms)) ];
    assert r[7..] == [] && r[0..] == r;
    TotalFrom(r, 6);
    TotalFrom(r, 5);
    TotalFrom(r, 4);
    TotalFrom(r, 3);
    TotalFrom(r, 2);
    TotalFrom(r, 1);
    TotalFrom(r, 0);
    r
  }

  // ---- the analysis --------------------------------------------------------------------------

  datatype Categories = Categories(
    content: CategoryResult,
    formDesign: CategoryResult,
    formStructure: CategoryResult,
    accessibility: CategoryResult,
    userExperience: CategoryResult,
    styleGuide: CategoryResult)

  datatype Analysis = Analysis(overallScore: int, passed: bool, issues: seq<Issue>, categories: Categories)

  function ScoreSum(cs: Categories): int
  {
    cs.content.score + cs.formDesign.score + cs.formStructure.score
    + cs.accessibility.score + cs.userExperience.score + cs.styleGuide.score
  }

  /** `Math.round(sum / 6)` for a non-negative sum: halves round up. */
  function RoundedMean(sum: nat): (r: nat)
    ensures 6 * r - 3 <= sum < 6 * r + 3
  {
    (sum + 3) / 6
  }

  /** The categories of one analysis, in the order the checker runs them. */
  function Categorise(c: FormContent): Categories
  {
    Categories(Settle(ContentChecks(c)), Settle(DesignChecks(c)), Settle(StructureChecks(c)),
               Settle(AccessibilityChecks(c)), Settle(ExperienceChecks(c)), Settle(StyleChecks(c)))
  }

  /**
   `analyzeForm` on extracted content: the issues of the six categories in
   order, the rounded mean score, and a pass when that score is at least 70
   and there are no more than 3 issues.
   */
  function Analyze(c: FormContent): (r: Analysis)
    ensures r.categories == Categorise(c)
    ensures r.issues == r.categories.content.issues + r.categories.formDesign.issues + r.categories.formStructure.issues
      + r.categories.accessibility.issues + r.categories.userExperience.issues + r.categories.styleGuide.issues
    ensures 6 * r.overallScore - 3 <= ScoreSum(r.categories) < 6 * r.overallScore + 3
    ensures r.passed <==> r.overallScore >= 70 && |r.issues| <= 3
  {
    var cs := Categorise(c);
    var issues := cs.content.issues + cs.formDesign.issues + cs.formStructure.issues
      + cs.accessibility.issues + cs.userExperience.issues + cs.styleGuide.issues;
    var overall := RoundedMean(ScoreSum(cs));
    Analysis(overall, overall >= 70 && |issues| <= 3, issues, cs)
  }

  /** `analyzeForm(formData)`, on the content with each question's component type and hint. */
  function AnalyzeForm(f: FormData): (r: Analysis)
    ensures 57 <= r.overallScore <= 100
    ensures |r.issues| <= 21
    ensures r.passed <==> r.overallScore >= 70 && |r.issues| <= 3
  {
    var c := ExtractFormContent(f);
    OverallAtLeast(c);
    OverallAtMost(c);
    IssuesAtMostOnePerCheck(c);
    Analyze(c)
  }

  /** `analyzeForm(formData)` as written: the checks never see a question's component type or hint. */
  function AnalyzeFormAsWritten(f: FormData): (r: Analysis)
    ensures 57 <= r.overallScore <= 100
    ensures |r.issues| <= 21
    ensures r.passed <==> r.overallScore >= 70 && |r.issues| <= 3
  {
    var c := ExtractFormContentAsWritten(f);
    OverallAtLeast(c);
    OverallAtMost(c);
    IssuesAtMostOnePerCheck(c);
    Analyze(c)
  }

  /**
   When no check-answers item names a component type or carries a hint, the
   extraction as written loses nothing and the two analyses agree.
   */
  lemma AnalyzeFormAgrees(f: FormData)
    requires f.checkAnswersItems.Some? ==>
      forall i :: 0 <= i < |f.checkAnswersItems.value| ==>
        f.checkAnswersItems.value[i].fieldType.None? && f.checkAnswersItems.value[i].hint.None?
    ensures AnalyzeFormAsWritten(f) == AnalyzeForm(f)
  {
    var c := ExtractFormContent(f);
    var w := ExtractFormContentAsWritten(f);
    if f.checkAnswersItems.Some? {
      var items := f.checkAnswersItems.value;
      var src := Filter(items, IsQuestionItem);
      FilterIn(items, IsQuestionItem);
      forall k | 0 <= k < |c.questions| ensures w.questions[k] == c.questions[k] {
        assert src[k] in items;
      }
    }
    assert w.questions == c.questions;
    assert w == c;
  }

  /**
   No category can lose more than 70, so the floor at 0 never applies, every
   score is 100 less the deductions of the checks that fired, and each
   category passes exactly when its score is at least 70.
   */
  lemma ScoresUnfloored(c: FormContent)
    ensures var cs := Categorise(c);
      && cs.content.score == 100 - Deducted(ContentChecks(c)) && (cs.content.passed <==> cs.content.score >= 70)
      && cs.formDesign.score == 100 - Deducted(DesignChecks(c)) && (cs.formDesign.passed <==> cs.formDesign.score >= 70)
      && cs.formStructure.score == 100 - Deducted(StructureChecks(c)) && (cs.formStructure.passed <==> cs.formStructure.score >= 70)
      && cs.accessibility.score == 100 - Deducted(AccessibilityChecks(c)) && (cs.accessibility.passed <==> cs.accessibility.score >= 70)
      && cs.userExperience.score == 100 - Deducted(ExperienceChecks(c)) && (cs.userExperience.passed <==> cs.userExperience.score >= 70)
      && cs.styleGuide.score == 100 - Deducted(StyleChecks(c)) && (cs.styleGuide.passed <==> cs.styleGuide.score >= 70)
  {
    SettleUnfloored(ContentChecks(c));
    SettleUnfloored(DesignChecks(c));
    SettleUnfloored(StructureChecks(c));
    SettleUnfloored(AccessibilityChecks(c));
    SettleUnfloored(ExperienceChecks(c));
    SettleUnfloored(StyleChecks(c));
  }

  /** The lowest the overall score can be: 57, when every check of every category fires. */
  lemma OverallAtLeast(c: FormContent)
    ensures Analyze(c).overallScore >= 57
  {
    var r := Analyze(c);
    assert ScoreSum(r.categories) >= 340;
  }

  /** No category scores above 100, so neither does the mean. */
  lemma OverallAtMost(c: FormContent)
    ensures Analyze(c).overallScore <= 100
  {
    var r := Analyze(c);
    assert ScoreSum(r.categories) <= 600;
  }

  /** At most 21 issues, one per check. */
  lemma IssuesAtMostOnePerCheck(c: FormContent)
    ensures |Analyze(c).issues| <= 21
  {
  }

  /** A category none of whose checks fires scores 100, passes and reports nothing. */
  lemma Quiet(checks: seq<Check>)
    requires forall k :: 0 <= k < |checks| ==> !checks[k].fires
    ensures Settle(checks) == CategoryResult(100, true, [])
  {
    NoneFire(checks);
  }

  /** A form with no questions and no pages trips no check outside content, and in content only the long-name one. */
  lemma EmptyFormQuiet(c: FormContent)
    requires c.questions == [] && c.pages == []
    ensures Settle(DesignChecks(c)) == CategoryResult(100, true, [])
    ensures Settle(StructureChecks(c)) == CategoryResult(100, true, [])
    ensures Settle(AccessibilityChecks(c)) == CategoryResult(100, true, [])
    ensures Settle(ExperienceChecks(c)) == CategoryResult(100, true, [])
    ensures Settle(StyleChecks(c)) == CategoryResult(100, true, [])
    ensures Settle(ContentChecks(c)).score >= 85 && |Settle(ContentChecks(c)).issues| <= 1
  {
    EmptyDesign(c);
    EmptyStructure(c);
    EmptyAccessibility(c);
    EmptyExperience(c);
    EmptyStyle(c);
    var cc := ContentChecks(c);
    NoneFire(cc[1..]);
    assert Deducted(cc) == (if cc[0].fires then 15 else 0) + Deducted(cc[1..]);
    assert Fired(cc) == (if cc[0].fires then [cc[0].issue] else []) + Fired(cc[1..]);
  }

  lemma EmptyDesign(c: FormContent)
    requires c.questions == [] && c.pages == []
    ensures Settle(DesignChecks(c)) == CategoryResult(100, true, [])
  {
    var r := DesignChecks(c);
    forall k | 0 <= k < |r| ensures !r[k].fires { }
    Quiet(r);
  }

  lemma EmptyStructure(c: FormContent)
    requires c.questions == [] && c.pages == []
    ensures Settle(StructureChecks(c)) == CategoryResult(100, true, [])
  {
    var r := StructureChecks(c);
    forall k | 0 <= k < |r| ensures !r[k].fires { }
    Quiet(r);
  }

  lemma EmptyAccessibility(c: FormContent)
    requires c.questions == [] && c.pages == []
    ensures Settle(AccessibilityChecks(c)) == CategoryResult(100, true, [])
  {
    var r := AccessibilityChecks(c);
    forall k | 0 <= k < |r| ensures !r[k].fires { }
    Quiet(r);
  }

  lemma EmptyExperience(c: FormContent)
    requires c.questions == [] && c.pages == []
    ensures Settle(ExperienceChecks(c)) == CategoryResult(100, true, [])
  {
    var r := ExperienceChecks(c);
    forall k | 0 <= k < |r| ensures !r[k].fires { }
    Quiet(r);
  }

  lemma EmptyStyle(c: FormContent)
    requires c.questions == [] && c.pages == []
    ensures Settle(StyleChecks(c)) == CategoryResult(100, true, [])
  {
    var r := StyleChecks(c);
    forall k | 0 <= k < |r| ensures !r[k].fires { }
    Quiet(r);
  }

  /** A form with no questions passes, whatever its name. */
  lemma EmptyFormPasses(name: string)
    ensures Analyze(FormContent(name, [], [], [])).passed
  {
    var c := FormContent(name, [], [], []);
    EmptyFormQuiet(c);
    var r := Analyze(c);
    assert ScoreSum(r.categories) >= 585;
  }

  // ---- recommendations -----------------------------------------------------------------------

  datatype Priority = PriorityHigh | PriorityMedium

  /** What a recommendation asks for. */
  datatype Advice = AddressCritical | ImproveClarity | CompleteSetup | OptimizeStructure

  /** The recommendation's title as the report shows it. */
  function AdviceTitle(x: Advice): string
  {
    match x
    case AddressCritical => "Address critical issues first"
    case ImproveClarity => "Improve content clarity"
    case CompleteSetup => "Complete essential form setup"
    case OptimizeStructure => "Optimize form structure"
  }

  datatype Recommendation = Recommendation(priority: Priority, advice: Advice)

  /**
   `generateRecommendations(analysis)`: one entry for each of the overall,
   content, design and structure scores that is below 70, in that order.
   */
  function Recommendations(a: Analysis): (r: seq<Recommendation>)
    ensures |r| <= 4
    ensures r == [] <==>
      && a.overallScore >= 70 && a.categories.content.score >= 70
      && a.categories.formDesign.score >= 70 && a.categories.formStructure.score >= 70
    ensures a.overallScore < 70 ==> r[0] == Recommendation(PriorityHigh, AddressCritical)
    ensures a.categories.formStructure.score < 70 ==> r[|r| - 1] == Recommendation(PriorityMedium, OptimizeStructure)
  {
    (if a.overallScore < 70 then [Recommendation(PriorityHigh, AddressCritical)] else [])
    + (if a.categories.content.score < 70 then [Recommendation(PriorityMedium, ImproveClarity)] else [])
    + (if a.categories.formDesign.score < 70 then [Recommendation(PriorityHigh, CompleteSetup)] else [])
    + (if a.categories.formStructure.score < 70 then [Recommendation(PriorityMedium, OptimizeStructure)] else [])
  }

  /** The design category never scores below 80, so its recommendation never appears. */
  lemma NoDesignRecommendation(c: FormContent)
    ensures Recommendation(PriorityHigh, CompleteSetup) !in Recommendations(Analyze(c))
  {
    DesignFloor(c);
  }

  /** The design checks take at most 20 points. */
  lemma DesignFloor(c: FormContent)
    ensures Settle(DesignChecks(c)).score >= 80
  {
  }

  /** A passing form gets no recommendation to address critical issues. */
  lemma PassingFormNotCritical(c: FormContent)
    requires Analyze(c).passed
    ensures Recommendation(PriorityHigh, AddressCritical) !in Recommendations(Analyze(c))
  {
  }

  // ---- the dropped component type ------------------------------------------------------------

  /** A question item "Email" made by an email component. */
  const EmailItem := Item("question", "Email", "a@b.c", None, Some("EmailAddressField"), None)

  /** A word longer than the text does not occur in it. */
  lemma TooLong(s: string, w: string)
    requires |w| > |s|
    ensures !Contains(s, w)
  {
  }

  /**
   The email question of a form made from an email component: the design
   check reads its component type when extraction keeps it, and sees only
   the guessed type "email" when extraction drops it, so the same form
   scores 100 or 85 for design.
   */
  lemma DroppedFieldTypeCostsDesign()
    ensures AnalyzeForm(FormData(Some("Contact"), Some([EmailItem]))).categories.formDesign.score == 100
    ensures AnalyzeFormAsWritten(FormData(Some("Contact"), Some([EmailItem]))).categories.formDesign.score == 85
  {
    var f := FormData(Some("Contact"), Some([EmailItem]));
    var q := QuestionOf(EmailItem);
    EmailItemExtracted(f);
    EmailQuestionTyped(q);
    EmptyDesignDeducted(ExtractFormContent(f), q);
    EmptyDesignDeducted(ExtractFormContentAsWritten(f), Bare(q));
  }

  lemma EmailItemExtracted(f: FormData)
    requires f == FormData(Some("Contact"), Some([EmailItem]))
    ensures ExtractFormContent(f).questions == [QuestionOf(EmailItem)]
    ensures ExtractFormContentAsWritten(f).questions == [Bare(QuestionOf(EmailItem))]
  {
    assert Filter([EmailItem], IsQuestionItem) == [EmailItem];
  }

  /** The email question passes the design checks on its component type, and fails on its guessed type. */
  lemma EmailQuestionTyped(q: Question)
    requires q == QuestionOf(EmailItem)
    ensures !MisTyped(q) && MisTyped(Bare(q))
    ensures !HasAny(LowLabel(q), FormatTerms) && !HasAny(LowLabel(Bare(q)), FormatTerms)
  {
    var l := LowLabel(q);
    assert l == "email";
    assert Contains(l, "email");
    assert !Contains(l, "e-mail") && !Contains(l, "phone") && !Contains(l, "date") && !Contains(l, "amount") by {
      assert !OccursAt(l, "e-mail", 0);
      assert l[0..4] == "emai" && l[1..5] == "mail";
      assert !OccursAt(l, "date", 0) && !OccursAt(l, "date", 1);
    }
    TooLong(l, "telephone");
    TooLong(l, "number");
    TooLong(l, "address");
    TooLong(l, "quantity");
    assert !HasAny(l, FormatTerms) by {
      forall k | 0 <= k < |FormatTerms| ensures !Contains(l, FormatTerms[k]) {
        TooLong(l, FormatTerms[k]);
      }
    }
  }

  /** The design score of one-question content. */
  lemma EmptyDesignDeducted(c: FormContent, q: Question)
    requires c.questions == [q] && !HasAny(LowLabel(q), FormatTerms)
    ensures Settle(DesignChecks(c)).score == if MisTyped(q) then 85 else 100
  {
    var r := DesignChecks(c);
    assert Any(c.questions, MisTyped) == MisTyped(q) by {
      assert c.questions[0] == q;
    }
    assert !r[1].fires;
    assert Deducted(r) == (if r[0].fires then 15 else 0) + Deducted(r[1..]);
    assert Deducted(r[1..]) == 0 by { NoneFire(r[1..]); }
  }
}

=== FILE: compliance_content.dfy ===
/**
 What the compliance checker reads from a form: the questions and pages of
 its check-answers items, the field type it guesses for each question, and
 the text patterns its checks look for.
 */
module ComplianceContent {
  import opened Common

  // ---- the form as submitted -------------------------------------------------------------

  /** A question listed under a page item. */
  datatype PageQuestion = PageQuestion(labelText: string, value: string)

  /**
   One check-answers item: `kind` is its `type` ("question" or "page"); a
   question item may say which component made it and carry hint text.
   */
  datatype Item = Item(
    kind: string,
    key: string,
    value: string,
    questions: Option<seq<PageQuestion>>,
    fieldType: Option<string>,
    hint: Option<string>)

  datatype FormData = FormData(formName: Option<string>, checkAnswersItems: Option<seq<Item>>)

  // ---- field type inference --------------------------------------------------------------

  datatype FieldKind = EmailKind | PhoneKind | DateKind | AddressKind | TextKind | RadioKind | NumberKind

  /** The string `inferFieldType` returns for each kind. */
  function KindName(k: FieldKind): (r: string)
    ensures r in {"email", "phone", "date", "address", "text", "radio", "number"}
  {
    match k
    case EmailKind => "email"
    case PhoneKind => "phone"
    case DateKind => "date"
    case AddressKind => "address"
    case TextKind => "text"
    case RadioKind => "radio"
    case NumberKind => "number"
  }

  /** `/\d{2}\s\d{2}\s\d{4}/` matches at `i`. */
  predicate DateDigitsAt(v: string, i: nat)
  {
    i + 10 <= |v|
    && IsDigit(v[i]) && IsDigit(v[i + 1]) && IsJsSpace(v[i + 2])
    && IsDigit(v[i + 3]) && IsDigit(v[i + 4]) && IsJsSpace(v[i + 5])
    && IsDigit(v[i + 6]) && IsDigit(v[i + 7]) && IsDigit(v[i + 8]) && IsDigit(v[i + 9])
  }

  predicate HasDateDigits(v: string)
  {
    exists i | 0 <= i <= |v| :: DateDigitsAt(v, i)
  }

  /** `/\d+/` matches somewhere. */
  predicate HasDigit(v: string)
  {
    exists i | 0 <= i < |v| :: IsDigit(v[i])
  }

  /** The cues of each branch of the inference, on the lower-cased label `l` and value `v`. */
  predicate EmailCue(l: string, v: string) { Contains(l, "email") || Contains(v, "@") }
  predicate PhoneCue(l: string) { Contains(l, "phone") || Contains(l, "number") }
  predicate DateCue(l: string, v: string) { Contains(l, "date") || HasDateDigits(v) }
  predicate RadioCue(l: string, v: string) { Contains(l, "yes") || Contains(l, "no") || v == "yes" || v == "no" }

  /**
   `inferFieldType(label, value)`: the first of email, phone, date, address,
   name (text), yes/no (radio) and digits (number) whose cue is present in
   the lower-cased label and value; text when none is.
   */
  function InferFieldType(labelText: string, value: string): (r: FieldKind)
  {
    var l := Lower(labelText);
    var v := Lower(value);
    if EmailCue(l, v) then EmailKind
    else if PhoneCue(l) then PhoneKind
    else if DateCue(l, v) then DateKind
    else if Contains(l, "address") then AddressKind
    else if Contains(l, "name") then TextKind
    else if RadioCue(l, v) then RadioKind
    else if HasDigit(v) && !Contains(l, "phone") then NumberKind
    else TextKind
  }

  /** The inference as a priority list: a kind is chosen exactly when its cue holds and no earlier cue does. */
  lemma InferFieldTypeOrder(labelText: string, value: string)
    ensures var l := Lower(labelText); var v := Lower(value); var r := InferFieldType(labelText, value);
      && (r == EmailKind <==> EmailCue(l, v))
      && (r == PhoneKind <==> !EmailCue(l, v) && PhoneCue(l))
      && (r == DateKind <==> !EmailCue(l, v) && !PhoneCue(l) && DateCue(l, v))
      && (r == AddressKind <==> !EmailCue(l, v) && !PhoneCue(l) && !DateCue(l, v) && Contains(l, "address"))
      && (r == RadioKind <==> !EmailCue(l, v) && !PhoneCue(l) && !DateCue(l, v) && !Contains(l, "address")
                              && !Contains(l, "name") && RadioCue(l, v))
      && (r == NumberKind <==> !EmailCue(l, v) && !PhoneCue(l) && !DateCue(l, v) && !Contains(l, "address")
                               && !Contains(l, "name") && !RadioCue(l, v) && HasDigit(v))
  {
  }

  /**
   The number branch's "no phone in the label" test never decides anything:
   a label mentioning a phone has already been classed as a phone.
   */
  lemma NumberGuardRedundant(labelText: string, value: string)
    ensures var l := Lower(labelText); var v := Lower(value);
      InferFieldType(labelText, value) == NumberKind <==>
        !EmailCue(l, v) && !PhoneCue(l) && !DateCue(l, v) && !Contains(l, "address")
        && !Contains(l, "name") && !RadioCue(l, v) && HasDigit(v)
  {
    InferFieldTypeOrder(labelText, value);
  }

  /** The component type names the form designer gives fields. */
  const ComponentTypes: set<string> := {
    "TextField", "EmailAddressField", "TelephoneNumberField", "NumberField", "RadiosField",
    "CheckboxesField", "DatePartsField", "TextareaField", "FileUploadField", "SelectField",
    "AddressField" }

  /** An inferred type is never the name of a component type. */
  lemma KindNameNotComponent(k: FieldKind)
    ensures KindName(k) !in ComponentTypes
  {
  }

  // ---- sample values ---------------------------------------------------------------------

  /** `getSampleValue(fieldType)`: a sample answer per component type, "Sample value" for any other. */
  function SampleValue(fieldType: string): (r: string)
    ensures r != ""
    ensures r == "Sample value" <==> fieldType !in ComponentTypes - {"AddressField"}
  {
    match fieldType
    case "TextField" => "Sample text input"
    case "EmailAddressField" => "user@example.com"
    case "TelephoneNumberField" => "07700 900457"
    case "NumberField" => "12345"
    case "RadiosField" => "Yes"
    case "CheckboxesField" => "Option 1"
    case "DatePartsField" => "01 01 2024"
    case "TextareaField" => "Sample textarea content"
    case "FileUploadField" => "1 file uploaded"
    case "SelectField" => "Option 1"
    case _ => "Sample value"
  }

  /** The sample answers of the email and date components are inferred back as those kinds. */
  lemma SampleValuesInferBack(labelText: string)
    requires !Contains(Lower(labelText), "email")
    ensures InferFieldType(labelText, SampleValue("EmailAddressField")) == EmailKind
    ensures !Contains(Lower(labelText), "phone") && !Contains(Lower(labelText), "number") ==>
      InferFieldType(labelText, SampleValue("DatePartsField")) == DateKind
  {
    var at := SampleValue("EmailAddressField");
    assert OccursAt(Lower(at), "@", 4);
    var date := Lower(SampleValue("DatePartsField"));
    assert date == "01 01 2024";
    assert DateDigitsAt(date, 0);
    CharAbsent(date, '@');
  }

  /** A text without the character does not contain it. */
  lemma CharAbsent(s: string, c: char)
    requires c !in s
    ensures !Contains(s, [c])
  {
    forall i: nat ensures !OccursAt(s, [c], i) {
      if i + 1 <= |s| {
        assert s[i..i + 1] == [s[i]];
      }
    }
  }

  // ---- the extracted content -------------------------------------------------------------

  /** A question as the checks see it. */
  datatype Question = Question(labelText: string, value: string, inferred: FieldKind, fieldType: Option<string>, hint: Option<string>)

  datatype PageSummary = PageSummary(title: string, questionCount: nat)

  datatype FormContent = FormContent(formName: string, questions: seq<Question>, pages: seq<PageSummary>, examples: seq<string>)

  predicate IsQuestionItem(it: Item) { it.kind == "question" }
  predicate IsPageItem(it: Item) { it.kind == "page" && it.questions.Some? }

  /** The question a question item gives, keeping its component type and hint. */
  function QuestionOf(it: Item): Question
  {
    Question(it.key, it.value, InferFieldType(it.key, it.value), it.fieldType, it.hint)
  }

  function PageOf(it: Item): PageSummary
    requires IsPageItem(it)
  {
    PageSummary(it.key, |it.questions.value|)
  }

  /** `${label}: ${value}` */
  function Example(labelText: string, value: string): string
  {
    labelText + ": " + value
  }

  function PageExamples(qs: seq<PageQuestion>): (r: seq<string>)
    ensures |r| == |qs|
  {
    if |qs| == 0 then [] else [Example(qs[0].labelText, qs[0].value)] + PageExamples(qs[1..])
  }

  datatype Collected = Collected(questions: seq<Question>, pages: seq<PageSummary>, examples: seq<string>)

  /** The pass over the check-answers items: question items give questions, page items with questions give pages. */
  function CollectItems(items: seq<Item>): (r: Collected)
  {
    if |items| == 0 then Collected([], [], [])
    else
      var rest := CollectItems(items[1..]);
      var it := items[0];
      if IsQuestionItem(it) then
        Collected([QuestionOf(it)] + rest.questions, rest.pages, [Example(it.key, it.value)] + rest.examples)
      else if IsPageItem(it) then
        Collected(rest.questions, [PageOf(it)] + rest.pages, PageExamples(it.questions.value) + rest.examples)
      else rest
  }

  /** The questions are exactly the question items, in order. */
  lemma {:induction false} CollectQuestions(items: seq<Item>)
    ensures var qs := CollectItems(items).questions; var src := Filter(items, IsQuestionItem);
      |qs| == |src| && forall k :: 0 <= k < |qs| ==> qs[k] == QuestionOf(src[k])
  {
    if |items| > 0 {
      CollectQuestions(items[1..]);
      var rest := Filter(items[1..], IsQuestionItem);
      if IsQuestionItem(items[0]) {
        assert Filter(items, IsQuestionItem) == [items[0]] + rest;
      } else {
        assert Filter(items, IsQuestionItem) == rest;
      }
    }
  }

  /** The pages are exactly the page items that list questions, in order, with their question counts. */
  lemma {:induction false} CollectPages(items: seq<Item>)
    ensures var ps := CollectItems(items).pages; var src := Filter(items, IsPageItem);
      |ps| == |src| && forall k :: 0 <= k < |ps| ==> ps[k] == PageOf(src[k])
  {
    if |items| > 0 {
      CollectPages(items[1..]);
      var rest := Filter(items[1..], IsPageItem);
      if IsPageItem(items[0]) {
        assert Filter(items, IsPageItem) == [items[0]] + rest;
      } else {
        assert Filter(items, IsPageItem) == rest;
      }
    }
  }

  /**
   `extractFormContent(formData)`, keeping each question's component type
   and hint: the form name defaults to "Untitled Form", and a form without
   check-answers items has no questions and no pages.
   */
  function ExtractFormContent(f: FormData): (r: FormContent)
    ensures r.formName == OrElse(f.formName, "Untitled Form") && r.formName != ""
    ensures f.checkAnswersItems.None? ==> r.questions == [] && r.pages == [] && r.examples == []
    ensures f.checkAnswersItems.Some? ==>
      var src := Filter(f.checkAnswersItems.value, IsQuestionItem);
      |r.questions| == |src| && forall k :: 0 <= k < |src| ==> r.questions[k] == QuestionOf(src[k])
    ensures f.checkAnswersItems.Some? ==>
      var src := Filter(f.checkAnswersItems.value, IsPageItem);
      |r.pages| == |src| && forall k :: 0 <= k < |src| ==> r.pages[k] == PageOf(src[k])
  {
    var items := if f.checkAnswersItems.Some? then f.checkAnswersItems.value else [];
    CollectQuestions(items);
    CollectPages(items);
    var c := CollectItems(items);
    FormContent(OrElse(f.formName, "Untitled Form"), c.questions, c.pages, c.examples)
  }

  /** A question as the source's extraction builds it: labelText, value and guessed type only. */
  function Bare(q: Question): Question
  {
    q.(fieldType := None, hint := None)
  }

  /**
   `extractFormContent(formData)` as written: the questions lose the
   component type and hint of their items, so the checks that read them see
   neither.
   */
  function ExtractFormContentAsWritten(f: FormData): (r: FormContent)
    ensures var c := ExtractFormContent(f);
      && r.(questions := c.questions) == c
      && |r.questions| == |c.questions|
      && forall k :: 0 <= k < |r.questions| ==> r.questions[k] == Bare(c.questions[k]) && r.questions[k].fieldType.None? && r.questions[k].hint.None?
  {
    var c := ExtractFormContent(f);
    c.(questions := seq(|c.questions|, k requires 0 <= k < |c.questions| => Bare(c.questions[k])))
  }

  // ---- text patterns ---------------------------------------------------------------------

  /** Some term of the list occurs in `s`. */
  predicate HasAny(s: string, terms: seq<string>)
  {
    exists k | 0 <= k < |terms| :: Contains(s, terms[k])
  }

  /** `w` occurs at `i` as a whole word: `\bw\b` for a `w` that starts and ends with a word character. */
  predicate WholeWordAt(s: string, w: string, i: nat)
  {
    OccursAt(s, w, i)
    && (i == 0 || !IsWordChar(s[i - 1]))
    && (i + |w| == |s| || !IsWordChar(s[i + |w|]))
  }

  /** `/\b(w1|w2|...)\b/i` on the lower-cased text. */
  predicate HasWholeWord(s: string, words: seq<string>)
  {
    exists i, k | 0 <= i <= |s| && 0 <= k < |words| :: WholeWordAt(s, words[k], i)
  }

  /**
   After index `j`: at least one space, then a word of at least `stem` + |suffix|
   word characters ending in `suffix` and followed by no word character —
   `\s+\w+ed\b` for suffix "ed" and stem 1.
   */
  predicate WordEndingAfter(s: string, j: nat, suffix: string, stem: nat)
    requires j <= |s|
  {
    var k := SkipWhile(s, j, IsJsSpace);
    var m := SkipWhile(s, k, IsWordChar);
    k > j && m - k >= stem + |suffix| && s[m - |suffix|..m] == suffix
  }

  const BeForms := ["is", "are", "was", "were", "be", "been", "being"]
  const HaveForms := ["has", "have", "had"]

  /** `\b(is|are|was|were|be|been|being)\s+\w+ed\b` matches at `i`. */
  predicate BePassiveAt(s: string, i: nat)
  {
    exists k | 0 <= k < |BeForms| :: WholeWordAt(s, BeForms[k], i) && WordEndingAfter(s, i + |BeForms[k]|, "ed", 1)
  }

  /** `\b(has|have|had)\s+been\s+\w+ing\b` matches at `i`. */
  predicate HaveBeenAt(s: string, i: nat)
  {
    exists k | 0 <= k < |HaveForms| ::
      && WholeWordAt(s, HaveForms[k], i)
      && var j := SkipWhile(s, i + |HaveForms[k]|, IsJsSpace);
      && j > i + |HaveForms[k]|
      && OccursAt(s, "been", j)
      && WordEndingAfter(s, j + 4, "ing", 1)
  }

  /** Either passive-voice pattern matches the label, case-insensitively. */
  predicate IsPassive(labelText: string)
  {
    var s := Lower(labelText);
    exists i | 0 <= i <= |s| :: BePassiveAt(s, i) || HaveBeenAt(s, i)
  }
}

=== FILE: condition_apply.dfy ===
/**
 The condition handlers of the form editor that put conditions on pages and
 take them off again: apply, remove-from-pages and save-changes. Each is a
 pure function from one session record to the next.
 */
module ConditionApply {
  import opened Common
  import opened FormSession

  // ---- finding conditions --------------------------------------------------------------

  /** `cs.findIndex(c => String(c.id) === id)`, as an index or nothing. */
  function FindConditionIndex(cs: seq<Condition>, id: string): (r: Option<nat>)
    ensures r.Some? ==>
      r.value < |cs| && IdText(cs[r.value].id) == id
      && forall k :: 0 <= k < r.value ==> IdText(cs[k].id) != id
    ensures r.None? <==> !HasId(cs, id)
  {
    FindConditionFrom(cs, id, 0)
  }

  function FindConditionFrom(cs: seq<Condition>, id: string, i: nat): (r: Option<nat>)
    requires i <= |cs|
    requires forall k :: 0 <= k < i ==> IdText(cs[k].id) != id
    ensures r.Some? ==>
      i <= r.value < |cs| && IdText(cs[r.value].id) == id
      && forall k :: 0 <= k < r.value ==> IdText(cs[k].id) != id
    ensures r.None? <==> !HasId(cs, id)
    decreases |cs| - i
  {
    if i == |cs| then None
    else if IdText(cs[i].id) == id then Some(i)
    else FindConditionFrom(cs, id, i + 1)
  }

  /** A condition with the id exists, at form level or on some page. */
  predicate Present(s: Session, id: string)
  {
    (s.conditions.Some? && HasId(s.conditions.value, id))
    || exists j :: 0 <= j < |s.formPages| && HasId(PageConditions(s.formPages[j]), id)
  }

  /** The page-level search of the apply handler: the first page, in order, that holds the id gives its copy. */
  function FindOnPages(pages: seq<Page>, id: string): (r: Option<Condition>)
    ensures r.Some? ==> IdText(r.value.id) == id
    ensures r.Some? ==> exists j :: 0 <= j < |pages| && r.value in PageConditions(pages[j])
    ensures r.None? <==> forall j :: 0 <= j < |pages| ==> !HasId(PageConditions(pages[j]), id)
    decreases |pages|
  {
    if |pages| == 0 then None
    else
      match FindConditionIndex(PageConditions(pages[0]), id)
      case Some(k) => Some(PageConditions(pages[0])[k])
      case None =>
        var r := FindOnPages(pages[1..], id);
        assert forall j :: 1 <= j < |pages| ==> pages[j] == pages[1..][j - 1];
        r
  }

  /**
   The apply handler's lookup of one requested id: the form-level condition
   when there is one, otherwise the copy on the first page that holds it.
   */
  function LookupCondition(s: Session, id: string): (r: Option<Condition>)
    ensures r.Some? ==> IdText(r.value.id) == id
    ensures r.None? <==> !Present(s, id)
    ensures s.conditions.Some? && HasId(s.conditions.value, id) ==> r.Some? && r.value in s.conditions.value
  {
    var atForm := if s.conditions.Some? then FindConditionIndex(s.conditions.value, id) else None;
    match atForm
    case Some(k) => Some(s.conditions.value[k])
    case None => FindOnPages(s.formPages, id)
  }

  /** `conditionIds.map(lookup).filter(Boolean)`: a requested id is found exactly when it exists somewhere. */
  function FoundConditions(s: Session, ids: seq<string>): (r: seq<Condition>)
    ensures forall id :: HasId(r, id) <==> id in ids && Present(s, id)
    decreases |ids|
  {
    if |ids| == 0 then []
    else
      var head := match LookupCondition(s, ids[0])
        case None => []
        case Some(c) => [c];
      var rest := FoundConditions(s, ids[1..]);
      HasIdConcat(head, rest);
      assert forall id :: id in ids <==> id == ids[0] || id in ids[1..] by {
        assert ids == [ids[0]] + ids[1..];
      }
      assert forall id :: HasId(head, id) <==> id == ids[0] && Present(s, id) by {
        if head != [] { assert head[0] == LookupCondition(s, ids[0]).value; }
      }
      head + rest
  }

  // ---- adding a condition to chosen pages ----------------------------------------------

  /** The page apart from its conditions. */
  function Frame(p: Page): Page
  {
    p.(conditions := None)
  }

  /**
   Page `j` is the one `formPages.find(p => String(p.pageId) === pid)` picks
   for some chosen `pid`: its id is chosen and no earlier page has that id.
   */
  predicate Targeted(pages: seq<Page>, pids: seq<string>, j: nat)
    requires j < |pages|
  {
    PageIdText(pages[j]) in pids
    && forall i :: 0 <= i < j ==> PageIdText(pages[i]) != PageIdText(pages[j])
  }

  /**
   One step of `selectedPages.forEach`: the page with the id gets its
   conditions list (created when missing) and `c` is pushed onto it unless a
   condition with `checkId` is already there.
   */
  function AddIfAbsent(pages: seq<Page>, pid: string, checkId: string, c: Condition): (r: seq<Page>)
    ensures |r| == |pages|
    ensures forall j :: 0 <= j < |pages| ==> Frame(r[j]) == Frame(pages[j])
    ensures FindPage(pages, pid).None? ==> r == pages
    ensures FindPage(pages, pid).Some? ==> r[FindPage(pages, pid).value].conditions.Some?
  {
    match FindPage(pages, pid)
    case None => pages
    case Some(i) =>
      var cs := PageConditions(pages[i]);
      pages[i := pages[i].(conditions := Some(if HasId(cs, checkId) then cs else cs + [c]))]
  }

  /** One step adds one copy of `c`'s id to the page found, if it lacked `checkId`, and nothing else. */
  lemma AddIfAbsentCount(pages: seq<Page>, pid: string, checkId: string, c: Condition, j: nat, id: string)
    requires j < |pages|
    ensures CountId(PageConditions(AddIfAbsent(pages, pid, checkId, c)[j]), id)
      == CountId(PageConditions(pages[j]), id)
         + (if FindPage(pages, pid) == Some(j) && !HasId(PageConditions(pages[j]), checkId) && IdText(c.id) == id then 1 else 0)
  {
    if FindPage(pages, pid) == Some(j) {
      PushCounts(PageConditions(pages[j]), c);
    }
  }

  /** `selectedPages.forEach(...)` with one condition. */
  function AddAll(pages: seq<Page>, pids: seq<string>, checkId: string, c: Condition): (r: seq<Page>)
    ensures |r| == |pages|
    ensures forall j :: 0 <= j < |pages| ==> Frame(r[j]) == Frame(pages[j])
    decreases |pids|
  {
    if |pids| == 0 then pages
    else AddAll(AddIfAbsent(pages, pids[0], checkId, c), pids[1..], checkId, c)
  }

  /** Pages with the same ids in the same places are targeted alike. */
  lemma TargetedSameIds(a: seq<Page>, b: seq<Page>, pids: seq<string>)
    requires |a| == |b| && forall j :: 0 <= j < |a| ==> Frame(a[j]) == Frame(b[j])
    ensures forall j :: 0 <= j < |a| ==> (Targeted(a, pids, j) <==> Targeted(b, pids, j))
  {
    assert forall j :: 0 <= j < |a| ==> PageIdText(a[j]) == PageIdText(b[j]) by {
      forall j | 0 <= j < |a| ensures PageIdText(a[j]) == PageIdText(b[j]) {
        assert a[j].pageId == Frame(a[j]).pageId;
      }
    }
  }

  /** The pages targeted by a list of ids: the one the first id finds, and those the rest target. */
  lemma TargetedStep(pages: seq<Page>, pids: seq<string>, j: nat)
    requires |pids| > 0 && j < |pages|
    ensures Targeted(pages, pids, j) <==> FindPage(pages, pids[0]) == Some(j) || Targeted(pages, pids[1..], j)
  {
    assert pids == [pids[0]] + pids[1..];
  }

  /**
   After adding `c` to the chosen pages, each page the choice targets holds
   the id exactly once if it held it nowhere before, and every other count
   is what it was.
   */
  lemma {:induction false} AddAllCount(pages: seq<Page>, pids: seq<string>, c: Condition, j: nat, id: string)
    requires j < |pages|
    ensures CountId(PageConditions(AddAll(pages, pids, IdText(c.id), c)[j]), id)
      == if id == IdText(c.id) && Targeted(pages, pids, j) && !HasId(PageConditions(pages[j]), id) then 1
         else CountId(PageConditions(pages[j]), id)
    decreases |pids|
  {
    if |pids| > 0 {
      var cid := IdText(c.id);
      var p1 := AddIfAbsent(pages, pids[0], cid, c);
      AddIfAbsentCount(pages, pids[0], cid, c, j, id);
      AddAllCount(p1, pids[1..], c, j, id);
      TargetedSameIds(p1, pages, pids[1..]);
      TargetedStep(pages, pids, j);
    }
  }

  /** A step changes nothing when the page found already holds the id it checks for. */
  lemma AddIfAbsentNoOp(pages: seq<Page>, pid: string, checkId: string, c: Condition)
    requires FindPage(pages, pid).Some? ==> HasId(PageConditions(pages[FindPage(pages, pid).value]), checkId)
    ensures AddIfAbsent(pages, pid, checkId, c) == pages
  {
    var found := FindPage(pages, pid);
    if found.Some? {
      var p := pages[found.value];
      assert p.conditions.Some?;
      assert p.(conditions := Some(p.conditions.value)) == p;
    }
  }

  /** Adding changes nothing when every targeted page already holds the id it checks for. */
  lemma {:induction false} AddAllNoOp(pages: seq<Page>, pids: seq<string>, checkId: string, c: Condition)
    requires forall j :: 0 <= j < |pages| && Targeted(pages, pids, j) ==> HasId(PageConditions(pages[j]), checkId)
    ensures AddAll(pages, pids, checkId, c) == pages
    decreases |pids|
  {
    if |pids| > 0 {
      var found := FindPage(pages, pids[0]);
      if found.Some? {
        TargetedStep(pages, pids, found.value);
      }
      AddIfAbsentNoOp(pages, pids[0], checkId, c);
      forall j | 0 <= j < |pages| && Targeted(pages, pids[1..], j) ensures HasId(PageConditions(pages[j]), checkId) {
        TargetedStep(pages, pids, j);
      }
      AddAllNoOp(pages, pids[1..], checkId, c);
    }
  }

  // ---- the apply handler ---------------------------------------------------------------

  /** A page choice the apply handler keeps: not the `_unchecked` marker and not a JSON array's text. */
  predicate IsPageChoice(pid: string)
  {
    pid != "_unchecked" && !StartsWith(pid, "[")
  }

  /** The apply handler's cleaned list of chosen page ids. */
  function PageChoices(raw: seq<string>): (r: seq<string>)
    ensures forall pid :: pid in r <==> pid in raw && IsPageChoice(pid)
  {
    FilterIn(raw, IsPageChoice);
    FilterKeepsMembers(raw, IsPageChoice);
    Filter(raw, IsPageChoice)
  }

  /** `conditions.forEach(condition => selectedPages.forEach(...))` */
  function ApplyToAll(pages: seq<Page>, conds: seq<Condition>, pids: seq<string>): (r: seq<Page>)
    ensures |r| == |pages|
    ensures forall j :: 0 <= j < |pages| ==> Frame(r[j]) == Frame(pages[j])
    decreases |conds|
  {
    if |conds| == 0 then pages
    else ApplyToAll(AddAll(pages, pids, IdText(conds[0].id), conds[0]), conds[1..], pids)
  }

  lemma {:induction false} ApplyToAllCount(pages: seq<Page>, conds: seq<Condition>, pids: seq<string>, j: nat, id: string)
    requires j < |pages|
    ensures CountId(PageConditions(ApplyToAll(pages, conds, pids)[j]), id)
      == if HasId(conds, id) && Targeted(pages, pids, j) && !HasId(PageConditions(pages[j]), id) then 1
         else CountId(PageConditions(pages[j]), id)
    decreases |conds|
  {
    if |conds| > 0 {
      var p1 := AddAll(pages, pids, IdText(conds[0].id), conds[0]);
      AddAllCount(pages, pids, conds[0], j, id);
      ApplyToAllCount(p1, conds[1..], pids, j, id);
      TargetedSameIds(p1, pages, pids);
      HasIdStep(conds, id);
    }
  }

  lemma HasIdStep(cs: seq<Condition>, id: string)
    requires |cs| > 0
    ensures HasId(cs, id) <==> IdText(cs[0].id) == id || HasId(cs[1..], id)
  {
    assert cs == [cs[0]] + cs[1..];
    HasIdConcat([cs[0]], cs[1..]);
    CountIdOne(cs[0], id);
  }

  lemma {:induction false} ApplyToAllNoOp(pages: seq<Page>, conds: seq<Condition>, pids: seq<string>)
    requires forall j, id :: 0 <= j < |pages| && Targeted(pages, pids, j) && HasId(conds, id) ==> HasId(PageConditions(pages[j]), id)
    ensures ApplyToAll(pages, conds, pids) == pages
    decreases |conds|
  {
    if |conds| > 0 {
      assert HasId(conds, IdText(conds[0].id));
      AddAllNoOp(pages, pids, IdText(conds[0].id), conds[0]);
      forall j, id | 0 <= j < |pages| && Targeted(pages, pids, j) && HasId(conds[1..], id)
        ensures HasId(PageConditions(pages[j]), id)
      {
        HasIdStep(conds, id);
      }
      ApplyToAllNoOp(pages, conds[1..], pids);
    }
  }

  /**
   The apply handler: with at least one requested id and one chosen page,
   every condition found is put on every chosen page that does not hold it
   yet. Nothing but the pages' condition lists changes.
   */
  function Apply(s: Session, conditionIds: seq<string>, pagesRaw: seq<string>): (r: Session)
    ensures r.(formPages := s.formPages) == s
    ensures |r.formPages| == |s.formPages|
    ensures forall j :: 0 <= j < |s.formPages| ==> Frame(r.formPages[j]) == Frame(s.formPages[j])
  {
    var pids := PageChoices(pagesRaw);
    if |conditionIds| == 0 || |pids| == 0 then s
    else
      var conds := FoundConditions(s, conditionIds);
      if |conds| == 0 then s
      else s.(formPages := ApplyToAll(s.formPages, conds, pids))
  }

  /**
   What apply does to every page and every id: a targeted page that did not
   hold a requested, existing id now holds it exactly once; every other
   count is unchanged.
   */
  lemma ApplyCount(s: Session, conditionIds: seq<string>, pagesRaw: seq<string>, j: nat, id: string)
    requires j < |s.formPages|
    ensures CountId(PageConditions(Apply(s, conditionIds, pagesRaw).formPages[j]), id)
      == if id in conditionIds && Present(s, id) && Targeted(s.formPages, PageChoices(pagesRaw), j)
            && !HasId(PageConditions(s.formPages[j]), id) then 1
         else CountId(PageConditions(s.formPages[j]), id)
  {
    var pids := PageChoices(pagesRaw);
    if |conditionIds| > 0 && |pids| > 0 {
      var conds := FoundConditions(s, conditionIds);
      if |conds| > 0 {
        ApplyToAllCount(s.formPages, conds, pids, j, id);
      } else {
        assert !HasId(conds, id);
      }
    } else if |pids| == 0 {
      assert PageIdText(s.formPages[j]) !in pids;
    }
  }

  /** After apply, every targeted page holds every requested id that exists. */
  lemma ApplyCovers(s: Session, conditionIds: seq<string>, pagesRaw: seq<string>, j: nat, id: string)
    requires j < |s.formPages| && Targeted(s.formPages, PageChoices(pagesRaw), j)
    requires id in conditionIds && Present(s, id)
    ensures HasId(PageConditions(Apply(s, conditionIds, pagesRaw).formPages[j]), id)
  {
    ApplyCount(s, conditionIds, pagesRaw, j, id);
  }

  /** Apply never puts a second copy of an id on a page. */
  lemma ApplyKeepsAtMostOnce(s: Session, conditionIds: seq<string>, pagesRaw: seq<string>, id: string)
    requires forall j :: 0 <= j < |s.formPages| ==> CountId(PageConditions(s.formPages[j]), id) <= 1
    ensures forall j :: 0 <= j < |s.formPages| ==> CountId(PageConditions(Apply(s, conditionIds, pagesRaw).formPages[j]), id) <= 1
  {
    forall j | 0 <= j < |s.formPages| ensures CountId(PageConditions(Apply(s, conditionIds, pagesRaw).formPages[j]), id) <= 1 {
      ApplyCount(s, conditionIds, pagesRaw, j, id);
    }
  }

  /** An id apply leaves somewhere already existed before. */
  lemma ApplyAddsOnlyPresent(s: Session, conditionIds: seq<string>, pagesRaw: seq<string>, id: string)
    requires Present(Apply(s, conditionIds, pagesRaw), id)
    ensures Present(s, id)
  {
    var r := Apply(s, conditionIds, pagesRaw);
    if !(r.conditions.Some? && HasId(r.conditions.value, id)) {
      var j :| 0 <= j < |r.formPages| && HasId(PageConditions(r.formPages[j]), id);
      ApplyCount(s, conditionIds, pagesRaw, j, id);
      if HasId(PageConditions(s.formPages[j]), id) {
        assert 0 <= j < |s.formPages|;
      }
    }
  }

  /** Applying the same request twice is applying it once. */
  lemma ApplyIdempotent(s: Session, conditionIds: seq<string>, pagesRaw: seq<string>)
    ensures Apply(Apply(s, conditionIds, pagesRaw), conditionIds, pagesRaw) == Apply(s, conditionIds, pagesRaw)
  {
    var r := Apply(s, conditionIds, pagesRaw);
    var pids := PageChoices(pagesRaw);
    if |conditionIds| > 0 && |pids| > 0 {
      var conds := FoundConditions(r, conditionIds);
      TargetedSameIds(r.formPages, s.formPages, pids);
      forall j, id | 0 <= j < |r.formPages| && Targeted(r.formPages, pids, j) && HasId(conds, id)
        ensures HasId(PageConditions(r.formPages[j]), id)
      {
        ApplyAddsOnlyPresent(s, conditionIds, pagesRaw, id);
        ApplyCount(s, conditionIds, pagesRaw, j, id);
      }
      ApplyToAllNoOp(r.formPages, conds, pids);
    }
  }

  // ---- the remove-from-pages handler ---------------------------------------------------

  /** One entry of the remove handler's `selections`: a page id and the condition ids to take off that page. */
  datatype Selection = Selection(pageId: string, conditionIds: seq<string>)

  /** One step of `Object.entries(selections).forEach(...)`. */
  function RemoveSelected(pages: seq<Page>, sel: Selection): (r: seq<Page>)
    ensures |r| == |pages|
    ensures forall j :: 0 <= j < |pages| ==> Frame(r[j]) == Frame(pages[j])
    ensures forall j :: 0 <= j < |pages| && FindPage(pages, sel.pageId) != Some(j) ==> r[j] == pages[j]
    ensures FindPage(pages, sel.pageId).Some? ==>
      var i := FindPage(pages, sel.pageId).value;
      forall id :: CountId(PageConditions(r[i]), id) == if id in sel.conditionIds then 0 else CountId(PageConditions(pages[i]), id)
  {
    match FindPage(pages, sel.pageId)
    case None => pages
    case Some(i) => pages[i := pages[i].(conditions := Some(WithoutIds(PageConditions(pages[i]), sel.conditionIds)))]
  }

  function RemoveSelections(pages: seq<Page>, sels: seq<Selection>): (r: seq<Page>)
    ensures |r| == |pages|
    ensures forall j :: 0 <= j < |pages| ==> Frame(r[j]) == Frame(pages[j])
    decreases |sels|
  {
    if |sels| == 0 then pages
    else RemoveSelections(RemoveSelected(pages, sels[0]), sels[1..])
  }

  /** The page `j` is the one some selection names, and that selection lists the id. */
  predicate Deselected(pages: seq<Page>, sels: seq<Selection>, j: nat, id: string)
    requires j < |pages|
  {
    (forall i :: 0 <= i < j ==> PageIdText(pages[i]) != PageIdText(pages[j]))
    && exists k :: 0 <= k < |sels| && sels[k].pageId == PageIdText(pages[j]) && id in sels[k].conditionIds
  }

  lemma DeselectedStep(pages: seq<Page>, sels: seq<Selection>, j: nat, id: string)
    requires |sels| > 0 && j < |pages|
    ensures Deselected(pages, sels, j, id)
       <==> (FindPage(pages, sels[0].pageId) == Some(j) && id in sels[0].conditionIds) || Deselected(pages, sels[1..], j, id)
  {
    if Deselected(pages, sels, j, id) {
      var k :| 0 <= k < |sels| && sels[k].pageId == PageIdText(pages[j]) && id in sels[k].conditionIds;
      if k > 0 {
        assert sels[1..][k - 1] == sels[k];
      }
    }
    if Deselected(pages, sels[1..], j, id) {
      var k :| 0 <= k < |sels[1..]| && sels[1..][k].pageId == PageIdText(pages[j]) && id in sels[1..][k].conditionIds;
      assert sels[k + 1] == sels[1..][k];
    }
  }

  /** Pages with the same ids in the same places are deselected alike. */
  lemma DeselectedSameIds(a: seq<Page>, b: seq<Page>, sels: seq<Selection>, j: nat, id: string)
    requires |a| == |b| && j < |a| && forall i :: 0 <= i < |a| ==> Frame(a[i]) == Frame(b[i])
    ensures Deselected(a, sels, j, id) <==> Deselected(b, sels, j, id)
  {
    assert forall i :: 0 <= i < |a| ==> PageIdText(a[i]) == PageIdText(b[i]) by {
      forall i | 0 <= i < |a| ensures PageIdText(a[i]) == PageIdText(b[i]) {
        assert a[i].pageId == Frame(a[i]).pageId;
      }
    }
  }

  lemma {:induction false} RemoveSelectionsCount(pages: seq<Page>, sels: seq<Selection>, j: nat, id: string)
    requires j < |pages|
    ensures CountId(PageConditions(RemoveSelections(pages, sels)[j]), id)
      == if Deselected(pages, sels, j, id) then 0 else CountId(PageConditions(pages[j]), id)
    decreases |sels|
  {
    if |sels| > 0 {
      var p1 := RemoveSelected(pages, sels[0]);
      RemoveSelectionsCount(p1, sels[1..], j, id);
      DeselectedStep(pages, sels, j, id);
      DeselectedSameIds(p1, pages, sels[1..], j, id);
    }
  }

  /**
   The remove handler: with at least one selection, each selected page loses
   exactly the condition ids listed for it; every other count stays.
   */
  function RemoveFromPages(s: Session, sels: seq<Selection>): (r: Session)
    ensures r.(formPages := s.formPages) == s
    ensures |r.formPages| == |s.formPages|
    ensures forall j :: 0 <= j < |s.formPages| ==> Frame(r.formPages[j]) == Frame(s.formPages[j])
  {
    if |sels| == 0 then s
    else s.(formPages := RemoveSelections(s.formPages, sels))
  }

  lemma RemoveFromPagesCount(s: Session, sels: seq<Selection>, j: nat, id: string)
    requires j < |s.formPages|
    ensures CountId(PageConditions(RemoveFromPages(s, sels).formPages[j]), id)
      == if Deselected(s.formPages, sels, j, id) then 0 else CountId(PageConditions(s.formPages[j]), id)
  {
    RemoveSelectionsCount(s.formPages, sels, j, id);
  }

  // ---- the save-changes handler --------------------------------------------------------

  /** `cs[cs.findIndex(c => String(c.id) === id)] = c` when the id is there. */
  function ReplaceFirst(cs: seq<Condition>, id: string, c: Condition): (r: seq<Condition>)
    ensures |r| == |cs|
    ensures !HasId(cs, id) ==> r == cs
    ensures HasId(cs, id) ==>
      exists i :: 0 <= i < |cs| && IdText(cs[i].id) == id
        && (forall k :: 0 <= k < i ==> IdText(cs[k].id) != id)
        && r == cs[i := c]
  {
    match FindConditionIndex(cs, id)
    case None => cs
    case Some(i) => cs[i := c]
  }

  /** Every page's conditions lose the id; routes are left alone. */
  function StripConditions(pages: seq<Page>, id: string): (r: seq<Page>)
    ensures |r| == |pages|
    ensures forall j :: 0 <= j < |pages| ==> Frame(r[j]) == Frame(pages[j])
    ensures forall j :: 0 <= j < |pages| ==> !HasId(PageConditions(r[j]), id)
    ensures forall j, other :: 0 <= j < |pages| && other != id ==>
      CountId(PageConditions(r[j]), other) == CountId(PageConditions(pages[j]), other)
  {
    seq(|pages|, j requires 0 <= j < |pages| =>
      match pages[j].conditions
      case None => pages[j]
      case Some(cs) => pages[j].(conditions := Some(WithoutId(cs, id))))
  }

  /**
   The save-changes handler: with both the original and the edited condition
   pending, the form-level copy is replaced in place, the condition is taken
   off every page and put on the pending pages, and the pending edit is
   cleared. Without both, nothing changes.
   */
  function SaveChanges(s: Session): (r: Session)
    ensures s.originalCondition.None? || s.pendingConditionUpdate.None? ==> r == s
    ensures s.originalCondition.Some? && s.pendingConditionUpdate.Some? ==>
      r.originalCondition.None? && r.pendingConditionUpdate.None? && r.pendingConditionPages == []
    ensures r.sections == s.sections
    ensures r.conditions.Some? <==> s.conditions.Some?
    ensures |r.formPages| == |s.formPages|
    ensures forall j :: 0 <= j < |s.formPages| ==> Frame(r.formPages[j]) == Frame(s.formPages[j])
  {
    match (s.originalCondition, s.pendingConditionUpdate)
    case (Some(orig), Some(upd)) =>
      var id := IdText(orig.id);
      var conds := match s.conditions
        case None => None
        case Some(cs) => Some(ReplaceFirst(cs, id, upd));
      Session(conds, AddAll(StripConditions(s.formPages, id), s.pendingConditionPages, id, upd), s.sections, None, None, [])
    case _ => s
  }

  /**
   After save-changes an edit that keeps its id sits on exactly the pages
   chosen for it, once each, and on no other page; every other condition on
   every page is as it was.
   */
  lemma SaveChangesPageCount(s: Session, j: nat, other: string)
    requires s.originalCondition.Some? && s.pendingConditionUpdate.Some?
    requires IdText(s.pendingConditionUpdate.value.id) == IdText(s.originalCondition.value.id)
    requires j < |s.formPages|
    ensures CountId(PageConditions(SaveChanges(s).formPages[j]), other)
      == if other == IdText(s.originalCondition.value.id) then (if Targeted(s.formPages, s.pendingConditionPages, j) then 1 else 0)
         else CountId(PageConditions(s.formPages[j]), other)
  {
    var id := IdText(s.originalCondition.value.id);
    var upd := s.pendingConditionUpdate.value;
    var stripped := StripConditions(s.formPages, id);
    assert SaveChanges(s).formPages == AddAll(stripped, s.pendingConditionPages, id, upd);
    TargetedSameIds(stripped, s.formPages, s.pendingConditionPages);
    AddAllCount(stripped, s.pendingConditionPages, upd, j, other);
  }

  /** The condition ends up on exactly the chosen pages. */
  lemma SaveChangesPlacesCondition(s: Session)
    requires s.originalCondition.Some? && s.pendingConditionUpdate.Some?
    requires IdText(s.pendingConditionUpdate.value.id) == IdText(s.originalCondition.value.id)
    ensures forall j :: 0 <= j < |s.formPages| ==>
      (HasId(PageConditions(SaveChanges(s).formPages[j]), IdText(s.originalCondition.value.id))
       <==> Targeted(s.formPages, s.pendingConditionPages, j))
  {
    forall j | 0 <= j < |s.formPages| {
      SaveChangesPageCount(s, j, IdText(s.originalCondition.value.id));
    }
  }

  /** A form-level copy of the condition is replaced by the edited one, in place. */
  lemma SaveChangesReplacesFormLevel(s: Session)
    requires s.originalCondition.Some? && s.pendingConditionUpdate.Some?
    requires s.conditions.Some? && HasId(s.conditions.value, IdText(s.originalCondition.value.id))
    ensures |SaveChanges(s).conditions.value| == |s.conditions.value|
    ensures s.pendingConditionUpdate.value in SaveChanges(s).conditions.value
  {
    var cs := s.conditions.value;
    var upd := s.pendingConditionUpdate.value;
    var i := FindConditionIndex(cs, IdText(s.originalCondition.value.id)).value;
    assert SaveChanges(s).conditions == Some(cs[i := upd]);
    assert cs[i := upd][i] == upd;
  }
}

=== FILE: condition_edits.dfy ===
/**
 The condition handlers of the form editor that delete, remove, apply and
 re-save conditions: each takes the session record and the request's
 fields and gives the next session record.
 */
module ConditionEdits {
  import opened Common
  import opened FormSession

  // ---- deleting a condition everywhere -------------------------------------------------

  predicate RouteNotTo(id: string, rt: Route)
  {
    IdText(rt.conditionId) != id
  }

  /** No condition and no conditional route of the page refers to the id. */
  predicate PageFreeOf(p: Page, id: string)
  {
    !HasId(PageConditions(p), id)
    && (p.conditionalRouting.Some? ==> forall k :: 0 <= k < |p.conditionalRouting.value| ==> RouteNotTo(id, p.conditionalRouting.value[k]))
  }

  /** The page apart from its conditions and conditional routes. */
  function PageShell(p: Page): Page
  {
    p.(conditions := None, conditionalRouting := None)
  }

  /** The page's part of `removeConditionById`: its conditions and its routes lose the id. */
  function StripPage(p: Page, id: string): (r: Page)
    ensures PageShell(r) == PageShell(p)
    ensures r.conditions.Some? <==> p.conditions.Some?
    ensures r.conditionalRouting.Some? <==> p.conditionalRouting.Some?
    ensures PageFreeOf(r, id)
    ensures forall other :: other != id ==> CountId(PageConditions(r), other) == CountId(PageConditions(p), other)
    ensures p.conditionalRouting.Some? ==> forall rt :: rt in p.conditionalRouting.value && RouteNotTo(id, rt) ==> rt in r.conditionalRouting.value
  {
    var routes := match p.conditionalRouting
      case None => None
      case Some(rs) => Some(Filter(rs, rt => RouteNotTo(id, rt)));
    RoutesKept(p.conditionalRouting, id);
    p.(conditions := match p.conditions
         case None => None
         case Some(cs) => Some(WithoutId(cs, id)),
       conditionalRouting := routes)
  }

  lemma RoutesKept(routes: Option<seq<Route>>, id: string)
    ensures routes.Some? ==> forall rt :: rt in routes.value && RouteNotTo(id, rt) ==> rt in Filter(routes.value, rt => RouteNotTo(id, rt))
  {
    if routes.Some? {
      FilterKeepsMembers(routes.value, rt => RouteNotTo(id, rt));
    }
  }

  /** The id is gone from the form-level conditions, from every page's conditions and from every page's routes. */
  predicate Gone(s: Session, id: string)
  {
    (s.conditions.Some? ==> !HasId(s.conditions.value, id))
    && forall j :: 0 <= j < |s.formPages| ==> PageFreeOf(s.formPages[j], id)
  }

  /**
   `removeConditionById(id)`, which is also the whole of the delete handler:
   the condition leaves the form-level list, every page's conditions and every
   page's conditional routes; every other condition and route stays.
   */
  function RemoveCondition(s: Session, id: string): (r: Session)
    ensures Gone(r, id)
    ensures r.(conditions := s.conditions, formPages := s.formPages) == s
    ensures r.conditions.Some? <==> s.conditions.Some?
    ensures s.conditions.Some? ==> forall other :: other != id ==> CountId(r.conditions.value, other) == CountId(s.conditions.value, other)
    ensures |r.formPages| == |s.formPages|
    ensures forall j :: 0 <= j < |s.formPages| ==> PageShell(r.formPages[j]) == PageShell(s.formPages[j])
    ensures forall j, other :: 0 <= j < |s.formPages| && other != id ==>
      CountId(PageConditions(r.formPages[j]), other) == CountId(PageConditions(s.formPages[j]), other)
  {
    s.(conditions := match s.conditions
         case None => None
         case Some(cs) => Some(WithoutId(cs, id)),
       formPages := seq(|s.formPages|, j requires 0 <= j < |s.formPages| => StripPage(s.formPages[j], id)))
  }

  /** A session already free of an id is left exactly as it is. */
  lemma RemoveAbsent(s: Session, id: string)
    requires Gone(s, id)
    ensures RemoveCondition(s, id) == s
  {
    if s.conditions.Some? {
      WithoutIdNoOp(s.conditions.value, id);
    }
    forall j | 0 <= j < |s.formPages| ensures StripPage(s.formPages[j], id) == s.formPages[j] {
      StripPageNoOp(s.formPages[j], id);
    }
  }

  lemma WithoutIdNoOp(cs: seq<Condition>, id: string)
    requires !HasId(cs, id)
    ensures WithoutId(cs, id) == cs
  {
    FilterNoOp(cs, c => NotId(id, c));
  }

  lemma StripPageNoOp(p: Page, id: string)
    requires PageFreeOf(p, id)
    ensures StripPage(p, id) == p
  {
    if p.conditions.Some? {
      WithoutIdNoOp(p.conditions.value, id);
    }
    if p.conditionalRouting.Some? {
      FilterNoOp(p.conditionalRouting.value, rt => RouteNotTo(id, rt));
    }
  }

  /** Deleting twice is deleting once: the delete handler is idempotent. */
  lemma RemoveIdempotent(s: Session, id: string)
    ensures RemoveCondition(RemoveCondition(s, id), id) == RemoveCondition(s, id)
  {
    RemoveAbsent(RemoveCondition(s, id), id);
  }

  /** The handler of the conditions manager's remove action: one id, then a list of ids. */
  function RemoveHandler(s: Session, conditionId: Option<string>, conditionIds: Option<seq<string>>): (r: Session)
    ensures Truthy(conditionId) ==> Gone(r, conditionId.value)
    ensures conditionIds.Some? ==> forall k :: 0 <= k < |conditionIds.value| ==> Gone(r, conditionIds.value[k])
    ensures r.(conditions := s.conditions, formPages := s.formPages) == s
  {
    var s1 := if Truthy(conditionId) then RemoveCondition(s, conditionId.value) else s;
    match conditionIds
    case None => s1
    case Some(ids) =>
      RemoveEach(s1, ids)
  }

  /** `conditionIds.forEach(removeConditionById)` */
  function RemoveEach(s: Session, ids: seq<string>): (r: Session)
    ensures forall k :: 0 <= k < |ids| ==> Gone(r, ids[k])
    ensures forall other :: Gone(s, other) ==> Gone(r, other)
    ensures r.(conditions := s.conditions, formPages := s.formPages) == s
    decreases |ids|
  {
    if |ids| == 0 then s
    else
      var s1 := RemoveCondition(s, ids[0]);
      RemoveKeepsGoneAll(s, ids[0]);
      var r := RemoveEach(s1, ids[1..]);
      assert forall k :: 1 <= k < |ids| ==> ids[k] == ids[1..][k - 1];
      r
  }

  lemma RemoveKeepsGoneAll(s: Session, id: string)
    ensures forall other :: Gone(s, other) ==> Gone(RemoveCondition(s, id), other)
  {
    forall other | Gone(s, other) ensures Gone(RemoveCondition(s, id), other) {
      RemoveKeepsGone(s, id, other);
    }
  }

  /** Removing conditions never brings another id back. */
  lemma RemoveKeepsGone(s: Session, id: string, other: string)
    requires Gone(s, other)
    ensures Gone(RemoveCondition(s, id), other)
  {
    var r := RemoveCondition(s, id);
    if other != id {
      forall j | 0 <= j < |s.formPages| ensures PageFreeOf(r.formPages[j], other) {
        var p := s.formPages[j];
        assert CountId(PageConditions(p), other) == 0;
        if p.conditionalRouting.Some? {
          forall k | 0 <= k < |r.formPages[j].conditionalRouting.value|
            ensures RouteNotTo(other, r.formPages[j].conditionalRouting.value[k])
          {
            FilterFrom(p.conditionalRouting.value, rt => RouteNotTo(id, rt), k);
          }
        }
      }
      if s.conditions.Some? {
        assert CountId(s.conditions.value, other) == 0;
      }
    }
  }
}

=== FILE: coord_validator.dfy ===
/**
 The integer and text checks of `CoordinateValidator`: the two grid-reference
 validators (up to the "within Great Britain" test, which is a parameter
 here), the easting/northing range check and the field-number presence check.

 Every validator empties its error list on entry, runs its checks in a fixed
 order and stops at the first one that fails, recording that check's message.
 A form field that is absent and one that is the empty string are both falsy.
 */
module CoordValidator {
  import opened Common
  import opened JsParseInt
  import GridRef

  // ---- whitespace collapsing ----------------------------------------------------------

  /** No white space but single ' ' characters, none of them followed by more white space. */
  predicate Collapsed(s: string)
  {
    forall i :: 0 <= i < |s| && IsJsSpace(s[i]) ==> s[i] == ' ' && (i + 1 == |s| || !IsJsSpace(s[i + 1]))
  }

  /** The characters of `s` that are not white space, in order. */
  function Visible(s: string): string
  {
    if |s| == 0 then [] else (if IsJsSpace(s[0]) then [] else [s[0]]) + Visible(s[1..])
  }

  /** `s.replace(/\s+/g, " ")`: every run of white space becomes one space. */
  function CollapseSpaces(s: string): (r: string)
    ensures Collapsed(r) && Visible(r) == Visible(s)
    ensures |r| <= |s|
    ensures |r| > 0 ==> |s| > 0 && (IsJsSpace(r[0]) <==> IsJsSpace(s[0]))
    decreases |s|
  {
    if |s| == 0 then []
    else if IsJsSpace(s[0]) then
      var k := SkipWhile(s, 0, IsJsSpace);
      var rest := CollapseSpaces(s[k..]);
      SpaceRunInvisible(s, k);
      assert Visible(" ") == [];
      VisibleAppend(" ", rest);
      " " + rest
    else
      var rest := CollapseSpaces(s[1..]);
      assert Visible([s[0]]) == [s[0]];
      VisibleAppend([s[0]], rest);
      [s[0]] + rest
  }

  lemma {:induction false} VisibleAppend(a: string, b: string)
    ensures Visible(a + b) == Visible(a) + Visible(b)
  {
    if |a| > 0 {
      assert (a + b)[1..] == a[1..] + b;
      VisibleAppend(a[1..], b);
    } else {
      assert a + b == b;
    }
  }

  /** A leading run of white space is invisible. */
  lemma {:induction false} SpaceRunInvisible(s: string, k: nat)
    requires k <= |s| && forall i :: 0 <= i < k ==> IsJsSpace(s[i])
    ensures Visible(s) == Visible(s[k..])
  {
    if k > 0 {
      SpaceRunInvisible(s[1..], k - 1);
      assert s[1..][k - 1..] == s[k..];
    }
  }

  /** Text whose white space is already single spaces is left as it is. */
  lemma {:induction false} CollapseSpacesKeepsCollapsed(s: string)
    requires Collapsed(s)
    ensures CollapseSpaces(s) == s
    decreases |s|
  {
    if |s| > 0 {
      if IsJsSpace(s[0]) {
        assert SkipWhile(s, 0, IsJsSpace) == 1 by {
          assert |s| == 1 || !IsJsSpace(s[1]);
        }
      }
      assert Collapsed(s[1..]) by {
        forall i | 0 <= i < |s[1..]| && IsJsSpace(s[1..][i])
          ensures s[1..][i] == ' ' && (i + 1 == |s[1..]| || !IsJsSpace(s[1..][i + 1]))
        {
          assert s[1..][i] == s[i + 1];
        }
      }
      CollapseSpacesKeepsCollapsed(s[1..]);
    }
  }

  /** Collapsing twice is collapsing once. */
  lemma CollapseSpacesIdempotent(s: string)
    ensures CollapseSpaces(CollapseSpaces(s)) == CollapseSpaces(s)
  {
    CollapseSpacesKeepsCollapsed(CollapseSpaces(s));
  }

  // ---- the validators -----------------------------------------------------------------

  /** The validator object: the list `getErrors` returns. */
  datatype Validator = Validator(errors: seq<string>)

  /** What a `validate*` call returns, and the validator it leaves behind. */
  datatype Outcome = Outcome(ok: bool, validator: Validator)

  /** `getErrors()` */
  function GetErrors(v: Validator): seq<string>
  {
    v.errors
  }

  const MissingGridFields := "All grid reference fields are required"
  const NotNumbers := "Easting and northing must be valid numbers"
  const EastingOutOfRange := "Easting must be between 0 and 99999"
  const NorthingOutOfRange := "Northing must be between 0 and 99999"
  const SquareNotLetters := "Grid square must be two letters (e.g., TQ, SW)"
  const BadGridRef := "Invalid grid reference format"
  const OutsideGreatBritain := "Grid reference must be within Great Britain"
  const MissingGridRef := "Enter an OS grid reference"
  const InvalidGridRef := "Enter a valid OS grid reference (for example, TQ 3003 8038)"
  const MissingEastingNorthing := "Enter easting and northing"
  const MissingFieldNumber := "Enter the National Grid field number"

  /** The validator after `errors = []`, one `errors.push(message)` and `return false`. */
  function Fail(message: string): Outcome
  {
    Outcome(false, Validator([message]))
  }

  /** The validator after `errors = []` and `return true`. */
  const Pass := Outcome(true, Validator([]))

  /** One check of a validator: whether it passes, and the message recorded when it is the first to fail. */
  datatype Check = Check(passes: bool, message: string)

  /** The errors left by running checks in order and stopping at the first that fails. */
  function FirstFailure(checks: seq<Check>): (r: seq<string>)
    ensures |r| <= 1
    ensures r == [] <==> forall i :: 0 <= i < |checks| ==> checks[i].passes
  {
    if |checks| == 0 then []
    else if !checks[0].passes then [checks[0].message]
    else FirstFailure(checks[1..])
  }

  /** When check k is the first to fail, its message is the only error. */
  lemma {:induction false} FirstFailureAt(checks: seq<Check>, k: nat)
    requires k < |checks| && !checks[k].passes
    requires forall i :: 0 <= i < k ==> checks[i].passes
    ensures FirstFailure(checks) == [checks[k].message]
  {
    if k > 0 {
      FirstFailureAt(checks[1..], k - 1);
    }
  }

  predicate InRange(v: int)
  {
    0 <= v <= 99999
  }

  /** `/^[A-Z]{2}$/i.test(square)` */
  predicate TwoLetters(s: string)
  {
    |s| == 2 && IsAsciiLetter(s[0]) && IsAsciiLetter(s[1])
  }

  /** The reference `validateOSGridRef` assembles: `${square.toUpperCase()} ${easting} ${northing}`. */
  function AssembledRef(square: string, easting: string, northing: string): string
  {
    Upper(square) + " " + easting + " " + northing
  }

  /** The outcome of `parseGridRef` on the reference `validateOSGridRef` assembles from the fields. */
  function ParsedFields(square: Option<string>, easting: Option<string>, northing: Option<string>): GridRef.Parsed
  {
    GridRef.ParseGridRef(AssembledRef(OrElse(square, ""), OrElse(easting, ""), OrElse(northing, "")))
  }

  /**
   `validateOSGridRef(square, easting, northing)`. `inGreatBritain` stands for
   the conversion of the parsed eastings and northings to WGS84 followed by
   `isGreatBritain()`. The values the checks look at are computed here and
   the checks themselves are made, in order, by CheckGridRef.
   */
  function ValidateOSGridRef(v: Validator, square: Option<string>, easting: Option<string>, northing: Option<string>,
                             inGreatBritain: (int, int) -> bool): (r: Outcome)
    ensures r.ok <==> r.validator.errors == []
    ensures |r.validator.errors| <= 1
  {
    var present := Truthy(square) && Truthy(easting) && Truthy(northing);
    var e := ParseInt(OrElse(easting, ""), NoRadix);
    var n := ParseInt(OrElse(northing, ""), NoRadix);
    var letters := TwoLetters(OrElse(square, ""));
    var parsed := ParsedFields(square, easting, northing);
    CheckGridRef(present, e, n, letters, parsed, inGreatBritain)
  }

  /**
   The validator reports the first of its seven checks that fails, in the
   order: all three fields present, both numbers parse, easting in range,
   northing in range, two letters, the assembled reference parses, the
   position is in Great Britain.
   */
  lemma ValidateOSGridRefInOrder(v: Validator, square: Option<string>, easting: Option<string>, northing: Option<string>,
                                 inGreatBritain: (int, int) -> bool)
    ensures ValidateOSGridRef(v, square, easting, northing, inGreatBritain).validator.errors == FirstFailure(OSGridRefChecks(
      Truthy(square) && Truthy(easting) && Truthy(northing),
      ParseInt(OrElse(easting, ""), NoRadix), ParseInt(OrElse(northing, ""), NoRadix),
      TwoLetters(OrElse(square, "")), ParsedFields(square, easting, northing), inGreatBritain))
  {
    var present := Truthy(square) && Truthy(easting) && Truthy(northing);
    var e := ParseInt(OrElse(easting, ""), NoRadix);
    var n := ParseInt(OrElse(northing, ""), NoRadix);
    var letters := TwoLetters(OrElse(square, ""));
    var parsed := ParsedFields(square, easting, northing);
    ValidateIsCheck(v, square, easting, northing, inGreatBritain);
    GridRefChecksInOrder(present, e, n, letters, parsed, inGreatBritain);
  }

  /**
   The early-return chain of `validateOSGridRef`: all fields present, both
   numbers, easting in range, northing in range, square of two letters,
   reference parsed, inside Great Britain.
   */
  function CheckGridRef(present: bool, e: JsInt, n: JsInt, letters: bool, parsed: GridRef.Parsed,
                        inGreatBritain: (int, int) -> bool): (r: Outcome)
    ensures r.ok <==> r.validator.errors == []
    ensures |r.validator.errors| <= 1
  {
    if !present then Fail(MissingGridFields)
    else if e.NaN? || n.NaN? then Fail(NotNumbers)
    else if !InRange(e.value) then Fail(EastingOutOfRange)
    else if !InRange(n.value) then Fail(NorthingOutOfRange)
    else if !letters then Fail(SquareNotLetters)
    else if !parsed.ok then Fail(BadGridRef)
    else if !inGreatBritain(parsed.eastings, parsed.northings) then Fail(OutsideGreatBritain)
    else Pass
  }

  /** The checks of `validateOSGridRef` as a list, in the order it makes them. */
  function OSGridRefChecks(present: bool, e: JsInt, n: JsInt, letters: bool, parsed: GridRef.Parsed,
                           inGreatBritain: (int, int) -> bool): seq<Check>
  {
    [ Check(present, MissingGridFields),
      Check(e.Num? && n.Num?, NotNumbers),
      Check(e.Num? ==> InRange(e.value), EastingOutOfRange),
      Check(n.Num? ==> InRange(n.value), NorthingOutOfRange),
      Check(letters, SquareNotLetters),
      Check(parsed.ok, BadGridRef),
      Check(inGreatBritain(parsed.eastings, parsed.northings), OutsideGreatBritain) ]
  }

  /** The chain reports the first failing check of the list, and succeeds when none fails. */
  lemma GridRefChecksInOrder(present: bool, e: JsInt, n: JsInt, letters: bool, parsed: GridRef.Parsed,
                             inGreatBritain: (int, int) -> bool)
    ensures CheckGridRef(present, e, n, letters, parsed, inGreatBritain).validator.errors
         == FirstFailure(OSGridRefChecks(present, e, n, letters, parsed, inGreatBritain))
  {
    var checks := OSGridRefChecks(present, e, n, letters, parsed, inGreatBritain);
    if !checks[0].passes {
      FirstFailureAt(checks, 0);
    } else if !checks[1].passes {
      FirstFailureAt(checks, 1);
    } else if !checks[2].passes {
      FirstFailureAt(checks, 2);
    } else if !checks[3].passes {
      FirstFailureAt(checks, 3);
    } else if !checks[4].passes {
      FirstFailureAt(checks, 4);
    } else if !checks[5].passes {
      FirstFailureAt(checks, 5);
    } else if !checks[6].passes {
      FirstFailureAt(checks, 6);
    }
  }

  /** An upper-cased pair of letters is a pair of capitals. */
  lemma UpperLetters(square: string)
    requires TwoLetters(square)
    ensures |Upper(square)| == 2 && IsAsciiUpper(Upper(square)[0]) && IsAsciiUpper(Upper(square)[1])
  {
  }

  /**
   Letters naming a square of the table (in either case) and two digit groups
   of one length p in 1..5 pass every check before the last: the outcome is
   whether the parsed position, the square's corner plus the digits scaled to
   metres, is in Great Britain.
   */
  lemma ValidateOSGridRefAccepts(v: Validator, square: string, de: string, dn: string, p: nat, y: nat, x: nat,
                                 inGreatBritain: (int, int) -> bool)
    requires TwoLetters(square) && GridRef.FindSquare(Upper(square), 0, 0) == Some((y, x))
    requires 1 <= p <= 5 && |de| == p && |dn| == p && AllDigits(de) && AllDigits(dn)
    ensures ValidateOSGridRef(v, Some(square), Some(de), Some(dn), inGreatBritain).ok
        <==> inGreatBritain(GridRef.Offset(x, de, p), GridRef.Offset(y, dn, p))
    ensures ValidateOSGridRef(v, Some(square), Some(de), Some(dn), inGreatBritain).validator.errors in [[], [OutsideGreatBritain]]
  {
    var parsed := ParsedFields(Some(square), Some(de), Some(dn));
    assert InRange(DigitsValue(de)) && InRange(DigitsValue(dn)) by {
      GroupInRange(de, p);
      GroupInRange(dn, p);
    }
    assert ParseInt(OrElse(Some(de), ""), NoRadix) == Num(DigitsValue(de)) by { ParseIntDigits(de, NoRadix); }
    assert ParseInt(OrElse(Some(dn), ""), NoRadix) == Num(DigitsValue(dn)) by { ParseIntDigits(dn, NoRadix); }
    ParsedTableFields(square, de, dn, p, y, x);
    assert Truthy(Some(square)) && Truthy(Some(de)) && Truthy(Some(dn)) && TwoLetters(OrElse(Some(square), ""));
    assert ValidateOSGridRef(v, Some(square), Some(de), Some(dn), inGreatBritain)
        == CheckGridRef(true, Num(DigitsValue(de)), Num(DigitsValue(dn)), true, parsed, inGreatBritain) by {
      ValidateIsCheck(v, Some(square), Some(de), Some(dn), inGreatBritain);
    }
    CheckGridRefAccepts(DigitsValue(de), DigitsValue(dn), parsed,
      GridRef.Offset(x, de, p), GridRef.Offset(y, dn, p),
      inGreatBritain);
  }

  /** Present, in-range numbers, two letters and a parsed reference leave only the Great Britain test. */
  lemma CheckGridRefAccepts(e: nat, n: nat, parsed: GridRef.Parsed, eastings: int, northings: int, inGreatBritain: (int, int) -> bool)
    requires InRange(e) && InRange(n) && parsed == GridRef.Parsed(true, eastings, northings)
    ensures var r := CheckGridRef(true, Num(e), Num(n), true, parsed, inGreatBritain);
      (r.ok <==> inGreatBritain(eastings, northings))
      && (!r.ok ==> r.validator.errors == [OutsideGreatBritain])
  {
  }

  /** The validator's outcome is the outcome of the if-chain on the parsed fields. */
  lemma ValidateIsCheck(v: Validator, square: Option<string>, easting: Option<string>, northing: Option<string>,
                        inGreatBritain: (int, int) -> bool)
    ensures ValidateOSGridRef(v, square, easting, northing, inGreatBritain) == CheckGridRef(
      Truthy(square) && Truthy(easting) && Truthy(northing),
      ParseInt(OrElse(easting, ""), NoRadix), ParseInt(OrElse(northing, ""), NoRadix),
      TwoLetters(OrElse(square, "")), ParsedFields(square, easting, northing), inGreatBritain)
  {
  }

  /** A group of at most five digits is within the range the form accepts. */
  lemma GroupInRange(d: string, p: nat)
    requires p <= 5 && |d| == p && AllDigits(d)
    ensures InRange(DigitsValue(d))
  {
    DigitsValueBound(d);
    GridRef.Pow10Split(p);
  }

  /** The fields of a table square and two groups of p digits parse to the square's corner plus the scaled digits. */
  lemma ParsedTableFields(square: string, de: string, dn: string, p: nat, y: nat, x: nat)
    requires TwoLetters(square) && GridRef.FindSquare(Upper(square), 0, 0) == Some((y, x))
    requires 1 <= p <= 5 && |de| == p && |dn| == p && AllDigits(de) && AllDigits(dn)
    ensures ParsedFields(Some(square), Some(de), Some(dn)) == GridRef.Parsed(true,
      GridRef.Offset(x, de, p), GridRef.Offset(y, dn, p))
  {
    var prefix := Upper(square);
    var text := prefix + " " + de + " " + dn;
    assert AssembledRef(square, de, dn) == text;
    assert GridRef.ParseGridRef(text) == GridRef.Parsed(true,
      GridRef.Offset(x, de, p), GridRef.Offset(y, dn, p)) by {
      UpperLetters(square);
      GridRef.ParseSpacedRef(prefix, de, dn, p, y, x);
    }
  }

  /**
   Two in-range digit groups of different lengths (or both longer than five
   digits, such as "000001") pass the range checks but never the parse:
   the outcome is "Invalid grid reference format".
   */
  lemma ValidateOSGridRefUnequalGroups(v: Validator, square: string, de: string, dn: string, inGreatBritain: (int, int) -> bool)
    requires TwoLetters(square)
    requires |de| > 0 && |dn| > 0 && AllDigits(de) && AllDigits(dn) && InRange(DigitsValue(de)) && InRange(DigitsValue(dn))
    requires |de| != |dn| || |de| > 5
    ensures ValidateOSGridRef(v, Some(square), Some(de), Some(dn), inGreatBritain).validator.errors == [BadGridRef]
  {
    ParseIntDigits(de, NoRadix);
    ParseIntDigits(dn, NoRadix);
    var text := Upper(square) + " " + de + " " + dn;
    assert AssembledRef(square, de, dn) == text;
    assert !ParsedFields(Some(square), Some(de), Some(dn)).ok by {
      UpperLetters(square);
      forall p | 1 <= p <= 5 ensures GridRef.MatchRef(text, p).None? {
        if GridRef.MatchRef(text, p).Some? {
          GridRef.SpacedRefLengths(Upper(square), de, dn, p);
        }
      }
      GridRef.ParseGridRefNone(text);
    }
  }

  // ---- validateOSGridReferenceNumber ---------------------------------------------------

  /** The last two checks shared by both grid-reference validators: the parse, then Great Britain. */
  function CheckParsed(parsed: GridRef.Parsed, inGreatBritain: (int, int) -> bool): (r: Outcome)
    ensures r.ok <==> parsed.ok && inGreatBritain(parsed.eastings, parsed.northings)
    ensures !r.ok ==> r.validator.errors == [if parsed.ok then OutsideGreatBritain else InvalidGridRef]
  {
    if !parsed.ok then Fail(InvalidGridRef)
    else if !inGreatBritain(parsed.eastings, parsed.northings) then Fail(OutsideGreatBritain)
    else Pass
  }

  /**
   `validateOSGridReferenceNumber(gridRefText)`: the whole reference in one
   field. It is trimmed, its runs of white space become single spaces, and
   the result must parse and lie in Great Britain.
   */
  function ValidateOSGridReferenceNumber(v: Validator, text: Option<string>, inGreatBritain: (int, int) -> bool): (r: Outcome)
    ensures r.ok <==> r.validator.errors == []
    ensures |r.validator.errors| <= 1
    ensures r.validator.errors == [MissingGridRef]
      <==> text.None? || forall i :: 0 <= i < |text.value| ==> IsJsSpace(text.value[i])
  {
    if !Truthy(text) || |Trim(text.value)| == 0 then Fail(MissingGridRef)
    else CheckParsed(GridRef.ParseGridRef(CollapseSpaces(Trim(text.value))), inGreatBritain)
  }

  /** Text that is already trimmed and collapsed goes to the parser as it is. */
  lemma ReferenceNumberOfClean(v: Validator, text: string, inGreatBritain: (int, int) -> bool)
    requires text != [] && Trim(text) == text && Collapsed(text)
    ensures ValidateOSGridReferenceNumber(v, Some(text), inGreatBritain) == CheckParsed(GridRef.ParseGridRef(text), inGreatBritain)
  {
    CollapseSpacesKeepsCollapsed(text);
  }

  /** Two letters, a space, p digits, a space and p digits: nothing to trim and no run of spaces. */
  lemma SpacedLayoutClean(s: string, p: nat)
    requires 1 <= p && |s| == 4 + 2 * p && IsAsciiLetter(s[0]) && IsAsciiLetter(s[1])
    requires s[2] == ' ' && s[3 + p] == ' ' && AllDigits(s[3..3 + p]) && AllDigits(s[4 + p..])
    ensures Collapsed(s) && Trim(s) == s
  {
    GridRef.DigitsWithin(s, 3, 3 + p);
    GridRef.DigitsWithin(s, 4 + p, |s|);
    assert Collapsed(s) by {
      forall i | 0 <= i < |s| && IsJsSpace(s[i]) ensures s[i] == ' ' && (i + 1 == |s| || !IsJsSpace(s[i + 1])) {
        assert i == 2 || i == 3 + p;
      }
    }
    assert !IsJsSpace(s[|s| - 1]);
    assert SkipWhile(s, 0, IsJsSpace) == 0;
  }

  /** The text `getGridRef` builds from letters and two numbers below 10^p is laid out that way. */
  lemma RefTextClean(prefix: string, e: nat, n: nat, p: nat)
    requires |prefix| == 2 && IsAsciiLetter(prefix[0]) && IsAsciiLetter(prefix[1])
    requires 1 <= p && e < Pow10(p) && n < Pow10(p)
    ensures var s := GridRef.RefText(prefix, e, n, p); s != [] && Collapsed(s) && Trim(s) == s
  {
    var de, dn := GridRef.ZeroPad(NatToString(e), p), GridRef.ZeroPad(NatToString(n), p);
    GridRef.PaddedDigits(e, p);
    GridRef.PaddedDigits(n, p);
    assert GridRef.RefText(prefix, e, n, p) == prefix + " " + de + " " + dn;
    GridRef.SpacedLayout(prefix, de, dn, p);
    SpacedLayoutClean(prefix + " " + de + " " + dn, p);
  }

  /**
   The reference `getGridRef` prints at full precision for a point of the
   grid is accepted exactly when the point is in Great Britain.
   */
  lemma ReferenceNumberOfGridRef(v: Validator, eastings: int, northings: int, inGreatBritain: (int, int) -> bool)
    requires GridRef.OnGrid(eastings, northings)
    ensures var text := GridRef.GetGridRef(eastings, northings, 5);
      var r := ValidateOSGridReferenceNumber(v, text, inGreatBritain);
      (r.ok <==> inGreatBritain(eastings, northings)) && (!r.ok ==> r.validator.errors == [OutsideGreatBritain])
  {
    var y, x := northings / GridRef.Square, eastings / GridRef.Square;
    GridRef.GetGridRefAtFive(eastings, northings);
    GridRef.TableShape();
    var text := GridRef.RefText(GridRef.Prefixes[y][x], eastings % GridRef.Square, northings % GridRef.Square, 5);
    assert ValidateOSGridReferenceNumber(v, Some(text), inGreatBritain)
        == CheckParsed(GridRef.Parsed(true, eastings, northings), inGreatBritain) by {
      assert text != [] && Trim(text) == text && Collapsed(text) by {
        GridRef.TableLetters(y, x);
        GridRef.Pow10Split(5);
        RefTextClean(GridRef.Prefixes[y][x], eastings % GridRef.Square, northings % GridRef.Square, 5);
      }
      GridRef.ParseFullPrecision(eastings, northings);
      ReferenceNumberOfClean(v, text, inGreatBritain);
    }
  }

  // ---- validateEastingNorthing ---------------------------------------------------------

  /**
   `validateEastingNorthing(easting, northing)`: the two numbers without a
   square; `parseInt` is given radix 10 here, so a "0x" prefix reads as 0.
   */
  function ValidateEastingNorthing(v: Validator, easting: Option<string>, northing: Option<string>): (r: Outcome)
    ensures r.ok <==> r.validator.errors == []
    ensures |r.validator.errors| <= 1
  {
    CheckEastingNorthing(Truthy(easting) && Truthy(northing),
      ParseInt(OrElse(easting, ""), Radix10), ParseInt(OrElse(northing, ""), Radix10))
  }

  function CheckEastingNorthing(present: bool, e: JsInt, n: JsInt): (r: Outcome)
    ensures r.ok <==> r.validator.errors == []
    ensures |r.validator.errors| <= 1
  {
    if !present then Fail(MissingEastingNorthing)
    else if e.NaN? || n.NaN? then Fail(NotNumbers)
    else if !InRange(e.value) then Fail(EastingOutOfRange)
    else if !InRange(n.value) then Fail(NorthingOutOfRange)
    else Pass
  }

  /** The four checks of `validateEastingNorthing`, in the order it makes them. */
  function EastingNorthingChecks(present: bool, e: JsInt, n: JsInt): seq<Check>
  {
    [Check(present, MissingEastingNorthing),
     Check(e.Num? && n.Num?, NotNumbers),
     Check(e.NaN? || InRange(e.value), EastingOutOfRange),
     Check(n.NaN? || InRange(n.value), NorthingOutOfRange)]
  }

  /** The validator reports the first failing check: both present, both numbers, easting in range, northing in range. */
  lemma ValidateEastingNorthingInOrder(v: Validator, easting: Option<string>, northing: Option<string>)
    ensures ValidateEastingNorthing(v, easting, northing).validator.errors == FirstFailure(EastingNorthingChecks(
      Truthy(easting) && Truthy(northing), ParseInt(OrElse(easting, ""), Radix10), ParseInt(OrElse(northing, ""), Radix10)))
  {
    var present := Truthy(easting) && Truthy(northing);
    var e := ParseInt(OrElse(easting, ""), Radix10);
    var n := ParseInt(OrElse(northing, ""), Radix10);
    EastingNorthingChecksInOrder(present, e, n);
  }

  lemma EastingNorthingChecksInOrder(present: bool, e: JsInt, n: JsInt)
    ensures CheckEastingNorthing(present, e, n).validator.errors == FirstFailure(EastingNorthingChecks(present, e, n))
  {
    var checks := EastingNorthingChecks(present, e, n);
    if !present {
      FirstFailureAt(checks, 0);
    } else if e.NaN? || n.NaN? {
      FirstFailureAt(checks, 1);
    } else if !InRange(e.value) {
      FirstFailureAt(checks, 2);
    } else if !InRange(n.value) {
      FirstFailureAt(checks, 3);
    }
  }

  /**
   For fields holding the decimal text of two integers the outcome is decided
   by the ranges alone: accepted exactly when both are in 0..99999, otherwise
   the easting's range error comes before the northing's.
   */
  lemma ValidateEastingNorthingOfNumbers(v: Validator, a: int, b: int)
    ensures var r := ValidateEastingNorthing(v, Some(IntToString(a)), Some(IntToString(b)));
      (r.ok <==> InRange(a) && InRange(b))
      && (!InRange(a) ==> r.validator.errors == [EastingOutOfRange])
      && (InRange(a) && !InRange(b) ==> r.validator.errors == [NorthingOutOfRange])
  {
    ParseIntOfString(a, Radix10);
    ParseIntOfString(b, Radix10);
    assert Truthy(Some(IntToString(a))) && Truthy(Some(IntToString(b)));
  }

  /** Text after the leading digits is ignored: "123abc" is read as 123. */
  lemma ValidateEastingNorthingIgnoresTail(v: Validator, de: string, dn: string, te: string, tn: string)
    requires |de| > 0 && |dn| > 0 && AllDigits(de) && AllDigits(dn)
    requires te == [] || !IsDigit(te[0])
    requires tn == [] || !IsDigit(tn[0])
    ensures ValidateEastingNorthing(v, Some(de + te), Some(dn + tn)) == ValidateEastingNorthing(v, Some(de), Some(dn))
  {
    var e, n := Num(DigitsValue(de)), Num(DigitsValue(dn));
    assert ValidateEastingNorthing(v, Some(de + te), Some(dn + tn)) == CheckEastingNorthing(true, e, n) by {
      ParseIntIgnoresTail(de, te);
      ParseIntIgnoresTail(dn, tn);
      assert Truthy(Some(de + te)) && Truthy(Some(dn + tn));
    }
    assert ValidateEastingNorthing(v, Some(de), Some(dn)) == CheckEastingNorthing(true, e, n) by {
      ParseIntDigits(de, Radix10);
      ParseIntDigits(dn, Radix10);
    }
  }

  // ---- validateNationalGridFieldNumber -------------------------------------------------

  /** `validateNationalGridFieldNumber(value)`: accepted exactly when the value has a character that is not white space. */
  function ValidateNationalGridFieldNumber(v: Validator, value: Option<string>): (r: Outcome)
    ensures r.ok <==> value.Some? && exists i :: 0 <= i < |value.value| && !IsJsSpace(value.value[i])
    ensures r.validator.errors == if r.ok then [] else [MissingFieldNumber]
  {
    if !Truthy(value) || |Trim(value.value)| == 0 then Fail(MissingFieldNumber)
    else Pass
  }

  // ---- every validator starts afresh ---------------------------------------------------

  /** Each validator begins with `this.errors = []`: nothing recorded by an earlier call survives it. */
  lemma ValidatorsResetErrors(v1: Validator, v2: Validator, square: Option<string>, easting: Option<string>,
                              northing: Option<string>, text: Option<string>, inGreatBritain: (int, int) -> bool)
    ensures ValidateOSGridRef(v1, square, easting, northing, inGreatBritain) == ValidateOSGridRef(v2, square, easting, northing, inGreatBritain)
    ensures ValidateOSGridReferenceNumber(v1, text, inGreatBritain) == ValidateOSGridReferenceNumber(v2, text, inGreatBritain)
    ensures ValidateEastingNorthing(v1, easting, northing) == ValidateEastingNorthing(v2, easting, northing)
    ensures ValidateNationalGridFieldNumber(v1, text) == ValidateNationalGridFieldNumber(v2, text)
    ensures GetErrors(ValidateNationalGridFieldNumber(v1, text).validator) == GetErrors(ValidateNationalGridFieldNumber(v2, text).validator)
  {
  }
}

=== FILE: design_history.dfy ===
/**
 The per-page analysis of the design-history analyser: for every
 `design-history/<feature>/index.html` page it reads the Nunjucks variable
 declarations and a handful of text markers and produces one feature record.
 */
module DesignHistory {
  import opened Common
  import opened DesignPatterns

  /**
   `extract_variable`: the captures of the first declaration form that matches
   anywhere in the page, or nothing when none does.
   */
  function ExtractVariable(s: string, name: string): (r: seq<string>)
    ensures r == [] <==> (NoMatchFrom(Decl(name, ArrayForm), s, 0)
      && NoMatchFrom(Decl(name, QuotedTight), s, 0) && NoMatchFrom(Decl(name, QuotedLoose), s, 0))
    ensures !NoMatchFrom(Decl(name, ArrayForm), s, 0) ==> r == FindAll(Decl(name, ArrayForm), s, 0)
    ensures NoMatchFrom(Decl(name, ArrayForm), s, 0) && !NoMatchFrom(Decl(name, QuotedTight), s, 0) ==>
      r == FindAll(Decl(name, QuotedTight), s, 0)
    ensures NoMatchFrom(Decl(name, ArrayForm), s, 0) && NoMatchFrom(Decl(name, QuotedTight), s, 0) ==>
      r == FindAll(Decl(name, QuotedLoose), s, 0)
  {
    FindAllEmptyIff(Decl(name, ArrayForm), s, 0);
    FindAllEmptyIff(Decl(name, QuotedTight), s, 0);
    FindAllEmptyIff(Decl(name, QuotedLoose), s, 0);
    var a := FindAll(Decl(name, ArrayForm), s, 0);
    var b := FindAll(Decl(name, QuotedTight), s, 0);
    var c := FindAll(Decl(name, QuotedLoose), s, 0);
    if a != [] then a else if b != [] then b else c
  }

  /** A page without the text `]%}` never yields an array declaration, whatever it declares. */
  lemma ArrayDeclNeedsTightClose(s: string, name: string)
    requires !Contains(s, "]%}")
    ensures NoMatchFrom(Decl(name, ArrayForm), s, 0)
  {
    forall q: nat ensures MatchAt(Decl(name, ArrayForm), s, q).None? {
      ArrayFormNeedsTightClose(s, name, q);
    }
  }

  /** `count_research_rounds`: the quoted items of the first `researchRounds` capture. */
  function CountResearchRounds(s: string): (r: nat)
    ensures ExtractVariable(s, "researchRounds") == [] ==> r == 0
    ensures ExtractVariable(s, "researchRounds") != [] ==>
      (r == 0 <==> NoMatchFrom(QuotedItem, ExtractVariable(s, "researchRounds")[0], 0))
  {
    var rounds := ExtractVariable(s, "researchRounds");
    if rounds != [] then
      FindAllEmptyIff(QuotedItem, rounds[0], 0);
      |FindAll(QuotedItem, rounds[0], 0)|
    else 0
  }

  /** `count_research_history_entries`: one entry per `roundNumber: "..."` in the page. */
  function CountHistoryEntries(s: string): (r: nat)
    ensures r == 0 <==> NoMatchFrom(RoundNumber, s, 0)
  {
    FindAllEmptyIff(RoundNumber, s, 0);
    |FindAll(RoundNumber, s, 0)|
  }

  /** `extract_research_summaries`: the titles that begin "Round " and a digit. */
  function ResearchSummaries(s: string): (r: seq<string>)
    ensures r == [] <==> NoMatchFrom(SummaryTitle, s, 0)
    ensures forall j :: 0 <= j < |r| ==> RoundTitle(r[j])
  {
    FindAllEmptyIff(SummaryTitle, s, 0);
    SummariesAreRoundTitles(s, 0);
    FindAll(SummaryTitle, s, 0)
  }

  /** Every title the summary search collects is a round title. */
  lemma SummariesAreRoundTitles(s: string, k: nat)
    ensures forall j :: 0 <= j < |FindAll(SummaryTitle, s, k)| ==> RoundTitle(FindAll(SummaryTitle, s, k)[j])
  {
    forall j | 0 <= j < |FindAll(SummaryTitle, s, k)| ensures RoundTitle(FindAll(SummaryTitle, s, k)[j]) {
      FindAllSound(SummaryTitle, s, k, j);
      var q: nat :| k <= q && CapturesAt(SummaryTitle, s, q, FindAll(SummaryTitle, s, k)[j]);
      assert MatchAt(SummaryTitle, s, q) == SummaryTitleAt(s, q);
      SummaryTitleIsRound(s, q);
    }
  }

  /** The items of a research-rounds list as the page writes them: `"a", "b", "c"`. */
  function ListLiteral(items: seq<string>): string
  {
    if |items| == 0 then []
    else if |items| == 1 then "\"" + items[0] + "\""
    else "\"" + items[0] + "\", " + ListLiteral(items[1..])
  }

  predicate PlainItem(x: string)
  {
    x != [] && forall i :: 0 <= i < |x| ==> x[i] != '"' && x[i] != ']'
  }

  lemma NextQuoteIs(s: string, k: nat, j: nat)
    requires k <= j < |s| && s[j] == '"'
    requires forall i :: k <= i < j ==> s[i] != '"'
    ensures NextQuote(s, k) == Some(j)
  {
  }

  /** Counting the quoted items of a list literal gives back exactly its items. */
  lemma {:induction false} QuotedItemsOfList(s: string, k: nat, items: seq<string>)
    requires k <= |s| && s[k..] == ListLiteral(items)
    requires forall i :: 0 <= i < |items| ==> PlainItem(items[i])
    ensures FindAll(QuotedItem, s, k) == items
    decreases |items|
  {
    if |items| == 1 {
      FirstQuotedItem(s, k, items);
    } else if |items| > 1 {
      ItemSeparator(s, k, items);
      QuotedItemsOfList(s, k + |items[0]| + 4, items[1..]);
      LaterItems(s, k, items);
    }
  }

  /** A list literal's items are its first item followed by the quoted items after the separator. */
  lemma LaterItems(s: string, k: nat, items: seq<string>)
    requires k <= |s| && s[k..] == ListLiteral(items)
    requires |items| > 1 && PlainItem(items[0])
    requires k + |items[0]| + 4 <= |s| && FindAll(QuotedItem, s, k + |items[0]| + 4) == items[1..]
    ensures FindAll(QuotedItem, s, k) == items
  {
    FirstQuotedItem(s, k, items);
    ItemSeparator(s, k, items);
    assert items == [items[0]] + items[1..];
  }

  /** The first item of a list literal is the first quoted item found. */
  lemma FirstQuotedItem(s: string, k: nat, items: seq<string>)
    requires k <= |s| && s[k..] == ListLiteral(items)
    requires |items| > 0 && PlainItem(items[0])
    ensures k + |items[0]| + 2 <= |s|
    ensures FindAll(QuotedItem, s, k) == [items[0]] + FindAll(QuotedItem, s, k + |items[0]| + 2)
  {
    var x := items[0];
    var close := k + 1 + |x|;
    var lit := ListLiteral(items);
    assert lit[..|x| + 2] == "\"" + x + "\"";
    assert s[k..k + |x| + 2] == lit[..|x| + 2];
    assert s[k + 1..close] == x;
    assert s[k] == '"' && s[close] == '"';
    NextQuoteIs(s, k + 1, close);
    assert MatchAt(QuotedItem, s, k) == Some(Hit(s[k + 1..close], close + 1));
  }

  /** Between two items of a list literal stand `, ` and nothing a quoted item can start at. */
  lemma ItemSeparator(s: string, k: nat, items: seq<string>)
    requires k <= |s| && s[k..] == ListLiteral(items)
    requires |items| > 1
    ensures var close := k + 1 + |items[0]|;
      close + 3 <= |s| && s[close + 3..] == ListLiteral(items[1..])
      && FindAll(QuotedItem, s, close + 1) == FindAll(QuotedItem, s, close + 3)
  {
    var x := items[0];
    var close := k + 1 + |x|;
    assert s[k..] == "\"" + x + "\", " + ListLiteral(items[1..]);
    assert s[k..][|x| + 2] == ',';
    assert s[k..][|x| + 3] == ' ';
    assert s[close + 3..] == s[k..][|x| + 4..];
    assert MatchAt(QuotedItem, s, close + 1).None?;
    assert MatchAt(QuotedItem, s, close + 2).None?;
    assert FindAll(QuotedItem, s, close + 1) == FindAll(QuotedItem, s, close + 2);
  }

  /** The page declaration `{% set researchRounds = [ ... ]%}` of a list literal. */
  function RoundsDeclaration(items: seq<string>): string
  {
    "{% set researchRounds = [" + ListLiteral(items) + "]%}"
  }

  lemma {:induction false} ListLiteralChars(items: seq<string>, i: nat)
    requires forall j :: 0 <= j < |items| ==> PlainItem(items[j])
    requires i < |ListLiteral(items)|
    ensures ListLiteral(items)[i] != ']'
    decreases |items|
  {
    if |items| > 1 {
      var x := items[0];
      assert PlainItem(x);
      if i >= |x| + 4 {
        ListLiteralChars(items[1..], i - |x| - 4);
      }
    } else {
      assert PlainItem(items[0]);
    }
  }

  /** The declaration prefix `{% set researchRounds = [` is recognised at the start of the page. */
  lemma RoundsDeclarationStart(items: seq<string>)
    ensures DeclValueStart(RoundsDeclaration(items), 0, "researchRounds") == Some(24)
  {
    var s := RoundsDeclaration(items);
    assert s[..25] == "{% set researchRounds = [";
    DeclStartOfHead(s);
  }

  /** Any text opening with `{% set researchRounds = [` has its value start at index 24. */
  lemma DeclStartOfHead(s: string)
    requires IsRoundsHead(s)
    ensures DeclValueStart(s, 0, "researchRounds") == Some(24)
  {
    HeadOpens(s);
    HeadSet(s);
    HeadName(s);
    HeadEquals(s);
  }

  predicate IsRoundsHead(s: string)
  {
    25 <= |s| && s[..25] == "{% set researchRounds = ["
  }

  lemma HeadOpens(s: string)
    requires IsRoundsHead(s)
    ensures OccursAt(s, "{%", 0) && SkipSpace(s, 2) == 3
  {
    var head := "{% set researchRounds = [";
    assert forall i :: 0 <= i < 4 ==> s[i] == head[i];
    OccursAtChars(s, "{%", 0);
  }

  lemma HeadSet(s: string)
    requires IsRoundsHead(s)
    ensures OccursAt(s, "set", 3) && SkipSpace(s, 6) == 7
  {
    var head := "{% set researchRounds = [";
    assert forall i :: 3 <= i < 8 ==> s[i] == head[i];
    OccursAtChars(s, "set", 3);
  }

  lemma HeadName(s: string)
    requires IsRoundsHead(s)
    ensures OccursAt(s, "researchRounds", 7)
  {
    var head := "{% set researchRounds = [";
    assert forall i :: 7 <= i < 21 ==> s[i] == head[i];
    OccursAtChars(s, "researchRounds", 7);
  }

  lemma HeadEquals(s: string)
    requires IsRoundsHead(s)
    ensures SkipSpace(s, 21) == 22 && s[22] == '=' && SkipSpace(s, 23) == 24
  {
    var head := "{% set researchRounds = [";
    assert forall i :: 21 <= i < 25 ==> s[i] == head[i];
  }

  /** `w` occurs at `i` when its characters do, one by one. */
  lemma OccursAtChars(s: string, w: string, i: nat)
    requires i + |w| <= |s| && forall j :: 0 <= j < |w| ==> s[i + j] == w[j]
    ensures OccursAt(s, w, i)
  {
    assert s[i..i + |w|] == w;
  }

  lemma FirstCloserIs(s: string, k: nat, form: DeclForm, q: nat, e: nat)
    requires k <= q && CloserEnd(s, q, form) == Some(e)
    requires forall i :: k <= i < q ==> CloserEnd(s, i, form).None?
    ensures FirstCloser(s, k, form) == Some((q, e))
  {
  }

  /** No `]%}` starts inside the list literal of a rounds declaration. */
  lemma RoundsDeclarationNoEarlyClose(items: seq<string>)
    requires forall i :: 0 <= i < |items| ==> PlainItem(items[i])
    ensures var s := RoundsDeclaration(items);
      forall q :: 25 <= q < 25 + |ListLiteral(items)| ==> CloserEnd(s, q, ArrayForm).None?
  {
    var l := ListLiteral(items);
    var s := RoundsDeclaration(items);
    forall q | 25 <= q < 25 + |l| ensures CloserEnd(s, q, ArrayForm).None? {
      ListLiteralChars(items, q - 25);
      assert s[q] == l[q - 25];
    }
  }

  /** The array declaration of a list literal captures exactly the literal. */
  lemma RoundsDeclarationCapture(items: seq<string>)
    requires forall i :: 0 <= i < |items| ==> PlainItem(items[i])
    ensures MatchAt(Decl("researchRounds", ArrayForm), RoundsDeclaration(items), 0)
      == Some(Hit(ListLiteral(items), |RoundsDeclaration(items)|))
  {
    var l := ListLiteral(items);
    var s := RoundsDeclaration(items);
    RoundsDeclarationStart(items);
    assert s[24] == '[';
    RoundsDeclarationNoEarlyClose(items);
    assert s[25 + |l|..] == "]%}";
    assert OccursAt(s, "]%}", 25 + |l|);
    FirstCloserIs(s, 25, ArrayForm, 25 + |l|, |s|);
    assert s[25..25 + |l|] == l;
  }

  /** A page that declares its rounds as a list of plain items counts exactly those items. */
  lemma RoundsOfDeclaredList(items: seq<string>)
    requires forall i :: 0 <= i < |items| ==> PlainItem(items[i])
    ensures CountResearchRounds(RoundsDeclaration(items)) == |items|
  {
    var l := ListLiteral(items);
    var s := RoundsDeclaration(items);
    var pat := Decl("researchRounds", ArrayForm);
    RoundsDeclarationCapture(items);
    assert FindAll(pat, s, 0) == [l];
    assert !NoMatchFrom(pat, s, 0);
    assert ExtractVariable(s, "researchRounds") == [l];
    assert l[0..] == l;
    QuotedItemsOfList(l, 0, items);
  }

  /** `iterations`: the largest of the three counts, and 1 when all of them are zero. */
  function Iterations(rounds: nat, history: nat, summaries: nat): (r: nat)
    ensures r >= 1 && r >= rounds && r >= history && r >= summaries
    ensures r == rounds || r == history || r == summaries || (r == 1 && rounds == history == summaries == 0)
  {
    var m := if rounds >= history then rounds else history;
    var m' := if m >= summaries then m else summaries;
    if m' > 0 then m' else 1
  }

  /** The keyword list of `has_accessibility_mentions`, as written (two of them in capitals). */
  const AccessibilityKeywords: seq<string> :=
    ["accessibility", "accessible", "screen reader", "WCAG", "ARIA", "keyboard", "focus", "a11y", "designed for everyone"]

  /** The keywords that can actually occur in lower-cased text. */
  const LowerCaseKeywords: seq<string> :=
    ["accessibility", "accessible", "screen reader", "keyboard", "focus", "a11y", "designed for everyone"]

  /** Python `any(k in text for k in keywords)` */
  predicate AnyContains(text: string, keywords: seq<string>)
  {
    exists k :: 0 <= k < |keywords| && Contains(text, keywords[k])
  }

  /** `has_accessibility_mentions`: the keywords are searched in the lower-cased page. */
  function HasAccessibility(s: string): (r: bool)
    ensures r <==> AnyContains(Lower(s), LowerCaseKeywords)
  {
    CapitalKeywordsNeverMatch(s);
    AnyContains(Lower(s), AccessibilityKeywords)
  }

  /** "WCAG" and "ARIA" hold capitals, so searching lower-cased text for them never succeeds. */
  lemma CapitalKeywordsNeverMatch(s: string)
    ensures AnyContains(Lower(s), AccessibilityKeywords) <==> AnyContains(Lower(s), LowerCaseKeywords)
  {
    var l := Lower(s);
    var all := AccessibilityKeywords;
    assert IsAsciiUpper(all[3][0]) && IsAsciiUpper(all[4][0]);
    LowerHasNoCapital(s, all[3]);
    LowerHasNoCapital(s, all[4]);
    forall k | 0 <= k < 9 && k != 3 && k != 4 && Contains(l, all[k])
      ensures AnyContains(l, LowerCaseKeywords)
    {
      if k < 3 { assert all[k] == LowerCaseKeywords[k]; }
      else { assert all[k] == LowerCaseKeywords[k - 2]; }
    }
    forall k | 0 <= k < 7 && Contains(l, LowerCaseKeywords[k])
      ensures AnyContains(l, all)
    {
      if k < 3 { assert all[k] == LowerCaseKeywords[k]; }
      else { assert all[k + 2] == LowerCaseKeywords[k]; }
    }
  }

  /** A page that mentions accessibility only as "ARIA" is not counted as considering accessibility. */
  lemma AriaAloneNotDetected()
    ensures !HasAccessibility("ARIA")
  {
    var l := Lower("ARIA");
    assert l == "aria";
    forall k | 0 <= k < |LowerCaseKeywords| ensures !Contains(l, LowerCaseKeywords[k]) {
      var w := LowerCaseKeywords[k];
      if w == "a11y" {
        forall i: nat ensures !OccursAt(l, w, i) {
          if i == 0 { assert l[0..4][1] != w[1]; }
        }
      } else {
        assert |w| > 4;
      }
    }
  }

  /** `has_user_quotes`: the three patterns are case-insensitive; only two of them hold letters. */
  function HasQuotes(s: string): (r: bool)
    ensures r <==> (!NoMatchFrom(TypeQuotes, Lower(s), 0) || !NoMatchFrom(Participant, Lower(s), 0)
      || !NoMatchFrom(Attribution, s, 0))
  {
    SearchLeftmost(TypeQuotes, Lower(s), 0);
    SearchLeftmost(Participant, Lower(s), 0);
    SearchLeftmost(Attribution, s, 0);
    Search(TypeQuotes, Lower(s), 0).Some? || Search(Participant, Lower(s), 0).Some?
    || Search(Attribution, s, 0).Some?
  }

  /**
   `has_findings`, `has_objectives` and `has_recommendations`: plain substring tests
   for the text `type:\s*"KIND"` (backslash included) or `type: "KIND"`.
   */
  function HasSection(s: string, kind: string): bool
  {
    Contains(s, "type:\\s*\"" + kind + "\"") || Contains(s, "type: \"" + kind + "\"")
  }

  /** Findings written without the space after `type:` are not detected. */
  lemma TightFindingsNotDetected()
    ensures !HasSection("type:\"findings\"", "findings")
  {
    var s := "type:\"findings\"";
    assert |"type: \"findings\""| > |s|;
    assert |"type:\\s*\"findings\""| > |s|;
  }

  /** Findings written with exactly one space are detected. */
  lemma SpacedFindingsDetected()
    ensures HasSection("type: \"findings\"", "findings")
  {
    assert OccursAt("type: \"findings\"", "type: \"findings\"", 0);
  }

  /**
   `extract_status` and `extract_phase`: the first non-empty, quote-free value
   assigned to `key`, or nothing when no such assignment exists.
   */
  function ExtractAssigned(s: string, key: string): (r: Option<string>)
    ensures r.None? <==> NoMatchFrom(Assign(key, false), s, 0)
    ensures r.Some? ==> r.value != [] && forall i :: 0 <= i < |r.value| ==> r.value[i] != '"'
    ensures r.Some? ==> exists q: nat :: (MatchAt(Assign(key, false), s, q).Some?
      && MatchAt(Assign(key, false), s, q).value.capture == r.value && NoMatchBetween(Assign(key, false), s, 0, q))
  {
    SearchLeftmost(Assign(key, false), s, 0);
    match Search(Assign(key, false), s, 0)
    case None => None
    case Some(h) => Some(h.capture)
  }

  /** `extract_user_need`: the first value assigned to `userNeed` (possibly empty), stripped. */
  function ExtractUserNeed(s: string): (r: Option<string>)
    ensures r.None? <==> NoMatchFrom(Assign("userNeed", true), s, 0)
    ensures r.Some? ==> exists q: nat :: (MatchAt(Assign("userNeed", true), s, q).Some?
      && r.value == Strip(MatchAt(Assign("userNeed", true), s, q).value.capture, IsPySpace)
      && NoMatchBetween(Assign("userNeed", true), s, 0, q))
  {
    SearchLeftmost(Assign("userNeed", true), s, 0);
    match Search(Assign("userNeed", true), s, 0)
    case None => None
    case Some(h) => Some(Strip(h.capture, IsPySpace))
  }

  /** An empty `userNeed` declaration still counts as a documented user need. */
  lemma EmptyUserNeedCounts()
    ensures ExtractUserNeed("userNeed = \"\"").Some?
  {
    var s := "userNeed = \"\"";
    assert OccursAt(s, "userNeed", 0);
    assert SkipSpace(s, 8) == 9;
    assert SkipSpace(s, 10) == 11;
    assert NextQuote(s, 12) == Some(12);
    assert MatchAt(Assign("userNeed", true), s, 0).Some?;
  }

  predicate IsQuoteChar(c: char) { c == '"' || c == '\'' }

  /** `str.replace('-', ' ')` */
  function DashesToSpaces(s: string): (r: string)
    ensures |r| == |s|
    ensures forall i :: 0 <= i < |s| ==> r[i] == (if s[i] == '-' then ' ' else s[i])
  {
    seq(|s|, i requires 0 <= i < |s| => if s[i] == '-' then ' ' else s[i])
  }

  /** Python `str.title` on ASCII: a letter is upper-cased after a non-letter and lower-cased after a letter. */
  function Title(s: string): (r: string)
    ensures |r| == |s|
    ensures forall i :: 0 <= i < |s| ==> LowerChar(r[i]) == LowerChar(s[i])
    ensures forall i :: 0 <= i < |s| && !IsAsciiLetter(s[i]) ==> r[i] == s[i]
    ensures forall i :: 0 <= i < |s| && IsAsciiLetter(s[i]) ==>
      (IsAsciiUpper(r[i]) <==> i == 0 || !IsAsciiLetter(s[i - 1]))
  {
    TitleAtAll(s);
    seq(|s|, i requires 0 <= i < |s| => TitleAt(s, i))
  }

  function TitleAt(s: string, i: nat): char
    requires i < |s|
  {
    if i == 0 || !IsAsciiLetter(s[i - 1]) then UpperChar(s[i]) else LowerChar(s[i])
  }

  lemma TitleAtAll(s: string)
    ensures forall i :: 0 <= i < |s| ==> LowerChar(TitleAt(s, i)) == LowerChar(s[i])
    ensures forall i :: 0 <= i < |s| && !IsAsciiLetter(s[i]) ==> TitleAt(s, i) == s[i]
    ensures forall i :: 0 <= i < |s| && IsAsciiLetter(s[i]) ==>
      (IsAsciiUpper(TitleAt(s, i)) <==> i == 0 || !IsAsciiLetter(s[i - 1]))
  {
    forall i | 0 <= i < |s| ensures LowerChar(TitleAt(s, i)) == LowerChar(s[i]) {
      CaseMapsAgree(s[i]);
    }
  }

  /** Title-casing keeps every character up to case, and keeps letters letters. */
  lemma TitleKeepsLetters(s: string)
    ensures Lower(Title(s)) == Lower(s)
    ensures forall i :: 0 <= i < |s| ==> (IsAsciiLetter(Title(s)[i]) <==> IsAsciiLetter(s[i]))
  {
    var t := Title(s);
    forall i | 0 <= i < |s| ensures LowerChar(t[i]) == LowerChar(s[i]) && (IsAsciiLetter(t[i]) <==> IsAsciiLetter(s[i])) {
      CaseMapsAgree(s[i]);
    }
  }

  /** Title-casing a title-cased name changes nothing. */
  lemma TitleIdempotent(s: string)
    ensures Title(Title(s)) == Title(s)
  {
    var t := Title(s);
    TitleKeepsLetters(s);
    forall i | 0 <= i < |s| ensures Title(t)[i] == t[i] {
      CaseMapsAgree(s[i]);
      if i > 0 {
        assert IsAsciiLetter(t[i - 1]) <==> IsAsciiLetter(s[i - 1]);
      }
    }
  }

  /**
   The feature name: the first `featureName` capture with quotes stripped from
   both ends, otherwise the folder name with dashes turned into spaces, title-cased.
   */
  function FeatureName(s: string, folder: string): (r: string)
    ensures ExtractVariable(s, "featureName") != [] ==> QuotesStripped(ExtractVariable(s, "featureName")[0], r)
    ensures ExtractVariable(s, "featureName") == [] ==> TitledFolder(folder, r)
  {
    var v := ExtractVariable(s, "featureName");
    if v != [] then
      StripQuotesStrips(v[0]);
      Strip(v[0], IsQuoteChar)
    else
      FolderTitleTitles(folder);
      Title(DashesToSpaces(folder))
  }

  /**
   `r` is `n` with its leading and trailing quote characters removed: a slice of
   `n` with only quotes outside it and no quote at either of its own ends.
   */
  ghost predicate QuotesStripped(n: string, r: string)
  {
    (r == [] || (!IsQuoteChar(r[0]) && !IsQuoteChar(r[|r| - 1])))
    && (exists a, b :: 0 <= a <= b <= |n| && r == n[a..b]
          && (forall i :: 0 <= i < a ==> IsQuoteChar(n[i]))
          && (forall i :: b <= i < |n| ==> IsQuoteChar(n[i])))
  }

  /**
   `r` is the folder name with dashes read as spaces and title-cased: the same
   characters up to case, spaces exactly where the folder has a dash or a space,
   and a letter upper case exactly when it opens a word.
   */
  predicate TitledFolder(folder: string, r: string)
  {
    |r| == |folder|
    && (forall i :: 0 <= i < |r| ==> (r[i] == ' ' <==> folder[i] == '-' || folder[i] == ' '))
    && (forall i :: 0 <= i < |r| ==> LowerChar(r[i]) == LowerChar(if folder[i] == '-' then ' ' else folder[i]))
    && (forall i :: 0 <= i < |r| && IsAsciiLetter(folder[i]) ==>
          (IsAsciiUpper(r[i]) <==> i == 0 || !IsAsciiLetter(folder[i - 1])))
  }

  lemma StripQuotesStrips(n: string)
    ensures QuotesStripped(n, Strip(n, IsQuoteChar))
  {
    var r := Strip(n, IsQuoteChar);
    var a := SkipWhile(n, 0, IsQuoteChar);
    assert r == n[a..a + |r|];
  }

  lemma FolderTitleTitles(folder: string)
    ensures TitledFolder(folder, Title(DashesToSpaces(folder)))
  {
    var d := DashesToSpaces(folder);
    var r := Title(d);
    forall i | 0 <= i < |r| ensures r[i] == ' ' <==> d[i] == ' ' {
    }
  }

  /** A declared name with no quote at either end is the feature name exactly. */
  lemma DeclaredNameKept(s: string, folder: string)
    requires ExtractVariable(s, "featureName") != []
    requires var n := ExtractVariable(s, "featureName")[0];
      n == [] || (!IsQuoteChar(n[0]) && !IsQuoteChar(n[|n| - 1]))
    ensures FeatureName(s, folder) == ExtractVariable(s, "featureName")[0]
  {
    var n := ExtractVariable(s, "featureName")[0];
    var r := Strip(n, IsQuoteChar);
    assert FeatureName(s, folder) == r;
    if n != [] {
      assert !IsQuoteChar(n[0]) && !IsQuoteChar(n[|n| - 1]);
      assert SkipWhile(n, 0, IsQuoteChar) == 0;
      assert |r| == |n|;
    }
  }

  /** A name taken from the folder is already title-cased, and agrees with the folder up to case. */
  lemma FolderNameTitled(s: string, folder: string)
    requires ExtractVariable(s, "featureName") == []
    ensures Title(FeatureName(s, folder)) == FeatureName(s, folder)
    ensures Lower(FeatureName(s, folder)) == Lower(DashesToSpaces(folder))
  {
    TitleIdempotent(DashesToSpaces(folder));
    TitleKeepsLetters(DashesToSpaces(folder));
  }

  /** The record `analyze_design_history` keeps for one feature page. */
  datatype Feature = Feature(
    name: string,
    path: string,
    rounds: nat,
    historyEntries: nat,
    summariesCount: nat,
    iterations: nat,
    hasAccessibility: bool,
    hasQuotes: bool,
    hasFindings: bool,
    hasObjectives: bool,
    hasRecommendations: bool,
    status: Option<string>,
    phase: Option<string>,
    hasUserNeed: bool)

  predicate ValidFeature(f: Feature)
  {
    f.iterations >= 1
    && f.iterations >= f.rounds && f.iterations >= f.historyEntries && f.iterations >= f.summariesCount
    && (f.status.Some? ==> f.status.value != [])
    && (f.phase.Some? ==> f.phase.value != [])
  }

  /** The page path relative to the views folder: `design-history/<dirs>/index.html`. */
  function PagePath(dirs: seq<string>): string
  {
    "design-history/" + Join(dirs + ["index.html"], "/")
  }

  /** One feature page analysed; `folder` is the name of the folder holding the page. */
  function AnalyzePage(dirs: seq<string>, s: string): (f: Feature)
    requires dirs != []
    ensures ValidFeature(f)
    ensures f.path == PagePath(dirs)
    ensures f.hasUserNeed <==> !NoMatchFrom(Assign("userNeed", true), s, 0)
    ensures f.status.None? <==> NoMatchFrom(Assign("status", false), s, 0)
    ensures f.phase.None? <==> NoMatchFrom(Assign("phase", false), s, 0)
  {
    var rounds := CountResearchRounds(s);
    var history := CountHistoryEntries(s);
    var summaries := |ResearchSummaries(s)|;
    Feature(
      FeatureName(s, dirs[|dirs| - 1]),
      PagePath(dirs),
      rounds, history, summaries,
      Iterations(rounds, history, summaries),
      HasAccessibility(s),
      HasQuotes(s),
      HasSection(s, "findings"),
      HasSection(s, "objectives"),
      HasSection(s, "recommendations"),
      ExtractAssigned(s, "status"),
      ExtractAssigned(s, "phase"),
      ExtractUserNeed(s).Some?)
  }

  /** A page as found on disk: readable text, or a read that raised (missing, not UTF-8). */
  datatype Body = Text(content: string) | Unreadable

  /** An `index.html` found below the design-history folder; `dirs` is its folder relative to that root. */
  datatype Page = Page(dirs: seq<string>, body: Body)

  /** The features found and the paths of the pages that could not be read (reported on stderr). */
  datatype Scan = Scan(features: seq<Feature>, failed: seq<string>)

  /** The feature record a single page contributes: none for the root page or an unreadable one. */
  function PageFeatures(p: Page): seq<Feature>
  {
    if p.dirs != [] && p.body.Text? then [AnalyzePage(p.dirs, p.body.content)] else []
  }

  /** The failure a single page contributes: its path when it lies below the root and cannot be read. */
  function PageFailures(p: Page): seq<string>
  {
    if p.dirs != [] && p.body.Unreadable? then [PagePath(p.dirs)] else []
  }

  /** `analyze_design_history` over the pages in the order the directory walk yields them. */
  function ScanPages(pages: seq<Page>): Scan
  {
    if |pages| == 0 then Scan([], [])
    else
      var rest := ScanPages(pages[1..]);
      Scan(PageFeatures(pages[0]) + rest.features, PageFailures(pages[0]) + rest.failed)
  }

  /** Number of pages below the root folder: the ones the scan looks at. */
  function FeaturePages(pages: seq<Page>): nat
  {
    if |pages| == 0 then 0 else (if pages[0].dirs != [] then 1 else 0) + FeaturePages(pages[1..])
  }

  /**
   A page that fails to read does not affect the others: the features of two
   batches of pages are the features of each, in order.
   */
  lemma {:induction false} ScanSplitsFeatures(a: seq<Page>, b: seq<Page>)
    ensures ScanPages(a + b).features == ScanPages(a).features + ScanPages(b).features
  {
    if |a| == 0 {
      assert a + b == b;
    } else {
      var ab := a + b;
      assert ab[1..] == a[1..] + b;
      assert ab[0] == a[0];
      ScanSplitsFeatures(a[1..], b);
      var pf := PageFeatures(a[0]);
      var fa := ScanPages(a[1..]).features;
      var fb := ScanPages(b).features;
      assert ScanPages(ab).features == pf + (fa + fb);
      AppendAssoc(pf, fa, fb);
    }
  }

  /** The reported failures of two batches of pages are the failures of each, in order. */
  lemma {:induction false} ScanSplitsFailures(a: seq<Page>, b: seq<Page>)
    ensures ScanPages(a + b).failed == ScanPages(a).failed + ScanPages(b).failed
  {
    if |a| == 0 {
      assert a + b == b;
    } else {
      var ab := a + b;
      assert ab[1..] == a[1..] + b;
      assert ab[0] == a[0];
      ScanSplitsFailures(a[1..], b);
      var pe := PageFailures(a[0]);
      var ea := ScanPages(a[1..]).failed;
      var eb := ScanPages(b).failed;
      assert ScanPages(ab).failed == pe + (ea + eb);
      AppendAssoc(pe, ea, eb);
    }
  }

  /** Every feature record the scan produces satisfies the record invariant. */
  lemma {:induction false} ScanFeaturesValid(pages: seq<Page>)
    ensures forall i :: 0 <= i < |ScanPages(pages).features| ==> ValidFeature(ScanPages(pages).features[i])
  {
    if |pages| > 0 {
      ScanFeaturesValid(pages[1..]);
      var head := PageFeatures(pages[0]);
      var rest := ScanPages(pages[1..]).features;
      assert forall i :: 0 <= i < |head| ==> ValidFeature(head[i]);
      assert ScanPages(pages).features == head + rest;
      forall i | 0 <= i < |head + rest| ensures ValidFeature((head + rest)[i]) {
        if i >= |head| {
          assert (head + rest)[i] == rest[i - |head|];
        }
      }
    }
  }

  lemma {:induction false} ScanAccountsForEveryPage(pages: seq<Page>)
    ensures |ScanPages(pages).features| + |ScanPages(pages).failed| == FeaturePages(pages)
  {
    if |pages| > 0 {
      ScanAccountsForEveryPage(pages[1..]);
    }
  }
}

=== FILE: design_patterns.dfy ===
/**
 The fixed text patterns of the design-history analyser, each written as a
 deterministic matcher over the document text.

 Every pattern of the analyser either starts with a literal or has its
 repetitions bounded by a character that the next element cannot match, so
 backtracking never changes the outcome and one left-to-right pass decides a
 match. `FindAll` is Python's `re.findall` (non-overlapping, leftmost first,
 resuming at the end of each match) and `Search` is `re.search`.
 */
module DesignPatterns {
  import opened Common

  /** The three shapes of `{% set NAME = ... %}` tried by `extract_variable`, in order. */
  datatype DeclForm =
    | ArrayForm     // `[` ... `]%}`  (no space allowed before `%}`)
    | QuotedTight   // `"` ... `"%}`
    | QuotedLoose   // `"` ... `"` whitespace `%}`

  datatype Pattern =
    | Decl(name: string, form: DeclForm)   // {%\s*set\s+NAME\s*=\s*<form>
    | QuotedItem                           // "([^"]+)"
    | RoundNumber                          // roundNumber:\s*"([^"]+)"
    | SummaryTitle                         // title:\s*"(Round \d+[^"]*)"
    | Assign(key: string, allowEmpty: bool)// KEY\s*=\s*"([^"]+)"  or  KEY\s*=\s*"(.*?)"
    | TypeQuotes                           // type:\s*"quotes"   (matched on lower-cased text)
    | Participant                          // Participant \d+    (matched on lower-cased text)
    | Attribution                          // "[^"]*" - [^"]+

  datatype Hit = Hit(capture: string, end: nat)

  /** A declared variable name: the analyser only uses plain identifiers. */
  predicate IsIdentifier(name: string)
  {
    |name| > 0 && forall i :: 0 <= i < |name| ==> IsWordChar(name[i])
  }

  predicate WellFormed(pat: Pattern)
  {
    match pat
    case Decl(name, _) => IsIdentifier(name)
    case Assign(key, _) => IsIdentifier(key)
    case _ => true
  }

  /** End of the run of Python whitespace starting at `k`. */
  function SkipSpace(s: string, k: nat): (r: nat)
    requires k <= |s|
    ensures k <= r <= |s|
    ensures forall i :: k <= i < r ==> IsPySpace(s[i])
    ensures r < |s| ==> !IsPySpace(s[r])
    decreases |s| - k
  {
    if k < |s| && IsPySpace(s[k]) then SkipSpace(s, k + 1) else k
  }

  /** Index of the first double quote at or after `k`. */
  function NextQuote(s: string, k: nat): (r: Option<nat>)
    ensures r.Some? ==> k <= r.value < |s| && s[r.value] == '"'
    ensures r.Some? ==> forall i :: k <= i < r.value ==> s[i] != '"'
    ensures r.None? ==> forall i :: k <= i < |s| ==> s[i] != '"'
    decreases |s| - k
  {
    if k >= |s| then None
    else if s[k] == '"' then Some(k)
    else NextQuote(s, k + 1)
  }

  /** A double-quoted literal opening at `q`: `"([^"]+)"`, or `"(.*?)"` when empty values are allowed. */
  function QuotedAt(s: string, q: nat, allowEmpty: bool): (r: Option<Hit>)
    ensures r.Some? ==> q < r.value.end <= |s|
    ensures r.Some? ==> |r.value.capture| + 2 == r.value.end - q
    ensures r.Some? ==> allowEmpty || r.value.capture != []
    ensures r.Some? ==> forall i :: 0 <= i < |r.value.capture| ==> r.value.capture[i] != '"'
  {
    if q < |s| && s[q] == '"' then
      match NextQuote(s, q + 1)
      case None => None
      case Some(k) =>
        if !allowEmpty && k == q + 1 then None else Some(Hit(s[q + 1..k], k + 1))
    else None
  }

  /** Position just after `{%\s*set\s+NAME\s*=\s*` when that prefix starts at `p`. */
  function DeclValueStart(s: string, p: nat, name: string): (r: Option<nat>)
    ensures r.Some? ==> p < r.value <= |s|
  {
    if !OccursAt(s, "{%", p) then None
    else
      var q := SkipSpace(s, p + 2);
      if !OccursAt(s, "set", q) then None
      else
        var n := SkipSpace(s, q + 3);
        if n == q + 3 || !OccursAt(s, name, n) then None
        else
          var t := SkipSpace(s, n + |name|);
          if t < |s| && s[t] == '=' then Some(SkipSpace(s, t + 1)) else None
  }

  function OpenChar(form: DeclForm): char
  {
    if form == ArrayForm then '[' else '"'
  }

  /** End of the closing delimiter of `form` when it starts at `q`. */
  function CloserEnd(s: string, q: nat, form: DeclForm): (r: Option<nat>)
    ensures r.Some? ==> q < r.value <= |s|
  {
    match form
    case ArrayForm => if OccursAt(s, "]%}", q) then Some(q + 3) else None
    case QuotedTight => if OccursAt(s, "\"%}", q) then Some(q + 3) else None
    case QuotedLoose =>
      if q < |s| && s[q] == '"' then
        var t := SkipSpace(s, q + 1);
        if OccursAt(s, "%}", t) then Some(t + 2) else None
      else None
  }

  /** The lazy `(.*?)` of a declaration: the first closing delimiter at or after `k`. */
  function FirstCloser(s: string, k: nat, form: DeclForm): (r: Option<(nat, nat)>)
    ensures r.Some? ==> k <= r.value.0 < r.value.1 <= |s|
    ensures r.Some? ==> CloserEnd(s, r.value.0, form) == Some(r.value.1)
    ensures r.Some? ==> forall q :: k <= q < r.value.0 ==> CloserEnd(s, q, form).None?
    ensures r.None? ==> forall q :: k <= q ==> CloserEnd(s, q, form).None?
    decreases |s| - k
  {
    if k >= |s| then None
    else match CloserEnd(s, k, form)
      case Some(e) => Some((k, e))
      case None => FirstCloser(s, k + 1, form)
  }

  /** `{%\s*set\s+NAME\s*=\s*` followed by the value of `form`, captured lazily. */
  function DeclAt(s: string, p: nat, name: string, form: DeclForm): (r: Option<Hit>)
    ensures r.Some? ==> p < r.value.end <= |s|
  {
    match DeclValueStart(s, p, name)
    case None => None
    case Some(v) =>
      if v < |s| && s[v] == OpenChar(form) then
        match FirstCloser(s, v + 1, form)
        case None => None
        case Some(c) => Some(Hit(s[v + 1..c.0], c.1))
      else None
  }

  /** A summary title as `Round \d+[^"]*` admits it: "Round ", a digit, and no double quote. */
  predicate RoundTitle(t: string)
  {
    |t| > 6 && StartsWith(t, "Round ") && IsDigit(t[6]) && forall i :: 0 <= i < |t| ==> t[i] != '"'
  }

  /** `title:\s*"(Round \d+[^"]*)"` */
  function SummaryTitleAt(s: string, p: nat): (r: Option<Hit>)
    ensures r.Some? ==> p < r.value.end <= |s|
  {
    if OccursAt(s, "title:", p) then
      var q := SkipSpace(s, p + 6);
      if q < |s| && s[q] == '"' && OccursAt(s, "Round ", q + 1) && q + 7 < |s| && IsDigit(s[q + 7]) then
        match NextQuote(s, q + 8)
        case None => None
        case Some(k) => Some(Hit(s[q + 1..k], k + 1))
      else None
    else None
  }

  /** A summary-title capture is a round title. */
  lemma SummaryTitleIsRound(s: string, p: nat)
    ensures SummaryTitleAt(s, p).Some? ==> RoundTitle(SummaryTitleAt(s, p).value.capture)
  {
  }

  /** `KEY\s*=\s*"..."` */
  function AssignAt(s: string, p: nat, key: string, allowEmpty: bool): (r: Option<Hit>)
    ensures r.Some? ==> p < r.value.end <= |s|
    ensures r.Some? ==> allowEmpty || r.value.capture != []
    ensures r.Some? ==> forall i :: 0 <= i < |r.value.capture| ==> r.value.capture[i] != '"'
  {
    if OccursAt(s, key, p) && |key| > 0 then
      var t := SkipSpace(s, p + |key|);
      if t < |s| && s[t] == '=' then QuotedAt(s, SkipSpace(s, t + 1), allowEmpty) else None
    else None
  }

  /** `type:\s*"quotes"` */
  function TypeQuotesAt(s: string, p: nat): (r: Option<Hit>)
    ensures r.Some? ==> p < r.value.end <= |s|
  {
    if OccursAt(s, "type:", p) then
      var q := SkipSpace(s, p + 5);
      if OccursAt(s, "\"quotes\"", q) then Some(Hit([], q + 8)) else None
    else None
  }

  /** `"[^"]*" - [^"]+` */
  function AttributionAt(s: string, p: nat): (r: Option<Hit>)
    ensures r.Some? ==> p < r.value.end <= |s|
  {
    if p < |s| && s[p] == '"' then
      match NextQuote(s, p + 1)
      case None => None
      case Some(k) =>
        if OccursAt(s, " - ", k + 1) && k + 4 < |s| && s[k + 4] != '"' then Some(Hit([], k + 5)) else None
    else None
  }

  /** The match of `pat` that starts exactly at `p`, with its first group and its end. */
  function MatchAt(pat: Pattern, s: string, p: nat): (r: Option<Hit>)
    ensures r.Some? ==> p < r.value.end <= |s|
  {
    match pat
    case Decl(name, form) => DeclAt(s, p, name, form)
    case QuotedItem => QuotedAt(s, p, false)
    case RoundNumber =>
      if OccursAt(s, "roundNumber:", p) then QuotedAt(s, SkipSpace(s, p + 12), false) else None
    case SummaryTitle => SummaryTitleAt(s, p)
    case Assign(key, allowEmpty) => AssignAt(s, p, key, allowEmpty)
    case TypeQuotes => TypeQuotesAt(s, p)
    case Participant =>
      if OccursAt(s, "participant ", p) && p + 12 < |s| && IsDigit(s[p + 12]) then Some(Hit([], p + 13))
      else None
    case Attribution => AttributionAt(s, p)
  }

  /** Python `re.findall(pat, s[k:])` as captured groups: leftmost match, then resume after it. */
  function FindAll(pat: Pattern, s: string, k: nat): (r: seq<string>)
    ensures |r| <= |s| - k || (k >= |s| && r == [])
    decreases |s| - k
  {
    if k >= |s| then []
    else match MatchAt(pat, s, k)
      case Some(h) => [h.capture] + FindAll(pat, s, h.end)
      case None => FindAll(pat, s, k + 1)
  }

  lemma ConsIndex(x: string, xs: seq<string>, j: nat)
    requires 0 < j <= |xs|
    ensures ([x] + xs)[j] == xs[j - 1]
  {
  }

  /** Python `re.search(pat, s)` from position `k`: the leftmost match. */
  function Search(pat: Pattern, s: string, k: nat): (r: Option<Hit>)
    decreases |s| - k
  {
    if k >= |s| then None
    else match MatchAt(pat, s, k)
      case Some(h) => Some(h)
      case None => Search(pat, s, k + 1)
  }

  ghost predicate NoMatchFrom(pat: Pattern, s: string, k: nat)
  {
    forall q: nat :: k <= q ==> MatchAt(pat, s, q).None?
  }

  /** No match starts at any position in `[k, q)`. */
  ghost predicate NoMatchBetween(pat: Pattern, s: string, k: nat, q: nat)
  {
    forall q': nat :: k <= q' < q ==> MatchAt(pat, s, q').None?
  }

  lemma NoMatchStep(pat: Pattern, s: string, k: nat)
    requires MatchAt(pat, s, k).None?
    ensures NoMatchFrom(pat, s, k) <==> NoMatchFrom(pat, s, k + 1)
  {
    if NoMatchFrom(pat, s, k + 1) {
      forall q: nat | k <= q ensures MatchAt(pat, s, q).None? {
        if q != k { assert k + 1 <= q; }
      }
    }
  }

  /** `findall` returns nothing exactly when the pattern matches at no position. */
  lemma {:induction false} FindAllEmptyIff(pat: Pattern, s: string, k: nat)
    ensures FindAll(pat, s, k) == [] <==> NoMatchFrom(pat, s, k)
    decreases |s| - k
  {
    if k >= |s| {
      forall q: nat | k <= q ensures MatchAt(pat, s, q).None? { }
    } else if MatchAt(pat, s, k).None? {
      FindAllEmptyIff(pat, s, k + 1);
      NoMatchStep(pat, s, k);
    }
  }

  /** A match of `pat` at `q` captures `c`. */
  predicate CapturesAt(pat: Pattern, s: string, q: nat, c: string)
  {
    MatchAt(pat, s, q).Some? && MatchAt(pat, s, q).value.capture == c
  }

  /** Every captured group of `findall` is the group of a match at some position. */
  lemma {:induction false} FindAllSound(pat: Pattern, s: string, k: nat, j: nat)
    requires j < |FindAll(pat, s, k)|
    ensures exists q: nat :: k <= q && CapturesAt(pat, s, q, FindAll(pat, s, k)[j])
    decreases |s| - k, 1
  {
    FindAllStep(pat, s, k);
    if MatchAt(pat, s, k).None? {
      FindAllSound(pat, s, k + 1, j);
    } else if j == 0 {
      assert CapturesAt(pat, s, k, FindAll(pat, s, k)[j]);
    } else {
      FindAllSoundLater(pat, s, k, j);
    }
  }

  /** The groups after the first one at a matching position come from the rest of the text. */
  lemma {:induction false} FindAllSoundLater(pat: Pattern, s: string, k: nat, j: nat)
    requires k < |s| && MatchAt(pat, s, k).Some? && 0 < j < |FindAll(pat, s, k)|
    ensures exists q: nat :: k <= q && CapturesAt(pat, s, q, FindAll(pat, s, k)[j])
    decreases |s| - k, 0
  {
    FindAllStep(pat, s, k);
    var h := MatchAt(pat, s, k).value;
    var rest := FindAll(pat, s, h.end);
    ConsIndex(h.capture, rest, j);
    FindAllSound(pat, s, h.end, j - 1);
    var q: nat :| h.end <= q && CapturesAt(pat, s, q, rest[j - 1]);
    assert k <= q && CapturesAt(pat, s, q, FindAll(pat, s, k)[j]);
  }

  /** One step of `findall` from a position inside the text. */
  lemma FindAllStep(pat: Pattern, s: string, k: nat)
    requires k < |FindAll(pat, s, k)| + k
    ensures k < |s|
    ensures MatchAt(pat, s, k).Some? ==> FindAll(pat, s, k) == [MatchAt(pat, s, k).value.capture] + FindAll(pat, s, MatchAt(pat, s, k).value.end)
    ensures MatchAt(pat, s, k).None? ==> FindAll(pat, s, k) == FindAll(pat, s, k + 1)
  {
  }

  /**
   `findall` is repeated `search`: it is empty exactly when `search` finds
   nothing, and otherwise it is the group of the leftmost match followed by
   the groups found from that match's end, so no two matches overlap.
   */
  lemma {:induction false} FindAllIsRepeatedSearch(pat: Pattern, s: string, k: nat)
    ensures Search(pat, s, k).None? <==> FindAll(pat, s, k) == []
    ensures Search(pat, s, k).Some? ==>
      FindAll(pat, s, k) == [Search(pat, s, k).value.capture] + FindAll(pat, s, Search(pat, s, k).value.end)
    decreases |s| - k
  {
    if k < |s| && MatchAt(pat, s, k).None? {
      FindAllIsRepeatedSearch(pat, s, k + 1);
    }
  }

  /** `search` finds the leftmost match, and finds nothing only when nothing matches. */
  lemma {:induction false} SearchLeftmost(pat: Pattern, s: string, k: nat)
    ensures Search(pat, s, k).None? <==> NoMatchFrom(pat, s, k)
    ensures Search(pat, s, k).Some? ==>
      exists q: nat :: k <= q && MatchAt(pat, s, q) == Search(pat, s, k) && NoMatchBetween(pat, s, k, q)
    decreases |s| - k
  {
    if k >= |s| {
      forall q: nat | k <= q ensures MatchAt(pat, s, q).None? { }
    } else if MatchAt(pat, s, k).None? {
      SearchLeftmost(pat, s, k + 1);
      NoMatchStep(pat, s, k);
      if Search(pat, s, k).Some? {
        var q: nat :| k + 1 <= q && MatchAt(pat, s, q) == Search(pat, s, k + 1) && NoMatchBetween(pat, s, k + 1, q);
        assert NoMatchBetween(pat, s, k, q);
      }
    } else {
      assert NoMatchBetween(pat, s, k, k);
    }
  }

  /** The array form needs `]%}` with nothing between `]` and `%}`: without that text it never matches. */
  lemma ArrayFormNeedsTightClose(s: string, name: string, q: nat)
    requires !Contains(s, "]%}")
    ensures MatchAt(Decl(name, ArrayForm), s, q).None?
  {
    match DeclValueStart(s, q, name)
    case None =>
    case Some(v) =>
      assert forall i: nat :: !OccursAt(s, "]%}", i);
      assert forall i: nat :: CloserEnd(s, i, ArrayForm).None?;
      assert FirstCloser(s, v + 1, ArrayForm).None?;
  }

  /** The group of a declaration never contains its own closing delimiter (the `.*?` is lazy). */
  lemma DeclCaptureIsShortest(name: string, form: DeclForm, s: string, p: nat)
    requires MatchAt(Decl(name, form), s, p).Some?
    ensures var v := DeclValueStart(s, p, name).value;
      var c := MatchAt(Decl(name, form), s, p).value.capture;
      v + 1 + |c| <= |s| && c == s[v + 1..v + 1 + |c|]
      && CloserEnd(s, v + 1 + |c|, form).Some?
      && forall i :: v + 1 <= i < v + 1 + |c| ==> CloserEnd(s, i, form).None?
  {
  }
}

=== FILE: design_stats.dfy ===
/**
 `generate_statistics` and the computed parts of `print_report` of the
 design-history analyser: totals, the status, phase and iteration
 breakdowns, the empty-input guard and the ranking of features by iterations.
 */
module DesignStats {
  import opened Common
  import opened DesignHistory
  import opened Breakdown

  /** The conditions the statistics count features by. */
  datatype Criterion =
    | IterationsAtLeast(n: nat)
    | IterationsExactly(n: nat)
    | Accessibility
    | Quotes
    | Findings
    | Objectives
    | Recommendations
    | UserNeed
    | HasStatus
    | HasPhase

  predicate Holds(c: Criterion, f: Feature)
  {
    match c
    case IterationsAtLeast(n) => f.iterations >= n
    case IterationsExactly(n) => f.iterations == n
    case Accessibility => f.hasAccessibility
    case Quotes => f.hasQuotes
    case Findings => f.hasFindings
    case Objectives => f.hasObjectives
    case Recommendations => f.hasRecommendations
    case UserNeed => f.hasUserNeed
    case HasStatus => f.status.Some?
    case HasPhase => f.phase.Some?
  }

  /** `len([f for f in features if <criterion>])` */
  function CountWhere(fs: seq<Feature>, c: Criterion): (r: nat)
    ensures r <= |fs|
  {
    if |fs| == 0 then 0 else (if Holds(c, fs[|fs| - 1]) then 1 else 0) + CountWhere(fs[..|fs| - 1], c)
  }

  /** `sum(f['iterations'] for f in features)` */
  function SumIterations(fs: seq<Feature>): nat
  {
    if |fs| == 0 then 0 else SumIterations(fs[..|fs| - 1]) + fs[|fs| - 1].iterations
  }

  /** The keys a feature contributes to a breakdown: its value when that is truthy. */
  function TruthyKeys(vs: seq<Option<string>>): (r: seq<Key>)
    ensures |r| <= |vs|
  {
    if |vs| == 0 then []
    else TruthyKeys(vs[..|vs| - 1]) + (if Truthy(vs[|vs| - 1]) then [TextKey(vs[|vs| - 1].value)] else [])
  }

  function Statuses(fs: seq<Feature>): (r: seq<Option<string>>)
    ensures |r| == |fs| && forall i :: 0 <= i < |fs| ==> r[i] == fs[i].status
  {
    seq(|fs|, i requires 0 <= i < |fs| => fs[i].status)
  }

  function Phases(fs: seq<Feature>): (r: seq<Option<string>>)
    ensures |r| == |fs| && forall i :: 0 <= i < |fs| ==> r[i] == fs[i].phase
  {
    seq(|fs|, i requires 0 <= i < |fs| => fs[i].phase)
  }

  function IterationKeys(fs: seq<Feature>): (r: seq<Key>)
    ensures |r| == |fs| && forall i :: 0 <= i < |fs| ==> r[i] == NumKey(fs[i].iterations)
  {
    seq(|fs|, i requires 0 <= i < |fs| => NumKey(fs[i].iterations))
  }

  datatype Stats = Stats(
    totalFeatures: nat,
    totalIterations: nat,
    multipleIterations: nat,
    withAccessibility: nat,
    withQuotes: nat,
    withFindings: nat,
    withObjectives: nat,
    withRecommendations: nat,
    withUserNeeds: nat,
    statusBreakdown: Table,
    phaseBreakdown: Table,
    iterationDistribution: Table)

  /** `generate_statistics` */
  function Statistics(fs: seq<Feature>): (st: Stats)
    ensures st.totalFeatures == |fs|
    ensures Sorted(st.statusBreakdown) && Sorted(st.phaseBreakdown) && Sorted(st.iterationDistribution)
  {
    Stats(
      |fs|,
      SumIterations(fs),
      CountWhere(fs, IterationsAtLeast(2)),
      CountWhere(fs, Accessibility),
      CountWhere(fs, Quotes),
      CountWhere(fs, Findings),
      CountWhere(fs, Objectives),
      CountWhere(fs, Recommendations),
      CountWhere(fs, UserNeed),
      Tally(TruthyKeys(Statuses(fs))),
      Tally(TruthyKeys(Phases(fs))),
      Tally(IterationKeys(fs)))
  }

  predicate AllValid(fs: seq<Feature>)
  {
    forall i :: 0 <= i < |fs| ==> ValidFeature(fs[i])
  }

  /**
   Every feature counts at least one iteration and a feature with multiple
   iterations at least two, so the total bounds both counts from above.
   */
  lemma {:induction false} IterationTotalBound(fs: seq<Feature>)
    requires AllValid(fs)
    ensures SumIterations(fs) >= |fs| + CountWhere(fs, IterationsAtLeast(2))
  {
    if |fs| > 0 {
      assert ValidFeature(fs[|fs| - 1]);
      IterationTotalBound(fs[..|fs| - 1]);
    }
  }

  /** Multiple (2+), 3+ and 4+ iteration counts are nested. */
  lemma {:induction false} IterationCountsNested(fs: seq<Feature>)
    ensures CountWhere(fs, IterationsAtLeast(4)) <= CountWhere(fs, IterationsAtLeast(3))
    ensures CountWhere(fs, IterationsAtLeast(3)) <= CountWhere(fs, IterationsAtLeast(2))
  {
    if |fs| > 0 {
      IterationCountsNested(fs[..|fs| - 1]);
    }
  }

  /** The iteration distribution holds one entry per distinct iteration count and its counts add up to the number of features. */
  lemma IterationDistributionTotal(fs: seq<Feature>)
    ensures Total(Statistics(fs).iterationDistribution) == |fs|
    ensures forall n: nat :: Lookup(Statistics(fs).iterationDistribution, NumKey(n)) == CountWhere(fs, IterationsExactly(n))
  {
    TallyCounts(IterationKeys(fs));
    forall n: nat ensures Occurrences(IterationKeys(fs), NumKey(n)) == CountWhere(fs, IterationsExactly(n)) {
      IterationOccurrences(fs, n);
    }
  }

  lemma {:induction false} IterationOccurrences(fs: seq<Feature>, n: nat)
    ensures Occurrences(IterationKeys(fs), NumKey(n)) == CountWhere(fs, IterationsExactly(n))
  {
    if |fs| > 0 {
      IterationOccurrences(fs[..|fs| - 1], n);
      assert IterationKeys(fs)[..|fs| - 1] == IterationKeys(fs[..|fs| - 1]);
    }
  }

  /**
   The status breakdown counts exactly the features that have a status: its
   counts add up to that number, which never exceeds the number of features.
   */
  lemma StatusBreakdownTotal(fs: seq<Feature>)
    requires AllValid(fs)
    ensures Total(Statistics(fs).statusBreakdown) == CountWhere(fs, HasStatus)
    ensures Total(Statistics(fs).phaseBreakdown) == CountWhere(fs, HasPhase)
  {
    TallyCounts(TruthyKeys(Statuses(fs)));
    TallyCounts(TruthyKeys(Phases(fs)));
    StatusKeysCount(fs);
    PhaseKeysCount(fs);
  }

  lemma {:induction false} StatusKeysCount(fs: seq<Feature>)
    requires AllValid(fs)
    ensures |TruthyKeys(Statuses(fs))| == CountWhere(fs, HasStatus)
  {
    if |fs| > 0 {
      assert ValidFeature(fs[|fs| - 1]);
      StatusKeysCount(fs[..|fs| - 1]);
      assert Statuses(fs)[..|fs| - 1] == Statuses(fs[..|fs| - 1]);
    }
  }

  lemma {:induction false} PhaseKeysCount(fs: seq<Feature>)
    requires AllValid(fs)
    ensures |TruthyKeys(Phases(fs))| == CountWhere(fs, HasPhase)
  {
    if |fs| > 0 {
      assert ValidFeature(fs[|fs| - 1]);
      PhaseKeysCount(fs[..|fs| - 1]);
      assert Phases(fs)[..|fs| - 1] == Phases(fs[..|fs| - 1]);
    }
  }

  // ---- ranking -----------------------------------------------------------------

  /** Insertion of `f` after every feature with at least as many iterations (keeps earlier ties first). */
  function InsertByIterations(sorted: seq<Feature>, f: Feature): (r: seq<Feature>)
    ensures multiset(r) == multiset(sorted) + multiset{f}
    ensures |r| == |sorted| + 1
  {
    if |sorted| == 0 then [f]
    else if sorted[0].iterations >= f.iterations then
      var rest := InsertByIterations(sorted[1..], f);
      assert sorted == [sorted[0]] + sorted[1..];
      [sorted[0]] + rest
    else [f] + sorted
  }

  /** Python's stable `sorted(features, key=iterations, reverse=True)`. */
  function SortByIterations(fs: seq<Feature>): (r: seq<Feature>)
    ensures multiset(r) == multiset(fs)
    ensures |r| == |fs|
  {
    if |fs| == 0 then []
    else
      assert fs == fs[..|fs| - 1] + [fs[|fs| - 1]];
      InsertByIterations(SortByIterations(fs[..|fs| - 1]), fs[|fs| - 1])
  }

  predicate Descending(fs: seq<Feature>)
  {
    forall i, j :: 0 <= i < j < |fs| ==> fs[i].iterations >= fs[j].iterations
  }

  /** The features with exactly `n` iterations, in their order in `fs`. */
  function WithIterations(fs: seq<Feature>, n: nat): seq<Feature>
  {
    if |fs| == 0 then []
    else WithIterations(fs[..|fs| - 1], n) + (if fs[|fs| - 1].iterations == n then [fs[|fs| - 1]] else [])
  }

  lemma {:induction false} WithIterationsFront(f: Feature, fs: seq<Feature>, n: nat)
    ensures WithIterations([f] + fs, n) == (if f.iterations == n then [f] else []) + WithIterations(fs, n)
    decreases |fs|
  {
    var s := [f] + fs;
    if |fs| > 0 {
      assert s[..|s| - 1] == [f] + fs[..|fs| - 1];
      WithIterationsFront(f, fs[..|fs| - 1], n);
    } else {
      assert s[..|s| - 1] == [];
    }
  }

  lemma {:induction false} WithIterationsNone(fs: seq<Feature>, n: nat)
    requires forall i :: 0 <= i < |fs| ==> fs[i].iterations != n
    ensures WithIterations(fs, n) == []
  {
    if |fs| > 0 {
      WithIterationsNone(fs[..|fs| - 1], n);
    }
  }

  /** Inserting keeps every iteration count within a bound that all the inputs respect. */
  lemma {:induction false} InsertBounded(sorted: seq<Feature>, f: Feature, b: nat)
    requires forall i :: 0 <= i < |sorted| ==> sorted[i].iterations <= b
    requires f.iterations <= b
    ensures forall i :: 0 <= i < |InsertByIterations(sorted, f)| ==> InsertByIterations(sorted, f)[i].iterations <= b
  {
    if |sorted| > 0 && sorted[0].iterations >= f.iterations {
      InsertBounded(sorted[1..], f, b);
    }
  }

  lemma {:induction false} InsertDescending(sorted: seq<Feature>, f: Feature)
    requires Descending(sorted)
    ensures Descending(InsertByIterations(sorted, f))
  {
    var r := InsertByIterations(sorted, f);
    if |sorted| > 0 && sorted[0].iterations >= f.iterations {
      var rest := InsertByIterations(sorted[1..], f);
      InsertDescending(sorted[1..], f);
      InsertBounded(sorted[1..], f, sorted[0].iterations);
      assert r == [sorted[0]] + rest;
      forall i, j | 0 <= i < j < |r| ensures r[i].iterations >= r[j].iterations {
        if i > 0 { assert r[i] == rest[i - 1] && r[j] == rest[j - 1]; }
        else { assert r[j] == rest[j - 1]; }
      }
    }
  }

  lemma {:induction false} InsertKeepsTies(sorted: seq<Feature>, f: Feature, n: nat)
    requires Descending(sorted)
    ensures WithIterations(InsertByIterations(sorted, f), n)
      == WithIterations(sorted, n) + (if f.iterations == n then [f] else [])
    decreases |sorted|, 1
  {
    if |sorted| == 0 {
      assert InsertByIterations(sorted, f)[..0] == [];
    } else if sorted[0].iterations >= f.iterations {
      InsertTiesBehind(sorted, f, n);
    } else {
      InsertTiesInFront(sorted, f, n);
    }
  }

  /** Inserting behind the first feature: the first feature's tie, if any, stays ahead of `f`. */
  lemma {:induction false} InsertTiesBehind(sorted: seq<Feature>, f: Feature, n: nat)
    requires Descending(sorted) && |sorted| > 0 && sorted[0].iterations >= f.iterations
    ensures WithIterations(InsertByIterations(sorted, f), n)
      == WithIterations(sorted, n) + (if f.iterations == n then [f] else [])
    decreases |sorted|, 0
  {
    var rest := InsertByIterations(sorted[1..], f);
    var tie := if f.iterations == n then [f] else [];
    var head := if sorted[0].iterations == n then [sorted[0]] else [];
    assert InsertByIterations(sorted, f) == [sorted[0]] + rest;
    InsertKeepsTies(sorted[1..], f, n);
    WithIterationsFront(sorted[0], rest, n);
    WithIterationsFirst(sorted, n);
    AppendAssoc(head, WithIterations(sorted[1..], n), tie);
  }

  lemma WithIterationsFirst(fs: seq<Feature>, n: nat)
    requires |fs| > 0
    ensures WithIterations(fs, n) == (if fs[0].iterations == n then [fs[0]] else []) + WithIterations(fs[1..], n)
  {
    WithIterationsFront(fs[0], fs[1..], n);
    SplitFirst(fs);
  }

  /** Inserting in front: every feature already there has more iterations than `f`, so none ties with it. */
  lemma InsertTiesInFront(sorted: seq<Feature>, f: Feature, n: nat)
    requires Descending(sorted) && |sorted| > 0 && sorted[0].iterations < f.iterations
    ensures WithIterations(InsertByIterations(sorted, f), n)
      == WithIterations(sorted, n) + (if f.iterations == n then [f] else [])
  {
    assert InsertByIterations(sorted, f) == [f] + sorted;
    WithIterationsFront(f, sorted, n);
    if f.iterations == n {
      forall i | 0 <= i < |sorted| ensures sorted[i].iterations != n {
        assert sorted[0].iterations >= sorted[i].iterations || i == 0;
      }
      WithIterationsNone(sorted, n);
    }
  }

  /**
   The ranking is ordered by iterations, highest first, and is stable: for
   every iteration count, the features with that count appear in the order
   the scan found them. Together with the permutation this is exactly
   Python's stable reverse sort.
   */
  lemma {:induction false} SortByIterationsSpec(fs: seq<Feature>)
    ensures Descending(SortByIterations(fs))
    ensures forall n: nat :: WithIterations(SortByIterations(fs), n) == WithIterations(fs, n)
  {
    if |fs| > 0 {
      var init := fs[..|fs| - 1];
      SortByIterationsSpec(init);
      forall n: nat ensures WithIterations(SortByIterations(fs), n) == WithIterations(fs, n) {
        InsertKeepsTies(SortByIterations(init), fs[|fs| - 1], n);
      }
      InsertDescending(SortByIterations(init), fs[|fs| - 1]);
    }
  }

  /** The report's computed content. */
  datatype Report =
    | NoFeatures
    | Full(stats: Stats, threePlus: nat, fourPlus: nat, ranking: seq<Feature>)

  const RankingSize: nat := 20

  /** The top of the stable sort by iterations: at most `RankingSize` features, most iterations first. */
  function Ranking(fs: seq<Feature>): (r: seq<Feature>)
    ensures |r| == if |fs| < RankingSize then |fs| else RankingSize
    ensures forall i :: 0 <= i < |r| ==> r[i] in fs
    ensures r == SortByIterations(fs)[..|r|] && Descending(r)
  {
    var sorted := SortByIterations(fs);
    assert |sorted| == |fs| by { assert |multiset(sorted)| == |multiset(fs)|; }
    var n := if |sorted| < RankingSize then |sorted| else RankingSize;
    forall i | 0 <= i < n ensures sorted[i] in fs {
      assert sorted[i] in multiset(sorted);
    }
    RankingDescending(fs, n);
    sorted[..n]
  }

  /** `print_report`: nothing but the notice when no feature was found; otherwise the statistics and the top 20. */
  function MakeReport(fs: seq<Feature>): (r: Report)
    ensures r.NoFeatures? <==> |fs| == 0
    ensures r.Full? ==> r.stats.totalFeatures > 0
    ensures r.Full? ==> |r.ranking| == if |fs| < RankingSize then |fs| else RankingSize
    ensures r.Full? ==> forall i :: 0 <= i < |r.ranking| ==> r.ranking[i] in fs
    ensures r.Full? ==> r.ranking == SortByIterations(fs)[..|r.ranking|] && Descending(r.ranking)
    ensures r.Full? ==> r.stats == Statistics(fs)
    ensures r.Full? ==>
      && r.threePlus == CountWhere(fs, IterationsAtLeast(3))
      && r.fourPlus == CountWhere(fs, IterationsAtLeast(4))
      && r.fourPlus <= r.threePlus
  {
    var st := Statistics(fs);
    IterationCountsNested(fs);
    if st.totalFeatures == 0 then NoFeatures
    else Full(st, CountWhere(fs, IterationsAtLeast(3)), CountWhere(fs, IterationsAtLeast(4)), Ranking(fs))
  }

  /** Every prefix of the sorted features is in descending order. */
  lemma RankingDescending(fs: seq<Feature>, n: nat)
    requires n <= |SortByIterations(fs)|
    ensures Descending(SortByIterations(fs)[..n])
  {
    SortByIterationsSpec(fs);
    var sorted := SortByIterations(fs);
    assert forall i :: 0 <= i < n ==> sorted[..n][i] == sorted[i];
  }

  /** Every feature left out of the ranking has no more iterations than every feature in it. */
  lemma RankingIsTop(fs: seq<Feature>, i: nat, j: nat)
    requires |fs| > 0
    requires i < |MakeReport(fs).ranking| <= j < |SortByIterations(fs)|
    ensures MakeReport(fs).ranking[i].iterations >= SortByIterations(fs)[j].iterations
  {
    SortByIterationsSpec(fs);
  }
}

=== FILE: display.dfy ===
/**
 Text the form editor derives for display: a person's name from their email
 address, the URL-friendly form of a form name, and the tag colour of a
 form's status.
 */
module Display {
  import opened Common

  // ---- name from an email address --------------------------------------------------------

  /** The characters the name splits the local part on: `/[._]/`. */
  predicate IsNameSep(c: char) { c == '.' || c == '_' }

  /** `email.split("@")[0]`: everything before the first '@'. */
  function LocalPart(email: string): (r: string)
    ensures '@' !in r
    ensures StartsWith(email, r)
    ensures |r| < |email| ==> email[|r|] == '@'
  {
    if |email| == 0 then ""
    else if email[0] == '@' then ""
    else [email[0]] + LocalPart(email[1..])
  }

  /** `part.charAt(0).toUpperCase() + part.slice(1).toLowerCase()` */
  function Capitalise(part: string): (r: string)
    ensures |r| == |part|
    ensures |part| > 0 ==> r[0] == UpperChar(part[0])
    ensures forall i :: 0 < i < |part| ==> r[i] == LowerChar(part[i])
  {
    if |part| == 0 then "" else [UpperChar(part[0])] + Lower(part[1..])
  }

  function CapitaliseAll(parts: seq<string>): (r: seq<string>)
    ensures |r| == |parts|
    ensures forall k :: 0 <= k < |parts| ==> r[k] == Capitalise(parts[k])
  {
    seq(|parts|, k requires 0 <= k < |parts| => Capitalise(parts[k]))
  }

  /** `emailToName(email)`: "" for a missing or empty email. */
  function EmailToName(email: Option<string>): (r: string)
    ensures !Truthy(email) ==> r == ""
  {
    if !Truthy(email) then ""
    else Join(CapitaliseAll(SplitOn(LocalPart(email.value), IsNameSep)), " ")
  }

  /**
   The name character by character: each separator becomes a space, the
   character at the start or after a separator is upper-cased, and every
   other character is lower-cased.
   */
  function NameChar(s: string, i: nat): (c: char)
    requires i < |s|
  {
    if IsNameSep(s[i]) then ' '
    else if i == 0 || IsNameSep(s[i - 1]) then UpperChar(s[i])
    else LowerChar(s[i])
  }

  /**
   The name has one character for each character of the local part, and
   each is that character with its case fixed, or a space for a separator.
   */
  lemma EmailToNameChars(email: string)
    requires email != ""
    ensures var local := LocalPart(email);
      var name := EmailToName(Some(email));
      && |name| == |local|
      && forall i :: 0 <= i < |local| ==> name[i] == NameChar(local, i)
  {
    NameOfParts(LocalPart(email));
  }

  lemma {:induction false} NameOfParts(s: string)
    ensures var name := Join(CapitaliseAll(SplitOn(s, IsNameSep)), " ");
      |name| == |s| && forall i :: 0 <= i < |s| ==> name[i] == NameChar(s, i)
    decreases |s|
  {
    match FirstWhere(s, IsNameSep)
    case None =>
      assert SplitOn(s, IsNameSep) == [s];
      assert CapitaliseAll([s]) == [Capitalise(s)];
    case Some(k) =>
      var rest := s[k + 1..];
      NameOfParts(rest);
      var tailParts := SplitOn(rest, IsNameSep);
      assert SplitOn(s, IsNameSep) == [s[..k]] + tailParts;
      var tail := Join(CapitaliseAll(tailParts), " ");
      assert Join(CapitaliseAll(SplitOn(s, IsNameSep)), " ") == Capitalise(s[..k]) + " " + tail by {
        var caps := CapitaliseAll([s[..k]] + tailParts);
        assert caps == [Capitalise(s[..k])] + CapitaliseAll(tailParts);
        assert |caps| >= 2;
        assert caps[1..] == CapitaliseAll(tailParts);
      }
      NameSplice(s, k, tail);
  }

  /** A first part, its separator and the name of the rest make the name of the whole. */
  lemma NameSplice(s: string, k: nat, tail: string)
    requires k < |s| && IsNameSep(s[k]) && forall i :: 0 <= i < k ==> !IsNameSep(s[i])
    requires |tail| == |s| - k - 1 && forall i :: 0 <= i < |tail| ==> tail[i] == NameChar(s[k + 1..], i)
    ensures var name := Capitalise(s[..k]) + " " + tail;
      |name| == |s| && forall i :: 0 <= i < |s| ==> name[i] == NameChar(s, i)
  {
    var head := Capitalise(s[..k]);
    var name := head + " " + tail;
    forall i | 0 <= i < |s| ensures name[i] == NameChar(s, i) {
      if i < k {
        assert name[i] == head[i];
      } else if i == k {
        assert name[i] == ' ';
      } else {
        var rest := s[k + 1..];
        assert name[i] == tail[i - k - 1];
        assert rest[i - k - 1] == s[i];
        if i - k - 1 > 0 {
          assert rest[i - k - 2] == s[i - 1];
        }
      }
    }
  }

  // ---- URL-friendly form name ------------------------------------------------------------

  /** The characters a slug keeps: `[a-z0-9]`. */
  predicate IsSlugChar(c: char) { IsAsciiLower(c) || IsDigit(c) }

  /** A slug: only `[a-z0-9-]`, no '-' first or last, and never two '-' together. */
  predicate IsSlug(t: string)
  {
    && (forall i :: 0 <= i < |t| ==> IsSlugChar(t[i]) || t[i] == '-')
    && (|t| > 0 ==> t[0] != '-' && t[|t| - 1] != '-')
    && (forall i :: 0 <= i < |t| - 1 ==> !(t[i] == '-' && t[i + 1] == '-'))
  }

  /**
   `.replace(/[^a-z0-9]+/g, "-")`: every run of other characters becomes one
   '-'; `inRun` says a run is already open.
   */
  function CollapseRuns(s: string, inRun: bool): (r: string)
    ensures forall i :: 0 <= i < |r| ==> IsSlugChar(r[i]) || r[i] == '-'
    ensures forall i :: 0 <= i < |r| - 1 ==> !(r[i] == '-' && r[i + 1] == '-')
    ensures inRun && |r| > 0 ==> r[0] != '-'
    ensures Filter(r, IsSlugChar) == Filter(s, IsSlugChar)
  {
    if |s| == 0 then ""
    else if IsSlugChar(s[0]) then
      var rest := CollapseRuns(s[1..], false);
      assert s == [s[0]] + s[1..];
      FilterAppend([s[0]], s[1..], IsSlugChar);
      FilterAppend([s[0]], rest, IsSlugChar);
      [s[0]] + rest
    else if inRun then
      assert s == [s[0]] + s[1..];
      FilterAppend([s[0]], s[1..], IsSlugChar);
      CollapseRuns(s[1..], true)
    else
      var rest := CollapseRuns(s[1..], true);
      assert s == [s[0]] + s[1..];
      FilterAppend([s[0]], s[1..], IsSlugChar);
      FilterAppend("-", rest, IsSlugChar);
      "-" + rest
  }

  /** `.replace(/(^-|-$)/g, "")`: one '-' off the front and one off the back. */
  function TrimDashes(t: string): string
  {
    var lo := if |t| > 0 && t[0] == '-' then 1 else 0;
    var hi := if |t| > lo && t[|t| - 1] == '-' then |t| - 1 else |t|;
    t[lo..hi]
  }

  /** The slug of a text: lower-cased, runs collapsed, edge dashes trimmed. */
  function SlugOf(s: string): (r: string)
    ensures IsSlug(r)
    ensures Filter(r, IsSlugChar) == Filter(Lower(s), IsSlugChar)
  {
    var t := CollapseRuns(Lower(s), false);
    var r := TrimDashes(t);
    TrimDashesSlug(t);
    TrimDashesFilter(t);
    r
  }

  /** Trimming the edge dashes of a collapsed text leaves a slug. */
  lemma TrimDashesSlug(t: string)
    requires forall i :: 0 <= i < |t| ==> IsSlugChar(t[i]) || t[i] == '-'
    requires forall i :: 0 <= i < |t| - 1 ==> !(t[i] == '-' && t[i + 1] == '-')
    ensures IsSlug(TrimDashes(t))
  {
    var lo := if |t| > 0 && t[0] == '-' then 1 else 0;
    var hi := if |t| > lo && t[|t| - 1] == '-' then |t| - 1 else |t|;
    var r := t[lo..hi];
    assert forall i :: 0 <= i < |r| ==> r[i] == t[lo + i];
  }

  /** Trimming dashes keeps every letter and digit, in order. */
  lemma TrimDashesFilter(t: string)
    ensures Filter(TrimDashes(t), IsSlugChar) == Filter(t, IsSlugChar)
  {
    var lo := if |t| > 0 && t[0] == '-' then 1 else 0;
    var hi := if |t| > lo && t[|t| - 1] == '-' then |t| - 1 else |t|;
    var r := t[lo..hi];
    assert Filter(t[lo..], IsSlugChar) == Filter(t, IsSlugChar) by {
      if lo == 1 {
        assert t == [t[0]] + t[1..];
        FilterAppend([t[0]], t[1..], IsSlugChar);
        FilterOne(t[0], IsSlugChar);
      }
    }
    if hi < |t| {
      assert t[lo..] == r + [t[|t| - 1]];
      FilterAppend(r, [t[|t| - 1]], IsSlugChar);
      FilterOne(t[|t| - 1], IsSlugChar);
    } else {
      assert r == t[lo..];
    }
  }

  /**
   The URL-friendly name of the form overview: the slug of the form name, or
   of "untitled-form" when the form has no name.
   */
  function UrlFriendlyName(formName: Option<string>): (r: string)
    ensures IsSlug(r)
    ensures Truthy(formName) ==> Filter(r, IsSlugChar) == Filter(Lower(formName.value), IsSlugChar)
  {
    SlugOf(OrElse(formName, "untitled-form"))
  }

  /** A slug is its own slug. */
  lemma SlugIdempotent(s: string)
    ensures SlugOf(SlugOf(s)) == SlugOf(s)
  {
    SlugOfSlug(SlugOf(s));
  }

  lemma SlugOfSlug(t: string)
    requires IsSlug(t)
    ensures SlugOf(t) == t
  {
    assert Lower(t) == t;
    CollapseClean(t, false);
  }

  /** Collapsing changes nothing in a text that already has only single dashes between slug characters. */
  lemma {:induction false} CollapseClean(t: string, inRun: bool)
    requires forall i :: 0 <= i < |t| ==> IsSlugChar(t[i]) || t[i] == '-'
    requires forall i :: 0 <= i < |t| - 1 ==> !(t[i] == '-' && t[i + 1] == '-')
    requires inRun && |t| > 0 ==> t[0] != '-'
    ensures CollapseRuns(t, inRun) == t
  {
    if |t| > 0 {
      CollapseClean(t[1..], !IsSlugChar(t[0]));
    }
  }

  // ---- status tag colour -----------------------------------------------------------------

  /** The form's status, "Draft" when it has none. */
  function Status(status: Option<string>): (r: string)
    ensures r != ""
    ensures Truthy(status) ==> r == status.value
  {
    OrElse(status, "Draft")
  }

  /** The GOV.UK tag colour of the form's status. */
  function StatusColour(status: Option<string>): (r: string)
    ensures !Truthy(status) ==> r == "orange"
    ensures Status(status) == "Draft" ==> r == "orange"
    ensures Status(status) == "Live" ==> r == "green"
    ensures Status(status) == "Closed" ==> r == "red"
    ensures r == "grey" <==> Status(status) !in {"Draft", "Live", "Closed"}
    ensures r in {"orange", "green", "red", "grey"}
  {
    match Status(status)
    case "Draft" => "orange"
    case "Live" => "green"
    case "Closed" => "red"
    case _ => "grey"
  }

  /** The known status a tag colour stands for, if any. */
  function StatusOfColour(colour: string): (r: Option<string>)
    ensures r.Some? ==> r.value in {"Draft", "Live", "Closed"}
    ensures r.None? <==> colour !in {"orange", "green", "red"}
  {
    match colour
    case "orange" => Some("Draft")
    case "green" => Some("Live")
    case "red" => Some("Closed")
    case _ => None
  }

  /** The colour gives back the status exactly when the status is one of the three known ones. */
  lemma StatusColourRoundTrip(status: Option<string>)
    ensures Status(status) in {"Draft", "Live", "Closed"} ==> StatusOfColour(StatusColour(status)) == Some(Status(status))
    ensures Status(status) !in {"Draft", "Live", "Closed"} ==> StatusOfColour(StatusColour(status)).None?
  {
  }

  /** Different known statuses get different colours. */
  lemma StatusColoursDistinct(a: string, b: string)
    requires a in {"Draft", "Live", "Closed"} && b in {"Draft", "Live", "Closed"} && a != b
    ensures StatusColour(Some(a)) != StatusColour(Some(b))
  {
  }
}

=== FILE: form_session.dfy ===
/**
 The form editor's session record: form-level conditions, the form's pages
 (each with its own conditions, conditional routes and section), the
 sections, and the condition edit waiting to be saved.

 Every route handler of the editor is a pure function from one session
 record to the next. A JavaScript property that may be missing is an
 `Option`; a list that the handlers always read with `|| []` is a plain
 sequence.
 */
module FormSession {
  import opened Common

  /** An id as the session stores it: a `Date.now()` number or a string. */
  datatype JsId = NumId(n: int) | StrId(s: string)

  /** `String(id)`, which is also `id.toString()`. */
  function IdText(id: JsId): string
  {
    match id
    case NumId(n) => IntToString(n)
    case StrId(s) => s
  }

  /** A rule's `value`: one answer, or an array of answers. */
  datatype RuleValue = One(v: string) | Many(vs: seq<string>)

  /** One rule of a condition; `logicalOperator` joins it to the rule before ("and", "or"). */
  datatype Rule = Rule(questionText: string, operator: string, value: RuleValue, logicalOperator: Option<string>)

  /** A condition; `logicalOperator` is present on conditions made by joining. */
  datatype Condition = Condition(
    id: JsId,
    conditionName: string,
    rules: seq<Rule>,
    text: string,
    logicalOperator: Option<string>)

  /** An entry of a page's `conditionalRouting`. */
  datatype Route = Route(conditionId: JsId, target: string)

  datatype Section = Section(id: string, name: Option<string>, description: Option<string>, pages: Option<seq<string>>)

  /** What a page's `section` property holds: the whole section, `{id, name}`, or `{id}`. */
  datatype SectionRef = Whole(section: Section) | Brief(briefId: string, briefName: Option<string>) | IdOnly(onlyId: string)

  function RefId(r: SectionRef): string
  {
    match r
    case Whole(s) => s.id
    case Brief(id, _) => id
    case IdOnly(id) => id
  }

  datatype Page = Page(
    pageId: Option<JsId>,
    pageType: Option<string>,
    pageHeading: string,
    hasGuidance: bool,
    guidanceTextarea: string,
    allowMultipleResponses: bool,
    setName: string,
    minResponseCount: string,
    maxResponseCount: string,
    section: Option<SectionRef>,
    conditions: Option<seq<Condition>>,
    conditionalRouting: Option<seq<Route>>)

  /** `String(page.pageId)`: a page without an id reads as "undefined". */
  function PageIdText(p: Page): string
  {
    match p.pageId
    case None => "undefined"
    case Some(id) => IdText(id)
  }

  datatype Session = Session(
    conditions: Option<seq<Condition>>,
    formPages: seq<Page>,
    sections: seq<Section>,
    originalCondition: Option<Condition>,
    pendingConditionUpdate: Option<Condition>,
    pendingConditionPages: seq<string>)

  // ---- conditions by id ----------------------------------------------------------------

  /** `cs.some(c => String(c.id) === id)` */
  predicate HasId(cs: seq<Condition>, id: string)
  {
    exists i :: 0 <= i < |cs| && IdText(cs[i].id) == id
  }

  /** How many conditions in `cs` carry the id. */
  function CountId(cs: seq<Condition>, id: string): (r: nat)
    ensures r <= |cs|
    ensures r == 0 <==> !HasId(cs, id)
  {
    if |cs| == 0 then 0
    else
      var rest := CountId(cs[1..], id);
      assert HasId(cs, id) <==> IdText(cs[0].id) == id || HasId(cs[1..], id) by {
        if HasId(cs[1..], id) {
          var i :| 0 <= i < |cs[1..]| && IdText(cs[1..][i].id) == id;
          assert IdText(cs[i + 1].id) == id;
        }
        if HasId(cs, id) && IdText(cs[0].id) != id {
          var i :| 0 <= i < |cs| && IdText(cs[i].id) == id;
          assert IdText(cs[1..][i - 1].id) == id;
        }
      }
      (if IdText(cs[0].id) == id then 1 else 0) + rest
  }

  lemma {:induction false} CountIdAppend(a: seq<Condition>, b: seq<Condition>, id: string)
    ensures CountId(a + b, id) == CountId(a, id) + CountId(b, id)
  {
    if |a| == 0 {
      assert a + b == b;
    } else {
      assert (a + b)[1..] == a[1..] + b;
      CountIdAppend(a[1..], b, id);
    }
  }

  lemma CountIdOne(c: Condition, id: string)
    ensures CountId([c], id) == if IdText(c.id) == id then 1 else 0
  {
    assert [c][1..] == [];
  }

  predicate NotId(id: string, c: Condition)
  {
    IdText(c.id) != id
  }

  /** `cs.filter(c => String(c.id) !== id)` */
  function WithoutId(cs: seq<Condition>, id: string): (r: seq<Condition>)
    ensures !HasId(r, id)
    ensures forall other :: other != id ==> CountId(r, other) == CountId(cs, other)
  {
    var r := Filter(cs, c => NotId(id, c));
    WithoutIdCounts(cs, id);
    r
  }

  lemma {:induction false} WithoutIdCounts(cs: seq<Condition>, id: string)
    ensures CountId(Filter(cs, c => NotId(id, c)), id) == 0
    ensures forall other :: other != id ==> CountId(Filter(cs, c => NotId(id, c)), other) == CountId(cs, other)
  {
    if |cs| > 0 {
      WithoutIdCounts(cs[1..], id);
      var head := if NotId(id, cs[0]) then [cs[0]] else [];
      assert Filter(cs, c => NotId(id, c)) == head + Filter(cs[1..], c => NotId(id, c));
      forall other ensures CountId(Filter(cs, c => NotId(id, c)), other)
        == (if other == id then 0 else CountId(cs, other)) {
        CountIdAppend(head, Filter(cs[1..], c => NotId(id, c)), other);
        if head != [] { CountIdOne(cs[0], other); }
      }
    }
  }

  /** A condition carries an id of the concatenation exactly when it is in one of the parts. */
  lemma HasIdConcat(a: seq<Condition>, b: seq<Condition>)
    ensures forall id :: HasId(a + b, id) <==> HasId(a, id) || HasId(b, id)
  {
    forall id ensures HasId(a + b, id) <==> HasId(a, id) || HasId(b, id) {
      CountIdAppend(a, b, id);
    }
  }

  /** `cs.push(c)` adds one to the count of `c`'s id and nothing to any other. */
  lemma PushCounts(cs: seq<Condition>, c: Condition)
    ensures forall id :: CountId(cs + [c], id) == CountId(cs, id) + (if IdText(c.id) == id then 1 else 0)
  {
    forall id ensures CountId(cs + [c], id) == CountId(cs, id) + (if IdText(c.id) == id then 1 else 0) {
      CountIdAppend(cs, [c], id);
      CountIdOne(c, id);
    }
  }

  predicate NotAmong(ids: seq<string>, c: Condition)
  {
    IdText(c.id) !in ids
  }

  /** `cs.filter(c => !ids.includes(String(c.id)))` */
  function WithoutIds(cs: seq<Condition>, ids: seq<string>): (r: seq<Condition>)
    ensures forall id :: CountId(r, id) == if id in ids then 0 else CountId(cs, id)
  {
    var r := Filter(cs, c => NotAmong(ids, c));
    WithoutIdsCounts(cs, ids);
    r
  }

  lemma {:induction false} WithoutIdsCounts(cs: seq<Condition>, ids: seq<string>)
    ensures forall id :: CountId(Filter(cs, c => NotAmong(ids, c)), id) == if id in ids then 0 else CountId(cs, id)
  {
    if |cs| > 0 {
      WithoutIdsCounts(cs[1..], ids);
      var head := if NotAmong(ids, cs[0]) then [cs[0]] else [];
      assert Filter(cs, c => NotAmong(ids, c)) == head + Filter(cs[1..], c => NotAmong(ids, c));
      forall id ensures CountId(Filter(cs, c => NotAmong(ids, c)), id) == if id in ids then 0 else CountId(cs, id) {
        CountIdAppend(head, Filter(cs[1..], c => NotAmong(ids, c)), id);
        if head != [] { CountIdOne(cs[0], id); }
      }
    }
  }

  /** Filtering out an id twice is filtering it out once. */
  lemma WithoutIdIdempotent(cs: seq<Condition>, id: string)
    ensures WithoutId(WithoutId(cs, id), id) == WithoutId(cs, id)
  {
    FilterNoOp(WithoutId(cs, id), c => NotId(id, c));
  }

  lemma {:induction false} FilterNoOp<T>(s: seq<T>, keep: T -> bool)
    requires forall i :: 0 <= i < |s| ==> keep(s[i])
    ensures Filter(s, keep) == s
  {
    if |s| > 0 {
      FilterNoOp(s[1..], keep);
    }
  }

  /** The conditions a page holds; a page without the property holds none. */
  function PageConditions(p: Page): seq<Condition>
  {
    match p.conditions
    case None => []
    case Some(cs) => cs
  }

  // ---- pages by id ---------------------------------------------------------------------

  /** `formPages.findIndex(p => String(p.pageId) === pid)`, as an index or nothing. */
  function FindPage(pages: seq<Page>, pid: string): (r: Option<nat>)
    ensures r.Some? ==>
      r.value < |pages| && PageIdText(pages[r.value]) == pid
      && forall j :: 0 <= j < r.value ==> PageIdText(pages[j]) != pid
    ensures r.None? <==> forall j :: 0 <= j < |pages| ==> PageIdText(pages[j]) != pid
  {
    FindPageFrom(pages, pid, 0)
  }

  function FindPageFrom(pages: seq<Page>, pid: string, k: nat): (r: Option<nat>)
    requires k <= |pages|
    requires forall j :: 0 <= j < k ==> PageIdText(pages[j]) != pid
    ensures r.Some? ==>
      k <= r.value < |pages| && PageIdText(pages[r.value]) == pid
      && forall j :: 0 <= j < r.value ==> PageIdText(pages[j]) != pid
    ensures r.None? <==> forall j :: 0 <= j < |pages| ==> PageIdText(pages[j]) != pid
    decreases |pages| - k
  {
    if k == |pages| then None
    else if PageIdText(pages[k]) == pid then Some(k)
    else FindPageFrom(pages, pid, k + 1)
  }

  /** Page ids are distinct: the editor gives every page its own. */
  predicate DistinctPageIds(pages: seq<Page>)
  {
    forall i, j :: 0 <= i < j < |pages| ==> PageIdText(pages[i]) != PageIdText(pages[j])
  }

  /** A page's id text is found at that page when the ids are distinct. */
  lemma FindPageOfDistinct(pages: seq<Page>, i: nat)
    requires DistinctPageIds(pages) && i < |pages|
    ensures FindPage(pages, PageIdText(pages[i])) == Some(i)
  {
  }

  /** Pages with the same ids in the same places find the same page. */
  lemma FindPageSameIds(a: seq<Page>, b: seq<Page>, pid: string)
    requires |a| == |b| && forall j :: 0 <= j < |a| ==> PageIdText(a[j]) == PageIdText(b[j])
    ensures FindPage(a, pid) == FindPage(b, pid)
  {
    var ra := FindPage(a, pid);
    var rb := FindPage(b, pid);
    if ra.Some? && rb.Some? {
      assert !(ra.value < rb.value) && !(rb.value < ra.value);
    }
  }
}

=== FILE: grid_ref.dfy ===
/**
 The Ordnance Survey grid-reference codec of `GT_OSGB`: the table of 100 km
 square letters, formatting eastings and northings at a precision of 1 to 5
 digits per axis, and parsing a reference such as "TQ 3003 8038" back into
 eastings and northings in metres.
 */
module GridRef {
  import opened Common

  /** `GT_OSGB.prefixes`: row `y` (northings / 100 km), column `x` (eastings / 100 km). */
  const Prefixes: seq<seq<string>> := [
    ["SV", "SW", "SX", "SY", "SZ", "TV", "TW"],
    ["SQ", "SR", "SS", "ST", "SU", "TQ", "TR"],
    ["SL", "SM", "SN", "SO", "SP", "TL", "TM"],
    ["SF", "SG", "SH", "SJ", "SK", "TF", "TG"],
    ["SA", "SB", "SC", "SD", "SE", "TA", "TB"],
    ["NV", "NW", "NX", "NY", "NZ", "OV", "OW"],
    ["NQ", "NR", "NS", "NT", "NU", "OQ", "OR"],
    ["NL", "NM", "NN", "NO", "NP", "OL", "OM"],
    ["NF", "NG", "NH", "NJ", "NK", "OF", "OG"],
    ["NA", "NB", "NC", "ND", "NE", "OA", "OB"],
    ["HV", "HW", "HX", "HY", "HZ", "JV", "JW"],
    ["HQ", "HR", "HS", "HT", "HU", "JQ", "JR"],
    ["HL", "HM", "HN", "HO", "HP", "JL", "JM"]
  ]

  const Rows: nat := 13
  const Cols: nat := 7
  const Square: nat := 100000

  predicate InTable(y: int, x: int) { 0 <= y < Rows && 0 <= x < Cols }

  /** Thirteen rows of seven squares. */
  lemma TableShape()
    ensures |Prefixes| == Rows && forall y :: 0 <= y < Rows ==> |Prefixes[y]| == Cols
  {
  }

  // ---- the letters of a square ---------------------------------------------------

  /** Position of a letter in the 25-letter grid alphabet (A to Z without I). */
  function GridLetterIndex(c: char): int
  {
    if 'A' <= c < 'I' then c as int - 'A' as int
    else if 'I' < c <= 'Z' then c as int - 'A' as int - 1
    else -1
  }

  /** The 500 km square of a first letter, as (column, row) offsets in 100 km units. */
  function MajorOffset(c: char): (int, int)
  {
    match c
    case 'S' => (0, 0)
    case 'T' => (5, 0)
    case 'N' => (0, 5)
    case 'O' => (5, 5)
    case 'H' => (0, 10)
    case 'J' => (5, 10)
    case _ => (-100, -100)
  }

  /**
   The national grid lettering: the first letter names a 500 km square, the
   second a 100 km square inside it, lettered row by row from the top left.
   */
  function DecodeSquare(p: string): (int, int)
  {
    if |p| != 2 then (-100, -100)
    else
      var (ox, oy) := MajorOffset(p[0]);
      var i := GridLetterIndex(p[1]);
      (oy + 4 - i / 5, ox + i % 5)
  }

  /** The table is the national grid lettering, so each of its 91 entries names exactly one square. */
  lemma TableFollowsLettering(y: nat, x: nat)
    requires InTable(y, x)
    ensures DecodeSquare(Prefixes[y][x]) == (y, x)
  {
    if y < 5 {
      SouthernRowsFollowLettering(y, x);
    } else if y < 10 {
      MiddleRowsFollowLettering(y, x);
    } else {
      NorthernRowsFollowLettering(y, x);
    }
  }

  /** Rows 0 to 4: the S and T squares. */
  lemma SouthernRowsFollowLettering(y: nat, x: nat)
    requires 0 <= y < 5 && x < Cols
    ensures DecodeSquare(Prefixes[y][x]) == (y, x)
  {
    if y == 0 { assert Prefixes[0] == ["SV", "SW", "SX", "SY", "SZ", "TV", "TW"]; }
    else if y == 1 { assert Prefixes[1] == ["SQ", "SR", "SS", "ST", "SU", "TQ", "TR"]; }
    else if y == 2 { assert Prefixes[2] == ["SL", "SM", "SN", "SO", "SP", "TL", "TM"]; }
    else if y == 3 { assert Prefixes[3] == ["SF", "SG", "SH", "SJ", "SK", "TF", "TG"]; }
    else { assert Prefixes[4] == ["SA", "SB", "SC", "SD", "SE", "TA", "TB"]; }
  }

  /** Rows 5 to 9: the N and O squares. */
  lemma MiddleRowsFollowLettering(y: nat, x: nat)
    requires 5 <= y < 10 && x < Cols
    ensures DecodeSquare(Prefixes[y][x]) == (y, x)
  {
    if y == 5 { assert Prefixes[5] == ["NV", "NW", "NX", "NY", "NZ", "OV", "OW"]; }
    else if y == 6 { assert Prefixes[6] == ["NQ", "NR", "NS", "NT", "NU", "OQ", "OR"]; }
    else if y == 7 { assert Prefixes[7] == ["NL", "NM", "NN", "NO", "NP", "OL", "OM"]; }
    else if y == 8 { assert Prefixes[8] == ["NF", "NG", "NH", "NJ", "NK", "OF", "OG"]; }
    else { assert Prefixes[9] == ["NA", "NB", "NC", "ND", "NE", "OA", "OB"]; }
  }

  /** Rows 10 to 12: the H and J squares. */
  lemma NorthernRowsFollowLettering(y: nat, x: nat)
    requires 10 <= y < 13 && x < Cols
    ensures DecodeSquare(Prefixes[y][x]) == (y, x)
  {
    if y == 10 { assert Prefixes[10] == ["HV", "HW", "HX", "HY", "HZ", "JV", "JW"]; }
    else if y == 11 { assert Prefixes[11] == ["HQ", "HR", "HS", "HT", "HU", "JQ", "JR"]; }
    else { assert Prefixes[12] == ["HL", "HM", "HN", "HO", "HP", "JL", "JM"]; }
  }

  /** No two squares of the table share their letters. */
  lemma TableEntriesDistinct(y: nat, x: nat, y': nat, x': nat)
    requires InTable(y, x) && InTable(y', x')
    requires Prefixes[y][x] == Prefixes[y'][x']
    ensures y == y' && x == x'
  {
    TableFollowsLettering(y, x);
    TableFollowsLettering(y', x');
  }

  /** The labelled `search:` loop of `parseGridRef`: the first cell, row by row, equal to `sheet`. */
  function FindSquare(sheet: string, y: nat, x: nat): (r: Option<(nat, nat)>)
    requires y <= Rows && x <= Cols
    ensures r.Some? ==> InTable(r.value.0, r.value.1) && Prefixes[r.value.0][r.value.1] == sheet
    ensures r.None? ==> forall y', x' :: InTable(y', x') && (y' > y || (y' == y && x' >= x)) ==> Prefixes[y'][x'] != sheet
    decreases Rows - y, Cols - x
  {
    if y == Rows then None
    else if x == Cols then FindSquare(sheet, y + 1, 0)
    else if Prefixes[y][x] == sheet then Some((y, x))
    else FindSquare(sheet, y, x + 1)
  }

  /** The search finds a square exactly when the letters are in the table, and then it finds that square. */
  lemma FindSquareOfEntry(y: nat, x: nat)
    requires InTable(y, x)
    ensures FindSquare(Prefixes[y][x], 0, 0) == Some((y, x))
  {
    var r := FindSquare(Prefixes[y][x], 0, 0);
    assert r.Some?;
    TableEntriesDistinct(y, x, r.value.0, r.value.1);
  }

  // ---- formatting -------------------------------------------------------------------

  /** `_zeropad(num, len)`: the loop puts `'0'`s in front of `s` until it is `len` long. */
  function ZeroPad(s: string, len: nat): (r: string)
    ensures |r| == if |s| >= len then |s| else len
    ensures r[|r| - |s|..] == s
    ensures forall i :: 0 <= i < |r| - |s| ==> r[i] == '0'
  {
    var r := Zeros(if |s| >= len then 0 else len - |s|) + s;
    assert r[|r| - |s|..] == s;
    r
  }

  /** `z` zero digits. */
  function Zeros(z: nat): (r: string)
    ensures |r| == z && forall i :: 0 <= i < z ==> r[i] == '0'
  {
    if z == 0 then [] else "0" + Zeros(z - 1)
  }

  /** JavaScript `Math.round(num / den)` for a positive denominator: halves round up. */
  function JsRoundDiv(num: int, den: nat): (r: int)
    requires den > 0
    ensures 2 * r * den <= 2 * num + den < 2 * r * den + 2 * den
  {
    (2 * num + den) / (2 * den)
  }

  /** The quotient `Math.trunc(a / b)`: division rounding toward zero. */
  function JsQuot(a: int, b: nat): int
    requires b > 0
  {
    if a >= 0 then a / b else -((-a) / b)
  }

  /** JavaScript `a % b`: the remainder takes the sign of the dividend. */
  function JsRem(a: int, b: nat): (r: int)
    requires b > 0
    ensures a >= 0 ==> 0 <= r < b
    ensures a < 0 ==> -(b as int) < r <= 0
    ensures a == JsQuot(a, b) * b + r
  {
    if a >= 0 then a % b else -((-a) % b)
  }

  /**
   `getGridRef(precision)` on integer coordinates, as written. `None` stands for
   the TypeError the code raises when precision is at most 0 (the row index is
   never set) or when the northing row lies outside the table; a column outside
   the table prints as "undefined".
   */
  function GetGridRef(eastings: int, northings: int, precision: int): (r: Option<string>)
    ensures r.Some? <==> precision > 0 && 0 <= northings / Square < Rows
  {
    var p := if precision > 5 then 5 else precision;
    if p <= 0 then None
    else
      var y := northings / Square;
      var x := eastings / Square;
      if !(0 <= y < Rows) then None
      else
        TableShape();
        var prefix := if 0 <= x < Cols then Prefixes[y][x] else "undefined";
        var d := Pow10(5 - p);
        var e := JsRoundDiv(JsRem(eastings, Square), d);
        var n := JsRoundDiv(JsRem(northings, Square), d);
        Some(prefix + " " + ZeroPad(IntToString(e), p) + " " + ZeroPad(IntToString(n), p))
  }

  /** The reference text for a square and two digit groups. */
  function RefText(prefix: string, e: nat, n: nat, p: nat): string
  {
    prefix + " " + ZeroPad(NatToString(e), p) + " " + ZeroPad(NatToString(n), p)
  }

  // ---- parsing ------------------------------------------------------------------------

  /** The two captured groups of a match of `^([A-Z]{2})\s*(\d{p})\s*(\d{p})$` (case-insensitive). */
  datatype RefParts = RefParts(sheet: string, east: string, north: string)

  function MatchRef(s: string, p: nat): (r: Option<RefParts>)
    ensures r.Some? ==> |r.value.sheet| == 2 && IsAsciiLetter(r.value.sheet[0]) && IsAsciiLetter(r.value.sheet[1])
    ensures r.Some? ==> |r.value.east| == p && |r.value.north| == p && AllDigits(r.value.east) && AllDigits(r.value.north)
  {
    if |s| < 2 || !IsAsciiLetter(s[0]) || !IsAsciiLetter(s[1]) then None
    else
      var j := SkipWhile(s, 2, IsJsSpace);
      if j + p > |s| || !AllDigits(s[j..j + p]) then None
      else
        var k := SkipWhile(s, j + p, IsJsSpace);
        if k + p != |s| || !AllDigits(s[k..k + p]) then None
        else Some(RefParts(s[..2], s[j..j + p], s[k..k + p]))
  }

  /** Two digit groups of different lengths cannot both fill the same reference. */
  lemma MatchRefUnique(s: string, p: nat, q: nat)
    requires 1 <= p && 1 <= q
    requires MatchRef(s, p).Some? && MatchRef(s, q).Some?
    ensures p == q
  {
    var j := SkipWhile(s, 2, IsJsSpace);
    assert AllDigits(s[j..j + p]) && AllDigits(s[j..j + q]);
  }

  /** The state `parseGridRef` leaves behind: whether it succeeded and the coordinates it set. */
  datatype Parsed = Parsed(ok: bool, eastings: int, northings: int)

  /**
   What one turn of the precision loop finds: the coordinates of a match at
   precision p whose letters are in the table (the digits scaled to metres by
   10^(5 - p)), or nothing when the text does not match or the letters are unknown.
   */
  function Candidate(s: string, p: nat): (r: Option<Parsed>)
    requires p <= 5
    ensures r.Some? ==> MatchRef(s, p).Some? && FindSquare(MatchRef(s, p).value.sheet, 0, 0).Some? && r.value.ok
    ensures MatchRef(s, p).Some? && FindSquare(MatchRef(s, p).value.sheet, 0, 0).Some? ==> r.Some?
  {
    match MatchRef(s, p)
    case None => None
    case Some(parts) =>
      match FindSquare(parts.sheet, 0, 0)
      case None => None
      case Some((y, x)) =>
        Some(Located(parts, y, x, p))
  }

  /** The candidates in the order of `for (precision = 5; precision >= 1; precision--)`. */
  function Candidates(s: string): (r: seq<Option<Parsed>>)
    ensures |r| == 5
  {
    seq(5, j requires 0 <= j < 5 => Candidate(s, 5 - j))
  }

  /** The loop over the candidates: each one found overwrites the state (the loop has no `break`). */
  function RunLoop(cs: seq<Option<Parsed>>, acc: Parsed): Parsed
  {
    if |cs| == 0 then acc else RunLoop(cs[1..], if cs[0].Some? then cs[0].value else acc)
  }

  /** `parseGridRef`: `ok` is false and both coordinates are reset to 0 before the loop. */
  function ParseGridRef(s: string): Parsed
  {
    RunLoop(Candidates(s), Parsed(false, 0, 0))
  }

  /** Precisions that match the text, from `p` down to 1. */
  ghost predicate NoMatchUpTo(s: string, p: nat)
  {
    forall q :: 1 <= q <= p ==> MatchRef(s, q).None?
  }

  /** With nothing found the loop leaves its starting state. */
  lemma {:induction false} RunLoopNone(cs: seq<Option<Parsed>>, acc: Parsed)
    requires forall j :: 0 <= j < |cs| ==> cs[j].None?
    ensures RunLoop(cs, acc) == acc
  {
    if |cs| > 0 {
      RunLoopNone(cs[1..], acc);
    }
  }

  /** With at most candidate `i` found, the loop ends in that candidate's state, or its starting state. */
  lemma {:induction false} RunLoopOne(cs: seq<Option<Parsed>>, i: nat, acc: Parsed)
    requires i < |cs| && forall j :: 0 <= j < |cs| && j != i ==> cs[j].None?
    ensures RunLoop(cs, acc) == if cs[i].Some? then cs[i].value else acc
  {
    if i == 0 {
      RunLoopNone(cs[1..], if cs[0].Some? then cs[0].value else acc);
    } else {
      RunLoopOne(cs[1..], i - 1, acc);
    }
  }

  /** Only one precision can match a given text. */
  lemma OtherPrecisionFails(s: string, m: nat, q: nat)
    requires 1 <= m && 1 <= q && q != m && MatchRef(s, m).Some?
    ensures MatchRef(s, q).None?
  {
    if MatchRef(s, q).Some? {
      MatchRefUnique(s, q, m);
    }
  }

  /** With no precision matching, the loop leaves the reset state. */
  lemma ParseGridRefNone(s: string)
    requires NoMatchUpTo(s, 5)
    ensures ParseGridRef(s) == Parsed(false, 0, 0)
  {
    var cs := Candidates(s);
    forall j | 0 <= j < 5 ensures cs[j].None? {
      assert MatchRef(s, 5 - j).None?;
    }
    RunLoopNone(cs, Parsed(false, 0, 0));
  }

  /** The one precision that matches decides the loop's result. */
  lemma ParseGridRefAt(s: string, m: nat)
    requires 1 <= m <= 5 && MatchRef(s, m).Some?
    ensures ParseGridRef(s) == if Candidate(s, m).Some? then Candidate(s, m).value else Parsed(false, 0, 0)
  {
    var cs := Candidates(s);
    var init := Parsed(false, 0, 0);
    assert RunLoop(cs, init) == if cs[5 - m].Some? then cs[5 - m].value else init by {
      OtherCandidatesNone(s, m);
      RunLoopOne(cs, 5 - m, init);
    }
    CandidateAt(s, m);
  }

  lemma CandidateAt(s: string, m: nat)
    requires 1 <= m <= 5
    ensures Candidates(s)[5 - m] == Candidate(s, m)
  {
  }

  /** When precision m matches, every other turn of the loop finds nothing. */
  lemma OtherCandidatesNone(s: string, m: nat)
    requires 1 <= m <= 5 && MatchRef(s, m).Some?
    ensures forall j :: 0 <= j < 5 && j != 5 - m ==> Candidates(s)[j].None?
  {
    forall j | 0 <= j < 5 && j != 5 - m ensures Candidates(s)[j].None? {
      OtherPrecisionFails(s, m, 5 - j);
    }
  }

  /** On failure both coordinates stay at the 0 they were reset to. */
  lemma ParseGridRefResets(s: string)
    ensures !ParseGridRef(s).ok ==> ParseGridRef(s).eastings == 0 && ParseGridRef(s).northings == 0
  {
    if m :| 1 <= m <= 5 && MatchRef(s, m).Some? {
      ParseGridRefAt(s, m);
    } else {
      ParseGridRefNone(s);
    }
  }

  /**
   `parseGridRef` succeeds exactly when the text is two letters and two digit
   groups of one common length p in 1..5 whose letters (as typed: the table
   lookup is case-sensitive) name a square.
   */
  lemma ParseGridRefOk(s: string)
    ensures ParseGridRef(s).ok <==>
      exists p :: 1 <= p <= 5 && MatchRef(s, p).Some? && FindSquare(MatchRef(s, p).value.sheet, 0, 0).Some?
  {
    if m :| 1 <= m <= 5 && MatchRef(s, m).Some? {
      ParseGridRefAt(s, m);
      forall p | 1 <= p <= 5 && MatchRef(s, p).Some? ensures p == m {
        MatchRefUnique(s, p, m);
      }
    } else {
      ParseGridRefNone(s);
    }
  }

  /** A successful parse is the square's corner plus the digits scaled to metres. */
  lemma ParseGridRefValue(s: string, p: nat, parts: RefParts, y: nat, x: nat, e: nat, n: nat)
    requires 1 <= p <= 5 && MatchRef(s, p) == Some(parts)
    requires FindSquare(parts.sheet, 0, 0) == Some((y, x))
    requires DigitsValue(parts.east) == e && DigitsValue(parts.north) == n
    ensures ParseGridRef(s) == Parsed(true, x * Square + e * Pow10(5 - p), y * Square + n * Pow10(5 - p))
  {
    ParseGridRefAt(s, p);
    CandidateValue(s, p, parts, y, x);
    LocatedValue(parts, y, x, p, e, n);
  }

  lemma CandidateValue(s: string, p: nat, parts: RefParts, y: nat, x: nat)
    requires 1 <= p <= 5 && MatchRef(s, p) == Some(parts)
    requires FindSquare(parts.sheet, 0, 0) == Some((y, x))
    ensures Candidate(s, p) == Some(Located(parts, y, x, p))
  {
  }

  /** The coordinates of a matched reference: the square's corner plus the digits scaled to metres. */
  function Located(parts: RefParts, y: nat, x: nat, p: nat): Parsed
    requires p <= 5 && AllDigits(parts.east) && AllDigits(parts.north)
  {
    Parsed(true, x * Square + Shift(DigitsValue(parts.east), 5 - p), y * Square + Shift(DigitsValue(parts.north), 5 - p))
  }

  /** Metres along one axis: the corner of the square with index `corner` plus a group of p digits scaled to metres. */
  function Offset(corner: nat, digits: string, p: nat): nat
    requires p <= 5 && AllDigits(digits)
  {
    corner * Square + Shift(DigitsValue(digits), 5 - p)
  }

  lemma OffsetValue(corner: nat, digits: string, p: nat)
    requires p <= 5 && AllDigits(digits)
    ensures Offset(corner, digits, p) == corner * Square + DigitsValue(digits) * Pow10(5 - p)
  {
    ShiftIsProduct(DigitsValue(digits), 5 - p);
  }

  lemma LocatedValue(parts: RefParts, y: nat, x: nat, p: nat, e: nat, n: nat)
    requires p <= 5 && AllDigits(parts.east) && AllDigits(parts.north)
    requires DigitsValue(parts.east) == e && DigitsValue(parts.north) == n
    ensures Located(parts, y, x, p) == Parsed(true, x * Square + e * Pow10(5 - p), y * Square + n * Pow10(5 - p))
  {
    ShiftIsProduct(e, 5 - p);
    ShiftIsProduct(n, 5 - p);
  }

  /**
   `v * Math.pow(10, z)`, multiplied out one factor of ten at a time so that
   the parsing lemmas stay linear; ShiftIsProduct connects the two.
   */
  function Shift(v: nat, z: nat): nat
  {
    if z == 0 then v else 10 * Shift(v, z - 1)
  }

  lemma {:induction false} ShiftIsProduct(v: nat, z: nat)
    ensures Shift(v, z) == v * Pow10(z)
  {
    if z > 0 {
      ShiftIsProduct(v, z - 1);
      assert v * Pow10(z) == 10 * (v * Pow10(z - 1));
    }
  }

  // ---- round trip ---------------------------------------------------------------------

  /** Leading zeros do not change a digit string's value. */
  lemma {:induction false} DigitsValueLeadingZeros(z: nat, s: string)
    requires AllDigits(s)
    ensures AllDigits(Zeros(z) + s) && DigitsValue(Zeros(z) + s) == DigitsValue(s)
  {
    if z == 0 {
      assert Zeros(z) + s == s;
    } else {
      DigitsValueLeadingZeros(z - 1, s);
      assert Zeros(z) + s == "0" + (Zeros(z - 1) + s);
      DigitsValuePrependZero(Zeros(z - 1) + s);
    }
  }

  /** Padding with zeros keeps a digit string's value. */
  lemma ZeroPadKeepsValue(s: string, len: nat)
    requires AllDigits(s)
    ensures AllDigits(ZeroPad(s, len)) && DigitsValue(ZeroPad(s, len)) == DigitsValue(s)
  {
    DigitsValueLeadingZeros(if |s| >= len then 0 else len - |s|, s);
  }

  lemma {:induction false} DigitsValuePrependZero(s: string)
    requires AllDigits(s)
    ensures AllDigits("0" + s) && DigitsValue("0" + s) == DigitsValue(s)
    decreases |s|
  {
    var t := "0" + s;
    if |s| > 0 {
      assert t[..|t| - 1] == "0" + s[..|s| - 1];
      DigitsValuePrependZero(s[..|s| - 1]);
    }
  }

  /** A value below 10^p prints as exactly p digits that read back as the value. */
  lemma PaddedDigits(v: nat, p: nat)
    requires 1 <= p && v < Pow10(p)
    ensures |ZeroPad(NatToString(v), p)| == p
    ensures AllDigits(ZeroPad(NatToString(v), p)) && DigitsValue(ZeroPad(NatToString(v), p)) == v
  {
    NatToStringLength(v, p);
    ZeroPadKeepsValue(NatToString(v), p);
  }

  /** A single space before a digit is skipped in one step. */
  lemma SkipOneSpace(s: string, k: nat)
    requires k + 1 < |s| && s[k] == ' ' && IsDigit(s[k + 1])
    ensures SkipWhile(s, k, IsJsSpace) == k + 1
  {
    assert SkipWhile(s, k + 1, IsJsSpace) == k + 1;
  }

  /** Two letters, a space, p digits, a space and p digits match at precision p, group for group. */
  lemma SpacedRefMatches(prefix: string, de: string, dn: string, p: nat)
    requires |prefix| == 2 && IsAsciiLetter(prefix[0]) && IsAsciiLetter(prefix[1])
    requires 1 <= p && |de| == p && |dn| == p && AllDigits(de) && AllDigits(dn)
    ensures MatchRef(prefix + " " + de + " " + dn, p) == Some(RefParts(prefix, de, dn))
  {
    SpacedLayout(prefix, de, dn, p);
    SpacedMatch(prefix + " " + de + " " + dn, p);
  }

  /** Where the pieces of letters, a space, p digits, a space and p digits lie. */
  lemma SpacedLayout(prefix: string, de: string, dn: string, p: nat)
    requires |prefix| == 2 && |de| == p && |dn| == p
    ensures var s := prefix + " " + de + " " + dn;
      |s| == 4 + 2 * p && s[0] == prefix[0] && s[1] == prefix[1] && s[..2] == prefix
      && s[2] == ' ' && s[3..3 + p] == de && s[3 + p] == ' ' && s[4 + p..] == dn
  {
  }

  /** The same for any text laid out as two letters, a space, p digits, a space and p digits. */
  lemma SpacedMatch(s: string, p: nat)
    requires 1 <= p && |s| == 4 + 2 * p && IsAsciiLetter(s[0]) && IsAsciiLetter(s[1])
    requires s[2] == ' ' && s[3 + p] == ' ' && AllDigits(s[3..3 + p]) && AllDigits(s[4 + p..])
    ensures MatchRef(s, p) == Some(RefParts(s[..2], s[3..3 + p], s[4 + p..]))
  {
    assert IsDigit(s[3]) && IsDigit(s[4 + p]) by {
      assert s[3] == s[3..3 + p][0] && s[4 + p] == s[4 + p..][0];
    }
    SkipOneSpace(s, 2);
    SkipOneSpace(s, 3 + p);
    assert s[4 + p..4 + p + p] == s[4 + p..];
    MatchRefAt(s, p, 3, 4 + p);
  }

  /** The match's groups, given where the spaces after the letters and after the first group end. */
  lemma MatchRefAt(s: string, p: nat, j: nat, k: nat)
    requires 2 <= |s| && IsAsciiLetter(s[0]) && IsAsciiLetter(s[1])
    requires SkipWhile(s, 2, IsJsSpace) == j && j + p <= |s| && AllDigits(s[j..j + p])
    requires SkipWhile(s, j + p, IsJsSpace) == k && k + p == |s| && AllDigits(s[k..k + p])
    ensures MatchRef(s, p) == Some(RefParts(s[..2], s[j..j + p], s[k..k + p]))
  {
  }

  /** Where the two digit groups of a match lie: each is a run of p digits, the second one ending the text. */
  lemma MatchRefGroups(s: string, p: nat)
    requires MatchRef(s, p).Some?
    ensures var j := SkipWhile(s, 2, IsJsSpace);
      j + p <= |s| && (forall i :: j <= i < j + p ==> IsDigit(s[i]))
      && var k := SkipWhile(s, j + p, IsJsSpace);
      k + p == |s| && forall i :: k <= i < |s| ==> IsDigit(s[i])
  {
    var j := SkipWhile(s, 2, IsJsSpace);
    assert j + p <= |s| && AllDigits(s[j..j + p]);
    var k := SkipWhile(s, j + p, IsJsSpace);
    assert k + p == |s| && AllDigits(s[k..k + p]);
    DigitsWithin(s, j, j + p);
    DigitsWithin(s, k, k + p);
  }

  lemma DigitsWithin(s: string, a: nat, b: nat)
    requires a <= b <= |s| && AllDigits(s[a..b])
    ensures forall i :: a <= i < b ==> IsDigit(s[i])
  {
    forall i | a <= i < b ensures IsDigit(s[i]) {
      assert s[i] == s[a..b][i - a];
    }
  }

  /** Letters, a space, m digits, a space and q digits match at precision p only when m == q == p. */
  lemma SpacedGroupLengths(s: string, m: nat, q: nat, p: nat)
    requires 0 < m && 0 < q && |s| == 4 + m + q && s[2] == ' ' && s[3 + m] == ' '
    requires forall i :: 3 <= i < 3 + m ==> IsDigit(s[i])
    requires forall i :: 4 + m <= i < |s| ==> IsDigit(s[i])
    requires MatchRef(s, p).Some?
    ensures m == p && q == p
  {
    SkipOneSpace(s, 2);
    MatchRefGroups(s, p);
    assert !IsDigit(s[3 + m]);
    assert m == p;
    SkipOneSpace(s, 3 + p);
  }

  /** Two letters, a space, a digit group, a space and a digit group match at precision p only when both groups have p digits. */
  lemma SpacedRefLengths(prefix: string, de: string, dn: string, p: nat)
    requires |prefix| == 2 && |de| > 0 && |dn| > 0 && AllDigits(de) && AllDigits(dn)
    requires MatchRef(prefix + " " + de + " " + dn, p).Some?
    ensures |de| == p && |dn| == p
  {
    var s := prefix + " " + de + " " + dn;
    assert forall i :: 3 <= i < 3 + |de| ==> s[i] == de[i - 3];
    assert forall i :: 4 + |de| <= i < |s| ==> s[i] == dn[i - 4 - |de|];
    SpacedGroupLengths(s, |de|, |dn|, p);
  }

  /** The reference for two letters and two numbers below 10^p parses at precision p. */
  lemma RefTextMatches(prefix: string, e: nat, n: nat, p: nat)
    requires |prefix| == 2 && IsAsciiLetter(prefix[0]) && IsAsciiLetter(prefix[1])
    requires 1 <= p && e < Pow10(p) && n < Pow10(p)
    ensures MatchRef(RefText(prefix, e, n, p), p) == Some(RefParts(prefix, ZeroPad(NatToString(e), p), ZeroPad(NatToString(n), p)))
  {
    PaddedDigits(e, p);
    PaddedDigits(n, p);
    SpacedRefMatches(prefix, ZeroPad(NatToString(e), p), ZeroPad(NatToString(n), p), p);
  }

  /**
   Letters of the table, a space, p digits, a space and p digits parse to the
   square's corner plus the digits scaled to metres.
   */
  lemma ParseSpacedRef(prefix: string, de: string, dn: string, p: nat, y: nat, x: nat)
    requires |prefix| == 2 && IsAsciiLetter(prefix[0]) && IsAsciiLetter(prefix[1])
    requires FindSquare(prefix, 0, 0) == Some((y, x))
    requires 1 <= p <= 5 && |de| == p && |dn| == p && AllDigits(de) && AllDigits(dn)
    ensures ParseGridRef(prefix + " " + de + " " + dn)
         == Parsed(true, Offset(x, de, p), Offset(y, dn, p))
  {
    SpacedRefMatches(prefix, de, dn, p);
    ParseMatched(prefix + " " + de + " " + dn, p, RefParts(prefix, de, dn), y, x);
  }

  /** A text that matches at precision p with letters of the table parses to the offsets of its groups. */
  lemma ParseMatched(s: string, p: nat, parts: RefParts, y: nat, x: nat)
    requires 1 <= p <= 5 && MatchRef(s, p) == Some(parts)
    requires FindSquare(parts.sheet, 0, 0) == Some((y, x))
    ensures ParseGridRef(s) == Parsed(true, Offset(x, parts.east, p), Offset(y, parts.north, p))
  {
    assert ParseGridRef(s) == Located(parts, y, x, p) by {
      ParseGridRefAt(s, p);
      CandidateValue(s, p, parts, y, x);
    }
    LocatedOffsets(parts, y, x, p);
  }

  lemma LocatedOffsets(parts: RefParts, y: nat, x: nat, p: nat)
    requires p <= 5 && AllDigits(parts.east) && AllDigits(parts.north)
    ensures Located(parts, y, x, p) == Parsed(true, Offset(x, parts.east, p), Offset(y, parts.north, p))
  {
  }

  lemma TableLetters(y: nat, x: nat)
    requires InTable(y, x)
    ensures |Prefixes[y][x]| == 2 && IsAsciiUpper(Prefixes[y][x][0]) && IsAsciiUpper(Prefixes[y][x][1])
  {
    TableFollowsLettering(y, x);
  }

  /** Both coordinates inside the table's 700 km by 1300 km area. */
  predicate OnGrid(eastings: int, northings: int)
  {
    0 <= eastings < Cols * Square && 0 <= northings < Rows * Square
  }

  /** Parsing the reference of a table square and two numbers below 10^p gives the square's corner plus the numbers scaled to metres. */
  lemma ParseRefText(prefix: string, y: nat, x: nat, e: nat, n: nat, p: nat)
    requires |prefix| == 2 && IsAsciiLetter(prefix[0]) && IsAsciiLetter(prefix[1])
    requires FindSquare(prefix, 0, 0) == Some((y, x))
    requires 1 <= p <= 5 && e < Pow10(p) && n < Pow10(p)
    ensures ParseGridRef(RefText(prefix, e, n, p)) == Parsed(true, x * Square + e * Pow10(5 - p), y * Square + n * Pow10(5 - p))
  {
    var s := RefText(prefix, e, n, p);
    var parts := RefParts(prefix, ZeroPad(NatToString(e), p), ZeroPad(NatToString(n), p));
    assert MatchRef(s, p) == Some(parts) by {
      RefTextMatches(prefix, e, n, p);
    }
    assert DigitsValue(parts.east) == e && DigitsValue(parts.north) == n by {
      PaddedDigits(e, p);
      PaddedDigits(n, p);
    }
    ParseGridRefValue(s, p, parts, y, x, e, n);
  }

  /** The reference of a table square reads back as that square's corner plus the scaled numbers. */
  lemma ParseSquareRefText(y: nat, x: nat, e: nat, n: nat, p: nat)
    requires InTable(y, x) && 1 <= p <= 5 && e < Pow10(p) && n < Pow10(p)
    ensures ParseGridRef(RefText(Prefixes[y][x], e, n, p)) == Parsed(true, x * Square + e * Pow10(5 - p), y * Square + n * Pow10(5 - p))
  {
    var prefix := Prefixes[y][x];
    assert |prefix| == 2 && IsAsciiLetter(prefix[0]) && IsAsciiLetter(prefix[1]) && FindSquare(prefix, 0, 0) == Some((y, x)) by {
      TableLetters(y, x);
      FindSquareOfEntry(y, x);
    }
    ParseRefText(prefix, y, x, e, n, p);
  }

  /** At precision 5 nothing is rounded: the groups are the offsets inside the square. */
  lemma GetGridRefAtFive(eastings: int, northings: int)
    requires OnGrid(eastings, northings)
    ensures InTable(northings / Square, eastings / Square)
    ensures GetGridRef(eastings, northings, 5)
      == Some(RefText(Prefixes[northings / Square][eastings / Square], eastings % Square, northings % Square, 5))
  {
    assert Pow10(0) == 1;
    assert JsRoundDiv(eastings % Square, 1) == eastings % Square;
    assert JsRoundDiv(northings % Square, 1) == northings % Square;
  }

  /** Parsing a full-precision reference returns the coordinates it was made from. */
  lemma RoundTripFullPrecision(eastings: int, northings: int)
    requires OnGrid(eastings, northings)
    ensures var r := GetGridRef(eastings, northings, 5);
      r.Some? && ParseGridRef(r.value) == Parsed(true, eastings, northings)
  {
    GetGridRefAtFive(eastings, northings);
    ParseFullPrecision(eastings, northings);
  }

  lemma ParseFullPrecision(eastings: int, northings: int)
    requires OnGrid(eastings, northings)
    ensures InTable(northings / Square, eastings / Square)
    ensures ParseGridRef(RefText(Prefixes[northings / Square][eastings / Square], eastings % Square, northings % Square, 5))
      == Parsed(true, eastings, northings)
  {
    var y, x := northings / Square, eastings / Square;
    var e, n := eastings % Square, northings % Square;
    assert Pow10(5) == Square by {
      Pow10Split(5);
    }
    ParseSquareRefText(y, x, e, n, 5);
  }

  /**
   The corrected formatter: digits beyond the precision are dropped rather than
   rounded, so a group never grows to p + 1 digits.
   */
  function GetGridRefTruncating(eastings: int, northings: int, precision: int): (r: Option<string>)
    requires OnGrid(eastings, northings)
    ensures r.Some? <==> precision > 0
  {
    var p := if precision > 5 then 5 else precision;
    if p <= 0 then None
    else
      var y := northings / Square;
      var x := eastings / Square;
      TableShape();
      var d := Pow10(5 - p);
      Some(RefText(Prefixes[y][x], Truncate(eastings % Square, d), Truncate(northings % Square, d), p))
  }

  /** Whole multiples of `d` in `v`: integer division that drops the remainder. */
  function Truncate(v: nat, d: nat): (r: nat)
    requires d > 0
    ensures r * d <= v < r * d + d
  {
    v / d
  }

  lemma Pow10Split(p: nat)
    requires p <= 5
    ensures Pow10(p) * Pow10(5 - p) == Square
  {
    assert Pow10(0) == 1 && Pow10(1) == 10 && Pow10(2) == 100 && Pow10(3) == 1000 && Pow10(4) == 10000;
    assert Pow10(5) == 100000;
  }

  /** Integer division is determined by a quotient and a remainder below the divisor. */
  lemma DivUnique(v: int, d: int, k: int, r: int)
    requires d > 0 && v == k * d + r && 0 <= r < d
    ensures v / d == k
  {
    var m := k - v / d;
    assert m * d == v % d - r;
    MulOutside(m, d);
  }

  /** A non-zero multiple of d is at least d away from 0. */
  lemma MulOutside(m: int, d: int)
    requires d > 0
    ensures m >= 1 ==> m * d >= d
    ensures m <= -1 ==> m * d <= -d
  {
  }

  /** A truncated offset below 10^p: `v < q * d` leaves fewer than `q` whole multiples of `d`. */
  lemma TruncateBound(v: nat, d: nat, q: nat)
    requires d > 0 && v < q * d
    ensures Truncate(v, d) < q
  {
  }

  /** Rounding down to a multiple of d inside a 100 km square: the square's corner plus the rounded offset. */
  lemma RoundDown(v: nat, d: nat, q: nat)
    requires d > 0 && q * d == Square
    ensures v / Square * Square + Truncate(v % Square, d) * d == v / d * d
  {
    var a := v / Square;
    var b := v % Square;
    var c := Truncate(b, d);
    var r := b - c * d;
    assert a * Square == (a * q) * d;
    assert v == (a * q + c) * d + r;
    DivUnique(v, d, a * q + c, r);
  }

  /** The truncating formatter's reference is the table square and the truncated offsets. */
  lemma GetGridRefTruncatingText(eastings: int, northings: int, p: nat)
    requires OnGrid(eastings, northings) && 1 <= p <= 5
    ensures InTable(northings / Square, eastings / Square)
    ensures Truncate(eastings % Square, Pow10(5 - p)) < Pow10(p) && Truncate(northings % Square, Pow10(5 - p)) < Pow10(p)
    ensures GetGridRefTruncating(eastings, northings, p) == Some(RefText(Prefixes[northings / Square][eastings / Square],
      Truncate(eastings % Square, Pow10(5 - p)), Truncate(northings % Square, Pow10(5 - p)), p))
  {
    Pow10Split(p);
    TruncateBound(eastings % Square, Pow10(5 - p), Pow10(p));
    TruncateBound(northings % Square, Pow10(5 - p), Pow10(p));
  }

  /** Reading back a truncated reference gives each coordinate rounded down to the precision. */
  lemma RoundTripTruncating(eastings: int, northings: int, p: nat)
    requires OnGrid(eastings, northings) && 1 <= p <= 5
    ensures var r := GetGridRefTruncating(eastings, northings, p);
      r.Some? && ParseGridRef(r.value) == Parsed(true,
        eastings / Pow10(5 - p) * Pow10(5 - p), northings / Pow10(5 - p) * Pow10(5 - p))
  {
    var d := Pow10(5 - p);
    GetGridRefTruncatingText(eastings, northings, p);
    ParseSquareRefText(northings / Square, eastings / Square, Truncate(eastings % Square, d), Truncate(northings % Square, d), p);
    Pow10Split(p);
    RoundDown(eastings, d, Pow10(p));
    RoundDown(northings, d, Pow10(p));
  }

  // ---- the rounding finding ----------------------------------------------------------

  /** As written, 99995 m into a square at precision 4 rounds up to a five-digit "10000". */
  lemma RoundingOverflowsGroup()
    ensures GetGridRef(99995, 0, 4) == Some("SV 10000 0000")
    ensures !ParseGridRef("SV 10000 0000").ok
  {
    OverflowingText();
    OverflowingTextSpelled();
    OverflowingTextDoesNotParse();
  }

  lemma OverflowingText()
    ensures GetGridRef(99995, 0, 4) == Some("SV" + " " + "10000" + " " + "0000")
  {
    OverflowingGroups();
    assert Prefixes[0][0] == "SV";
  }

  lemma OverflowingTextSpelled()
    ensures "SV" + " " + "10000" + " " + "0000" == "SV 10000 0000"
  {
  }

  /** The two digit groups of the example: 99995 m in units of 10 m rounds to 10000, and 0 stays 0. */
  lemma OverflowingGroups()
    ensures ZeroPad(IntToString(JsRoundDiv(JsRem(99995, Square), Pow10(5 - 4))), 4) == "10000"
    ensures ZeroPad(IntToString(JsRoundDiv(JsRem(0, Square), Pow10(5 - 4))), 4) == "0000"
  {
    EastingGroupOverflows();
    NorthingGroupIsZero();
  }

  lemma EastingGroupOverflows()
    ensures ZeroPad(IntToString(JsRoundDiv(JsRem(99995, Square), Pow10(5 - 4))), 4) == "10000"
  {
    assert JsRoundDiv(JsRem(99995, Square), Pow10(5 - 4)) == 10000 by {
      assert Pow10(1) == 10;
    }
    assert IntToString(10000) == "10000" by {
      assert NatToString(10000) == "10000";
    }
    assert ZeroPad("10000", 4) == "10000";
  }

  lemma NorthingGroupIsZero()
    ensures ZeroPad(IntToString(JsRoundDiv(JsRem(0, Square), Pow10(5 - 4))), 4) == "0000"
  {
    assert JsRoundDiv(JsRem(0, Square), Pow10(5 - 4)) == 0 by {
      assert Pow10(1) == 10;
    }
    assert IntToString(0) == "0";
    assert ZeroPad("0", 4) == "0000";
  }

  lemma OverflowingTextDoesNotParse()
    ensures !ParseGridRef("SV 10000 0000").ok
  {
    var s := "SV 10000 0000";
    assert SkipWhile(s, 2, IsJsSpace) == 3;
    forall p | 1 <= p <= 5 ensures MatchRef(s, p).None? {
      if p == 5 {
        assert SkipWhile(s, 8, IsJsSpace) == 9;
      } else {
        assert SkipWhile(s, 3 + p, IsJsSpace) == 3 + p;
      }
    }
    ParseGridRefOk(s);
  }
}

=== FILE: join_conditions.dfy ===
/**
 Joining conditions. Two handlers of the form editor join several existing
 conditions into one new condition: the prototype's original handler and the
 later titan one. Both collect the named conditions (form-level first, then
 each page's in page order, each id once), sort them into the order of the
 requested ids, and concatenate their rules. They differ in how they set each
 rule's logical operator, how they write the text, where the new condition
 goes, and what they do to the pages.
 */
module JoinConditions {
  import opened Common
  import opened FormSession
  import opened ConditionApply

  // ---- the candidates, in visiting order -----------------------------------------------

  /** Every page's conditions, one page after another. */
  function PagesConditions(pages: seq<Page>): (r: seq<Condition>)
    ensures forall j, c :: 0 <= j < |pages| && c in PageConditions(pages[j]) ==> c in r
    decreases |pages|
  {
    if |pages| == 0 then []
    else
      var rest := PagesConditions(pages[1..]);
      assert forall j :: 1 <= j < |pages| ==> pages[j] == pages[1..][j - 1];
      PageConditions(pages[0]) + rest
  }

  /** The order both handlers visit conditions in: the form-level list, then the pages'. */
  function Candidates(formLevel: seq<Condition>, pages: seq<Page>): seq<Condition>
  {
    formLevel + PagesConditions(pages)
  }

  // ---- collecting each id once ---------------------------------------------------------

  /** `cs.some(c => c.id === id)`: strict equality, so the number 5 and the string "5" differ. */
  predicate HasSameId(cs: seq<Condition>, id: JsId)
  {
    exists k :: 0 <= k < |cs| && cs[k].id == id
  }

  /** Where the first candidate with exactly this id stands. */
  function FirstIndexWithId(cands: seq<Condition>, id: JsId): (r: Option<nat>)
    ensures r.Some? ==>
      r.value < |cands| && cands[r.value].id == id
      && forall i :: 0 <= i < r.value ==> cands[i].id != id
    ensures r.None? <==> !HasSameId(cands, id)
    decreases |cands|
  {
    if |cands| == 0 then None
    else
      var init := cands[..|cands| - 1];
      var r := FirstIndexWithId(init, id);
      assert forall i :: 0 <= i < |init| ==> init[i] == cands[i];
      if r.Some? then r
      else if cands[|cands| - 1].id == id then Some(|cands| - 1)
      else None
  }

  /**
   The collection loop of both handlers: a candidate is kept when its id's
   text was requested and no kept condition has the same id yet. What comes
   out is requested, comes from the candidates, and holds each id once.
   */
  function Collect(cands: seq<Condition>, ids: seq<string>): (r: seq<Condition>)
    ensures forall k :: 0 <= k < |r| ==> IdText(r[k].id) in ids && r[k] in cands
    ensures forall i, j :: 0 <= i < j < |r| ==> r[i].id != r[j].id
    decreases |cands|
  {
    if |cands| == 0 then []
    else
      var init := cands[..|cands| - 1];
      var c := cands[|cands| - 1];
      var r0 := Collect(init, ids);
      CollectStep(cands, ids);
      if IdText(c.id) in ids && !HasSameId(r0, c.id) then r0 + [c] else r0
  }

  /** Every requested id that some candidate carries is collected. */
  lemma {:induction false} CollectComplete(cands: seq<Condition>, ids: seq<string>)
    ensures forall c :: c in cands && IdText(c.id) in ids ==> HasSameId(Collect(cands, ids), c.id)
    decreases |cands|
  {
    if |cands| > 0 {
      var init := cands[..|cands| - 1];
      var c := cands[|cands| - 1];
      var r0 := Collect(init, ids);
      CollectComplete(init, ids);
      CollectStep(cands, ids);
      HasSameIdPush(r0, c);
    }
  }

  /** What is collected for an id is the first candidate with that id. */
  lemma {:induction false} CollectFirst(cands: seq<Condition>, ids: seq<string>)
    ensures var r := Collect(cands, ids);
      forall k :: 0 <= k < |r| ==>
        FirstIndexWithId(cands, r[k].id).Some? && cands[FirstIndexWithId(cands, r[k].id).value] == r[k]
    decreases |cands|, 1
  {
    if |cands| > 0 {
      var init := cands[..|cands| - 1];
      var c := cands[|cands| - 1];
      var r0 := Collect(init, ids);
      forall k | 0 <= k < |r0|
        ensures FirstIndexWithId(cands, r0[k].id).Some? && cands[FirstIndexWithId(cands, r0[k].id).value] == r0[k]
      {
        CollectFirstAt(cands, ids, k);
      }
      if IdText(c.id) in ids && !HasSameId(r0, c.id) {
        CollectComplete(init, ids);
        CollectStep(cands, ids);
        forall k | 0 <= k < |init| ensures init[k].id != c.id {
          assert init[k] in init;
        }
        var r := r0 + [c];
        assert Collect(cands, ids) == r;
        forall k | 0 <= k < |r|
          ensures FirstIndexWithId(cands, r[k].id).Some? && cands[FirstIndexWithId(cands, r[k].id).value] == r[k]
        {
          if k < |r0| {
            assert r[k] == r0[k];
          } else {
            assert r[k] == c;
          }
        }
      }
    }
  }

  lemma CollectFirstAt(cands: seq<Condition>, ids: seq<string>, k: nat)
    requires |cands| > 0 && k < |Collect(cands[..|cands| - 1], ids)|
    ensures var r0 := Collect(cands[..|cands| - 1], ids);
      FirstIndexWithId(cands, r0[k].id).Some? && cands[FirstIndexWithId(cands, r0[k].id).value] == r0[k]
    decreases |cands|, 0
  {
    CollectFirst(cands[..|cands| - 1], ids);
    FirstKept(cands, Collect(cands[..|cands| - 1], ids)[k].id);
  }

  /** A first position in all but the last candidate stays the first position. */
  lemma FirstKept(cands: seq<Condition>, id: JsId)
    requires |cands| > 0
    ensures var init := cands[..|cands| - 1];
      FirstIndexWithId(init, id).Some? ==>
        FirstIndexWithId(cands, id) == FirstIndexWithId(init, id)
        && cands[FirstIndexWithId(cands, id).value] == init[FirstIndexWithId(init, id).value]
  {
  }

  lemma HasSameIdPush(cs: seq<Condition>, c: Condition)
    ensures forall id :: HasSameId(cs + [c], id) <==> HasSameId(cs, id) || c.id == id
  {
    forall id | HasSameId(cs, id) ensures HasSameId(cs + [c], id) {
      var k :| 0 <= k < |cs| && cs[k].id == id;
      assert (cs + [c])[k] == cs[k];
    }
    assert (cs + [c])[|cs|] == c;
  }

  /** What one more candidate does to the first positions and to membership. */
  lemma CollectStep(cands: seq<Condition>, ids: seq<string>)
    requires |cands| > 0
    ensures var init := cands[..|cands| - 1];
      forall id :: FirstIndexWithId(init, id).Some? ==> FirstIndexWithId(cands, id) == FirstIndexWithId(init, id)
    ensures var init := cands[..|cands| - 1];
      var c := cands[|cands| - 1];
      !HasSameId(init, c.id) ==> FirstIndexWithId(cands, c.id) == Some(|cands| - 1)
    ensures var init := cands[..|cands| - 1];
      forall x :: x in cands <==> x in init || x == cands[|cands| - 1]
  {
    var init := cands[..|cands| - 1];
    assert cands == init + [cands[|cands| - 1]];
  }

  // ---- sorting into the requested order ------------------------------------------------

  /** `xs.indexOf(x)`: the first position of `x`, or -1. */
  function IndexOf(xs: seq<string>, x: string): (r: int)
    ensures r >= -1
    ensures r == -1 <==> x !in xs
    ensures r >= 0 ==> r < |xs| && xs[r] == x && forall i :: 0 <= i < r ==> xs[i] != x
    decreases |xs|
  {
    if |xs| == 0 then -1
    else if xs[0] == x then 0
    else
      var r := IndexOf(xs[1..], x);
      assert xs == [xs[0]] + xs[1..];
      if r == -1 then -1 else r + 1
  }

  predicate SortedByKey<T>(s: seq<T>, key: T -> int)
  {
    forall i, j :: 0 <= i < j < |s| ==> key(s[i]) <= key(s[j])
  }

  /** The elements of `s` whose key is `v`, in order. */
  function KeyClass<T>(s: seq<T>, key: T -> int, v: int): seq<T>
    decreases |s|
  {
    if |s| == 0 then []
    else (if key(s[0]) == v then [s[0]] else []) + KeyClass(s[1..], key, v)
  }

  lemma {:induction false} KeyClassAppend<T>(a: seq<T>, b: seq<T>, key: T -> int, v: int)
    ensures KeyClass(a + b, key, v) == KeyClass(a, key, v) + KeyClass(b, key, v)
    decreases |a|
  {
    if |a| == 0 {
      assert a + b == b;
    } else {
      var h := if key(a[0]) == v then [a[0]] else [];
      assert (a + b)[0] == a[0];
      assert (a + b)[1..] == a[1..] + b;
      assert KeyClass(a + b, key, v) == h + KeyClass(a[1..] + b, key, v);
      KeyClassAppend(a[1..], b, key, v);
      AppendAssoc(h, KeyClass(a[1..], key, v), KeyClass(b, key, v));
    }
  }

  /** Insertion behind every element whose key is not larger. */
  function InsertByKey<T>(sorted: seq<T>, x: T, key: T -> int): (r: seq<T>)
    ensures |r| == |sorted| + 1
    ensures multiset(r) == multiset(sorted) + multiset{x}
    decreases |sorted|
  {
    if |sorted| == 0 then [x]
    else if key(x) < key(sorted[0]) then [x] + sorted
    else
      var rest := InsertByKey(sorted[1..], x, key);
      assert sorted == [sorted[0]] + sorted[1..];
      [sorted[0]] + rest
  }

  /** Inserting into a sorted sequence keeps it sorted. */
  lemma {:induction false} InsertByKeySorted<T>(sorted: seq<T>, x: T, key: T -> int)
    requires SortedByKey(sorted, key)
    ensures SortedByKey(InsertByKey(sorted, x, key), key)
    decreases |sorted|
  {
    if |sorted| > 0 && key(x) >= key(sorted[0]) {
      var rest := InsertByKey(sorted[1..], x, key);
      InsertByKeySorted(sorted[1..], x, key);
      forall i | 0 <= i < |rest| ensures key(sorted[0]) <= key(rest[i]) {
        assert rest[i] in multiset(rest);
        assert rest[i] == x || rest[i] in multiset(sorted[1..]);
      }
      assert InsertByKey(sorted, x, key) == [sorted[0]] + rest;
    }
  }

  /** A class with a key below every key present is empty. */
  lemma {:induction false} KeyClassBelow<T>(s: seq<T>, key: T -> int, v: int)
    requires forall i :: 0 <= i < |s| ==> v < key(s[i])
    ensures KeyClass(s, key, v) == []
    decreases |s|
  {
    if |s| > 0 {
      KeyClassBelow(s[1..], key, v);
    }
  }

  lemma KeyClassOne<T>(x: T, key: T -> int, v: int)
    ensures KeyClass([x], key, v) == if key(x) == v then [x] else []
  {
    assert [x][1..] == [];
  }

  /** Inserting into a sorted sequence puts `x` last among the elements with its key. */
  lemma {:induction false} InsertByKeyClasses<T>(sorted: seq<T>, x: T, key: T -> int, v: int)
    requires SortedByKey(sorted, key)
    ensures KeyClass(InsertByKey(sorted, x, key), key, v) == KeyClass(sorted, key, v) + (if key(x) == v then [x] else [])
    decreases |sorted|
  {
    var tail := if key(x) == v then [x] else [];
    if |sorted| == 0 {
      KeyClassOne(x, key, v);
    } else if key(x) < key(sorted[0]) {
      assert InsertByKey(sorted, x, key) == [x] + sorted;
      KeyClassAppend([x], sorted, key, v);
      KeyClassOne(x, key, v);
      if key(x) == v {
        KeyClassBelow(sorted, key, v);
        assert KeyClass([x] + sorted, key, v) == [x];
      } else {
        assert KeyClass([x] + sorted, key, v) == KeyClass(sorted, key, v);
      }
    } else {
      var rest := InsertByKey(sorted[1..], x, key);
      assert InsertByKey(sorted, x, key) == [sorted[0]] + rest;
      var head := KeyClass([sorted[0]], key, v);
      InsertByKeyClasses(sorted[1..], x, key, v);
      assert KeyClass(rest, key, v) == KeyClass(sorted[1..], key, v) + tail;
      KeyClassAppend([sorted[0]], rest, key, v);
      assert KeyClass([sorted[0]] + rest, key, v) == head + (KeyClass(sorted[1..], key, v) + tail);
      KeyClassAppend([sorted[0]], sorted[1..], key, v);
      assert [sorted[0]] + sorted[1..] == sorted;
      assert KeyClass(sorted, key, v) == head + KeyClass(sorted[1..], key, v);
      AppendAssoc(head, KeyClass(sorted[1..], key, v), tail);
    }
  }

  /**
   `Array.prototype.sort` with a key comparator: the result is ordered by
   key and holds the same elements.
   */
  function SortByKey<T>(xs: seq<T>, key: T -> int): (r: seq<T>)
    ensures |r| == |xs|
    ensures multiset(r) == multiset(xs)
    ensures SortedByKey(r, key)
    decreases |xs|
  {
    if |xs| == 0 then []
    else
      var init := xs[..|xs| - 1];
      assert xs == init + [xs[|xs| - 1]];
      InsertByKeySorted(SortByKey(init, key), xs[|xs| - 1], key);
      InsertByKey(SortByKey(init, key), xs[|xs| - 1], key)
  }

  /** The sort is stable: elements with equal keys keep their original order. */
  lemma {:induction false} SortByKeyStable<T>(xs: seq<T>, key: T -> int, v: int)
    ensures KeyClass(SortByKey(xs, key), key, v) == KeyClass(xs, key, v)
    decreases |xs|
  {
    if |xs| > 0 {
      var init := xs[..|xs| - 1];
      var x := xs[|xs| - 1];
      var sorted := SortByKey(init, key);
      var tail := if key(x) == v then [x] else [];
      assert KeyClass(SortByKey(xs, key), key, v) == KeyClass(sorted, key, v) + tail by {
        assert SortByKey(xs, key) == InsertByKey(sorted, x, key);
        InsertByKeyClasses(sorted, x, key, v);
      }
      assert KeyClass(sorted, key, v) == KeyClass(init, key, v) by {
        SortByKeyStable(init, key, v);
      }
      assert KeyClass(xs, key, v) == KeyClass(init, key, v) + tail by {
        assert xs == init + [x];
        KeyClassAppend(init, [x], key, v);
        KeyClassOne(x, key, v);
      }
    }
  }

  /** The sort key of both handlers: where the condition's id stands among the requested ids. */
  function OrderKey(ids: seq<string>, c: Condition): int
  {
    IndexOf(ids, IdText(c.id))
  }

  /** The collected conditions in the order of the requested ids. */
  function Joined(cands: seq<Condition>, ids: seq<string>): (r: seq<Condition>)
    ensures forall i, j :: 0 <= i < j < |r| ==> OrderKey(ids, r[i]) <= OrderKey(ids, r[j])
    ensures multiset(r) == multiset(Collect(cands, ids))
  {
    SortByKey(Collect(cands, ids), (c: Condition) => OrderKey(ids, c))
  }

  // ---- the joined rules ----------------------------------------------------------------

  /** The rules of the conditions, one condition after another. */
  function AllRules(conds: seq<Condition>): (r: seq<Rule>)
    ensures |conds| == 0 ==> r == []
    decreases |conds|
  {
    if |conds| == 0 then [] else conds[0].rules + AllRules(conds[1..])
  }

  /** The titan loop over one condition's rules, with the running rule counter. */
  function TitanMark(rules: seq<Rule>, operator: Option<string>, counter: nat): (r: seq<Rule>)
    decreases |rules|
  {
    if |rules| == 0 then []
    else [rules[0].(logicalOperator := if counter == 0 then None else operator)] + TitanMark(rules[1..], operator, counter + 1)
  }

  /** The titan loop over the joined conditions. */
  function TitanRules(conds: seq<Condition>, operator: Option<string>, counter: nat): (r: seq<Rule>)
    decreases |conds|
  {
    if |conds| == 0 then []
    else TitanMark(conds[0].rules, operator, counter) + TitanRules(conds[1..], operator, counter + |conds[0].rules|)
  }

  lemma {:induction false} TitanMarkAt(rules: seq<Rule>, operator: Option<string>, counter: nat)
    ensures |TitanMark(rules, operator, counter)| == |rules|
    ensures forall p :: 0 <= p < |rules| ==>
      TitanMark(rules, operator, counter)[p] == rules[p].(logicalOperator := if counter + p == 0 then None else operator)
    decreases |rules|
  {
    if |rules| > 0 {
      TitanMarkAt(rules[1..], operator, counter + 1);
    }
  }

  /**
   The titan rules are the joined conditions' rules in order, each with its
   logical operator replaced: nothing on the very first rule, the join's
   operator on every later one.
   */
  lemma {:induction false} TitanRulesAt(conds: seq<Condition>, operator: Option<string>, counter: nat)
    ensures |TitanRules(conds, operator, counter)| == |AllRules(conds)|
    ensures forall p :: 0 <= p < |AllRules(conds)| ==>
      TitanRules(conds, operator, counter)[p] == AllRules(conds)[p].(logicalOperator := if counter + p == 0 then None else operator)
    decreases |conds|
  {
    if |conds| > 0 {
      var n := |conds[0].rules|;
      var head := TitanMark(conds[0].rules, operator, counter);
      var tail := TitanRules(conds[1..], operator, counter + n);
      TitanMarkAt(conds[0].rules, operator, counter);
      TitanRulesAt(conds[1..], operator, counter + n);
      assert TitanRules(conds, operator, counter) == head + tail;
      assert AllRules(conds) == conds[0].rules + AllRules(conds[1..]);
      forall p | 0 <= p < |AllRules(conds)|
        ensures TitanRules(conds, operator, counter)[p]
          == AllRules(conds)[p].(logicalOperator := if counter + p == 0 then None else operator)
      {
        if p < n {
          assert AllRules(conds)[p] == conds[0].rules[p];
          assert (head + tail)[p] == head[p];
        } else {
          assert AllRules(conds)[p] == AllRules(conds[1..])[p - n];
          assert (head + tail)[p] == tail[p - n];
        }
      }
    }
  }

  /** Whether the original handler gives a rule the join's operator: not the first rule of the first condition, and no operator of its own. */
  predicate RootTakesOperator(ci: nat, ri: nat, rule: Rule)
  {
    (ci > 0 || ri > 0) && !Truthy(rule.logicalOperator)
  }

  /** The original handler's loop over one condition's rules. */
  function RootMark(rules: seq<Rule>, operator: Option<string>, ci: nat, ri: nat): (r: seq<Rule>)
    decreases |rules|
  {
    if |rules| == 0 then []
    else
      var lo := if RootTakesOperator(ci, ri, rules[0]) then operator else rules[0].logicalOperator;
      [rules[0].(logicalOperator := lo)] + RootMark(rules[1..], operator, ci, ri + 1)
  }

  /** The original handler's loop over the joined conditions. */
  function RootRules(conds: seq<Condition>, operator: Option<string>, ci: nat): (r: seq<Rule>)
    decreases |conds|
  {
    if |conds| == 0 then []
    else RootMark(conds[0].rules, operator, ci, 0) + RootRules(conds[1..], operator, ci + 1)
  }

  /** The rule at flat position `p` is the first rule of the first joined condition. */
  predicate LeadsJoin(conds: seq<Condition>, ci: nat, p: nat)
  {
    ci == 0 && p == 0 && |conds| > 0 && |conds[0].rules| > 0
  }

  lemma {:induction false} RootMarkAt(rules: seq<Rule>, operator: Option<string>, ci: nat, ri: nat)
    ensures |RootMark(rules, operator, ci, ri)| == |rules|
    ensures forall p :: 0 <= p < |rules| ==>
      RootMark(rules, operator, ci, ri)[p]
      == rules[p].(logicalOperator := if RootTakesOperator(ci, ri + p, rules[p]) then operator else rules[p].logicalOperator)
    decreases |rules|
  {
    if |rules| > 0 {
      RootMarkAt(rules[1..], operator, ci, ri + 1);
    }
  }

  /**
   The original handler's rules are the joined conditions' rules in order; a
   rule keeps its own logical operator, except that one without an operator
   gets the join's operator unless it is the very first rule of the first
   condition.
   */
  lemma {:induction false} RootRulesAt(conds: seq<Condition>, operator: Option<string>, ci: nat)
    ensures |RootRules(conds, operator, ci)| == |AllRules(conds)|
    ensures forall p :: 0 <= p < |AllRules(conds)| ==>
      RootRules(conds, operator, ci)[p]
      == AllRules(conds)[p].(logicalOperator :=
           if !LeadsJoin(conds, ci, p) && !Truthy(AllRules(conds)[p].logicalOperator) then operator
           else AllRules(conds)[p].logicalOperator)
    decreases |conds|
  {
    if |conds| > 0 {
      var n := |conds[0].rules|;
      RootMarkAt(conds[0].rules, operator, ci, 0);
      RootRulesAt(conds[1..], operator, ci + 1);
      forall p | n <= p < |AllRules(conds)|
        ensures AllRules(conds)[p] == AllRules(conds[1..])[p - n]
      {
      }
    }
  }

  // ---- the joined text -----------------------------------------------------------------

  function Quote(v: string): string
  {
    "'" + v + "'"
  }

  /** A rule's value as text: one quoted answer, or the quoted answers joined by " or ". */
  function ValueText(v: RuleValue): string
  {
    match v
    case One(x) => Quote(x)
    case Many(xs) => Join(seq(|xs|, i requires 0 <= i < |xs| => Quote(xs[i])), " or ")
  }

  /** The titan text of one rule without its operator: the quoted question, the comparison and the value. */
  function TitanClause(rule: Rule): string
  {
    Quote(rule.questionText) + " " + rule.operator + " " + ValueText(rule.value)
  }

  /** The titan text of the rule at position `idx`: its operator first when it is not the first rule and has one. */
  function TitanRuleText(rule: Rule, idx: nat): string
  {
    if idx > 0 && Truthy(rule.logicalOperator) then rule.logicalOperator.value + " " + TitanClause(rule)
    else TitanClause(rule)
  }

  /** Each rule's titan text, by position. */
  function TitanParts(rules: seq<Rule>): (r: seq<string>)
    ensures |r| == |rules|
    ensures forall i :: 0 <= i < |rules| ==> r[i] == TitanRuleText(rules[i], i)
  {
    seq(|rules|, i requires 0 <= i < |rules| => TitanRuleText(rules[i], i))
  }

  function TitanText(rules: seq<Rule>): string
  {
    Join(TitanParts(rules), " ")
  }

  /** The original handler's text of one rule without its operator: the question is not quoted. */
  function RootClause(rule: Rule): string
  {
    rule.questionText + " " + rule.operator + " " + ValueText(rule.value)
  }

  /** The original handler's text of the rule at position `idx`: after the first, the operator or nothing, then a space. */
  function RootRuleText(rule: Rule, idx: nat): string
  {
    if idx == 0 then RootClause(rule)
    else OrElse(rule.logicalOperator, "") + " " + RootClause(rule)
  }

  /** Each rule's text in the original handler, by position. */
  function RootParts(rules: seq<Rule>): (r: seq<string>)
    ensures |r| == |rules|
    ensures forall i :: 0 <= i < |rules| ==> r[i] == RootRuleText(rules[i], i)
  {
    seq(|rules|, i requires 0 <= i < |rules| => RootRuleText(rules[i], i))
  }

  function RootText(rules: seq<Rule>): string
  {
    Trim(Join(RootParts(rules), " "))
  }

  /**
   Two one-rule conditions joined by a non-empty operator read as the first
   clause, the operator, and the second clause, whatever operators the two
   rules carried before.
   */
  lemma TitanTextOfTwo(a: Condition, b: Condition, op: string)
    requires |a.rules| == 1 && |b.rules| == 1 && op != ""
    ensures TitanText(TitanRules([a, b], Some(op), 0))
      == TitanClause(a.rules[0]) + " " + op + " " + TitanClause(b.rules[0])
  {
    var rules := TitanRules([a, b], Some(op), 0);
    TitanRulesAt([a, b], Some(op), 0);
    assert AllRules([a, b]) == a.rules + b.rules by {
      assert [a, b][1..] == [b];
      assert [b][1..] == [];
    }
    var parts := TitanParts(rules);
    assert TitanClause(rules[0]) == TitanClause(a.rules[0]);
    assert TitanClause(rules[1]) == TitanClause(b.rules[0]);
    assert parts == [TitanClause(a.rules[0]), op + " " + TitanClause(b.rules[0])];
    assert parts[1..] == [op + " " + TitanClause(b.rules[0])];
    assert Join(parts, " ") == parts[0] + " " + Join(parts[1..], " ");
  }

  // ---- the two handlers ----------------------------------------------------------------

  /** A page choice of the titan join: as for apply, and not the "none" option either. */
  predicate IsJoinPageChoice(pid: string)
  {
    IsPageChoice(pid) && pid != "none"
  }

  function JoinPageChoices(raw: seq<string>): (r: seq<string>)
    ensures forall pid :: pid in r <==> pid in raw && IsJoinPageChoice(pid)
  {
    FilterIn(raw, IsJoinPageChoice);
    FilterKeepsMembers(raw, IsJoinPageChoice);
    Filter(raw, IsJoinPageChoice)
  }

  /** The form-level list, or an empty one when the session has none. */
  function FormLevel(s: Session): seq<Condition>
  {
    if s.conditions.Some? then s.conditions.value else []
  }

  /** The condition the titan handler builds: operator on the condition and on every rule after the first. */
  function TitanCondition(s: Session, ids: seq<string>, operator: Option<string>, name: string, newId: JsId): (c: Condition)
    ensures c.id == newId && c.conditionName == name && c.logicalOperator == operator
    ensures c.text == TitanText(c.rules)
  {
    var rules := TitanRules(Joined(Candidates(FormLevel(s), s.formPages), ids), operator, 0);
    Condition(newId, name, rules, TitanText(rules), operator)
  }

  /** What a join request leads to. */
  datatype JoinOutcome = Rejected | Crashed | Done(session: Session)

  /**
   The titan join handler as written: fewer than two ids (or none that
   parse) is refused; otherwise the new condition is pushed onto the
   form-level list, which fails when the session has no such list.
   */
  function TitanJoinAsWritten(s: Session, ids: Option<seq<string>>, operator: Option<string>, name: string, newId: JsId, pagesRaw: seq<string>): (r: JoinOutcome)
    ensures r.Rejected? <==> ids.None? || |ids.value| < 2
    ensures r.Crashed? <==> !r.Rejected? && s.conditions.None?
  {
    if ids.None? || |ids.value| < 2 then Rejected
    else if s.conditions.None? then Crashed
    else
      var c := TitanCondition(s, ids.value, operator, name, newId);
      Done(s.(conditions := Some(s.conditions.value + [c]),
              formPages := AddAll(s.formPages, JoinPageChoices(pagesRaw), IdText(newId), c)))
  }

  /**
   The titan join handler with the form-level list created when missing, as
   the original handler does: a request with two or more ids always ends
   with the new condition last on the form-level list and on the chosen
   pages.
   */
  function TitanJoin(s: Session, ids: Option<seq<string>>, operator: Option<string>, name: string, newId: JsId, pagesRaw: seq<string>): (r: JoinOutcome)
    ensures r.Rejected? <==> ids.None? || |ids.value| < 2
    ensures !r.Crashed?
    ensures r.Done? ==>
      && r.session.conditions.Some?
      && |r.session.conditions.value| == |FormLevel(s)| + 1
      && r.session.conditions.value[..|FormLevel(s)|] == FormLevel(s)
      && r.session.conditions.value[|FormLevel(s)|].id == newId
    ensures r.Done? ==> r.session.(conditions := s.conditions, formPages := s.formPages) == s
    ensures r.Done? ==> |r.session.formPages| == |s.formPages|
  {
    if ids.None? || |ids.value| < 2 then Rejected
    else
      var c := TitanCondition(s, ids.value, operator, name, newId);
      Done(s.(conditions := Some(FormLevel(s) + [c]),
              formPages := AddAll(s.formPages, JoinPageChoices(pagesRaw), IdText(newId), c)))
  }

  /** Where the session has a form-level list, the corrected handler does what the written one does. */
  lemma TitanJoinAgrees(s: Session, ids: Option<seq<string>>, operator: Option<string>, name: string, newId: JsId, pagesRaw: seq<string>)
    requires s.conditions.Some?
    ensures TitanJoinAsWritten(s, ids, operator, name, newId, pagesRaw) == TitanJoin(s, ids, operator, name, newId, pagesRaw)
  {
  }

  /**
   A session whose conditions live only on pages: joining two of them
   crashes the handler as written, while the corrected handler joins them.
   */
  lemma TitanJoinCrashesWithoutFormList()
    ensures var rule := Rule("Colour", "is", One("red"), None);
      var a := Condition(NumId(1), "A", [rule], "", None);
      var b := Condition(NumId(2), "B", [rule], "", None);
      var page := Page(Some(StrId("p1")), Some("question"), "Colour", false, "", false, "", "", "", None, Some([a, b]), None);
      var s := Session(None, [page], [], None, None, []);
      && TitanJoinAsWritten(s, Some(["1", "2"]), Some("and"), "A and B", NumId(3), []) == Crashed
      && TitanJoin(s, Some(["1", "2"]), Some("and"), "A and B", NumId(3), []).Done?
  {
  }

  /** The titan condition's rules: the joined rules in order, the first without an operator and every later one with the join's. */
  lemma TitanJoinedRules(s: Session, ids: seq<string>, operator: Option<string>, name: string, newId: JsId)
    ensures var c := TitanCondition(s, ids, operator, name, newId);
      var all := AllRules(Joined(Candidates(FormLevel(s), s.formPages), ids));
      && |c.rules| == |all|
      && (|all| > 0 ==> c.rules[0].logicalOperator.None?)
      && forall p :: 0 < p < |all| ==> c.rules[p] == all[p].(logicalOperator := operator)
  {
    TitanRulesAt(Joined(Candidates(FormLevel(s), s.formPages), ids), operator, 0);
  }

  /** After a titan join every chosen page that lacked the new id holds it once; nothing else on any page changes. */
  lemma TitanJoinPlaces(s: Session, ids: seq<string>, operator: Option<string>, name: string, newId: JsId, pagesRaw: seq<string>, j: nat, id: string)
    requires |ids| >= 2 && j < |s.formPages|
    ensures var r := TitanJoin(s, Some(ids), operator, name, newId, pagesRaw).session;
      CountId(PageConditions(r.formPages[j]), id)
      == if id == IdText(newId) && Targeted(s.formPages, JoinPageChoices(pagesRaw), j) && !HasId(PageConditions(s.formPages[j]), id) then 1
         else CountId(PageConditions(s.formPages[j]), id)
  {
    AddAllCount(s.formPages, JoinPageChoices(pagesRaw), TitanCondition(s, ids, operator, name, newId), j, id);
  }

  /** `formData.conditions[i] = c` at the first condition with the same name, or `push(c)` when there is none. */
  function ReplaceByName(cs: seq<Condition>, name: string, c: Condition): (r: seq<Condition>)
    ensures c in r
    ensures (exists i :: 0 <= i < |cs| && cs[i].conditionName == name) ==>
      exists i :: 0 <= i < |cs| && cs[i].conditionName == name
        && (forall k :: 0 <= k < i ==> cs[k].conditionName != name)
        && r == cs[i := c]
    ensures (forall i :: 0 <= i < |cs| ==> cs[i].conditionName != name) ==> r == cs + [c]
  {
    match FindName(cs, name, 0)
    case Some(i) =>
      assert cs[i := c][i] == c;
      cs[i := c]
    case None => cs + [c]
  }

  function FindName(cs: seq<Condition>, name: string, i: nat): (r: Option<nat>)
    requires i <= |cs|
    requires forall k :: 0 <= k < i ==> cs[k].conditionName != name
    ensures r.Some? ==>
      i <= r.value < |cs| && cs[r.value].conditionName == name
      && forall k :: 0 <= k < r.value ==> cs[k].conditionName != name
    ensures r.None? ==> forall k :: 0 <= k < |cs| ==> cs[k].conditionName != name
    decreases |cs| - i
  {
    if i == |cs| then None
    else if cs[i].conditionName == name then Some(i)
    else FindName(cs, name, i + 1)
  }

  /** Once a condition of the name is in the list, replacing by that name keeps the length. */
  lemma ReplaceByNameAgain(cs: seq<Condition>, name: string, c: Condition, c2: Condition)
    requires c.conditionName == name
    ensures |ReplaceByName(ReplaceByName(cs, name, c), name, c2)| == |ReplaceByName(cs, name, c)|
  {
    var r := ReplaceByName(cs, name, c);
    var i :| 0 <= i < |r| && r[i] == c;
    assert r[i].conditionName == name;
  }

  /** Every page with a conditions list loses the joined ids. */
  function DropJoined(pages: seq<Page>, ids: seq<string>): (r: seq<Page>)
    ensures |r| == |pages|
    ensures forall j :: 0 <= j < |pages| ==> Frame(r[j]) == Frame(pages[j])
    ensures forall j, id :: 0 <= j < |pages| ==>
      CountId(PageConditions(r[j]), id) == if id in ids then 0 else CountId(PageConditions(pages[j]), id)
  {
    seq(|pages|, j requires 0 <= j < |pages| =>
      match pages[j].conditions
      case None => pages[j]
      case Some(cs) => pages[j].(conditions := Some(WithoutIds(cs, ids))))
  }

  /** The condition the original handler builds: no operator of its own, the rules' text trimmed. */
  function RootCondition(s: Session, ids: seq<string>, operator: Option<string>, name: string, newId: JsId): (c: Condition)
    ensures c.id == newId && c.conditionName == name && c.logicalOperator.None?
    ensures c.text == RootText(c.rules)
  {
    var rules := RootRules(Joined(Candidates(FormLevel(s), s.formPages), ids), operator, 0);
    Condition(newId, name, rules, RootText(rules), None)
  }

  /**
   The original join handler: the new condition replaces the form-level
   condition of the same name in place, or is added last; and no page keeps
   any of the joined ids.
   */
  function RootJoin(s: Session, ids: seq<string>, operator: Option<string>, name: string, newId: JsId): (r: Session)
    ensures r.conditions.Some?
    ensures RootCondition(s, ids, operator, name, newId) in r.conditions.value
    ensures |r.conditions.value| == |FormLevel(s)| || |r.conditions.value| == |FormLevel(s)| + 1
    ensures r.(conditions := s.conditions, formPages := s.formPages) == s
    ensures |r.formPages| == |s.formPages|
    ensures forall j, id :: 0 <= j < |s.formPages| && id in ids ==> !HasId(PageConditions(r.formPages[j]), id)
    ensures forall j, id :: 0 <= j < |s.formPages| && id !in ids ==>
      CountId(PageConditions(r.formPages[j]), id) == CountId(PageConditions(s.formPages[j]), id)
  {
    var c := RootCondition(s, ids, operator, name, newId);
    s.(conditions := Some(ReplaceByName(FormLevel(s), name, c)), formPages := DropJoined(s.formPages, ids))
  }

  /** The original condition's rules: the joined rules in order, each missing operator filled in except on the very first rule. */
  lemma RootJoinedRules(s: Session, ids: seq<string>, operator: Option<string>, name: string, newId: JsId)
    ensures var c := RootCondition(s, ids, operator, name, newId);
      var all := AllRules(Joined(Candidates(FormLevel(s), s.formPages), ids));
      && |c.rules| == |all|
      && forall p :: 0 < p < |all| ==>
           c.rules[p].logicalOperator == if Truthy(all[p].logicalOperator) then all[p].logicalOperator else operator
  {
    RootRulesAt(Joined(Candidates(FormLevel(s), s.formPages), ids), operator, 0);
  }

  /** Joining again under the same name replaces the earlier joined condition instead of adding another. */
  lemma RootJoinAgainReplaces(s: Session, ids: seq<string>, operator: Option<string>, name: string, newId: JsId,
                              ids2: seq<string>, operator2: Option<string>, newId2: JsId)
    ensures var r1 := RootJoin(s, ids, operator, name, newId);
      |RootJoin(r1, ids2, operator2, name, newId2).conditions.value| == |r1.conditions.value|
  {
    var r1 := RootJoin(s, ids, operator, name, newId);
    var c := RootCondition(s, ids, operator, name, newId);
    assert r1.conditions.value == ReplaceByName(FormLevel(s), name, c);
    assert FormLevel(r1) == r1.conditions.value;
    ReplaceByNameAgain(FormLevel(s), name, c, RootCondition(r1, ids2, operator2, name, newId2));
  }

  /**
   Two one-rule conditions joined by a non-empty operator, the second rule
   without an operator of its own: the original text is the first clause,
   the operator and the second clause, trimmed.
   */
  lemma RootTextOfTwo(a: Condition, b: Condition, op: string)
    requires |a.rules| == 1 && |b.rules| == 1 && op != ""
    requires !Truthy(b.rules[0].logicalOperator)
    ensures RootText(RootRules([a, b], Some(op), 0))
      == Trim(RootClause(a.rules[0]) + " " + op + " " + RootClause(b.rules[0]))
  {
    RootJoinOfTwo(a, b, op);
  }

  lemma RootJoinOfTwo(a: Condition, b: Condition, op: string)
    requires |a.rules| == 1 && |b.rules| == 1 && op != ""
    requires !Truthy(b.rules[0].logicalOperator)
    ensures Join(RootParts(RootRules([a, b], Some(op), 0)), " ")
      == RootClause(a.rules[0]) + " " + op + " " + RootClause(b.rules[0])
  {
    var rules := RootRules([a, b], Some(op), 0);
    RootRulesAt([a, b], Some(op), 0);
    assert AllRules([a, b]) == a.rules + b.rules by {
      assert [a, b][1..] == [b];
      assert [b][1..] == [];
    }
    assert !LeadsJoin([a, b], 0, 1);
    var parts := RootParts(rules);
    assert RootClause(rules[0]) == RootClause(a.rules[0]);
    assert RootClause(rules[1]) == RootClause(b.rules[0]);
    assert parts == [RootClause(a.rules[0]), op + " " + RootClause(b.rules[0])];
    assert parts[1..] == [op + " " + RootClause(b.rules[0])];
    assert Join(parts, " ") == parts[0] + " " + Join(parts[1..], " ");
  }
}

=== FILE: js_parse_int.dfy ===
/**
 JavaScript's global `parseInt(string, radix)` on the inputs the program gives
 it: no radix (where a "0x" prefix selects base 16) or radix 10. Leading white
 space is skipped, one sign is read, then the longest run of digits of the
 base; no digit at all gives NaN. Values are unbounded integers.
 */
module JsParseInt {
  import opened Common

  /** The value of a character as a digit in bases up to 36 ('a'/'A' is 10, 'z'/'Z' is 35); 36 when it is no digit. */
  function DigitOf(c: char): (d: nat)
    ensures d <= 36
    ensures IsDigit(c) <==> d < 10
    ensures IsDigit(c) ==> d == DigitVal(c)
  {
    if IsDigit(c) then DigitVal(c)
    else if IsAsciiLower(c) then c as int - 'a' as int + 10
    else if IsAsciiUpper(c) then c as int - 'A' as int + 10
    else 36
  }

  predicate IsHexDigit(c: char)
  {
    DigitOf(c) < 16
  }

  /** The value of a string of digits of base `base`, most significant first. */
  function RadixValue(s: string, base: nat): nat
    requires forall i :: 0 <= i < |s| ==> DigitOf(s[i]) < base
  {
    if |s| == 0 then 0 else RadixValue(s[..|s| - 1], base) * base + DigitOf(s[|s| - 1])
  }

  lemma {:induction false} RadixTenIsDecimal(s: string)
    requires AllDigits(s)
    ensures forall i :: 0 <= i < |s| ==> DigitOf(s[i]) < 10
    ensures RadixValue(s, 10) == DigitsValue(s)
  {
    if |s| > 0 {
      RadixTenIsDecimal(s[..|s| - 1]);
    }
  }

  /** The result of `parseInt`: an integer, or NaN. */
  datatype JsInt = Num(value: int) | NaN

  /** `parseInt(s)`, where a "0x" or "0X" prefix selects base 16, or `parseInt(s, 10)`. */
  datatype Radix = NoRadix | Radix10

  /** Length of the run of base-`base` digits at the start of `t`. */
  function DigitRun(t: string, base: nat): (r: nat)
    ensures r <= |t|
    ensures forall i :: 0 <= i < r ==> DigitOf(t[i]) < base
    ensures r < |t| ==> DigitOf(t[r]) >= base
  {
    if |t| > 0 && DigitOf(t[0]) < base then 1 + DigitRun(t[1..], base) else 0
  }

  /** The leading run of base-`base` digits of `t` as a number; NaN when `t` does not start with one. */
  function LeadingNumber(t: string, base: nat): (r: JsInt)
    ensures r.Num? ==> r.value >= 0 && |t| > 0 && DigitOf(t[0]) < base
  {
    var d := DigitRun(t, base);
    if d == 0 then NaN else Num(RadixValue(t[..d], base))
  }

  /** `parseInt` after the sign: a "0x" prefix switches to base 16 when no radix is given. */
  function ParseUnsigned(t: string, radix: Radix): (r: JsInt)
    ensures r.Num? ==> r.value >= 0 && |t| > 0 && IsDigit(t[0])
  {
    if radix == NoRadix && |t| >= 2 && t[0] == '0' && (t[1] == 'x' || t[1] == 'X') then LeadingNumber(t[2..], 16)
    else LeadingNumber(t, 10)
  }

  /** `parseInt` after the leading white space: an optional '+' or '-'. */
  function ParseSigned(t: string, radix: Radix): (r: JsInt)
    ensures r.Num? ==> exists i :: 0 <= i < |t| && IsDigit(t[i])
  {
    if |t| > 0 && (t[0] == '-' || t[0] == '+') then
      match ParseUnsigned(t[1..], radix)
      case NaN => NaN
      case Num(v) =>
        assert IsDigit(t[1]);
        Num(if t[0] == '-' then -v else v)
    else
      var r := ParseUnsigned(t, radix);
      assert r.Num? ==> IsDigit(t[0]);
      r
  }

  /**
   `parseInt(s, radix)`: skip leading white space, take an optional sign, with
   no radix take a "0x" prefix as base 16, then read the longest run of digits
   of the base; no digit gives NaN, and whatever follows the run is ignored.
   */
  function ParseInt(s: string, radix: Radix): (r: JsInt)
    ensures (forall i :: 0 <= i < |s| ==> !IsDigit(s[i])) ==> r.NaN?
  {
    var a := SkipWhile(s, 0, IsJsSpace);
    var r := ParseSigned(s[a..], radix);
    assert r.Num? ==> exists i :: a <= i < |s| && IsDigit(s[i]) by {
      if r.Num? {
        var i :| 0 <= i < |s[a..]| && IsDigit(s[a..][i]);
        assert s[a + i] == s[a..][i];
      }
    }
    r
  }

  lemma {:induction false} DigitRunAll(t: string)
    requires AllDigits(t)
    ensures DigitRun(t, 10) == |t|
  {
    if |t| > 0 {
      DigitRunAll(t[1..]);
    }
  }

  /** A run of decimal digits followed by a character that is no digit (or by nothing) is read up to that character. */
  lemma {:induction false} DigitRunStops(d: string, junk: string)
    requires AllDigits(d) && (junk == [] || !IsDigit(junk[0]))
    ensures DigitRun(d + junk, 10) == |d|
  {
    if |d| > 0 {
      assert (d + junk)[1..] == d[1..] + junk;
      DigitRunStops(d[1..], junk);
    } else {
      assert d + junk == junk;
    }
  }

  /** A non-empty string of decimal digits is read as its value, whatever the radix. */
  lemma ParseUnsignedDigits(t: string, radix: Radix)
    requires |t| > 0 && AllDigits(t)
    ensures ParseUnsigned(t, radix) == Num(DigitsValue(t))
  {
    assert !(|t| >= 2 && (t[1] == 'x' || t[1] == 'X')) by {
      assert |t| >= 2 ==> IsDigit(t[1]);
    }
    DigitRunAll(t);
    assert t[..|t|] == t;
    RadixTenIsDecimal(t);
  }

  /** A non-empty string of decimal digits parses to its value, with or without a radix. */
  lemma ParseIntDigits(s: string, radix: Radix)
    requires |s| > 0 && AllDigits(s)
    ensures ParseInt(s, radix) == Num(DigitsValue(s))
  {
    assert SkipWhile(s, 0, IsJsSpace) == 0;
    assert s[0..] == s;
    ParseUnsignedDigits(s, radix);
  }

  /** `parseInt(String(n))` gives `n` back for every integer. */
  lemma ParseIntOfString(n: int, radix: Radix)
    ensures ParseInt(IntToString(n), radix) == Num(n)
  {
    if n >= 0 {
      ParseIntDigits(NatToString(n), radix);
    } else {
      var t := NatToString(-n);
      var s := "-" + t;
      assert SkipWhile(s, 0, IsJsSpace) == 0;
      assert s[0..] == s && s[1..] == t;
      ParseUnsignedDigits(t, radix);
    }
  }

  /** `parseInt(s, 10)` reads the digits at the front of `s` and ignores the rest from the first non-digit on. */
  lemma ParseIntIgnoresTail(d: string, junk: string)
    requires |d| > 0 && AllDigits(d) && (junk == [] || !IsDigit(junk[0]))
    ensures ParseInt(d + junk, Radix10) == Num(DigitsValue(d))
  {
    assert (d + junk)[0] == d[0];
    ParseIntAtDigit(d + junk, Radix10);
    LeadingDigits(d, junk);
  }

  /** A string that starts with a digit has no white space or sign to skip. */
  lemma ParseIntAtDigit(s: string, radix: Radix)
    requires |s| > 0 && IsDigit(s[0])
    ensures ParseInt(s, radix) == ParseUnsigned(s, radix)
  {
    assert SkipWhile(s, 0, IsJsSpace) == 0;
    assert s[0..] == s;
  }

  lemma LeadingDigits(d: string, junk: string)
    requires |d| > 0 && AllDigits(d) && (junk == [] || !IsDigit(junk[0]))
    ensures LeadingNumber(d + junk, 10) == Num(DigitsValue(d))
  {
    DigitRunStops(d, junk);
    assert (d + junk)[..|d|] == d;
    RadixTenIsDecimal(d);
  }

  /** Skipping in `t` from `k` is skipping in `t[1..]` from `k - 1`. */
  lemma {:induction false} SkipAnyShifted(t: string, k: nat, drop: char -> bool)
    requires 1 <= k <= |t|
    ensures SkipWhile(t, k, drop) == 1 + SkipWhile(t[1..], k - 1, drop)
    decreases |t| - k
  {
    if k < |t| && drop(t[k]) {
      SkipAnyShifted(t, k + 1, drop);
    }
  }

  /** Leading white space does not change what `parseInt` reads. */
  lemma ParseIntSkipsSpace(c: char, s: string, radix: Radix)
    requires IsJsSpace(c)
    ensures ParseInt([c] + s, radix) == ParseInt(s, radix)
  {
    var t := [c] + s;
    assert t[1..] == s;
    SkipAnyShifted(t, 1, IsJsSpace);
    var a := SkipWhile(s, 0, IsJsSpace);
    assert SkipWhile(t, 0, IsJsSpace) == a + 1;
    assert t[a + 1..] == s[a..];
  }

  /** Without a radix a leading "0x" switches to base 16: "0x1A" is 26. */
  lemma ParseIntReadsHex()
    ensures ParseInt("0x1A", NoRadix) == Num(26)
  {
    var s := "0x1A";
    ParseIntAtDigit(s, NoRadix);
    assert s[2..] == "1A";
    HexOneA();
  }

  lemma HexOneA()
    ensures LeadingNumber("1A", 16) == Num(26)
  {
    assert DigitRun("1A", 16) == 2 && "1A"[..2] == "1A";
    assert "1A"[..1] == "1" && "1"[..0] == "" && DigitOf('A') == 10;
  }

  /** With radix 10 the same text stops at the 'x' and reads 0. */
  lemma ParseIntRadix10StopsAtX()
    ensures ParseInt("0x1A", Radix10) == Num(0)
  {
    ParseIntIgnoresTail("0", "x1A");
    assert "0" + "x1A" == "0x1A";
  }
}

=== FILE: otp_input.dfy ===
/**
 The one-time-password input: N single-character boxes, a hidden field that
 carries their concatenation to the form, and the keyboard, input and paste
 handlers that move characters and focus between the boxes.

 The component is a state machine over the box values, the index of the
 focused box (-1 while none has been focused) and the hidden value. DOM focus,
 text selection, CSS classes and the change event are not modelled.

 The `data-pattern` regular expression is modelled as the character class it
 names (`[0-9]` by default): `new RegExp(pattern).test(s)` holds when some
 character of `s` is in the class.
 */
module OtpInput {
  import opened Common
  import opened JsParseInt

  // ---- configuration -------------------------------------------------------------------

  /** `maxLength` and the character class of `pattern`, read once by the constructor. */
  datatype Config = Config(maxLength: int, accepts: char -> bool)

  /** `parseInt(container.dataset.maxLength) || 6`: NaN and 0 are falsy and fall back to 6. */
  function MaxLength(raw: Option<string>): (r: int)
    ensures r != 0
    ensures raw.None? ==> r == 6
  {
    match ParseInt(OrElse(raw, ""), NoRadix)
    case NaN => 6
    case Num(v) => if v == 0 then 6 else v
  }

  /** An attribute holding a non-zero integer is taken as written; "0" falls back to 6. */
  lemma MaxLengthOfAttribute(k: int)
    ensures MaxLength(Some(IntToString(k))) == if k == 0 then 6 else k
  {
    ParseIntOfString(k, NoRadix);
  }

  /** The default pattern `[0-9]`. */
  predicate DefaultAccepts(c: char)
  {
    IsDigit(c)
  }

  /** `isValidCharacter(s)`: `RegExp.test` finds a character of the class anywhere in `s`. */
  predicate IsValidCharacter(cfg: Config, s: string)
  {
    exists i :: 0 <= i < |s| && cfg.accepts(s[i])
  }

  lemma ValidSingleCharacter(cfg: Config, c: char)
    ensures IsValidCharacter(cfg, [c]) <==> cfg.accepts(c)
  {
    assert [c][0] == c;
  }

  // ---- cleanPastedData -----------------------------------------------------------------

  /** The separators `/[\s\-_\s]/g` removes. */
  predicate IsSeparator(c: char)
  {
    IsJsSpace(c) || c == '-' || c == '_'
  }

  /** `slice(0, end)`: a negative end counts back from the end of the text. */
  function SliceTo(s: string, end: int): (r: string)
    ensures |r| <= |s| && r == s[..|r|]
    ensures end >= 0 ==> |r| == if end < |s| then end else |s|
    ensures end < 0 ==> |r| == if |s| + end > 0 then |s| + end else 0
  {
    if end >= 0 then (if end < |s| then s[..end] else s)
    else if |s| + end > 0 then s[..|s| + end] else []
  }

  /** The characters of a paste the component keeps before the length cut: no separators, only members of the class. */
  function Kept(cfg: Config, s: string): string
  {
    Filter(Filter(s, c => !IsSeparator(c)), cfg.accepts)
  }

  /**
   `cleanPastedData(data)`: an absent or empty paste gives ""; otherwise the
   separators are removed, the characters outside the class dropped and the
   rest cut to `maxLength`.
   */
  function CleanPastedData(cfg: Config, data: Option<string>): (r: string)
    ensures cfg.maxLength >= 0 ==> |r| <= cfg.maxLength
    ensures forall i :: 0 <= i < |r| ==> cfg.accepts(r[i]) && !IsSeparator(r[i])
    ensures data.Some? ==> |r| <= |Kept(cfg, data.value)| && r == Kept(cfg, data.value)[..|r|]
    ensures data.Some? && 0 <= |Kept(cfg, data.value)| <= cfg.maxLength ==> r == Kept(cfg, data.value)
  {
    if !Truthy(data) then ""
    else
      var cleaned := Filter(data.value, c => !IsSeparator(c));
      var kept := Filter(cleaned, cfg.accepts);
      forall i | 0 <= i < |kept| ensures !IsSeparator(kept[i]) {
        FilterFrom(cleaned, cfg.accepts, i);
      }
      SliceTo(kept, cfg.maxLength)
  }

  /** Pasting two pieces cleans like pasting each piece in turn, up to the length cut. */
  lemma KeptAppend(cfg: Config, a: string, b: string)
    ensures Kept(cfg, a + b) == Kept(cfg, a) + Kept(cfg, b)
  {
    FilterAppend(a, b, c => !IsSeparator(c));
    FilterAppend(Filter(a, c => !IsSeparator(c)), Filter(b, c => !IsSeparator(c)), cfg.accepts);
  }

  /** A single character survives cleaning exactly when it is no separator and is in the class. */
  lemma KeptOne(cfg: Config, c: char)
    ensures Kept(cfg, [c]) == if !IsSeparator(c) && cfg.accepts(c) then [c] else []
  {
    FilterOne(c, c => !IsSeparator(c));
    if !IsSeparator(c) {
      FilterOne(c, cfg.accepts);
    }
  }

  // ---- the boxes -----------------------------------------------------------------------

  /** The box values, the focused box (-1 before any box has focus) and the hidden field's value. */
  datatype Otp = Otp(slots: seq<string>, focus: int, hidden: string)

  /** Focus is on a box or nowhere, and the hidden field holds the boxes' values joined in order. */
  predicate Valid(st: Otp)
  {
    (st.focus == -1 || 0 <= st.focus < |st.slots|) && st.hidden == Concat(st.slots)
  }

  /** `init()` over the boxes as the page renders them: nothing focused, the hidden field synchronised. */
  function Init(boxes: seq<string>): (r: Otp)
    ensures Valid(r) && r.slots == boxes && r.focus == -1
  {
    Otp(boxes, -1, Concat(boxes))
  }

  /** A fresh component over n empty boxes after `init()`. */
  function Initial(n: nat): (r: Otp)
    ensures Valid(r) && |r.slots| == n
    ensures forall i :: 0 <= i < n ==> r.slots[i] == ""
    ensures r.hidden == "" && r == Init(r.slots)
  {
    var slots := seq(n, _ => "");
    EmptyConcat(slots);
    Otp(slots, -1, "")
  }

  lemma {:induction false} EmptyConcat(slots: seq<string>)
    requires forall i :: 0 <= i < |slots| ==> slots[i] == ""
    ensures Concat(slots) == ""
  {
    if |slots| > 0 {
      EmptyConcat(slots[1..]);
    }
  }

  /** `focusInput(index)`: moves focus to an existing box and ignores any other index. */
  function FocusInput(st: Otp, index: int): (r: Otp)
    ensures r.slots == st.slots && r.hidden == st.hidden
    ensures r.focus == if 0 <= index < |st.slots| then index else st.focus
  {
    if 0 <= index < |st.slots| then st.(focus := index) else st
  }

  /** `updateHiddenValue()`: the hidden field takes the boxes' values joined with "". */
  function UpdateHiddenValue(st: Otp): (r: Otp)
    ensures r.slots == st.slots && r.focus == st.focus
    ensures (st.focus == -1 || 0 <= st.focus < |st.slots|) ==> Valid(r)
  {
    st.(hidden := Concat(st.slots))
  }

  /** `findNextEmptyInput()`: the first empty box, or -1 when every box holds something. */
  function FindNextEmptyInput(slots: seq<string>): (r: int)
    ensures -1 <= r < |slots|
    ensures r == -1 <==> forall i :: 0 <= i < |slots| ==> slots[i] != ""
    ensures r >= 0 ==> slots[r] == "" && forall j :: 0 <= j < r ==> slots[j] != ""
  {
    FindEmptyFrom(slots, 0)
  }

  function FindEmptyFrom(slots: seq<string>, k: nat): (r: int)
    requires k <= |slots|
    requires forall j :: 0 <= j < k ==> slots[j] != ""
    ensures -1 <= r < |slots|
    ensures r == -1 <==> forall i :: 0 <= i < |slots| ==> slots[i] != ""
    ensures r >= 0 ==> slots[r] == "" && forall j :: 0 <= j < r ==> slots[j] != ""
    decreases |slots| - k
  {
    if k == |slots| then -1
    else if slots[k] == "" then k
    else FindEmptyFrom(slots, k + 1)
  }

  // ---- handlers ------------------------------------------------------------------------

  /**
   `handleInput` as written, for an input event on box `index` whose value the
   browser has just set to `value`: a value with no character of the class is
   cleared and the handler returns at once, without updating the hidden field;
   otherwise a non-empty value moves focus to the next box and the hidden field
   is updated.
   */
  function HandleInputAsWritten(cfg: Config, st: Otp, index: nat, value: string): (r: Otp)
    requires index < |st.slots|
    ensures |r.slots| == |st.slots|
    ensures r.slots[index] == if value != "" && !IsValidCharacter(cfg, value) then "" else value
    ensures forall j :: 0 <= j < |st.slots| && j != index ==> r.slots[j] == st.slots[j]
    ensures value != "" && !IsValidCharacter(cfg, value) ==> r.hidden == st.hidden && r.focus == st.focus
    ensures Valid(st) && (value == "" || IsValidCharacter(cfg, value)) ==> Valid(r)
  {
    var typed := st.(slots := st.slots[index := value]);
    if value != "" && !IsValidCharacter(cfg, value) then typed.(slots := typed.slots[index := ""])
    else
      var moved := if value != "" && index < |st.slots| - 1 then FocusInput(typed, index + 1) else typed;
      UpdateHiddenValue(moved)
  }

  /** The same handler with the hidden field updated on the rejecting path too. */
  function HandleInput(cfg: Config, st: Otp, index: nat, value: string): (r: Otp)
    requires index < |st.slots|
    ensures |r.slots| == |st.slots|
    ensures r.slots[index] == if value != "" && !IsValidCharacter(cfg, value) then "" else value
    ensures forall j :: 0 <= j < |st.slots| && j != index ==> r.slots[j] == st.slots[j]
    ensures Valid(st) ==> Valid(r)
  {
    var typed := st.(slots := st.slots[index := value]);
    if value != "" && !IsValidCharacter(cfg, value) then UpdateHiddenValue(typed.(slots := typed.slots[index := ""]))
    else
      var moved := if value != "" && index < |st.slots| - 1 then FocusInput(typed, index + 1) else typed;
      UpdateHiddenValue(moved)
  }

  /**
   With box 0 holding "5" and selected, typing "a" into it under the default
   pattern: the box is emptied but the hidden field still submits "5".
   */
  lemma RejectedInputLeavesStaleHiddenValue()
    ensures var cfg := Config(6, DefaultAccepts);
      var st := Otp(["5", ""], 0, "5");
      Valid(st)
      && HandleInputAsWritten(cfg, st, 0, "a") == Otp(["", ""], 0, "5")
      && !Valid(HandleInputAsWritten(cfg, st, 0, "a"))
      && Valid(HandleInput(cfg, st, 0, "a"))
  {
    var cfg := Config(6, DefaultAccepts);
    assert !IsValidCharacter(cfg, "a") by {
      assert forall i :: 0 <= i < |"a"| ==> "a"[i] == 'a';
    }
    assert Concat(["5", ""]) == "5" by {
      assert Concat([""]) == "";
    }
    assert Concat(["", ""]) == "" by {
      assert Concat([""]) == "";
    }
  }

  /**
   `handleKeydown` on box `index`. Backspace empties a filled box or, on an
   empty one, moves left; Delete empties the box; the arrows, Home and End
   move focus; Tab is left to the browser; any other single character of the
   class replaces the box's value and moves right. Keys the handler does not
   take are left to the browser, which then raises an input event.
   */
  function HandleKeydown(cfg: Config, st: Otp, index: nat, key: string): (r: Otp)
    requires index < |st.slots|
    ensures |r.slots| == |st.slots|
    ensures forall j :: 0 <= j < |st.slots| && j != index ==> r.slots[j] == st.slots[j]
    ensures Valid(st) ==> Valid(r)
  {
    var n := |st.slots|;
    if key == "Backspace" then
      var st1 := if st.slots[index] != "" then st.(slots := st.slots[index := ""])
                 else if index > 0 then FocusInput(st, index - 1) else st;
      UpdateHiddenValue(st1)
    else if key == "Delete" then UpdateHiddenValue(st.(slots := st.slots[index := ""]))
    else if key == "ArrowLeft" then (if index > 0 then FocusInput(st, index - 1) else st)
    else if key == "ArrowRight" then (if index < n - 1 then FocusInput(st, index + 1) else st)
    else if key == "Home" then FocusInput(st, 0)
    else if key == "End" then FocusInput(st, n - 1)
    else if key == "Tab" then st
    else if |key| == 1 && IsValidCharacter(cfg, key) then
      var st1 := UpdateHiddenValue(st.(slots := st.slots[index := key]));
      if index < n - 1 then FocusInput(st1, index + 1) else st1
    else st
  }

  /** Backspace on an empty box changes no box and moves focus one box left, unless the box is the first. */
  lemma BackspaceOnEmptyBox(cfg: Config, st: Otp, index: nat)
    requires Valid(st) && index < |st.slots| && st.slots[index] == ""
    ensures HandleKeydown(cfg, st, index, "Backspace").slots == st.slots
    ensures HandleKeydown(cfg, st, index, "Backspace").focus == if index > 0 then index - 1 else st.focus
  {
  }

  /** Backspace on a filled box empties it and leaves focus where it was. */
  lemma BackspaceOnFilledBox(cfg: Config, st: Otp, index: nat)
    requires index < |st.slots| && st.slots[index] != ""
    ensures HandleKeydown(cfg, st, index, "Backspace").slots == st.slots[index := ""]
    ensures HandleKeydown(cfg, st, index, "Backspace").focus == st.focus
  {
  }

  /** A key of the class fills the box with that character and moves focus to the next box, if there is one. */
  lemma CharacterKeyFillsBox(cfg: Config, st: Otp, index: nat, c: char)
    requires index < |st.slots| && cfg.accepts(c)
    ensures HandleKeydown(cfg, st, index, [c]).slots == st.slots[index := [c]]
    ensures HandleKeydown(cfg, st, index, [c]).focus == if index + 1 < |st.slots| then index + 1 else st.focus
  {
    ValidSingleCharacter(cfg, c);
  }

  /** `handleContainerKeydown`: on the container itself, right/down focus the first box and left/up the last. */
  function HandleContainerKeydown(st: Otp, key: string, onContainer: bool): (r: Otp)
    ensures r.slots == st.slots && r.hidden == st.hidden
    ensures Valid(st) ==> Valid(r)
  {
    if !onContainer then st
    else if key == "ArrowRight" || key == "ArrowDown" then FocusInput(st, 0)
    else if key == "ArrowLeft" || key == "ArrowUp" then FocusInput(st, |st.slots| - 1)
    else st
  }

  /**
   `handlePaste`: the cleaned paste is spread over the boxes from the first
   one, whichever box received it; focus goes to the first box left empty or,
   when every box is filled, to the last filled one.
   */
  function HandlePaste(cfg: Config, st: Otp, data: Option<string>): (r: Otp)
    ensures |r.slots| == |st.slots|
    ensures Valid(st) ==> Valid(r)
  {
    var clean := CleanPastedData(cfg, data);
    if |clean| == 0 then st
    else
      var filled := st.(slots := Spread(clean, |st.slots|));
      var next := FindNextEmptyInput(filled.slots);
      var focused := if next != -1 then FocusInput(filled, next)
                     else FocusInput(filled, Min(|clean| - 1, |st.slots| - 1));
      UpdateHiddenValue(focused)
  }

  function Min(a: int, b: int): int
  {
    if a < b then a else b
  }

  /** The boxes after clearing all n of them and writing `clean[i]` into box i while both last. */
  function Spread(clean: string, n: nat): (r: seq<string>)
    ensures |r| == n
    ensures forall i :: 0 <= i < n ==> r[i] == if i < |clean| then [clean[i]] else ""
  {
    seq(n, i requires 0 <= i < n => if i < |clean| then [clean[i]] else "")
  }

  /** A paste with nothing left after cleaning changes nothing at all. */
  lemma PasteOfNothing(cfg: Config, st: Otp, data: Option<string>)
    requires CleanPastedData(cfg, data) == ""
    ensures HandlePaste(cfg, st, data) == st
  {
  }

  /**
   Otherwise box i holds the i-th cleaned character for every i below both
   lengths and every other box is empty; focus lands on the box after the
   pasted text, or on the last box when the paste fills them all.
   */
  lemma PasteSpreadsCharacters(cfg: Config, st: Otp, data: Option<string>)
    requires |st.slots| > 0
    requires CleanPastedData(cfg, data) != ""
    ensures var clean := CleanPastedData(cfg, data);
      var r := HandlePaste(cfg, st, data);
      (forall i :: 0 <= i < |st.slots| ==> r.slots[i] == if i < |clean| then [clean[i]] else "")
      && r.focus == Min(|clean|, |st.slots| - 1)
      && r.hidden == Concat(r.slots)
  {
    var clean := CleanPastedData(cfg, data);
    var slots := Spread(clean, |st.slots|);
    if |clean| < |st.slots| {
      assert slots[|clean|] == "";
    } else {
      assert forall i :: 0 <= i < |slots| ==> slots[i] != "";
    }
  }

  /**
   A paste on a box reaches `handlePaste` up to three times, from the box's
   own listener, the container's and the document's, as the event bubbles;
   every run after the first changes nothing.
   */
  lemma PasteTwiceIsPasteOnce(cfg: Config, st: Otp, data: Option<string>)
    ensures HandlePaste(cfg, HandlePaste(cfg, st, data), data) == HandlePaste(cfg, st, data)
  {
  }

  /** The boxes of a spread text, joined, give the text back when it fits. */
  lemma {:induction false} ConcatSpread(clean: string, n: nat)
    requires |clean| <= n
    ensures Concat(Spread(clean, n)) == clean
    decreases n
  {
    if n > 0 {
      var rest := if |clean| > 0 then clean[1..] else "";
      ConcatSpread(rest, n - 1);
      assert Spread(clean, n)[1..] == Spread(rest, n - 1);
      if |clean| > 0 {
        assert clean == [clean[0]] + rest;
      }
    }
  }

  /** `setValue(value)`: box i takes `clean[i]`, or "" past the cleaned text; focus does not move. */
  function SetValue(cfg: Config, st: Otp, value: Option<string>): (r: Otp)
    ensures r.focus == st.focus
    ensures |r.slots| == |st.slots|
    ensures var clean := CleanPastedData(cfg, value);
      forall i :: 0 <= i < |st.slots| ==> r.slots[i] == if i < |clean| then [clean[i]] else ""
    ensures Valid(st) ==> Valid(r)
  {
    UpdateHiddenValue(st.(slots := Spread(CleanPastedData(cfg, value), |st.slots|)))
  }

  /** `getValue()` after `setValue(value)` is the cleaned value whenever it fits in the boxes. */
  lemma SetValueRoundTrip(cfg: Config, st: Otp, value: Option<string>)
    requires |CleanPastedData(cfg, value)| <= |st.slots|
    ensures GetValue(SetValue(cfg, st, value)) == CleanPastedData(cfg, value)
  {
    ConcatSpread(CleanPastedData(cfg, value), |st.slots|);
  }

  /** When the cleaned value fits, `getValue()` after `setValue` is just the kept characters of the value. */
  lemma SetValueKeepsDigits(cfg: Config, st: Otp, v: string)
    requires 0 <= |Kept(cfg, v)| <= cfg.maxLength && |Kept(cfg, v)| <= |st.slots|
    ensures GetValue(SetValue(cfg, st, Some(v))) == Kept(cfg, v)
  {
    SetValueRoundTrip(cfg, st, Some(v));
  }

  /** `clear()`: every box empty, the hidden field empty, focus on the first box. */
  function Clear(st: Otp): (r: Otp)
    ensures |r.slots| == |st.slots| && forall i :: 0 <= i < |r.slots| ==> r.slots[i] == ""
    ensures r.hidden == ""
    ensures |st.slots| > 0 ==> r.focus == 0
    ensures Valid(st) ==> Valid(r)
  {
    var emptied := st.(slots := seq(|st.slots|, _ => ""));
    EmptyConcat(emptied.slots);
    FocusInput(UpdateHiddenValue(emptied), 0)
  }

  /** `getValue()` */
  function GetValue(st: Otp): string
  {
    st.hidden
  }

  // ---- the screen-reader announcement --------------------------------------------------

  /** `announceToScreenReader()`: the live-region text for the hidden value's length. */
  function Announcement(hidden: string, maxLength: int): string
  {
    var count := |hidden|;
    if count == 0 then "No characters entered"
    else if count == maxLength then "All " + IntToString(maxLength) + " characters entered"
    else IntToString(count) + " of " + IntToString(maxLength) + " characters entered"
  }

  /** The boxes holding something. */
  function FilledCount(slots: seq<string>): (r: nat)
    ensures r <= |slots|
  {
    if |slots| == 0 then 0 else (if slots[0] != "" then 1 else 0) + FilledCount(slots[1..])
  }

  /** With at most one character per box, the hidden value is as long as the number of filled boxes. */
  lemma {:induction false} ConcatLengthCountsFilled(slots: seq<string>)
    requires forall i :: 0 <= i < |slots| ==> |slots[i]| <= 1
    ensures |Concat(slots)| == FilledCount(slots)
  {
    if |slots| > 0 {
      ConcatLengthCountsFilled(slots[1..]);
    }
  }

  /**
   In a valid state of single-character boxes the announcement counts the
   filled boxes: none, all `maxLength` of them, or k of `maxLength`.
   */
  lemma AnnouncementCountsFilledBoxes(st: Otp, maxLength: int)
    requires Valid(st) && forall i :: 0 <= i < |st.slots| ==> |st.slots[i]| <= 1
    ensures var k := FilledCount(st.slots);
      Announcement(GetValue(st), maxLength)
      == if k == 0 then "No characters entered"
         else if k == maxLength then "All " + IntToString(maxLength) + " characters entered"
         else IntToString(k) + " of " + IntToString(maxLength) + " characters entered"
  {
    ConcatLengthCountsFilled(st.slots);
  }

  // ---- sequences of events -------------------------------------------------------------

  /** The events the component reacts to; `index` is the box the event reached. */
  datatype Event =
    | Input(index: nat, value: string)
    | Keydown(index: nat, key: string)
    | ContainerKeydown(key: string, onContainer: bool)
    | Paste(data: Option<string>)
    | SetValueCall(newValue: Option<string>)
    | ClearCall

  predicate Fits(st: Otp, e: Event)
  {
    match e
    case Input(i, _) => i < |st.slots|
    case Keydown(i, _) => i < |st.slots|
    case _ => true
  }

  /** An input event whose value is empty or holds a character of the class: the handler's accepting path. */
  predicate Accepted(cfg: Config, e: Event)
  {
    e.Input? ==> e.value == "" || IsValidCharacter(cfg, e.value)
  }

  /**
   The component's reaction to one event, with the handlers as written. A
   rejected input leaves the hidden field behind the boxes; every other event
   keeps a valid state valid.
   */
  function Step(cfg: Config, st: Otp, e: Event): (r: Otp)
    requires Fits(st, e)
    ensures |r.slots| == |st.slots|
    ensures Valid(st) && Accepted(cfg, e) ==> Valid(r)
  {
    match e
    case Input(i, v) => HandleInputAsWritten(cfg, st, i, v)
    case Keydown(i, k) => HandleKeydown(cfg, st, i, k)
    case ContainerKeydown(k, on) => HandleContainerKeydown(st, k, on)
    case Paste(d) => HandlePaste(cfg, st, d)
    case SetValueCall(v) => SetValue(cfg, st, v)
    case ClearCall => Clear(st)
  }

  /** The state after each event in turn; events aimed at a box that does not exist are dropped. */
  function Run(cfg: Config, st: Otp, es: seq<Event>): Otp
    decreases |es|
  {
    if |es| == 0 then st
    else Run(cfg, if Fits(st, es[0]) then Step(cfg, st, es[0]) else st, es[1..])
  }

  /**
   As long as no input is rejected, the number of boxes stays fixed, focus
   stays on a box (or nowhere) and `getValue()` is the boxes' values joined
   in order.
   */
  lemma {:induction false} RunKeepsValid(cfg: Config, st: Otp, es: seq<Event>)
    requires Valid(st)
    requires forall k :: 0 <= k < |es| ==> Accepted(cfg, es[k])
    ensures Valid(Run(cfg, st, es)) && |Run(cfg, st, es).slots| == |st.slots|
    ensures GetValue(Run(cfg, st, es)) == Concat(Run(cfg, st, es).slots)
    decreases |es|
  {
    if |es| > 0 {
      RunKeepsValid(cfg, if Fits(st, es[0]) then Step(cfg, st, es[0]) else st, es[1..]);
    }
  }

  /** One rejected keystroke is enough for `getValue()` to disagree with the boxes. */
  lemma RunCanLeaveStaleValue()
    ensures var cfg := Config(6, DefaultAccepts);
      var st := Otp(["5", ""], 0, "5");
      var after := Run(cfg, st, [Input(0, "a")]);
      Valid(st) && after.slots == ["", ""] && GetValue(after) == "5" && GetValue(after) != Concat(after.slots)
  {
    RejectedInputLeavesStaleHiddenValue();
    var cfg := Config(6, DefaultAccepts);
    var st := Otp(["5", ""], 0, "5");
    var es := [Input(0, "a")];
    assert Run(cfg, st, es) == Run(cfg, Step(cfg, st, es[0]), es[1..]);
    assert es[1..] == [];
    assert !Valid(Otp(["", ""], 0, "5"));
  }

  /** The corrected component: `handleInput` updates the hidden field on every path. */
  function FixedStep(cfg: Config, st: Otp, e: Event): (r: Otp)
    requires Fits(st, e)
    ensures |r.slots| == |st.slots|
    ensures Valid(st) ==> Valid(r)
    ensures !e.Input? ==> r == Step(cfg, st, e)
  {
    match e
    case Input(i, v) => HandleInput(cfg, st, i, v)
    case _ => Step(cfg, st, e)
  }

  function FixedRun(cfg: Config, st: Otp, es: seq<Event>): Otp
    decreases |es|
  {
    if |es| == 0 then st
    else FixedRun(cfg, if Fits(st, es[0]) then FixedStep(cfg, st, es[0]) else st, es[1..])
  }

  /**
   In the corrected component, whatever happens, the number of boxes stays
   fixed, focus stays on a box (or nowhere) and `getValue()` is the boxes'
   values joined in order.
   */
  lemma {:induction false} FixedRunKeepsValid(cfg: Config, st: Otp, es: seq<Event>)
    requires Valid(st)
    ensures Valid(FixedRun(cfg, st, es)) && |FixedRun(cfg, st, es).slots| == |st.slots|
    ensures GetValue(FixedRun(cfg, st, es)) == Concat(FixedRun(cfg, st, es).slots)
    decreases |es|
  {
    if |es| > 0 {
      FixedRunKeepsValid(cfg, if Fits(st, es[0]) then FixedStep(cfg, st, es[0]) else st, es[1..]);
    }
  }

  /** Without rejected inputs the corrected component behaves exactly as the one as written. */
  lemma {:induction false} FixedRunAgrees(cfg: Config, st: Otp, es: seq<Event>)
    requires forall k :: 0 <= k < |es| ==> Accepted(cfg, es[k])
    ensures FixedRun(cfg, st, es) == Run(cfg, st, es)
    decreases |es|
  {
    if |es| > 0 {
      var next := if Fits(st, es[0]) then Step(cfg, st, es[0]) else st;
      assert Fits(st, es[0]) ==> FixedStep(cfg, st, es[0]) == Step(cfg, st, es[0]);
      FixedRunAgrees(cfg, next, es[1..]);
    }
  }
}

=== FILE: page_overview.dfy ===
/**
 The save of the page-overview screen: the editor's current page takes the
 heading, guidance, section and multiple-response settings of the submitted
 form. A page that does not exist yet starts from a blank question page.
 */
module PageOverview {
  import opened Common
  import opened FormSession

  /** A submitted field: missing, one value, or the array a repeated checkbox sends. */
  datatype FieldValue = Absent | Text(text: string) | Texts(texts: seq<string>)

  /** The page-overview form as submitted. */
  datatype OverviewForm = OverviewForm(
    pageHeading: Option<string>,
    guidance: Option<string>,
    allowMultipleResponses: FieldValue,
    questionSetName: Option<string>,
    minResponseCount: Option<string>,
    maxResponseCount: Option<string>,
    section: Option<string>)

  /** The page the save starts from when there is none at the index. */
  const BlankPage := Page(None, Some("question"), "", false, "", false, "", "", "", None, None, None)

  /** An array answer counts as "true" when any of its values is "true"; a single answer must be "true". */
  predicate WantsMultiple(v: FieldValue)
  {
    match v
    case Absent => false
    case Text(t) => t == "true"
    case Texts(ts) => "true" in ts
  }

  /** The fields of a page the overview save never touches. */
  function Untouched(p: Page): Page
  {
    p.(pageType := None, pageHeading := "", hasGuidance := false, guidanceTextarea := "",
       allowMultipleResponses := false, setName := "", minResponseCount := "", maxResponseCount := "",
       section := None)
  }

  /**
   The edit the overview save makes to the current page. The set name and
   the response counts are kept only when multiple responses are allowed; a
   named section that exists is recorded by id and name, a named section
   that does not exist leaves the page's section alone, and no section takes
   the page out of its section; a page without a type becomes a question page.
   */
  function EditPage(p: Page, form: OverviewForm, sections: seq<Section>): (r: Page)
    ensures Untouched(r) == Untouched(p)
    ensures r.pageHeading == OrElse(form.pageHeading, "") && r.guidanceTextarea == OrElse(form.guidance, "")
    ensures r.hasGuidance <==> form.guidance == Some("guidance")
    ensures r.allowMultipleResponses <==> WantsMultiple(form.allowMultipleResponses)
    ensures !r.allowMultipleResponses ==> r.setName == "" && r.minResponseCount == "" && r.maxResponseCount == ""
    ensures r.allowMultipleResponses ==>
      && r.setName == OrElse(form.questionSetName, "")
      && r.minResponseCount == OrElse(form.minResponseCount, "")
      && r.maxResponseCount == OrElse(form.maxResponseCount, "")
    ensures !Truthy(form.section) ==> r.section.None?
    ensures Truthy(form.section) && (forall k :: 0 <= k < |sections| ==> sections[k].id != form.section.value) ==> r.section == p.section
    ensures Truthy(form.section) && FindSectionById(sections, form.section.value).Some? ==>
      r.section == Some(Brief(form.section.value, sections[FindSectionById(sections, form.section.value).value].name))
    ensures Truthy(form.section) && r.section != p.section ==>
      r.section.Some? && r.section.value.Brief? && RefId(r.section.value) == form.section.value
      && exists k :: 0 <= k < |sections| && sections[k].id == form.section.value && r.section.value.briefName == sections[k].name
    ensures Truthy(r.pageType)
    ensures Truthy(p.pageType) ==> r.pageType == p.pageType
  {
    var allow := WantsMultiple(form.allowMultipleResponses);
    var section :=
      if !Truthy(form.section) then None
      else match FindSectionById(sections, form.section.value)
        case None => p.section
        case Some(k) => Some(Brief(sections[k].id, sections[k].name));
    p.(pageHeading := OrElse(form.pageHeading, ""),
       guidanceTextarea := OrElse(form.guidance, ""),
       hasGuidance := form.guidance == Some("guidance"),
       allowMultipleResponses := allow,
       setName := if allow then OrElse(form.questionSetName, "") else "",
       minResponseCount := if allow then OrElse(form.minResponseCount, "") else "",
       maxResponseCount := if allow then OrElse(form.maxResponseCount, "") else "",
       section := section,
       pageType := if Truthy(p.pageType) then p.pageType else Some("question"))
  }

  /** `sections.find(s => s.id === id)`, as the index of the first match. */
  function FindSectionById(sections: seq<Section>, id: string): (r: Option<nat>)
    ensures r.Some? ==> r.value < |sections| && sections[r.value].id == id
    ensures r.None? ==> forall k :: 0 <= k < |sections| ==> sections[k].id != id
  {
    if |sections| == 0 then None
    else if sections[0].id == id then Some(0)
    else match FindSectionById(sections[1..], id)
      case None => None
      case Some(k) => Some(k + 1)
  }

  /** Saving the same form twice is saving it once. */
  lemma EditPageIdempotent(p: Page, form: OverviewForm, sections: seq<Section>)
    ensures EditPage(EditPage(p, form, sections), form, sections) == EditPage(p, form, sections)
  {
  }

  /**
   The list after the save. Writing at an index past the end leaves empty
   slots in a JavaScript array, which a list of pages cannot hold, so that
   case records how many slots are empty before the page.
   */
  datatype Stored = Saved(pages: seq<Page>) | Sparse(pages: seq<Page>, holes: nat, page: Page)

  /**
   `POST /titan-mvp-1.2/page-overview`: the page at the current index (0 when
   none is set) is edited in place; an index with no page edits a blank
   question page and stores it there. A negative index stores the page under
   a key the list does not show, so the list is unchanged. Whatever the
   index, no other page changes; an edited page keeps its id, conditions and
   routes, and a new page is a question page with no id and no conditions.
   */
  function SaveOverview(pages: seq<Page>, currentPageIndex: Option<int>, form: OverviewForm, sections: seq<Section>): (r: Stored)
    ensures var i := OrZero(currentPageIndex);
      i < 0 ==> r == Saved(pages)
    ensures var i := OrZero(currentPageIndex);
      && (0 <= i <= |pages| ==> r.Saved? && |r.pages| == (if i < |pages| then |pages| else i + 1))
      && (i > |pages| ==> r.Sparse? && r.pages == pages && |pages| + r.holes == i)
    ensures var i := OrZero(currentPageIndex);
      forall j :: 0 <= j < |pages| && j != i ==> r.pages[j] == pages[j]
    ensures var i := OrZero(currentPageIndex);
      0 <= i < |pages| ==> r.pages[i] == EditPage(pages[i], form, sections) && Untouched(r.pages[i]) == Untouched(pages[i])
    ensures var i := OrZero(currentPageIndex);
      i >= |pages| ==>
        var np := if r.Saved? then r.pages[|pages|] else r.page;
        && np == EditPage(BlankPage, form, sections)
        && np.pageType == Some("question") && np.pageId.None? && np.conditions.None?
  {
    var i := OrZero(currentPageIndex);
    if i < 0 then Saved(pages)
    else if i < |pages| then Saved(pages[i := EditPage(pages[i], form, sections)])
    else if i == |pages| then Saved(pages + [EditPage(BlankPage, form, sections)])
    else Sparse(pages, i - |pages|, EditPage(BlankPage, form, sections))
  }

  /** `currentPageIndex || 0` */
  function OrZero(v: Option<int>): (r: int)
    ensures v.Some? ==> r == v.value
    ensures v.None? ==> r == 0
  {
    if v.Some? then v.value else 0
  }
}

=== FILE: sections.dfy ===
/**
 The sections API of the form editor: creating, renaming and deleting the
 sections of a form, and putting a page into a section or taking it out.
 A section has a string id made from the clock; the clock is a parameter.
 */
module Sections {
  import opened Common
  import opened FormSession

  /** A handler's answer: a 404 naming what was missing, or the new state. */
  datatype Reply<T> = NotFound(what: string) | Ok(value: T)

  /** `sections.findIndex(s => s.id === id)`, as an index or nothing. */
  function FindSection(sections: seq<Section>, id: string): (r: Option<nat>)
    ensures r.Some? ==>
      r.value < |sections| && sections[r.value].id == id
      && forall k :: 0 <= k < r.value ==> sections[k].id != id
    ensures r.None? <==> forall k :: 0 <= k < |sections| ==> sections[k].id != id
  {
    FindSectionFrom(sections, id, 0)
  }

  function FindSectionFrom(sections: seq<Section>, id: string, i: nat): (r: Option<nat>)
    requires i <= |sections|
    requires forall k :: 0 <= k < i ==> sections[k].id != id
    ensures r.Some? ==>
      i <= r.value < |sections| && sections[r.value].id == id
      && forall k :: 0 <= k < r.value ==> sections[k].id != id
    ensures r.None? <==> forall k :: 0 <= k < |sections| ==> sections[k].id != id
    decreases |sections| - i
  {
    if i == |sections| then None
    else if sections[i].id == id then Some(i)
    else FindSectionFrom(sections, id, i + 1)
  }

  // ---- create ----------------------------------------------------------------------------

  /**
   `POST /api/sections`: a new section goes last, with the given name, the
   given description or "" when there is none, and no pages.
   */
  function Create(sections: seq<Section>, newId: string, name: Option<string>, description: Option<string>): (r: seq<Section>)
    ensures |r| == |sections| + 1 && r[..|sections|] == sections
    ensures var s := r[|sections|];
      && s.id == newId && s.name == name && s.pages == Some([])
      && s.description == Some(if Truthy(description) then description.value else "")
  {
    sections + [Section(newId, name, Some(OrElse(description, "")), Some([]))]
  }

  // ---- update ----------------------------------------------------------------------------

  /**
   `PUT /api/sections/:id`: an unknown id is a 404; otherwise the first
   section with the id takes the new name, and the new description only
   when one is given and is not empty. Nothing else changes.
   */
  function Update(sections: seq<Section>, id: string, name: Option<string>, description: Option<string>): (r: Reply<seq<Section>>)
    ensures r.NotFound? <==> forall k :: 0 <= k < |sections| ==> sections[k].id != id
    ensures r.Ok? ==>
      var i := FindSection(sections, id).value;
      && |r.value| == |sections|
      && (forall k :: 0 <= k < |sections| && k != i ==> r.value[k] == sections[k])
      && r.value[i].id == id && r.value[i].pages == sections[i].pages && r.value[i].name == name
      && r.value[i].description == (if Truthy(description) then description else sections[i].description)
  {
    match FindSection(sections, id)
    case None => NotFound("Section not found")
    case Some(i) =>
      var prev := sections[i];
      var desc := if Truthy(description) then description else prev.description;
      Ok(sections[i := prev.(name := name, description := desc)])
  }

  /** Sending the same update twice is sending it once. */
  lemma UpdateIdempotent(sections: seq<Section>, id: string, name: Option<string>, description: Option<string>)
    requires Update(sections, id, name, description).Ok?
    ensures Update(Update(sections, id, name, description).value, id, name, description) == Update(sections, id, name, description)
  {
    var once := Update(sections, id, name, description).value;
    var i := FindSection(sections, id).value;
    assert FindSection(once, id) == Some(i);
    var desc := if Truthy(description) then description else once[i].description;
    assert once[i].(name := name, description := desc) == once[i];
    assert once[i := once[i]] == once;
  }

  // ---- delete ----------------------------------------------------------------------------

  /** The page lost its `section` if that section had the id. */
  function ClearSection(p: Page, id: string): (r: Page)
    ensures r.(section := p.section) == p
    ensures r.section.Some? ==> RefId(r.section.value) != id
    ensures p.section.Some? && RefId(p.section.value) != id ==> r == p
  {
    if p.section.Some? && RefId(p.section.value) == id then p.(section := None) else p
  }

  /**
   `DELETE /api/sections/:id`: an unknown id is a 404; otherwise the first
   section with the id is removed, the others keep their order, and every
   page in that section is taken out of it.
   */
  function Delete(sections: seq<Section>, pages: seq<Page>, id: string): (r: Reply<(seq<Section>, seq<Page>)>)
    ensures r.NotFound? <==> forall k :: 0 <= k < |sections| ==> sections[k].id != id
    ensures r.Ok? ==>
      var i := FindSection(sections, id).value;
      && r.value.0 == sections[..i] + sections[i + 1..]
      && |r.value.1| == |pages|
      && forall j :: 0 <= j < |pages| ==>
           && r.value.1[j].(section := pages[j].section) == pages[j]
           && (r.value.1[j].section.Some? ==> RefId(r.value.1[j].section.value) != id)
           && (pages[j].section.Some? && RefId(pages[j].section.value) != id ==> r.value.1[j] == pages[j])
  {
    match FindSection(sections, id)
    case None => NotFound("Section not found")
    case Some(i) =>
      Ok((sections[..i] + sections[i + 1..], seq(|pages|, j requires 0 <= j < |pages| => ClearSection(pages[j], id))))
  }

  /** Creating a section under a fresh id and deleting it again gives back the sections. */
  lemma CreateThenDelete(sections: seq<Section>, pages: seq<Page>, newId: string, name: Option<string>, description: Option<string>)
    requires forall k :: 0 <= k < |sections| ==> sections[k].id != newId
    ensures Delete(Create(sections, newId, name, description), pages, newId).Ok?
    ensures Delete(Create(sections, newId, name, description), pages, newId).value.0 == sections
  {
    var created := Create(sections, newId, name, description);
    assert FindSection(created, newId) == Some(|sections|);
    assert created[..|sections|] == sections;
  }

  // ---- assign a page ---------------------------------------------------------------------

  /**
   `PUT /api/pages/:pageId/section`: an unknown page is a 404, and so is an
   unknown section when one is named; a section id puts the page into that
   whole section, no section id takes the page out of any. Only that page's
   section changes.
   */
  function Assign(pages: seq<Page>, sections: seq<Section>, pageId: string, sectionId: Option<string>): (r: Reply<seq<Page>>)
    ensures r.NotFound? && r.what == "Page not found" <==> FindPage(pages, pageId).None?
    ensures r.NotFound? && r.what == "Section not found" <==>
      FindPage(pages, pageId).Some? && Truthy(sectionId) && FindSection(sections, sectionId.value).None?
    ensures r.Ok? ==>
      var i := FindPage(pages, pageId).value;
      && |r.value| == |pages|
      && (forall j :: 0 <= j < |pages| && j != i ==> r.value[j] == pages[j])
      && r.value[i].(section := pages[i].section) == pages[i]
      && (Truthy(sectionId) ==>
            && r.value[i].section.Some? && r.value[i].section.value.Whole?
            && r.value[i].section.value.section in sections && RefId(r.value[i].section.value) == sectionId.value)
      && (!Truthy(sectionId) ==> r.value[i].section.None?)
  {
    match FindPage(pages, pageId)
    case None => NotFound("Page not found")
    case Some(i) =>
      if Truthy(sectionId) then
        match FindSection(sections, sectionId.value)
        case None => NotFound("Section not found")
        case Some(k) => Ok(pages[i := pages[i].(section := Some(Whole(sections[k])))])
      else Ok(pages[i := pages[i].(section := None)])
  }

  /** A page put into a section and the section then deleted is in no section. */
  lemma AssignThenDelete(pages: seq<Page>, sections: seq<Section>, pageId: string, sectionId: string)
    requires sectionId != "" && Assign(pages, sections, pageId, Some(sectionId)).Ok?
    ensures var ps := Assign(pages, sections, pageId, Some(sectionId)).value;
      var i := FindPage(pages, pageId).value;
      Delete(sections, ps, sectionId).Ok? && Delete(sections, ps, sectionId).value.1[i].section.None?
  {
    var k := FindSection(sections, sectionId).value;
    assert sections[k].id == sectionId;
  }

  // ---- create and assign -----------------------------------------------------------------

  /** The separate `formData` object the create-and-assign handler keeps inside the session. */
  datatype NestedForm = NestedForm(sections: Option<seq<Section>>, formPages: Option<seq<Page>>)

  /** The create-and-assign handler's answer: the state after a 500, or after success. */
  datatype CreateReply = Failed(after: Option<NestedForm>) | Created(form: NestedForm, created: Section)

  /**
   `POST /api/sections/create`: a new section without pages goes last in the
   nested form's sections, and every page whose id is strictly equal to the
   given one points at it by id. A missing nested form or section body fails
   with nothing changed; a nested form without pages fails after the section
   has already been added.
   */
  function CreateAndAssign(nested: Option<NestedForm>, section: Option<(Option<string>, Option<string>)>,
                           pageId: Option<JsId>, newId: string): (r: CreateReply)
    ensures nested.None? || section.None? ==> r == Failed(nested)
    ensures r.Created? <==> nested.Some? && section.Some? && nested.value.formPages.Some?
    ensures r.Failed? && nested.Some? && section.Some? ==>
      r.after.Some? && r.after.value.formPages.None?
      && r.after.value.sections == Some(OrEmpty(nested.value.sections) + [Section(newId, section.value.0, section.value.1, None)])
    ensures r.Created? ==>
      var before := nested.value.formPages.value;
      && r.form.formPages.Some?
      && var after := r.form.formPages.value;
      && r.created == Section(newId, section.value.0, section.value.1, None)
      && r.form.sections == Some(OrEmpty(nested.value.sections) + [r.created])
      && |after| == |before|
      && forall j :: 0 <= j < |before| ==>
           after[j] == if before[j].pageId == pageId then before[j].(section := Some(IdOnly(newId))) else before[j]
  {
    match (nested, section)
    case (Some(form), Some((name, description))) =>
      var created := Section(newId, name, description, None);
      var withSection := form.(sections := Some(OrEmpty(form.sections) + [created]));
      (match form.formPages
       case None => Failed(Some(withSection))
       case Some(pages) =>
         Created(withSection.(formPages := Some(seq(|pages|, j requires 0 <= j < |pages| =>
           if pages[j].pageId == pageId then pages[j].(section := Some(IdOnly(newId))) else pages[j]))), created))
    case _ => Failed(nested)
  }

  /**
   Deleting a section just created and assigned under a fresh id gives back
   the sections as they were, takes the assigned pages out of it, and leaves
   every other page as it was.
   */
  lemma CreateAndAssignThenDelete(nested: NestedForm, name: Option<string>, description: Option<string>,
                                  pageId: Option<JsId>, newId: string)
    requires nested.formPages.Some?
    requires forall k :: 0 <= k < |OrEmpty(nested.sections)| ==> OrEmpty(nested.sections)[k].id != newId
    requires forall j :: 0 <= j < |nested.formPages.value| ==>
      nested.formPages.value[j].section.None? || RefId(nested.formPages.value[j].section.value) != newId
    ensures var r := CreateAndAssign(Some(nested), Some((name, description)), pageId, newId);
      var before := nested.formPages.value;
      && r.Created?
      && var d := Delete(r.form.sections.value, r.form.formPages.value, newId);
      && d.Ok?
      && d.value.0 == OrEmpty(nested.sections)
      && |d.value.1| == |before|
      && forall j :: 0 <= j < |before| ==>
           d.value.1[j] == if before[j].pageId == pageId then before[j].(section := None) else before[j]
  {
    var prior := OrEmpty(nested.sections);
    var r := CreateAndAssign(Some(nested), Some((name, description)), pageId, newId);
    var created := r.form.sections.value;
    assert created == prior + [Section(newId, name, description, None)];
    assert created[|prior|].id == newId;
    assert forall k :: 0 <= k < |prior| ==> created[k] == prior[k];
    assert FindSection(created, newId) == Some(|prior|);
    assert created[..|prior|] + created[|prior| + 1..] == prior;
  }

  /** `list || []` for a list of sections. */
  function OrEmpty(xs: Option<seq<Section>>): (r: seq<Section>)
    ensures xs.Some? ==> r == xs.value
    ensures xs.None? ==> r == []
  {
    if xs.Some? then xs.value else []
  }
}
